=== FILE: README.md ===
# scisoft-core flattening, dispatch and dataset core in Dafny

This project models part of the core of scisoft-core, Diamond Light Source's
scientific analysis library, and proves properties of that model.

- **RPC flattening.** Values that cross the XML-RPC bridge between Java and
  Python are turned into trees of plain values, lists and tagged maps, and
  back again. On the Java side the root flattener asks an ordered chain of
  helpers, and the first helper that claims an object converts it
  (`RootFlattener`). The map helper base class marks records with a type tag
  (`MapFlatteningHelper`), and the circular ROI helper stores the name,
  point, plot flag and radius (`CircularRoiHelper`). On the Python side,
  `pyflatten` is modelled concretely (`PyValues`, `PyFlatten`,
  `PyRoundTrip`): the helper list in its real order, and every helper whose
  code is in `pyflatten.py`. The main theorem, `PyRoundTrip.RoundTrip`,
  states that every supported value survives `unflatten(flatten(v))`.
- **Instance dispatch.** `run([name, args...])` calls a method of an object
  through an exposed contract class (`Dispatcher`). Its behaviour is defined
  by the cases of `InstanceDispatcherTest`.
- **Datasets.**
  - `AggregateDataset` joins datasets along a first axis.
  - `ShortDataset` models the 16-bit integer dataset, with Java's narrowing
    and truncating division written out.
  - `StringDataset` models `StringDatasetBase`.
  - `Shapes` holds row-major flat indexing.
- **ROIs and crystallography.**
  - `PolygonalRoi` models the polygon ROI.
  - `RoiUtils` picks the list class for an ROI class.
  - `GridRoiList` is the list that holds only grid ROIs.
  - `Hkl` models the Miller-index bean.
  - `Decimal` holds the decimal text of integers, shared by HKL's `toString`
    and Python's `str`.
- **NeXus.** `Nexus` models the dataset-type tables and the slab arithmetic
  of the deprecated NeXus loader.

Every object is an immutable value. Mutating calls return the new state. An
exception is an `Err` of a `Result`, and Java's `null` is `None`. Reflection,
class hierarchies and the behaviour of code outside the model are passed in
as function parameters.

## Model

| member | source | states |
|---|---|---|
| FirstMatch.First | uk.ac.diamond.scisoft.analysis/src/uk/ac/diamond/scisoft/analysis/rpc/flattening/RootFlattener.java:99-104 | The index found is the first helper in list order that claims the object; none is found exactly when no helper claims it |
| FirstMatch.FirstExactly | uk.ac.diamond.scisoft.analysis/src/uk/ac/diamond/scisoft/analysis/rpc/flattening/RootFlattener.java:99-104 | `First` returns `i` if and only if helper `i` claims the object and no earlier helper does |
| FirstMatch.FirstIs | uk.ac.diamond.scisoft.analysis/src/uk/ac/diamond/scisoft/analysis/rpc/flattening/RootFlattener.java:99-104 | A helper that claims the object, with no claimer before it, is the one chosen |
| FirstMatch.PrependFirst | uk.ac.diamond.scisoft.analysis/src/uk/ac/diamond/scisoft/analysis/rpc/flattening/RootFlattener.java:167-169 | A helper put in front wins whenever it claims the object; otherwise the old choice stands, shifted by one place |
| JavaValues.MapPut | uk.ac.diamond.scisoft.analysis/src/uk/ac/diamond/scisoft/analysis/rpc/flattening/helpers/MapFlatteningHelper.java:35-39 | `Map.put` replaces an entry or adds exactly one |
| JavaValues.MapPutGet | uk.ac.diamond.scisoft.analysis/src/uk/ac/diamond/scisoft/analysis/rpc/flattening/helpers/MapFlatteningHelper.java:35-39 | After `put(k, x)`, `get(k)` is `x` and every other key reads as before |
| JavaValues.MapPutNew | uk.ac.diamond.scisoft.analysis/src/uk/ac/diamond/scisoft/analysis/rpc/flattening/helpers/MapFlatteningHelper.java:35-39 | `put` of a new key appends one entry |
| JavaValues.MapGetAt | uk.ac.diamond.scisoft.analysis.xmlrpc/src/uk/ac/diamond/scisoft/analysis/rpc/flattening/helpers/CircularROIHelper.java:40-45 | `get` returns the value of the first entry with that key |
| RootFlattener.RegisteredAt | uk.ac.diamond.scisoft.analysis/src/uk/ac/diamond/scisoft/analysis/rpc/flattening/RootFlattener.java:66-96 | The default chain registers the helper classes in the constructor's order |
| RootFlattener.NewRootFlattener | uk.ac.diamond.scisoft.analysis/src/uk/ac/diamond/scisoft/analysis/rpc/flattening/RootFlattener.java:66-96 | A new root flattener holds the default chain and no temporary location |
| RootFlattener.DefaultHelpersDistinct | uk.ac.diamond.scisoft.analysis/src/uk/ac/diamond/scisoft/analysis/rpc/flattening/RootFlattener.java:71-95 | No helper class is registered twice |
| RootFlattener.NoHelper | uk.ac.diamond.scisoft.analysis/src/uk/ac/diamond/scisoft/analysis/rpc/flattening/RootFlattener.java:106 | With no claiming helper the error message is built from `obj.toString()`, so null gives NullPointerException instead |
| RootFlattener.Flatten | uk.ac.diamond.scisoft.analysis/src/uk/ac/diamond/scisoft/analysis/rpc/flattening/RootFlattener.java:99-107 | `flatten` is the result of the first helper in chain order that claims the object, and fails only when no helper claims it |
| RootFlattener.Unflatten | uk.ac.diamond.scisoft.analysis/src/uk/ac/diamond/scisoft/analysis/rpc/flattening/RootFlattener.java:119-126 | `unflatten` is the result of the first helper that can unflatten the object, and null too is offered to the helpers |
| RootFlattener.CanFlatten | uk.ac.diamond.scisoft.analysis/src/uk/ac/diamond/scisoft/analysis/rpc/flattening/RootFlattener.java:129-136 | `canFlatten` holds exactly when some helper claims the object, that is, when `flatten` does not fail for want of a helper |
| RootFlattener.CanUnflatten | uk.ac.diamond.scisoft.analysis/src/uk/ac/diamond/scisoft/analysis/rpc/flattening/RootFlattener.java:139-150 | `canUnFlatten` is false for null whatever the helpers are; otherwise it holds exactly when some helper claims the object |
| RootFlattener.SetTempLocation | uk.ac.diamond.scisoft.analysis/src/uk/ac/diamond/scisoft/analysis/rpc/flattening/RootFlattener.java:153-164 | A null path clears the temporary location and any other path sets it; the chain is unchanged |
| RootFlattener.AddHelper | uk.ac.diamond.scisoft.analysis/src/uk/ac/diamond/scisoft/analysis/rpc/flattening/RootFlattener.java:167-169 | The added helper goes in front of the chain and the rest keep their order |
| RootFlattener.AddHelperFlattenPrecedence | uk.ac.diamond.scisoft.analysis/src/uk/ac/diamond/scisoft/analysis/rpc/flattening/RootFlattener.java:99-107 | After `addHelper`, the new helper flattens every object it claims; any other object goes to the helper that handled it before |
| RootFlattener.AddHelperUnflattenPrecedence | uk.ac.diamond.scisoft.analysis/src/uk/ac/diamond/scisoft/analysis/rpc/flattening/RootFlattener.java:119-126 | The same precedence holds for `unflatten` |
| MapFlatteningHelper.CreateMap | uk.ac.diamond.scisoft.analysis/src/uk/ac/diamond/scisoft/analysis/rpc/flattening/helpers/MapFlatteningHelper.java:35-39 | `createMap` makes a record holding only the type tag |
| MapFlatteningHelper.CanUnflattenIff | uk.ac.diamond.scisoft.analysis/src/uk/ac/diamond/scisoft/analysis/rpc/flattening/helpers/MapFlatteningHelper.java:46-54 | The helper claims an object exactly when it is a map whose type tag equals the helper's type name |
| MapFlatteningHelper.CreateMapClaimed | uk.ac.diamond.scisoft.analysis/src/uk/ac/diamond/scisoft/analysis/rpc/flattening/helpers/MapFlatteningHelper.java:35-54 | A record from `createMap(t)` is claimed by the helper of `t` and by no other |
| MapFlatteningHelper.ExtraEntriesIgnored | uk.ac.diamond.scisoft.analysis/src/uk/ac/diamond/scisoft/analysis/rpc/flattening/helpers/MapFlatteningHelper.java:46-54 | Entries other than the type tag do not change whether the helper claims a map |
| CircularRoiHelper.RecordEntries | uk.ac.diamond.scisoft.analysis.xmlrpc/src/uk/ac/diamond/scisoft/analysis/rpc/flattening/helpers/CircularROIHelper.java:32-37 | The flattened record is the tag followed by the name, point, plot and radius entries |
| CircularRoiHelper.RecordFields | uk.ac.diamond.scisoft.analysis.xmlrpc/src/uk/ac/diamond/scisoft/analysis/rpc/flattening/helpers/CircularROIHelper.java:32-45 | Each field reads back from the record under its own key, and the record carries the circle's type tag |
| CircularRoiHelper.Flatten | uk.ac.diamond.scisoft.analysis.xmlrpc/src/uk/ac/diamond/scisoft/analysis/rpc/flattening/helpers/CircularROIHelper.java:32-37 | `flatten` fails on null and on any object that is not a circle; on success the record is claimed by the circle helper and holds the flattened radius |
| CircularRoiHelper.UnflattenMap | uk.ac.diamond.scisoft.analysis.xmlrpc/src/uk/ac/diamond/scisoft/analysis/rpc/flattening/helpers/CircularROIHelper.java:40-48 | `unflatten` succeeds only on a map, builds a circle, and fails with NullPointerException on null |
| CircularRoiHelper.FlattenRecord | uk.ac.diamond.scisoft.analysis.xmlrpc/src/uk/ac/diamond/scisoft/analysis/rpc/flattening/helpers/CircularROIHelper.java:32-37 | When each field flattens, `flatten` gives exactly the record of the flattened fields |
| CircularRoiHelper.UnflattenRecord | uk.ac.diamond.scisoft.analysis.xmlrpc/src/uk/ac/diamond/scisoft/analysis/rpc/flattening/helpers/CircularROIHelper.java:40-48 | A record whose fields unflatten to a circle's field values unflattens to that circle |
| CircularRoiHelper.RoundTrip | uk.ac.diamond.scisoft.analysis.xmlrpc/src/uk/ac/diamond/scisoft/analysis/rpc/flattening/helpers/CircularROIHelper.java:32-48 | When the root flattener's conversions undo each other on the four fields, unflattening the flattened circle gives back the same circle |
| CircularRoiHelper.OtherEntriesIgnored | uk.ac.diamond.scisoft.analysis.xmlrpc/src/uk/ac/diamond/scisoft/analysis/rpc/flattening/helpers/CircularROIHelper.java:40-48 | Entries under other keys do not change what `unflatten` builds |
| PyValues.Zip | uk.ac.diamond.scisoft.python/src/scisoftpy/python/pyflatten.py:160 | `zip` pairs the two sequences position by position, up to the shorter length |
| PyValues.KeyEqEquivalence | uk.ac.diamond.scisoft.python/src/scisoftpy/python/pyflatten.py:158-162 | Python key equality is reflexive, symmetric and transitive |
| PyValues.StrKeyEq | uk.ac.diamond.scisoft.python/src/scisoftpy/python/pyflatten.py:158-162 | String keys are equal exactly when their texts are |
| PyValues.DictGetEqualKeys | uk.ac.diamond.scisoft.python/src/scisoftpy/python/pyflatten.py:56-57 | Looking up equal keys gives the same value |
| PyValues.DictGet | uk.ac.diamond.scisoft.python/src/scisoftpy/python/pyflatten.py:56-57 | `d.get(k)` is the value of the entry whose key equals `k` under Python `==` (numbers by value, `True` as 1, tuples item by item), or nothing exactly when no key equals `k` |
| PyValues.DictGetAt | uk.ac.diamond.scisoft.python/src/scisoftpy/python/pyflatten.py:158-162 | In a dict with no two equal keys, looking up the key of entry `i` gives entry `i`'s value |
| PyValues.DictPut | uk.ac.diamond.scisoft.python/src/scisoftpy/python/pyflatten.py:148-162 | After `d[k] = x`, `d.get(k)` is `x` |
| PyValues.DictPutPresent | uk.ac.diamond.scisoft.python/src/scisoftpy/python/pyflatten.py:148-162 | Storing under a key equal to one the dict holds keeps every key as it was: the first key of the class stays |
| PyValues.DictPutOther | uk.ac.diamond.scisoft.python/src/scisoftpy/python/pyflatten.py:148-162 | Storing under `k` leaves the value under every key not equal to `k` unchanged |
| PyValues.DictPutAbsent | uk.ac.diamond.scisoft.python/src/scisoftpy/python/pyflatten.py:148-162 | Storing under a key equal to none in the dict appends one entry at the end |
| PyValues.DictPutDistinct | uk.ac.diamond.scisoft.python/src/scisoftpy/python/pyflatten.py:148-162 | Storing never makes two keys equal |
| PyValues.BuildDict | uk.ac.diamond.scisoft.python/src/scisoftpy/python/pyflatten.py:158-162 | The dict built by storing pairs one after another has no two equal keys |
| PyValues.BuildKeepsKeys | uk.ac.diamond.scisoft.python/src/scisoftpy/python/pyflatten.py:158-162 | A key equal to none of the stored pairs' keys is absent from the built dict |
| PyValues.BuildDistinct | uk.ac.diamond.scisoft.python/src/scisoftpy/python/pyflatten.py:158-162 | Storing pairs no two of whose keys are equal rebuilds exactly those pairs, in order |
| PyValues.BuildDictGet | uk.ac.diamond.scisoft.python/src/scisoftpy/python/pyflatten.py:158-162 | In the built dict, each key holds the value of the last pair stored under an equal key |
| PyValues.NumbersShareAKey | uk.ac.diamond.scisoft.python/src/scisoftpy/python/pyflatten.py:158-162 | Storing under `1`, `1.0` and `True` in turn gives one entry, with key `1` and the last value |
| PyValues.StrText | uk.ac.diamond.scisoft.python/src/scisoftpy/python/pyflatten.py:413 | `str` is spelled out exactly for None, booleans, integers and strings |
| PyValues.StrTextReads | uk.ac.diamond.scisoft.python/src/scisoftpy/python/pyflatten.py:413 | The `str` text reads back: None and the booleans by name, an integer as its decimal digits with nothing left over, a string as itself |
| PyValues.ReprText | uk.ac.diamond.scisoft.python/src/scisoftpy/python/pyflatten.py:413 | `repr` is spelled out exactly for None, booleans, integers and strings of printable characters without quotes or backslashes |
| PyValues.ReprTextReads | uk.ac.diamond.scisoft.python/src/scisoftpy/python/pyflatten.py:413 | The `repr` text reads back: an integer's digits followed by nothing or by the `L` of a long, a string from between its single quotes |
| PyFlatten.ExceptionText | uk.ac.diamond.scisoft.python/src/scisoftpy/python/pyflatten.py:413 | `str(e)` is spelled out exactly when the argument's `str` (its `repr` for KeyError) is, and a string argument of any other class is its own text |
| PyValues.RemoveKey | uk.ac.diamond.scisoft.python/src/scisoftpy/python/pyflatten.py:75-82 | The entries other than those under a key, in order |
| PyValues.RemoveLastKey | uk.ac.diamond.scisoft.python/src/scisoftpy/python/pyflatten.py:67-82 | Removing a key whose only entry was appended last gives back the entries before it |
| PyValues.Chars | uk.ac.diamond.scisoft.python/src/scisoftpy/python/pyflatten.py:320-330 | Iterating over a string yields its characters as one-character strings, one per character |
| PyValues.Iterate | uk.ac.diamond.scisoft.python/src/scisoftpy/python/pyflatten.py:320-330 | Iteration is defined exactly for lists, tuples, ROI lists, dicts and strings; a list or tuple yields its items, and nothing yielded is larger than the value |
| PyFlatten.AddHelper | uk.ac.diamond.scisoft.python/src/scisoftpy/python/pyflatten.py:429-430 | `addhelper` puts the new helper in front and keeps the others in order |
| PyFlatten.AddHelperFlatten | uk.ac.diamond.scisoft.python/src/scisoftpy/python/pyflatten.py:429-436 | After `addhelper`, the new helper flattens every value it claims, and any other value goes to the first older helper that claims it |
| PyFlatten.AddHelperUnflatten | uk.ac.diamond.scisoft.python/src/scisoftpy/python/pyflatten.py:429-442 | The same precedence holds for `unflatten` |
| PyFlatten.UnflattenNone | uk.ac.diamond.scisoft.python/src/scisoftpy/python/pyflatten.py:375-381 | A none record reads back as `None`, or as a typed null whose type is not "null" |
| PyFlatten.Lookup | uk.ac.diamond.scisoft.python/src/scisoftpy/python/pyflatten.py:303 | `d[key]` succeeds exactly when the key is present, gives its value, and otherwise raises KeyError |
| PyFlatten.Elements | uk.ac.diamond.scisoft.python/src/scisoftpy/python/pyflatten.py:320-330 | Iterating succeeds exactly on iterable values and yields their items; otherwise TypeError |
| PyFlatten.UnflattenUuid | uk.ac.diamond.scisoft.python/src/scisoftpy/python/pyflatten.py:401-402 | `uuid.UUID(content)` succeeds exactly when the content is text that, less `urn:`, `uuid:`, braces at its ends and every dash, is 32 hex digits in either case; the UUID is then the canonical lower-case text |
| PyUuid.Parse | uk.ac.diamond.scisoft.python/src/scisoftpy/python/pyflatten.py:401-402 | `uuid.UUID(text)` gives a UUID exactly when the cleaned text is 32 hex digits, and its `str()` is canonical text |
| PyUuid.Digits | uk.ac.diamond.scisoft.python/src/scisoftpy/python/pyflatten.py:395-398 | Canonical text is its 32 lower-case digits written 8-4-4-4-12 with dashes |
| PyUuid.ParseCanonical | uk.ac.diamond.scisoft.python/src/scisoftpy/python/pyflatten.py:395-402 | What `str()` of a UUID writes reads back as the same text |
| PyUuid.ParseIdempotent | uk.ac.diamond.scisoft.python/src/scisoftpy/python/pyflatten.py:401-402 | Text that parses parses again, from its canonical form, to the same text |
| PyUuid.ParseBraced | uk.ac.diamond.scisoft.python/src/scisoftpy/python/pyflatten.py:401-402 | The braced form of canonical text reads as that text |
| PyUuid.ParseUndashed | uk.ac.diamond.scisoft.python/src/scisoftpy/python/pyflatten.py:401-402 | 32 hex digits without dashes, in either case, read as the dashed lower-case form |
| PyFlatten.UnflattenException | uk.ac.diamond.scisoft.python/src/scisoftpy/python/pyflatten.py:416-417 | A record with content becomes a plain `Exception` whose one argument is that content, whatever its type; a record without content fails with KeyError |
| PyFlatten.KeywordArgs | uk.ac.diamond.scisoft.python/src/scisoftpy/python/pyflatten.py:82 | `typeObj(**kw)` accepts the keywords exactly when all of them are strings |
| PyFlatten.FlattenDispatch | uk.ac.diamond.scisoft.python/src/scisoftpy/python/pyflatten.py:432-436 | `flatten` raises TypeError exactly when no helper claims the value, and otherwise uses the first helper that does |
| PyFlatten.UnflattenDispatch | uk.ac.diamond.scisoft.python/src/scisoftpy/python/pyflatten.py:438-442 | `unflatten` raises TypeError exactly when no helper claims the tree, and otherwise uses the first helper that does |
| PyFlatten.FlattenListCase | uk.ac.diamond.scisoft.python/src/scisoftpy/python/pyflatten.py:320-324 | A list or tuple whose items flatten becomes the list of their flattened forms |
| PyFlatten.FlattenRoiListCase | uk.ac.diamond.scisoft.python/src/scisoftpy/python/pyflatten.py:292-299 | An ROI list whose ROIs flatten becomes a record with the list's type tag and the flattened ROIs as content |
| PyFlatten.FlattenRoiCase | uk.ac.diamond.scisoft.python/src/scisoftpy/python/pyflatten.py:67-73 | An ROI whose attributes flatten becomes its flattened attribute entries followed by the type tag |
| PyFlatten.FlattenDictCase | uk.ac.diamond.scisoft.python/src/scisoftpy/python/pyflatten.py:148-156 | A dict whose keys and values flatten becomes a map record of parallel key and value lists |
| PyFlatten.ListDispatch | uk.ac.diamond.scisoft.python/src/scisoftpy/python/pyflatten.py:326-330 | The list helper's `unflatten` is the element-wise list unflattening |
| PyFlatten.RoiListDispatch | uk.ac.diamond.scisoft.python/src/scisoftpy/python/pyflatten.py:301-305 | The ROI-list helper's `unflatten` is the ROI-list unflattening of its kind |
| PyFlatten.RoiDispatch | uk.ac.diamond.scisoft.python/src/scisoftpy/python/pyflatten.py:75-82 | The ROI helper's `unflatten` is the ROI unflattening of its kind |
| PyFlatten.DictDispatch | uk.ac.diamond.scisoft.python/src/scisoftpy/python/pyflatten.py:158-162 | The map helper's `unflatten` is the dict unflattening |
| PyFlatten.UnflattenListCase | uk.ac.diamond.scisoft.python/src/scisoftpy/python/pyflatten.py:326-330 | A list whose items unflatten becomes the list of their unflattened forms |
| PyFlatten.UnflattenRoiListCase | uk.ac.diamond.scisoft.python/src/scisoftpy/python/pyflatten.py:301-305 | An ROI-list record whose content items unflatten becomes an ROI list of that kind holding them |
| PyFlatten.UnflattenRoiCase | uk.ac.diamond.scisoft.python/src/scisoftpy/python/pyflatten.py:75-82 | An ROI record whose fields unflatten becomes an ROI of that kind with those attributes |
| PyFlatten.UnflattenDictCase | uk.ac.diamond.scisoft.python/src/scisoftpy/python/pyflatten.py:158-162 | A map record whose zipped pairs unflatten becomes the dict built by storing them in order, so equal keys (by Python `==`, with identity-compared objects compared by contents) merge into the first key with the last value |
| PyFlatten.UnflattenDictPointwise | uk.ac.diamond.scisoft.python/src/scisoftpy/python/pyflatten.py:158-162 | A map record whose keys and values unflatten, to hashable keys no two of which are equal by Python `==`, becomes the zip of the unflattened keys and values |
| PyFlatten.UnflattenRoiPointwise | uk.ac.diamond.scisoft.python/src/scisoftpy/python/pyflatten.py:75-82 | An ROI record whose fields unflatten, under distinct string keys, becomes the ROI with those attributes |
| PyFlatten.KeywordArgsOfStrKeys | uk.ac.diamond.scisoft.python/src/scisoftpy/python/pyflatten.py:68-82 | Attribute names sent as string keys come back as the same keyword names |
| PyFlatten.FlattenSeqPointwise | uk.ac.diamond.scisoft.python/src/scisoftpy/python/pyflatten.py:320-324 | The element-wise pass gives `fs` if and only if each item flattens to the matching element of `fs` |
| PyFlatten.UnflattenSeqPointwise | uk.ac.diamond.scisoft.python/src/scisoftpy/python/pyflatten.py:326-330 | The element-wise pass gives `xs` if and only if each item unflattens to the matching element of `xs` |
| PyFlatten.FlattenEntriesPointwise | uk.ac.diamond.scisoft.python/src/scisoftpy/python/pyflatten.py:153-155 | When every key and value flattens, the loop yields the flattened keys and values in entry order |
| PyFlatten.UnflattenValuesPointwise | uk.ac.diamond.scisoft.python/src/scisoftpy/python/pyflatten.py:77-81 | When every field value unflattens, the loop pairs each field's key with its unflattened value |
| PyFlatten.UnflattenPairsPointwise | uk.ac.diamond.scisoft.python/src/scisoftpy/python/pyflatten.py:160-161 | When every key and value unflattens to hashable keys, the loop yields those pairs in order |
| PyFlatten.TypeNamesDistinct | uk.ac.diamond.scisoft.python/src/scisoftpy/python/pyflatten.py:84-98 | Two typed helpers with the same type name are the same helper, so a tag names one helper |
| PyFlatten.NamedRoi | uk.ac.diamond.scisoft.python/src/scisoftpy/python/pyflatten.py:84-98 | The only helper whose name is an ROI type name is that ROI's helper |
| PyFlatten.NamedRoiList | uk.ac.diamond.scisoft.python/src/scisoftpy/python/pyflatten.py:307-317 | The only helper whose name is an ROI-list type name is that list's helper |
| PyFlatten.NamedForeign | uk.ac.diamond.scisoft.python/src/scisoftpy/python/pyflatten.py:419-427 | The only helper whose name is a stand-in helper's type name is that helper |
| PyFlatten.NamedFixed | uk.ac.diamond.scisoft.python/src/scisoftpy/python/pyflatten.py:358-417 | The none, map, UUID and exception names each belong to one helper |
| PyRoundTrip.FlattenerOf | uk.ac.diamond.scisoft.python/src/scisoftpy/python/pyflatten.py:419-436 | Every value of the model is flattened by one fixed default helper, which claims it while no helper before it does |
| PyRoundTrip.TaggedUnflattener | uk.ac.diamond.scisoft.python/src/scisoftpy/python/pyflatten.py:419-442 | A record tagged with a default helper's type name is unflattened by that helper |
| PyRoundTrip.TaggedRoiList | uk.ac.diamond.scisoft.python/src/scisoftpy/python/pyflatten.py:419-442 | A record tagged as an ROI list of some kind goes to that list helper |
| PyRoundTrip.TaggedRoi | uk.ac.diamond.scisoft.python/src/scisoftpy/python/pyflatten.py:419-442 | A record tagged as an ROI of some kind goes to that ROI helper |
| PyRoundTrip.TaggedMap | uk.ac.diamond.scisoft.python/src/scisoftpy/python/pyflatten.py:419-442 | A record tagged as a map goes to the map helper |
| PyRoundTrip.PlainUnflattener | uk.ac.diamond.scisoft.python/src/scisoftpy/python/pyflatten.py:383-387 | `None`, plain values and lists are unflattened by the none, pass-through and list helpers |
| PyRoundTrip.NoneFlattens | uk.ac.diamond.scisoft.python/src/scisoftpy/python/pyflatten.py:366-373 | `None` is sent as a none record with type "null"; a typed null sends its own type |
| PyRoundTrip.NoneUnflattens | uk.ac.diamond.scisoft.python/src/scisoftpy/python/pyflatten.py:375-381 | A none record reads back as `None` when its type is "null" and as a typed null of that type otherwise |
| PyRoundTrip.NoneRoundTrip | uk.ac.diamond.scisoft.python/src/scisoftpy/python/pyflatten.py:366-381 | `None` and typed nulls survive the round trip |
| PyRoundTrip.PassThroughIdentity | uk.ac.diamond.scisoft.python/src/scisoftpy/python/pyflatten.py:164-175 | Strings, numbers, booleans and binary wrappers pass through unchanged both ways |
| PyRoundTrip.ExceptionFlattens | uk.ac.diamond.scisoft.python/src/scisoftpy/python/pyflatten.py:410-414 | An exception is sent as an exception record holding `str(e)`: a string argument as itself, None, a boolean or an integer as its text, and a KeyError's argument as its `repr`; an argument whose text is not modelled is an error |
| PyRoundTrip.KeyErrorFlattens | uk.ac.diamond.scisoft.python/src/scisoftpy/python/pyflatten.py:410-414 | `KeyError(3)` is sent with the content "3" and `KeyError('a')` with "'a'" |
| PyRoundTrip.ExceptionUnflattens | uk.ac.diamond.scisoft.python/src/scisoftpy/python/pyflatten.py:416-417 | An exception record reads back as a plain `Exception` whose argument is the record's content |
| PyRoundTrip.UuidFlattens | uk.ac.diamond.scisoft.python/src/scisoftpy/python/pyflatten.py:395-399 | A UUID is sent as a UUID record holding its text |
| PyRoundTrip.UuidUnflattens | uk.ac.diamond.scisoft.python/src/scisoftpy/python/pyflatten.py:401-402 | A UUID record reads back if and only if its content parses as UUID text, giving the canonical form, and canonical text reads back as itself |
| PyRoundTrip.ListFlattens | uk.ac.diamond.scisoft.python/src/scisoftpy/python/pyflatten.py:320-324 | A list or tuple flattens item by item into a list of the same length and order |
| PyRoundTrip.ListUnflattens | uk.ac.diamond.scisoft.python/src/scisoftpy/python/pyflatten.py:326-330 | A list or tuple unflattens item by item, always into a list |
| PyRoundTrip.ListRoundTrip | uk.ac.diamond.scisoft.python/src/scisoftpy/python/pyflatten.py:320-330 | A list or tuple whose items survive the round trip survives it as a list |
| PyRoundTrip.RoiListFlattens | uk.ac.diamond.scisoft.python/src/scisoftpy/python/pyflatten.py:292-299 | An ROI list is sent as a record holding its flattened ROIs in order |
| PyRoundTrip.RoiListUnflattens | uk.ac.diamond.scisoft.python/src/scisoftpy/python/pyflatten.py:301-305 | An ROI-list record reads back as an ROI list of the same kind holding the unflattened ROIs |
| PyRoundTrip.RoiListRoundTrip | uk.ac.diamond.scisoft.python/src/scisoftpy/python/pyflatten.py:292-305 | An ROI list whose ROIs survive the round trip survives it |
| PyRoundTrip.RoiFlattens | uk.ac.diamond.scisoft.python/src/scisoftpy/python/pyflatten.py:67-73 | An ROI is sent as one entry per flattened attribute followed by its type tag |
| PyRoundTrip.RoiUnflattens | uk.ac.diamond.scisoft.python/src/scisoftpy/python/pyflatten.py:75-82 | An ROI record reads back as the same kind of ROI, and the type tag does not become an attribute |
| PyRoundTrip.RoiRoundTrip | uk.ac.diamond.scisoft.python/src/scisoftpy/python/pyflatten.py:67-82 | An ROI whose attributes survive the round trip survives it |
| PyRoundTrip.DictFlattens | uk.ac.diamond.scisoft.python/src/scisoftpy/python/pyflatten.py:148-156 | A dict is sent as parallel key and value lists of equal length, in entry order |
| PyRoundTrip.DictUnflattens | uk.ac.diamond.scisoft.python/src/scisoftpy/python/pyflatten.py:158-162 | A map record with no two equal keys reads back by zipping its keys and values, in one of the orders Python may iterate the rebuilt dict in |
| PyRoundTrip.DictRoundTrip | uk.ac.diamond.scisoft.python/src/scisoftpy/python/pyflatten.py:148-162 | A dict with no two equal keys, whose keys and values survive the round trip, survives it, listed in one possible iteration order |
| PyRoundTrip.RoundTrip | uk.ac.diamond.scisoft.python/src/scisoftpy/python/pyflatten.py:432-442 | Every supported value survives `unflatten(flatten(v))`, up to tuples becoming lists and exceptions coming back as a plain `Exception` holding their text |
| Dispatcher.NewDispatcher | uk.ac.diamond.scisoft.analysis.xmlrpc/test/uk/ac/diamond/scisoft/analysis/rpc/instancedispatcher/InstanceDispatcherTest.java:275-298 | Creating a dispatcher fails with NullPointerException on a null contract or instance, and with IllegalArgumentException when the instance is not of the contract type; it succeeds otherwise |
| Dispatcher.GetDispatcherOfObject | uk.ac.diamond.scisoft.analysis.xmlrpc/test/uk/ac/diamond/scisoft/analysis/rpc/instancedispatcher/InstanceDispatcherTest.java:265-273 | `getDispatcher(obj)` never fails and exposes the object's own class |
| Dispatcher.Candidates | uk.ac.diamond.scisoft.analysis.xmlrpc/test/uk/ac/diamond/scisoft/analysis/rpc/instancedispatcher/InstanceDispatcherTest.java:192-200 | The applicable methods are exactly the visible methods whose name, arity and parameter types accept the arguments |
| Dispatcher.Resolve | uk.ac.diamond.scisoft.analysis.xmlrpc/test/uk/ac/diamond/scisoft/analysis/rpc/instancedispatcher/InstanceDispatcherTest.java:192-200 | The chosen method is visible and applicable; there is none exactly when no visible method is applicable |
| Dispatcher.Report | uk.ac.diamond.scisoft.analysis.xmlrpc/test/uk/ac/diamond/scisoft/analysis/rpc/instancedispatcher/InstanceDispatcherTest.java:114-119 | A void method gives null, a returned value is passed back, and a thrown exception becomes the cause of the error |
| Dispatcher.Run | uk.ac.diamond.scisoft.analysis.xmlrpc/test/uk/ac/diamond/scisoft/analysis/rpc/instancedispatcher/InstanceDispatcherTest.java:136-146 | `run` reports the method as not found exactly when no visible method is applicable; otherwise it reports the chosen method's outcome |
| Dispatcher.UniqueMatchRuns | uk.ac.diamond.scisoft.analysis.xmlrpc/test/uk/ac/diamond/scisoft/analysis/rpc/instancedispatcher/InstanceDispatcherTest.java:37-49 | When exactly one visible method is applicable, `run` invokes it, whatever the tie-break |
| Dispatcher.ArityGate | uk.ac.diamond.scisoft.analysis.xmlrpc/test/uk/ac/diamond/scisoft/analysis/rpc/instancedispatcher/InstanceDispatcherTest.java:108 | With no visible instance method of that name and arity, the method is not found |
| Dispatcher.StaticNeverCalled | uk.ac.diamond.scisoft.analysis.xmlrpc/test/uk/ac/diamond/scisoft/analysis/rpc/instancedispatcher/InstanceDispatcherTest.java:148-165 | Under the model's dispatch rule, which considers instance methods only, a static method is never chosen, and a name with only static methods is not found; of these two the test shows only that an instance method wins over a static one of the same signature |
| Dispatcher.InstanceBeatsStatic | uk.ac.diamond.scisoft.analysis.xmlrpc/test/uk/ac/diamond/scisoft/analysis/rpc/instancedispatcher/InstanceDispatcherTest.java:160-165 | Of a static and an instance method with the same signature, the instance method runs |
| Dispatcher.NullNeverPrimitive | uk.ac.diamond.scisoft.analysis.xmlrpc/test/uk/ac/diamond/scisoft/analysis/rpc/instancedispatcher/InstanceDispatcherTest.java:209-227 | A null argument never fits a primitive parameter |
| Dispatcher.NullSelectsReference | uk.ac.diamond.scisoft.analysis.xmlrpc/test/uk/ac/diamond/scisoft/analysis/rpc/instancedispatcher/InstanceDispatcherTest.java:202-207 | Of `call(int)` and `call(Object)`, a null argument selects `call(Object)` |
| Dispatcher.TypedNoneSelects | uk.ac.diamond.scisoft.analysis.xmlrpc/test/uk/ac/diamond/scisoft/analysis/rpc/instancedispatcher/InstanceDispatcherTest.java:299-304 | A typed null selects the overload whose parameter its carried type fits |
| Dispatcher.ContractHides | uk.ac.diamond.scisoft.analysis.xmlrpc/test/uk/ac/diamond/scisoft/analysis/rpc/instancedispatcher/InstanceDispatcherTest.java:245-263 | A method the exposed contract does not declare is never called through it |
| Dispatcher.OverrideRuns | uk.ac.diamond.scisoft.analysis.xmlrpc/test/uk/ac/diamond/scisoft/analysis/rpc/instancedispatcher/InstanceDispatcherTest.java:245-273 | Through the interface or the implementation class, the same signature runs the object's override |
| Dispatcher.ExceptionIsCause | uk.ac.diamond.scisoft.analysis.xmlrpc/test/uk/ac/diamond/scisoft/analysis/rpc/instancedispatcher/InstanceDispatcherTest.java:167-189 | A thrown exception, checked or unchecked, comes back as the cause of the dispatch error |
| Dispatcher.ManyArgumentsMethods | uk.ac.diamond.scisoft.analysis.xmlrpc/test/uk/ac/diamond/scisoft/analysis/rpc/instancedispatcher/InstanceDispatcherTest.java:121-134 | The test class declares `call` with 0 to 8 integer parameters |
| Dispatcher.ManyArgumentsApplicable | uk.ac.diamond.scisoft.analysis.xmlrpc/test/uk/ac/diamond/scisoft/analysis/rpc/instancedispatcher/InstanceDispatcherTest.java:121-134 | Exactly the overload with `k` parameters accepts `k` integers |
| Dispatcher.ManyArguments | uk.ac.diamond.scisoft.analysis.xmlrpc/test/uk/ac/diamond/scisoft/analysis/rpc/instancedispatcher/InstanceDispatcherTest.java:121-134 | With `k` integer arguments, `k` from 0 to 8, the `k`-parameter overload runs and returns `k` |
| Shapes.IndexInRange | uk.ac.diamond.scisoft.analysis/src/uk/ac/diamond/scisoft/analysis/dataset/ShortDataset.java:335-337 | A position inside the shape has a flat index inside the buffer |
| Shapes.UnravelIndex | uk.ac.diamond.scisoft.analysis/src/uk/ac/diamond/scisoft/analysis/dataset/ShortDataset.java:335-337 | Unravelling the flat index of a position gives back that position |
| Shapes.IndexUnravel | uk.ac.diamond.scisoft.analysis/src/uk/ac/diamond/scisoft/analysis/dataset/ShortDataset.java:650-674 | The position reported for a flat index has that flat index |
| AggregateDataset.MaxRank | uk.ac.diamond.scisoft.analysis/src/uk/ac/diamond/scisoft/analysis/dataset/AggregateDataset.java:50-55 | The largest input rank: at least every input's rank and equal to some input's rank, and -1 exactly when there are no inputs |
| AggregateDataset.PadShape | uk.ac.diamond.scisoft.analysis/src/uk/ac/diamond/scisoft/analysis/dataset/AggregateDataset.java:64-77 | A padded shape has the target rank, keeps the dimensions as a suffix, and has only 1s before them |
| AggregateDataset.OffsetsCumulative | uk.ac.diamond.scisoft.analysis/src/uk/ac/diamond/scisoft/analysis/dataset/AggregateDataset.java:103-109 | Offsets start at 0 and each is the previous one plus the previous length |
| AggregateDataset.Owners | uk.ac.diamond.scisoft.analysis/src/uk/ac/diamond/scisoft/analysis/dataset/AggregateDataset.java:111-118 | The owner table has one entry per first-axis index, each naming a stored dataset |
| AggregateDataset.OwnersExact | uk.ac.diamond.scisoft.analysis/src/uk/ac/diamond/scisoft/analysis/dataset/AggregateDataset.java:111-118 | Index `k` belongs to dataset `i` exactly when it lies in `i`'s range along the first axis |
| AggregateDataset.OwnersSorted | uk.ac.diamond.scisoft.analysis/src/uk/ac/diamond/scisoft/analysis/dataset/AggregateDataset.java:111-118 | Owners never decrease along the first axis |
| AggregateDataset.FirstIncompatible | uk.ac.diamond.scisoft.analysis/src/uk/ac/diamond/scisoft/analysis/dataset/AggregateDataset.java:81-87 | The dataset found is rejected by the shape check and every dataset before it passes; none is found exactly when all pass |
| AggregateDataset.PadAll | uk.ac.diamond.scisoft.analysis/src/uk/ac/diamond/scisoft/analysis/dataset/AggregateDataset.java:60-79 | Every input is padded to the common rank |
| AggregateDataset.New | uk.ac.diamond.scisoft.analysis/src/uk/ac/diamond/scisoft/analysis/dataset/AggregateDataset.java:47-101 | No datasets fails on `data[0]`, and a shape error names one of the inputs |
| AggregateDataset.FirstIncompatibleExactly | uk.ac.diamond.scisoft.analysis/src/uk/ac/diamond/scisoft/analysis/dataset/AggregateDataset.java:81-87 | The check finds dataset `j` if and only if `j` is rejected and no earlier dataset is |
| AggregateDataset.NewRejects | uk.ac.diamond.scisoft.analysis/src/uk/ac/diamond/scisoft/analysis/dataset/AggregateDataset.java:81-87 | The constructor fails with a shape error exactly for the first dataset whose padded shape the check rejects |
| AggregateDataset.NewData | uk.ac.diamond.scisoft.analysis/src/uk/ac/diamond/scisoft/analysis/dataset/AggregateDataset.java:60-79 | A constructed aggregate stores every input padded to the common rank and is well formed |
| AggregateDataset.NewIds | uk.ac.diamond.scisoft.analysis/src/uk/ac/diamond/scisoft/analysis/dataset/AggregateDataset.java:60-79 | Two stored datasets are the same object exactly when they are one position, or full-rank inputs passed as the same object without `extend`; lower-rank inputs are clones |
| AggregateDataset.NewShape | uk.ac.diamond.scisoft.analysis/src/uk/ac/diamond/scisoft/analysis/dataset/AggregateDataset.java:89-100 | The rank is the largest input rank, plus one with `extend`; the first dimension counts the datasets or sums their first dimensions; the others come from the first dataset |
| AggregateDataset.OffsetsOf | uk.ac.diamond.scisoft.analysis/src/uk/ac/diamond/scisoft/analysis/dataset/AggregateDataset.java:103-109 | A constructed aggregate's offsets are the cumulative first dimensions of its datasets |
| AggregateDataset.OwnersOf | uk.ac.diamond.scisoft.analysis/src/uk/ac/diamond/scisoft/analysis/dataset/AggregateDataset.java:111-118 | A constructed aggregate's owner table has one entry per first-axis index, owned by the dataset whose range holds it |
| AggregateDataset.TableOf | uk.ac.diamond.scisoft.analysis/src/uk/ac/diamond/scisoft/analysis/dataset/AggregateDataset.java:103-118 | A constructed aggregate's offsets, owners and lengths agree with each other |
| AggregateDataset.Defaults | uk.ac.diamond.scisoft.analysis/src/uk/ac/diamond/scisoft/analysis/dataset/AggregateDataset.java:191-201 | A missing start is all zeros, a missing stop is the shape, and a missing step is all ones |
| AggregateDataset.Split | uk.ac.diamond.scisoft.analysis/src/uk/ac/diamond/scisoft/analysis/dataset/AggregateDataset.java:203-229 | The first piece is asked of the owner of the requested index and starts there, in local indices; a negative step that does not stop at once never succeeds; every failure is an array-index error |
| AggregateDataset.SplitLocal | uk.ac.diamond.scisoft.analysis/src/uk/ac/diamond/scisoft/analysis/dataset/AggregateDataset.java:203-229 | Every piece of the scan lies in its dataset's local indices and does not stop before it starts, and every piece but the last is cast |
| AggregateDataset.SplitForward | uk.ac.diamond.scisoft.analysis/src/uk/ac/diamond/scisoft/analysis/dataset/AggregateDataset.java:203-229 | With a positive step the pieces are asked of datasets in increasing position order |
| AggregateDataset.SplitBackward | uk.ac.diamond.scisoft.analysis/src/uk/ac/diamond/scisoft/analysis/dataset/AggregateDataset.java:209-226 | With a negative step from below the stop, the scan runs off the owner table |
| AggregateDataset.SplitCovers | uk.ac.diamond.scisoft.analysis/src/uk/ac/diamond/scisoft/analysis/dataset/AggregateDataset.java:209-229 | With a positive step the pieces' global windows follow each other from the start without gap, are cut exactly where the owning object changes, and the last stops at the first visited index at or past the stop |
| AggregateDataset.GetSlice | uk.ac.diamond.scisoft.analysis/src/uk/ac/diamond/scisoft/analysis/dataset/AggregateDataset.java:191-232 | Every successful slice casts all pieces but the last, and a slice that never returns has a zero step and a start before the stop |
| AggregateDataset.SliceLocal | uk.ac.diamond.scisoft.analysis/src/uk/ac/diamond/scisoft/analysis/dataset/AggregateDataset.java:203-229 | Every piece of a slice starts at a first-axis index its dataset owns, less that dataset's offset, and stops no earlier than it starts; the first piece starts at the requested index |
| AggregateDataset.ForwardPieces | uk.ac.diamond.scisoft.analysis/src/uk/ac/diamond/scisoft/analysis/dataset/AggregateDataset.java:203-229 | With a positive step the pieces come in increasing dataset order, each a forward window, all cast but the last |
| AggregateDataset.NonForwardEmpty | uk.ac.diamond.scisoft.analysis/src/uk/ac/diamond/scisoft/analysis/dataset/AggregateDataset.java:191-229 | With a step that is not positive, a successful slice is one empty piece at the start, a start inside the aggregate with the stop not after it always succeeds, and a stop after the start always fails |
| AggregateDataset.SliceCovers | uk.ac.diamond.scisoft.analysis/src/uk/ac/diamond/scisoft/analysis/dataset/AggregateDataset.java:191-229 | With a positive step the pieces cover the slice: windows from the requested start, no gap or overlap, cut where the owning object changes, and the last stops at the first visited index at or past the stop |
| AggregateDataset.SliceExactlyOnce | uk.ac.diamond.scisoft.analysis/src/uk/ac/diamond/scisoft/analysis/dataset/AggregateDataset.java:209-229 | Each index a forward slice visits lies in exactly one piece, whose dataset is the same object as the index's owner, and is the owner itself when the stored datasets are distinct objects |
| AggregateDataset.OneObjectOnePiece | uk.ac.diamond.scisoft.analysis/src/uk/ac/diamond/scisoft/analysis/dataset/AggregateDataset.java:211-224 | When every stored dataset is one object, a forward slice is a single request |
| AggregateDataset.RepeatedInputOnePiece | uk.ac.diamond.scisoft.analysis/src/uk/ac/diamond/scisoft/analysis/dataset/AggregateDataset.java:211-224 | The same full-rank input passed twice gives a single request for any forward slice |
| AggregateDataset.Perform | uk.ac.diamond.scisoft.analysis/src/uk/ac/diamond/scisoft/analysis/dataset/AggregateDataset.java:154-172 | `setShape`, `squeeze`, the metadata accessors and `clone` throw UnsupportedOperationException |
| ShortDataset.ToShort | uk.ac.diamond.scisoft.analysis/src/uk/ac/diamond/scisoft/analysis/dataset/ShortDataset.java:418 | The `(short)` cast gives a 16-bit value congruent to its argument modulo 65536, and leaves 16-bit values alone |
| ShortDataset.Get | uk.ac.diamond.scisoft.analysis/src/uk/ac/diamond/scisoft/analysis/dataset/ShortDataset.java:335-337 | An element read inside the shape is a 16-bit value |
| ShortDataset.Zeros | uk.ac.diamond.scisoft.analysis/src/uk/ac/diamond/scisoft/analysis/dataset/ShortDataset.java:75-87 | The shape constructor fails exactly on a one-dimensional negative length; otherwise it gives a dataset of that shape holding 0 everywhere |
| ShortDataset.FromData | uk.ac.diamond.scisoft.analysis/src/uk/ac/diamond/scisoft/analysis/dataset/ShortDataset.java:95-107 | The data constructor succeeds exactly when the shape's size equals the array's length, and then wraps the array |
| ShortDataset.FromDataOneDimensional | uk.ac.diamond.scisoft.analysis/src/uk/ac/diamond/scisoft/analysis/dataset/ShortDataset.java:96-98 | A null or empty shape makes a one-dimensional dataset that always fits its data |
| ShortDataset.Fill | uk.ac.diamond.scisoft.analysis/src/uk/ac/diamond/scisoft/analysis/dataset/ShortDataset.java:238-247 | After `fill`, every element holds the value narrowed to 16 bits, and the shape is unchanged |
| ShortDataset.FillOverwrites | uk.ac.diamond.scisoft.analysis/src/uk/ac/diamond/scisoft/analysis/dataset/ShortDataset.java:238-247 | A second fill overwrites the first, and filling with the value every element already holds changes nothing |
| ShortDataset.Ones | uk.ac.diamond.scisoft.analysis/src/uk/ac/diamond/scisoft/analysis/dataset/ShortDataset.java:229-231 | `ones` fails like the shape constructor and otherwise holds 1 everywhere |
| ShortDataset.SetObjectAbsAsWritten | uk.ac.diamond.scisoft.analysis/src/uk/ac/diamond/scisoft/analysis/dataset/ShortDataset.java:323-329 | As written, the store succeeds exactly for indices inside the buffer, but index `data.length` passes the guard |
| ShortDataset.SetObjectAbs | uk.ac.diamond.scisoft.analysis/src/uk/ac/diamond/scisoft/analysis/dataset/ShortDataset.java:323-329 | With the intended guard, every index outside the buffer fails with IndexOutOfBoundsException, and a store changes only its own element |
| ShortDataset.SetObjectAbsGuardGap | uk.ac.diamond.scisoft.analysis/src/uk/ac/diamond/scisoft/analysis/dataset/ShortDataset.java:324 | At index `data.length` the written guard lets the call through to an array-store failure, while the intended guard rejects it |
| ShortDataset.SetObjectAbsAgrees | uk.ac.diamond.scisoft.analysis/src/uk/ac/diamond/scisoft/analysis/dataset/ShortDataset.java:324 | At every other index the written and the intended guards give the same result |
| ShortDataset.Grow | uk.ac.diamond.scisoft.analysis/src/uk/ac/diamond/scisoft/analysis/dataset/ShortDataset.java:393-399 | Each dimension of the grown shape is the old one, or `pos[i] + 1` where `pos` reaches past it |
| ShortDataset.GrowCovers | uk.ac.diamond.scisoft.analysis/src/uk/ac/diamond/scisoft/analysis/dataset/ShortDataset.java:393-399 | The grown shape holds every old cell and `pos`, and is the old shape when `pos` was already inside |
| ShortDataset.Cell | uk.ac.diamond.scisoft.analysis/src/uk/ac/diamond/scisoft/analysis/dataset/ShortDataset.java:421-468 | A cell of a reallocated buffer starts with a 16-bit value |
| ShortDataset.Allocate | uk.ac.diamond.scisoft.analysis/src/uk/ac/diamond/scisoft/analysis/dataset/ShortDataset.java:421-468 | The reallocated dataset has the new shape |
| ShortDataset.AllocateAt | uk.ac.diamond.scisoft.analysis/src/uk/ac/diamond/scisoft/analysis/dataset/ShortDataset.java:421-468 | Each old cell keeps its value at its old position, and every new cell starts at Short.MIN_VALUE |
| ShortDataset.SetItem | uk.ac.diamond.scisoft.analysis/src/uk/ac/diamond/scisoft/analysis/dataset/ShortDataset.java:391-410 | `setItem` grows the shape to hold `pos`; a position of another rank fails with IllegalArgumentException and a negative coordinate with ArrayIndexOutOfBoundsException |
| ShortDataset.SetItemWrites | uk.ac.diamond.scisoft.analysis/src/uk/ac/diamond/scisoft/analysis/dataset/ShortDataset.java:391-410 | After a successful `setItem`, reading `pos` gives the stored value |
| ShortDataset.SetItemKeeps | uk.ac.diamond.scisoft.analysis/src/uk/ac/diamond/scisoft/analysis/dataset/ShortDataset.java:391-410 | After a successful `setItem`, every other old cell keeps its value at its old position, whether or not the dataset grew |
| ShortDataset.SetItemPads | uk.ac.diamond.scisoft.analysis/src/uk/ac/diamond/scisoft/analysis/dataset/ShortDataset.java:391-410 | After a successful `setItem`, cells added by growth, other than `pos`, hold Short.MIN_VALUE |
| ShortDataset.Set | uk.ac.diamond.scisoft.analysis/src/uk/ac/diamond/scisoft/analysis/dataset/ShortDataset.java:413-419 | A null or empty position writes the origin and always succeeds; any other position succeeds exactly when `setItem` accepts it; the value is narrowed to 16 bits |
| ShortDataset.Resize | uk.ac.diamond.scisoft.analysis/src/uk/ac/diamond/scisoft/analysis/dataset/ShortDataset.java:471-484 | The resized buffer has the new shape, holds the first min(old, new) elements in order, and is 0 elsewhere |
| ShortDataset.ResizeRoundTrip | uk.ac.diamond.scisoft.analysis/src/uk/ac/diamond/scisoft/analysis/dataset/ShortDataset.java:471-484 | Resizing to a shape at least as large and back again restores the dataset |
| ShortDataset.JavaDiv | uk.ac.diamond.scisoft.analysis/src/uk/ac/diamond/scisoft/analysis/dataset/ShortDataset.java:800 | Java's `/` gives a quotient no larger in magnitude than the dividend |
| ShortDataset.JavaRem | uk.ac.diamond.scisoft.analysis/src/uk/ac/diamond/scisoft/analysis/dataset/ShortDataset.java:837 | Java's `%` gives a remainder smaller in magnitude than the divisor and with the sign of the dividend |
| ShortDataset.JavaDivRem | uk.ac.diamond.scisoft.analysis/src/uk/ac/diamond/scisoft/analysis/dataset/ShortDataset.java:800-837 | Quotient times divisor plus remainder is the dividend |
| ShortDataset.JavaDivShort | uk.ac.diamond.scisoft.analysis/src/uk/ac/diamond/scisoft/analysis/dataset/ShortDataset.java:800 | A 16-bit dividend gives a 16-bit quotient, except Short.MIN_VALUE / -1 |
| ShortDataset.Elementwise | uk.ac.diamond.scisoft.analysis/src/uk/ac/diamond/scisoft/analysis/dataset/ShortDataset.java:790-854 | The element-wise in-place operation keeps the shape and narrows each combined element to 16 bits |
| ShortDataset.IDivide | uk.ac.diamond.scisoft.analysis/src/uk/ac/diamond/scisoft/analysis/dataset/ShortDataset.java:790-804 | `idivide` by a dataset divides each element by its divisor element with Java's truncating division, narrowed to 16 bits; a zero divisor element makes the element 0, and elements past the divisor's end are kept |
| ShortDataset.IRemainder | uk.ac.diamond.scisoft.analysis/src/uk/ac/diamond/scisoft/analysis/dataset/ShortDataset.java:827-841 | `iremainder` by a dataset replaces each element by Java's truncating remainder against its divisor element; a zero divisor element makes the element 0, and elements past the divisor's end are kept |
| ShortDataset.DivideRemainderRebuild | uk.ac.diamond.scisoft.analysis/src/uk/ac/diamond/scisoft/analysis/dataset/ShortDataset.java:790-854 | Where the divisor is non-zero, the `idivide` and `iremainder` results rebuild the original element, except for Short.MIN_VALUE / -1 |
| ShortDataset.DivideOverflowWraps | uk.ac.diamond.scisoft.analysis/src/uk/ac/diamond/scisoft/analysis/dataset/ShortDataset.java:800 | Short.MIN_VALUE / -1 wraps back to Short.MIN_VALUE |
| ShortDataset.IDivideScalar | uk.ac.diamond.scisoft.analysis/src/uk/ac/diamond/scisoft/analysis/dataset/ShortDataset.java:806-814 | `idivide` by zero fills the dataset with 0, and any other integer divides every element |
| ShortDataset.IRemainderScalar | uk.ac.diamond.scisoft.analysis/src/uk/ac/diamond/scisoft/analysis/dataset/ShortDataset.java:843-851 | `iremainder` by zero fills the dataset with 0, and any other integer takes every remainder |
| ShortDataset.ScalarIsConstantDataset | uk.ac.diamond.scisoft.analysis/src/uk/ac/diamond/scisoft/analysis/dataset/ShortDataset.java:790-854 | A scalar divisor acts like a dataset divisor holding that value everywhere |
| ShortDataset.SetByBoolean | uk.ac.diamond.scisoft.analysis/src/uk/ac/diamond/scisoft/analysis/dataset/ShortDataset.java:509-533 | A dataset source fails with IllegalArgumentException unless it has one element per selected cell; a selected index past the buffer fails with ArrayIndexOutOfBoundsException; otherwise the selected cells, in order, receive the source's elements and the others keep theirs |
| ShortDataset.LastWrite | uk.ac.diamond.scisoft.analysis/src/uk/ac/diamond/scisoft/analysis/dataset/ShortDataset.java:536-559 | The write that survives is the last listed write to that cell |
| ShortDataset.SetByIndex | uk.ac.diamond.scisoft.analysis/src/uk/ac/diamond/scisoft/analysis/dataset/ShortDataset.java:536-559 | A dataset source fails with IllegalArgumentException unless it has one element per index; an index outside the buffer fails with ArrayIndexOutOfBoundsException; otherwise each listed cell receives the value of its last listing, and unlisted cells keep theirs |
| ShortDataset.FindPositions | uk.ac.diamond.scisoft.analysis/src/uk/ac/diamond/scisoft/analysis/dataset/ShortDataset.java:634-646 | The positions found are exactly the flat indices holding the value, in ascending order |
| ShortDataset.FirstPosition | uk.ac.diamond.scisoft.analysis/src/uk/ac/diamond/scisoft/analysis/dataset/ShortDataset.java:650-674 | The position reported is the first occurrence of the value; a value that does not occur fails on `get(0)` |
| ShortDataset.MaxPos | uk.ac.diamond.scisoft.analysis/src/uk/ac/diamond/scisoft/analysis/dataset/ShortDataset.java:650-674 | `maxPos` reports the position of the first largest element; an empty dataset fails |
| ShortDataset.MinPos | uk.ac.diamond.scisoft.analysis/src/uk/ac/diamond/scisoft/analysis/dataset/ShortDataset.java:678-700 | `minPos` reports the position of the first smallest element; an empty dataset fails |
| StringDataset.New | uk.ac.diamond.scisoft.analysis/src/uk/ac/diamond/scisoft/analysis/dataset/StringDatasetBase.java:74-86 | The shape constructor fails exactly on a one-dimensional negative length; otherwise every element is null |
| StringDataset.FromData | uk.ac.diamond.scisoft.analysis/src/uk/ac/diamond/scisoft/analysis/dataset/StringDatasetBase.java:94-106 | The data constructor succeeds exactly when the shape's size equals the array's length, and then wraps the array |
| StringDataset.FromDataShapeCheck | uk.ac.diamond.scisoft.analysis/src/uk/ac/diamond/scisoft/analysis/dataset/StringDatasetBase.java:94-106 | A given shape is accepted if and only if its size is the data's length; a null or empty shape always is |
| StringDataset.Fill | uk.ac.diamond.scisoft.analysis/src/uk/ac/diamond/scisoft/analysis/dataset/StringDatasetBase.java:195-204 | `fill` of null fails; otherwise every element becomes the object's text |
| StringDataset.Ones | uk.ac.diamond.scisoft.analysis/src/uk/ac/diamond/scisoft/analysis/dataset/StringDatasetBase.java:186-188 | `ones` fails like the shape constructor and otherwise holds "1" everywhere |
| StringDataset.Get | uk.ac.diamond.scisoft.analysis/src/uk/ac/diamond/scisoft/analysis/dataset/StringDatasetBase.java:299-301 | A read inside the shape returns a cell of the buffer |
| StringDataset.SetItem | uk.ac.diamond.scisoft.analysis/src/uk/ac/diamond/scisoft/analysis/dataset/StringDatasetBase.java:355-360 | `setItem` fails exactly outside the shape, never grows the dataset, and stores the value |
| StringDataset.SetItemKeeps | uk.ac.diamond.scisoft.analysis/src/uk/ac/diamond/scisoft/analysis/dataset/StringDatasetBase.java:355-360 | Every other cell keeps its value |
| StringDataset.Set | uk.ac.diamond.scisoft.analysis/src/uk/ac/diamond/scisoft/analysis/dataset/StringDatasetBase.java:363-369 | `set` of null fails before the position is looked at; a null or empty position means the origin |
| StringDataset.SetEmptyPositionWritesOrigin | uk.ac.diamond.scisoft.analysis/src/uk/ac/diamond/scisoft/analysis/dataset/StringDatasetBase.java:363-369 | With an empty position `set` succeeds exactly when the shape has cells |
| StringDataset.SetObjectAbsAsWritten | uk.ac.diamond.scisoft.analysis/src/uk/ac/diamond/scisoft/analysis/dataset/StringDatasetBase.java:287-293 | As written, the store succeeds exactly for an index inside the buffer and a non-null object |
| StringDataset.SetObjectAbs | uk.ac.diamond.scisoft.analysis/src/uk/ac/diamond/scisoft/analysis/dataset/StringDatasetBase.java:287-293 | With the intended guard, every index outside the buffer fails with IndexOutOfBoundsException, and a store changes only its own element |
| StringDataset.SetObjectAbsGuardGap | uk.ac.diamond.scisoft.analysis/src/uk/ac/diamond/scisoft/analysis/dataset/StringDatasetBase.java:288 | At index `data.length` the written guard lets the call through to a null or array-store failure, while the intended guard rejects it |
| StringDataset.SetObjectAbsAgrees | uk.ac.diamond.scisoft.analysis/src/uk/ac/diamond/scisoft/analysis/dataset/StringDatasetBase.java:288 | At every other index the written and the intended guards agree |
| StringDataset.Resize | uk.ac.diamond.scisoft.analysis/src/uk/ac/diamond/scisoft/analysis/dataset/StringDatasetBase.java:373-387 | The resized buffer has the new shape, holds the first min(old, new) elements in order, and is null elsewhere |
| StringDataset.ResizeShrinkGrow | uk.ac.diamond.scisoft.analysis/src/uk/ac/diamond/scisoft/analysis/dataset/StringDatasetBase.java:373-387 | Shrinking then growing back keeps the kept prefix and nulls the rest |
| StringDataset.NumericValue | uk.ac.diamond.scisoft.analysis/src/uk/ac/diamond/scisoft/analysis/dataset/StringDatasetBase.java:241-254 | Every numeric getter of an element reads 0 |
| StringDataset.BooleanValue | uk.ac.diamond.scisoft.analysis/src/uk/ac/diamond/scisoft/analysis/dataset/StringDatasetBase.java:241-244 | Every boolean getter of an element reads false |
| StringDataset.InPlace | uk.ac.diamond.scisoft.analysis/src/uk/ac/diamond/scisoft/analysis/dataset/StringDatasetBase.java:638-691 | In-place arithmetic returns the dataset unchanged, and a zero divisor does not clear it |
| PolygonalRoi.New | uk.ac.diamond.scisoft.analysis/src/uk/ac/diamond/scisoft/analysis/roi/PolygonalROI.java:34-38 | A new polygon has one side, and its only point is its own start |
| PolygonalRoi.Default | uk.ac.diamond.scisoft.analysis/src/uk/ac/diamond/scisoft/analysis/roi/PolygonalROI.java:30-32 | The default polygon starts at the origin |
| PolygonalRoi.Append | uk.ac.diamond.scisoft.analysis/src/uk/ac/diamond/scisoft/analysis/roi/PolygonalROI.java:44-48 | `insertPoint(point)` adds one side at the end and keeps every earlier point, the start included |
| PolygonalRoi.AppendInt | uk.ac.diamond.scisoft.analysis/src/uk/ac/diamond/scisoft/analysis/roi/PolygonalROI.java:54-56 | The integer overload fails exactly on an array shorter than two, and otherwise appends its first two coordinates |
| PolygonalRoi.Insert | uk.ac.diamond.scisoft.analysis/src/uk/ac/diamond/scisoft/analysis/roi/PolygonalROI.java:63-74 | `insertPoint(i, point)` fails exactly for an index outside 0 to the side count |
| PolygonalRoi.InsertIsListInsertion | uk.ac.diamond.scisoft.analysis/src/uk/ac/diamond/scisoft/analysis/roi/PolygonalROI.java:63-74 | Both branches of `insertPoint(i, point)` act as list insertion at `i` |
| PolygonalRoi.InsertPositions | uk.ac.diamond.scisoft.analysis/src/uk/ac/diamond/scisoft/analysis/roi/PolygonalROI.java:63-74 | After inserting at `i` there is one more side, point `i` is the new point, earlier points stay and later ones shift by one |
| PolygonalRoi.InsertAtFrontMovesStart | uk.ac.diamond.scisoft.analysis/src/uk/ac/diamond/scisoft/analysis/roi/PolygonalROI.java:65-69 | Inserting at 0 makes the new point the start, and the old start becomes point 1 |
| PolygonalRoi.AppendIsInsertAtEnd | uk.ac.diamond.scisoft.analysis/src/uk/ac/diamond/scisoft/analysis/roi/PolygonalROI.java:44-74 | Appending is insertion at the side count |
| PolygonalRoi.GetPoint | uk.ac.diamond.scisoft.analysis/src/uk/ac/diamond/scisoft/analysis/roi/PolygonalROI.java:103-105 | `getPoint(i)` succeeds exactly for an index below the side count and gives that point |
| PolygonalRoi.Coordinate | uk.ac.diamond.scisoft.analysis/src/uk/ac/diamond/scisoft/analysis/roi/PolygonalROI.java:87-97 | A coordinate read fails on a missing point or a short array, and otherwise gives that coordinate |
| PolygonalRoi.GetPointX | uk.ac.diamond.scisoft.analysis/src/uk/ac/diamond/scisoft/analysis/roi/PolygonalROI.java:87-89 | `getPointX(i)` succeeds exactly when point `i` exists and has a first coordinate, and gives it |
| PolygonalRoi.GetPointY | uk.ac.diamond.scisoft.analysis/src/uk/ac/diamond/scisoft/analysis/roi/PolygonalROI.java:95-97 | `getPointY(i)` succeeds exactly when point `i` exists and has a second coordinate, and gives it |
| PolygonalRoi.AppendAllConcatenates | uk.ac.diamond.scisoft.analysis/src/uk/ac/diamond/scisoft/analysis/roi/PolygonalROI.java:118-119 | Appending the points one at a time concatenates them |
| PolygonalRoi.CopyIsEqual | uk.ac.diamond.scisoft.analysis/src/uk/ac/diamond/scisoft/analysis/roi/PolygonalROI.java:116-122 | The copy has the same sides and the same points in the same order |
| RoiUtils.Tests | uk.ac.diamond.scisoft.analysis/src/uk/ac/diamond/scisoft/analysis/roi/ROIUtils.java:31-63 | There are fourteen class tests |
| RoiUtils.Pick | uk.ac.diamond.scisoft.analysis/src/uk/ac/diamond/scisoft/analysis/roi/ROIUtils.java:31-66 | The chosen list class belongs to the first test the class passes; it fails exactly when the class passes none |
| RoiUtils.ForClass | uk.ac.diamond.scisoft.analysis/src/uk/ac/diamond/scisoft/analysis/roi/ROIUtils.java:26-67 | A null class gives null; otherwise the list class of the first test the class passes, failing exactly when it passes none |
| RoiUtils.ForClassFirst | uk.ac.diamond.scisoft.analysis/src/uk/ac/diamond/scisoft/analysis/roi/ROIUtils.java:31-63 | The test at `i` decides when the class passes it and fails every test before it |
| RoiUtils.ForRoi | uk.ac.diamond.scisoft.analysis/src/uk/ac/diamond/scisoft/analysis/roi/ROIUtils.java:73-77 | A null ROI gives null; otherwise the answer for the ROI's class |
| RoiUtils.PerimeterBoxBeforeRectangular | uk.ac.diamond.scisoft.analysis/src/uk/ac/diamond/scisoft/analysis/roi/ROIUtils.java:49-53 | A perimeter box, which is also a rectangle, gets the perimeter box list class because it is tested first |
| RoiUtils.OwnListClass | uk.ac.diamond.scisoft.analysis/src/uk/ac/diamond/scisoft/analysis/roi/ROIUtils.java:31-63 | Each tabled class that is assignable only to itself gets its own list class |
| GridRoiList.Add | uk.ac.diamond.scisoft.analysis/src/uk/ac/diamond/scisoft/analysis/roi/GridROIList.java:28-32 | `add` appends a grid ROI and returns true, and leaves the list unchanged and returns false for anything else, null included |
| GridRoiList.Append | uk.ac.diamond.scisoft.analysis/src/uk/ac/diamond/scisoft/analysis/roi/GridROIList.java:35-37 | `append` always adds the ROI at the end, null included, keeps the earlier entries and returns true |
| GridRoiList.AddKeepsGrid | uk.ac.diamond.scisoft.analysis/src/uk/ac/diamond/scisoft/analysis/roi/GridROIList.java:28-32 | `add` keeps a list of grid ROIs a list of grid ROIs, whatever it is given |
| GridRoiList.AddIsAppend | uk.ac.diamond.scisoft.analysis/src/uk/ac/diamond/scisoft/analysis/roi/GridROIList.java:28-37 | An accepted `add` is exactly an `append` |
| GridRoiList.AddAllFilters | uk.ac.diamond.scisoft.analysis/src/uk/ac/diamond/scisoft/analysis/roi/GridROIList.java:28-32 | A sequence of `add` calls keeps exactly the grid ROIs, in the order given |
| Hkl.Default | uk.ac.diamond.scisoft.analysis/src/uk/ac/diamond/scisoft/analysis/crystallography/HKL.java:45-47 | `new HKL()` has indices (0, 0, 0), no d and no ring name |
| Hkl.New | uk.ac.diamond.scisoft.analysis/src/uk/ac/diamond/scisoft/analysis/crystallography/HKL.java:66-69 | `new HKL(h, k, l, d)` has those indices and that d, and no ring name |
| Hkl.WithD | uk.ac.diamond.scisoft.analysis/src/uk/ac/diamond/scisoft/analysis/crystallography/HKL.java:49-51 | `new HKL(d)` marks the indices (-1, -1, -1) |
| Hkl.GetIndices | uk.ac.diamond.scisoft.analysis/src/uk/ac/diamond/scisoft/analysis/crystallography/HKL.java:95-97 | `getIndices` gives three indices |
| Hkl.SetH | uk.ac.diamond.scisoft.analysis/src/uk/ac/diamond/scisoft/analysis/crystallography/HKL.java:83-85 | `setH` changes index 0 and nothing else |
| Hkl.SetK | uk.ac.diamond.scisoft.analysis/src/uk/ac/diamond/scisoft/analysis/crystallography/HKL.java:87-89 | `setK` changes index 1 and nothing else |
| Hkl.SetL | uk.ac.diamond.scisoft.analysis/src/uk/ac/diamond/scisoft/analysis/crystallography/HKL.java:91-93 | `setL` changes index 2 and nothing else |
| Hkl.SetRestores | uk.ac.diamond.scisoft.analysis/src/uk/ac/diamond/scisoft/analysis/crystallography/HKL.java:83-93 | Setting an index to its own value changes nothing, and setting the old value back undoes a set |
| Hkl.MaxIndex | uk.ac.diamond.scisoft.analysis/src/uk/ac/diamond/scisoft/analysis/crystallography/HKL.java:99-101 | `getMaxIndex` is at least every index and is one of them |
| Hkl.MinIndex | uk.ac.diamond.scisoft.analysis/src/uk/ac/diamond/scisoft/analysis/crystallography/HKL.java:103-105 | `getMinIndex` is at most every index and is one of them |
| Hkl.MinAtMostMax | uk.ac.diamond.scisoft.analysis/src/uk/ac/diamond/scisoft/analysis/crystallography/HKL.java:99-105 | The smallest index is at most the largest, and they are equal exactly when all three indices are |
| Hkl.ToString | uk.ac.diamond.scisoft.analysis/src/uk/ac/diamond/scisoft/analysis/crystallography/HKL.java:108-111 | `toString` is a parenthesised text |
| Hkl.ParseToString | uk.ac.diamond.scisoft.analysis/src/uk/ac/diamond/scisoft/analysis/crystallography/HKL.java:108-111 | Parsing `toString` gives back the three indices |
| Hkl.ToStringDistinguishes | uk.ac.diamond.scisoft.analysis/src/uk/ac/diamond/scisoft/analysis/crystallography/HKL.java:108-111 | Beans with different indices print differently |
| Decimal.ReadShowAll | uk.ac.diamond.scisoft.analysis/src/uk/ac/diamond/scisoft/analysis/crystallography/HKL.java:108-111 | An integer's decimal text, as `%d` writes it, reads back as that integer with nothing left over |
| Decimal.ShowInjective | uk.ac.diamond.scisoft.analysis/src/uk/ac/diamond/scisoft/analysis/crystallography/HKL.java:108-111 | Different integers have different decimal text |
| Hkl.Equals | uk.ac.diamond.scisoft.analysis/src/uk/ac/diamond/scisoft/analysis/crystallography/HKL.java:124-145 | `equals` holds exactly for another HKL with the same d, indices and ring name, a null field matching only null |
| Hkl.EqualsIsEquivalence | uk.ac.diamond.scisoft.analysis/src/uk/ac/diamond/scisoft/analysis/crystallography/HKL.java:124-145 | `equals` is reflexive, symmetric and transitive, and agrees with equality of the beans |
| Hkl.Clone | uk.ac.diamond.scisoft.analysis/src/uk/ac/diamond/scisoft/analysis/crystallography/HKL.java:54-57 | `clone` keeps the indices and d, and drops the ring name |
| Hkl.CloneEqualsIff | uk.ac.diamond.scisoft.analysis/src/uk/ac/diamond/scisoft/analysis/crystallography/HKL.java:54-57 | A clone equals its original exactly when the original has no ring name |
| Nexus.GetGroupDataType | uk.ac.diamond.scisoft.deprecated/src/uk/ac/diamond/scisoft/analysis/dataset/Nexus.java:92-110 | Supported dataset types map to the signed native type of the same width; others throw IllegalArgumentException |
| Nexus.GetUnsignedGroupDataType | uk.ac.diamond.scisoft.deprecated/src/uk/ac/diamond/scisoft/analysis/dataset/Nexus.java:117-130 | Integer dataset types map to the unsigned native type of the same width; others throw IllegalArgumentException |
| Nexus.GetDType | uk.ac.diamond.scisoft.deprecated/src/uk/ac/diamond/scisoft/analysis/dataset/Nexus.java:57-85 | Each known native type maps to a supported dataset type of the same width, signed and unsigned alike; others throw IllegalArgumentException |
| Nexus.GroupDataTypeRoundTrip | uk.ac.diamond.scisoft.deprecated/src/uk/ac/diamond/scisoft/analysis/dataset/Nexus.java:57-110 | Writing a dataset type and reading it back gives the same type |
| Nexus.UnsignedGroupDataTypeRoundTrip | uk.ac.diamond.scisoft.deprecated/src/uk/ac/diamond/scisoft/analysis/dataset/Nexus.java:57-130 | The same holds for the unsigned types of the integer dataset types |
| Nexus.GetDTypeInverts | uk.ac.diamond.scisoft.deprecated/src/uk/ac/diamond/scisoft/analysis/dataset/Nexus.java:57-130 | Every native type `getDType` accepts is the signed or the unsigned group data type of the dataset type it gives |
| Nexus.GroupDataTypesDistinct | uk.ac.diamond.scisoft.deprecated/src/uk/ac/diamond/scisoft/analysis/dataset/Nexus.java:92-130 | Different dataset types get different group data types, and an integer type's signed and unsigned types differ |
| Nexus.OrDefault | uk.ac.diamond.scisoft.deprecated/src/uk/ac/diamond/scisoft/analysis/dataset/Nexus.java:270-289 | A given array is kept; a null one becomes `rank` copies of the default |
| Nexus.Defaults | uk.ac.diamond.scisoft.deprecated/src/uk/ac/diamond/scisoft/analysis/dataset/Nexus.java:270-289 | A null step is all ones, and a null start or stop is all zeros |
| Nexus.NullDefaultsReadSlice | uk.ac.diamond.scisoft.deprecated/src/uk/ac/diamond/scisoft/analysis/dataset/Nexus.java:270-321 | A null start reads from the origin, and a null step reads the slice itself without widening |
| Nexus.SliceShape | uk.ac.diamond.scisoft.deprecated/src/uk/ac/diamond/scisoft/analysis/dataset/Nexus.java:291-296 | A rank-0 shape fails reading `shape[0]`; an empty one-dimensional dataset gives a zero-length slice; otherwise the checked slice shape |
| Nexus.WindowAsWritten | uk.ac.diamond.scisoft.deprecated/src/uk/ac/diamond/scisoft/analysis/dataset/Nexus.java:310-317 | As written, a stepped dimension's window starts at the lower end of the slice and spans from the first to the last index |
| Nexus.WindowAsWrittenNegative | uk.ac.diamond.scisoft.deprecated/src/uk/ac/diamond/scisoft/analysis/dataset/Nexus.java:311-316 | As written, an empty dimension with a step of 2 or more in either direction gets a negative size |
| Nexus.Window | uk.ac.diamond.scisoft.deprecated/src/uk/ac/diamond/scisoft/analysis/dataset/Nexus.java:308-318 | With empty dimensions read as empty, a window's size is never negative, is 0 exactly for an empty dimension, and otherwise equals the written one |
| Nexus.WindowCovers | uk.ac.diamond.scisoft.deprecated/src/uk/ac/diamond/scisoft/analysis/dataset/Nexus.java:308-318 | The window holds every requested index, and stepping through it gives the requested indices in order |
| Nexus.UnitStepWindow | uk.ac.diamond.scisoft.deprecated/src/uk/ac/diamond/scisoft/analysis/dataset/Nexus.java:308-321 | With a step of 1 the window is the slice itself |
| Nexus.ReadRegionAsWritten | uk.ac.diamond.scisoft.deprecated/src/uk/ac/diamond/scisoft/analysis/dataset/Nexus.java:298-321 | As written, the slab read is the slice itself when every step is 1, and the windows otherwise |
| Nexus.ReadRegion | uk.ac.diamond.scisoft.deprecated/src/uk/ac/diamond/scisoft/analysis/dataset/Nexus.java:298-321 | The corrected slab has non-negative sizes, with a size of 0 exactly in empty dimensions |
| Nexus.UnitStepsReadSlice | uk.ac.diamond.scisoft.deprecated/src/uk/ac/diamond/scisoft/analysis/dataset/Nexus.java:298-321 | With every step 1 the windows are the slice itself, so skipping them is only a shortcut |
| Nexus.ReadRegionCovers | uk.ac.diamond.scisoft.deprecated/src/uk/ac/diamond/scisoft/analysis/dataset/Nexus.java:308-321 | The slab covers the slice in every dimension |
| Nexus.ReadRegionAgrees | uk.ac.diamond.scisoft.deprecated/src/uk/ac/diamond/scisoft/analysis/dataset/Nexus.java:308-321 | The two versions agree when no dimension is empty |
| Nexus.EmptyStepTwoSlab | uk.ac.diamond.scisoft.deprecated/src/uk/ac/diamond/scisoft/analysis/dataset/Nexus.java:291-317 | An empty one-dimensional dataset read with step 2 gives a slab of size -1 as written and 0 when corrected |
| Nexus.Squeeze | uk.ac.diamond.scisoft.deprecated/src/uk/ac/diamond/scisoft/analysis/dataset/Nexus.java:331-341 | Squeezing keeps one entry per dimension other than 1 |
| Nexus.Unsqueeze | uk.ac.diamond.scisoft.deprecated/src/uk/ac/diamond/scisoft/analysis/dataset/Nexus.java:326-341 | Unsqueezing fails exactly when there are more non-unit dimensions than squeezed ones; otherwise unit dimensions get start 0 and size 1 and the others take the squeezed entries in order |
| Nexus.SqueezeUnsqueeze | uk.ac.diamond.scisoft.deprecated/src/uk/ac/diamond/scisoft/analysis/dataset/Nexus.java:326-341 | Squeezing the unsqueezed slab gives back the squeezed entries it used |
| Nexus.UnsqueezeSqueezedShape | uk.ac.diamond.scisoft.deprecated/src/uk/ac/diamond/scisoft/analysis/dataset/Nexus.java:326-341 | When the dataset's shape is the true shape without its unit dimensions, unsqueezing succeeds and squeezing recovers the slab whole |
| Nexus.TrueRegion | uk.ac.diamond.scisoft.deprecated/src/uk/ac/diamond/scisoft/analysis/dataset/Nexus.java:326-347 | The slab handed to the reader is the slab itself when the shapes match, and the unsqueezed slab otherwise |

## Left out

- I/O of every kind is not modelled: temporary files, the HDF5/NeXus reader, the monitor and logging. XML-RPC transport and Java reflection are left out too.
- Python `settemplocation` (uk.ac.diamond.scisoft.python/src/scisoftpy/python/pyflatten.py:38-49) only sets a module global used by the array helpers, which are not modelled.
- Python `ndArrayHelper`, `guiBeanHelper`, `guiParametersHelper`, `plotModeHelper`, `axisMapBeanHelper`, `datasetWithAxisInformationHelper` and `dataBeanHelper` are present only as stand-ins. They keep their type names and their places in the helper list, claim no value on flatten, and fail on unflatten, because their bean and array classes are not part of this model.
- The Python ROI classes are modelled as a kind plus an ordered attribute list, because their constructors are not part of this model. Keyword arguments are accepted exactly when every key is a string.
- A Python exception keeps only the text `str(e)` of its one argument across the round trip, and its class becomes `Exception`. A tuple comes back as a list. `PyRoundTrip.RoundTrip` states the round trip up to these two normalisations, as the helpers define them.
- The Java helpers other than the map and circular ROI helpers are not part of this model. `RootFlattener` takes their claim tests and conversions as parameters, in the registration order of its constructor.
- CircularRoiHelper.Flatten: the name, point and plot entries written by the `ROIHelper` superclass are assumed from the keys that `unflatten` reads, because `ROIHelper` is not part of this model. The unboxing casts in `setPlot` and `setRadius` are modelled as type checks.
- Dispatcher.Resolve: the implementation class of the dispatcher is not part of this model. Its contract comes from `InstanceDispatcherTest`. When several overloads apply, the choice among them is a parameter (`tieBreak`), and the contract says only that the chosen method applies.
- Dispatcher: argument conversion (primitive arrays, boxing, `SDAPlotter`) is abstracted into the `accepts` parameter (uk.ac.diamond.scisoft.analysis.xmlrpc/test/uk/ac/diamond/scisoft/analysis/rpc/instancedispatcher/InstanceDispatcherTest.java:52-106).
- ShortDataset.IDivideScalar: the scalar path divides in floating point (`/= v` with a double `v`). The model treats the divisor as an integer, for which truncating division gives the same result. Fractional, infinite and NaN scalar divisors are not modelled.
- ShortDataset.Elementwise: `checkCompatibility` is not part of this model. The divisor is a sequence of element values read with `getElementLongAbs`.
- ShortDataset: `iadd`, `isubtract`, `imultiply`, `ipower`, `residual`, the stored max/min cache, the slice setters and the reserved-space branch of `allocateArray` are left out. The model covers the division and remainder operations and the index-based setters.
- StringDataset: the setters by slice, by boolean and by index, and `maxPos`/`minPos`, are left out.
- ShortDataset.SetByBoolean: `getBooleanIterator` is not part of this model. It is taken to walk the selection's own flat indices in order, so a selection shorter than the buffer touches only its own cells and a selected index past the buffer fails at the array store with ArrayIndexOutOfBoundsException. Java has already written the earlier selected cells when that failure happens; the model returns only the error.
- ShortDataset.SetByIndex: `IntegerIterator` is not part of this model. It is taken to hand each listed index to the array store unchanged, so a negative or too-large index fails there with ArrayIndexOutOfBoundsException rather than counting from the back. Java has already written the earlier listed cells when that failure happens; the model returns only the error.
- PolygonalRoi: the polygon and its point list share storage in Java (`pts[0]` is the polygon itself), so aliasing cannot be observed between two values here. Point arrays passed in are kept, not copied. A null point array is not modelled: Java accepts `insertPoint(null)` and `appendPoint(null)` and fails later with NullPointerException, and the `int[]` overloads fail at once on `point[0]`.
- RoiUtils.ForClass: the class hierarchy is a parameter (`isSubclass`) standing for `isAssignableFrom`.
- GridRoiList.Add: `instanceof GridROI` is a parameter (`isGrid`).
- Hkl: Java `int` is unbounded here, and a d-spacing (`Amount<Length>`) is a plain value with a unit. `hashCode`, `getD`/`setD`, `getDNano`/`setDNano` and the ring-name accessors are left out, because they only copy or hash fields.
- Nexus.SliceShape: `AbstractDataset.checkSlice` is not part of this model, so its result is passed in as `checked`.
- Nexus: `getSlab` (uk.ac.diamond.scisoft.deprecated/src/uk/ac/diamond/scisoft/analysis/dataset/Nexus.java:279-288) reuses the caller's `start` and `stop` arrays as `lstart` and `lstop`, so `checkSlice` and the write at line 314 change the caller's arrays. The model returns new values and leaves its arguments as they were.
- Nexus: negative steps are taken to count from the back, as the window arithmetic assumes. Every start, stop and step array is assumed to have the dataset's rank. `createDataset`, lazy datasets and HDF5 errors are left out.
- Dispatcher.StaticNeverCalled: that a static method is refused even when no instance method matches is an assumption. The dispatcher class and the test's `UsedForVarious` class are not part of this model. Of this rule, the test shows only that an instance method wins over a static method of the same signature (uk.ac.diamond.scisoft.analysis.xmlrpc/test/uk/ac/diamond/scisoft/analysis/rpc/instancedispatcher/InstanceDispatcherTest.java:160-165).
- ShortDataset.SetItem: `isPositionInShape` and `get1DIndex` are not part of this model. A position of another rank is taken to fail with IllegalArgumentException, the error the rethrow at lines 403-405 names; a longer position may instead fail at `nshape[i]` (line 397) with ArrayIndexOutOfBoundsException. A negative coordinate is taken to fail with ArrayIndexOutOfBoundsException. Java may already have reallocated the buffer when such a failure happens; the model returns only the error.
- ShortDataset.Set: the object is given as an integer, so `toLong` of a non-number is not modelled; any position goes to `ShortDataset.SetItem`, with its assumptions.
- ShortDataset.Get: requires the position to lie inside the shape, because Java hands any position to `get1DIndex`, which is not part of this model. What a position of another rank or with a negative or too-large coordinate does is not modelled.
- StringDataset.Get: requires the position to lie inside the shape, for the same reason as `ShortDataset.Get`.
- StringDataset.SetItem: `InShape` stands for `isPositionInShape`, which is not part of this model, and `get1DIndex` is taken to succeed on a position inside the shape. A position of another rank or with a negative coordinate is taken to fail with ArrayIndexOutOfBoundsException, the error the guard at uk.ac.diamond.scisoft.analysis/src/uk/ac/diamond/scisoft/analysis/dataset/StringDatasetBase.java:356-358 throws. The method's documentation (lines 348-350) says that a position outside the bounds expands the dataset; the code throws instead, and the model follows the code.
- StringDataset.Set: any position goes to `StringDataset.SetItem`, with its assumptions about `isPositionInShape` and `get1DIndex`.
- ShortDataset.MaxPos: the failure on an empty dataset is an assumption. Java calls `findPositions(max().shortValue())` and then `get(0)` (uk.ac.diamond.scisoft.analysis/src/uk/ac/diamond/scisoft/analysis/dataset/ShortDataset.java:650-673). `max()` is not part of this model. On an empty dataset it is taken to return some value that no cell holds, so `get(0)` throws IndexOutOfBoundsException; if it returned null instead, Java would throw NullPointerException.
- ShortDataset.MinPos: the failure on an empty dataset is the same assumption as for `ShortDataset.MaxPos`.
- ShortDataset.IRemainderScalar: the scalar path takes the remainder in floating point (`%= v` with a double `v`). The model treats the divisor as an integer, for which it gives the same result. Fractional, infinite and NaN divisors are not modelled.
- ShortDataset.Zeros: requires non-negative lengths in a shape of rank other than 1 (a one-dimensional negative length is modelled as the IllegalArgumentException it raises), because Java passes the shape to `calcSize`, which is not part of this model.
- ShortDataset.FromData: requires non-negative lengths in an explicit shape, because Java passes the shape to `calcSize`, which is not part of this model.
- ShortDataset.Ones: requires non-negative lengths in a shape of rank other than 1 (a one-dimensional negative length is modelled as the IllegalArgumentException it raises), because Java passes the shape to `calcSize`, which is not part of this model.
- ShortDataset.Resize: requires a shape of non-negative lengths, because Java passes the shape to `calcSize`, which is not part of this model.
- StringDataset.New: requires non-negative lengths in a shape of rank other than 1 (a one-dimensional negative length is modelled as the IllegalArgumentException it raises), because Java passes the shape to `calcSize`, which is not part of this model.
- StringDataset.FromData: requires non-negative lengths in an explicit shape, because Java passes the shape to `calcSize`, which is not part of this model.
- StringDataset.Ones: requires non-negative lengths in a shape of rank other than 1 (a one-dimensional negative length is modelled as the IllegalArgumentException it raises), because Java passes the shape to `calcSize`, which is not part of this model.
- StringDataset.Resize: requires a shape of non-negative lengths, because Java passes the shape to `calcSize`, which is not part of this model.
- StringDataset.NumericValue also stands for `residual` (uk.ac.diamond.scisoft.analysis/src/uk/ac/diamond/scisoft/analysis/dataset/StringDatasetBase.java:694-698), which is 0 against any operand.
- PyValues.Str stands for both Python 2 `str` and `unicode`, as text of characters rather than bytes. `passThroughHelper` (uk.ac.diamond.scisoft.python/src/scisoftpy/python/pyflatten.py:171-172) claims `str` but not `unicode`, so in Python `flatten(u"a")` raises TypeError, while the model flattens every `Str`.
- PyValues.KeyEq: Python compares exceptions, typed nulls (`_wrapper.typednone`, not part of this model) and ROIs by identity, since their classes are not shown to define `__eq__`. The model compares them by contents, so two such keys with the same contents count as one key.
- PyFlatten.UnflattenDictCase: its keys are built fresh by `unflatten`, so in Python two exception, typed-null or ROI keys with the same contents stay two entries. The model merges them into one, as `PyValues.KeyEq` compares by contents.
- PyRoundTrip.ExceptionFlattens: `str(e)` is spelled out only for an argument that is None, a boolean, an integer or a string; a float, a container or any other argument gives an `OutsideModel` error. Of a KeyError's string argument, only text of printable characters without quotes or backslashes is spelled out (`repr` escapes the rest). An integer is taken to be an `int` within the 64-bit `sys.maxint` range and a `long` beyond it, so `repr(3L)` is not distinguished. A KeyError subclass is recognised only by the name `KeyError`, and exceptions raised with no argument or with several are not modelled.
- PyFlatten.UnflattenUuid: the 32 remaining characters must all be hex digits. Python's `int(hex, 16)` also accepts a sign, surrounding blanks or a `0x` prefix among them, which the model rejects.
- AggregateDataset.Split: Java writes each piece's first-axis start and stop into the caller's `start` and `stop` arrays (uk.ac.diamond.scisoft.analysis/src/uk/ac/diamond/scisoft/analysis/dataset/AggregateDataset.java:216-217, 227-228). The model returns the pieces and leaves its arguments as they were. A piece asked of an object stored at several positions keeps its first position's offset, so its local stop can lie past that position's length, as in Java.

## Findings

| source | as written | input that shows it | evidently intended | confidence | as-written member | corrected member |
|---|---|---|---|---|---|---|
| uk.ac.diamond.scisoft.analysis/src/uk/ac/diamond/scisoft/analysis/dataset/ShortDataset.java:324 | `index < 0 \|\| index > data.length` lets `index == data.length` past the guard | `setObjectAbs(data.length, 1)`: the guard passes, and the failure comes from the array store (ArrayIndexOutOfBoundsException, a subclass) instead of the guard's IndexOutOfBoundsException | `index >= data.length` | medium, not executed | ShortDataset.SetObjectAbsAsWritten | ShortDataset.SetObjectAbs |
| uk.ac.diamond.scisoft.analysis/src/uk/ac/diamond/scisoft/analysis/dataset/StringDatasetBase.java:288 | the same guard `index > data.length` | `setObjectAbs(data.length, "x")` reaches the array store and throws ArrayIndexOutOfBoundsException; with a null object it throws NullPointerException | `index >= data.length` | medium, not executed | StringDataset.SetObjectAbsAsWritten | StringDataset.SetObjectAbs |
| uk.ac.diamond.scisoft.deprecated/src/uk/ac/diamond/scisoft/analysis/dataset/Nexus.java:311-316 | the window size of a stepped dimension is `(n - 1) * \|step\| + 1`, even when the slice has `n = 0` elements | shape `[0]` read with step `[2]`: the slab size is `-1` | an empty dimension reads an empty window of size 0 | medium, not executed | Nexus.WindowAsWritten | Nexus.Window |

=== FILE: aggregate_dataset.dfy ===
/** A lazy dataset that stacks several lazy datasets along its first axis.
    Only shapes and object identity matter here: each stored dataset is
    represented by its (padded) shape and by which object it is, and a slice
    of the aggregate is answered by the list of sub-slices it asks of the
    stored datasets. */
module AggregateDataset {
  import opened Wrappers
  import Shapes

  /** Which object a stored dataset is: an input stored as given, where two
      inputs with the same `ref` are one object, or the clone the constructor
      made of the input at `position`. */
  datatype StoredId = Input(ref: int) | Copy(position: nat)

  /** The aggregate's state: the stored datasets' shapes after padding, their
      identities, and whether a new first axis was added. The shape, size,
      offsets and owner table the constructor caches are functions of these. */
  datatype Aggregate = Aggregate(data: seq<seq<int>>, ids: seq<StoredId>, extend: bool)

  datatype AggregateError =
      /** An array index outside its array (ArrayIndexOutOfBoundsException). */
    | IndexOutOfBounds
      /** IllegalArgumentException: the stored dataset at this position has the wrong shape. */
    | WrongShape(position: nat)
    | UnsupportedOperation
      /** The call never returns. */
    | Diverges

  /** The largest rank among the inputs, or -1 when there are none. */
  function MaxRank(shapes: seq<seq<int>>): (r: int)
    ensures r >= -1
    ensures forall j :: 0 <= j < |shapes| ==> |shapes[j]| <= r
    ensures |shapes| == 0 <==> r == -1
    ensures |shapes| > 0 ==> exists j :: 0 <= j < |shapes| && |shapes[j]| == r
  {
    MaxRankFrom(shapes, 0)
  }

  /** The largest rank among the inputs from position `from` on. */
  function MaxRankFrom(shapes: seq<seq<int>>, from: nat): (r: int)
    requires from <= |shapes|
    ensures r >= -1
    ensures forall j :: from <= j < |shapes| ==> |shapes[j]| <= r
    ensures from == |shapes| <==> r == -1
    ensures from < |shapes| ==> exists j :: from <= j < |shapes| && |shapes[j]| == r
    decreases |shapes| - from
  {
    if from == |shapes| then -1
    else
      var m := MaxRankFrom(shapes, from + 1);
      if |shapes[from]| > m then |shapes[from]| else m
  }

  /** A shape of lower rank is padded to `rank` with leading 1s; others are kept. */
  function Pad(s: seq<int>, rank: int): seq<int>
  {
    if |s| < rank then seq(rank - |s|, _ => 1) + s else s
  }

  /** Padding keeps the dimensions as a suffix and puts only 1s before them. */
  lemma PadShape(s: seq<int>, rank: int)
    requires |s| <= rank
    ensures |Pad(s, rank)| == rank
    ensures Pad(s, rank)[rank - |s|..] == s
    ensures forall i :: 0 <= i < rank - |s| ==> Pad(s, rank)[i] == 1
  {
  }

  /** Sum of a list of lengths. */
  function Sum(xs: seq<int>): int
  {
    SumTo(xs, |xs|)
  }

  /** Sum of the first `n` lengths. */
  function SumTo(xs: seq<int>, n: nat): int
    requires n <= |xs|
  {
    if n == 0 then 0 else SumTo(xs, n - 1) + xs[n - 1]
  }

  /** Sums of longer prefixes are not smaller. */
  lemma {:induction false} SumPrefixMonotone(xs: seq<int>, i: nat, j: nat)
    requires i <= j <= |xs|
    requires forall k :: 0 <= k < |xs| ==> xs[k] >= 0
    ensures SumTo(xs, i) <= SumTo(xs, j)
    decreases j
  {
    if i < j {
      SumPrefixMonotone(xs, i, j - 1);
    }
  }

  /** The cumulative lengths: `offset[i]` is the sum of the lengths before `i`. */
  function Offsets(lens: seq<int>): (r: seq<int>)
    ensures |r| == |lens|
  {
    seq(|lens|, i requires 0 <= i < |lens| => SumTo(lens, i))
  }

  /** `offset[0] = 0` and each offset is the previous one plus the previous length. */
  lemma OffsetsCumulative(lens: seq<int>)
    ensures |lens| > 0 ==> Offsets(lens)[0] == 0
    ensures forall i :: 0 <= i < |lens| - 1 ==> Offsets(lens)[i + 1] == Offsets(lens)[i] + lens[i]
  {
  }

  /** The owner table: `lens[0]` copies of 0, then `lens[1]` copies of 1, and so on. */
  function Owners(lens: seq<int>): (r: seq<int>)
    requires forall i :: 0 <= i < |lens| ==> lens[i] >= 0
    ensures |r| == Sum(lens)
    ensures forall k :: 0 <= k < |r| ==> 0 <= r[k] < |lens|
  {
    OwnersTo(lens, |lens|)
  }

  /** The owner table of the first `n` datasets. */
  function OwnersTo(lens: seq<int>, n: nat): (r: seq<int>)
    requires n <= |lens| && forall i :: 0 <= i < |lens| ==> lens[i] >= 0
    ensures |r| == SumTo(lens, n)
    ensures forall k :: 0 <= k < |r| ==> 0 <= r[k] < n
  {
    if n == 0 then []
    else OwnersTo(lens, n - 1) + seq(lens[n - 1], _ => n - 1)
  }

  /** Index `k` belongs to dataset `i` exactly when it lies in `i`'s range. */
  lemma OwnersExact(lens: seq<int>, k: int, i: int)
    requires forall j :: 0 <= j < |lens| ==> lens[j] >= 0
    requires 0 <= k < Sum(lens) && 0 <= i < |lens|
    ensures Owners(lens)[k] == i <==> SumTo(lens, i) <= k < SumTo(lens, i) + lens[i]
  {
    OwnersToExact(lens, |lens|, k, i);
  }

  lemma {:induction false} OwnersToExact(lens: seq<int>, n: nat, k: int, i: int)
    requires n <= |lens| && forall j :: 0 <= j < |lens| ==> lens[j] >= 0
    requires 0 <= k < SumTo(lens, n) && 0 <= i < n
    ensures OwnersTo(lens, n)[k] == i <==> SumTo(lens, i) <= k < SumTo(lens, i) + lens[i]
  {
    var m := n - 1;
    assert OwnersTo(lens, n) == OwnersTo(lens, m) + seq(lens[m], _ => m);
    if k < SumTo(lens, m) {
      assert OwnersTo(lens, n)[k] == OwnersTo(lens, m)[k];
      if i < m {
        OwnersToExact(lens, m, k, i);
      }
    } else {
      assert OwnersTo(lens, n)[k] == m;
      if i < m {
        SumPrefixMonotone(lens, i + 1, m);
      }
    }
  }

  /** Owners never decrease along the first axis. */
  lemma OwnersSorted(lens: seq<int>, k: int, k': int)
    requires forall j :: 0 <= j < |lens| ==> lens[j] >= 0
    requires 0 <= k <= k' < Sum(lens)
    ensures Owners(lens)[k] <= Owners(lens)[k']
  {
    OwnersToSorted(lens, |lens|, k, k');
  }

  lemma {:induction false} OwnersToSorted(lens: seq<int>, n: nat, k: int, k': int)
    requires n <= |lens| && forall j :: 0 <= j < |lens| ==> lens[j] >= 0
    requires 0 <= k <= k' < SumTo(lens, n)
    ensures OwnersTo(lens, n)[k] <= OwnersTo(lens, n)[k']
  {
    var m := n - 1;
    assert OwnersTo(lens, n) == OwnersTo(lens, m) + seq(lens[m], _ => m);
    if k' < SumTo(lens, m) {
      OwnersToSorted(lens, m, k, k');
    }
  }

  /** The first dimension of each padded shape. */
  function Lengths(data: seq<seq<int>>): (r: seq<int>)
    requires forall j :: 0 <= j < |data| ==> |data[j]| > 0
    ensures |r| == |data|
    ensures forall j :: 0 <= j < |data| ==> r[j] == data[j][0]
  {
    seq(|data|, j requires 0 <= j < |data| => data[j][0])
  }

  /** The first stored dataset whose shape `compatible` rejects. */
  function FirstIncompatible(compatible: (seq<int>, seq<int>, int) -> bool, s: seq<int>, data: seq<seq<int>>, axis: int, from: nat): (r: Option<nat>)
    requires from <= |data|
    ensures r.Some? ==> from <= r.value < |data| && !compatible(s, data[r.value], axis)
    ensures r.Some? ==> forall j :: from <= j < r.value ==> compatible(s, data[j], axis)
    ensures r.None? ==> forall j :: from <= j < |data| ==> compatible(s, data[j], axis)
    decreases |data| - from
  {
    if from == |data| then None
    else if !compatible(s, data[from], axis) then Some(from)
    else FirstIncompatible(compatible, s, data, axis, from + 1)
  }

  /** Every input padded to `rank`. */
  function PadAll(shapes: seq<seq<int>>, rank: int): (data: seq<seq<int>>)
    ensures |data| == |shapes|
    ensures forall j :: 0 <= j < |shapes| ==> data[j] == Pad(shapes[j], rank)
  {
    seq(|shapes|, j requires 0 <= j < |shapes| => Pad(shapes[j], rank))
  }

  /** The first dimension of a padded non-negative shape is non-negative, and
      it is 1 when padding took place. */
  lemma PadFirst(s: seq<int>, rank: int)
    requires Shapes.NonNegative(s) && |s| <= rank && rank > 0
    ensures Pad(s, rank)[0] >= 0
    ensures |s| < rank ==> Pad(s, rank)[0] == 1
  {
  }

  /** Padded shapes of one rank with non-negative first dimensions. */
  predicate Uniform(data: seq<seq<int>>)
  {
    && |data| > 0 && |data[0]| > 0
    && forall j :: 0 <= j < |data| ==> |data[j]| == |data[0]| && data[j][0] >= 0
  }

  /** The constructor's invariant: uniform padded shapes, one identity per
      stored dataset, and with `extend` each stored dataset contributes a
      single first-axis index. */
  predicate Valid(a: Aggregate)
  {
    Uniform(a.data) && |a.ids| == |a.data| && (a.extend ==> forall j :: 0 <= j < |a.data| ==> a.data[j][0] == 1)
  }

  /** The identities of the stored datasets: an input of rank below `rank`
      is cloned so that its shape can be padded, and any other input is
      stored itself. */
  function StoredIds(shapes: seq<seq<int>>, refs: seq<int>, rank: int): (ids: seq<StoredId>)
    requires |refs| == |shapes|
    ensures |ids| == |shapes|
  {
    seq(|shapes|, j requires 0 <= j < |shapes| => if |shapes[j]| < rank then Copy(j) else Input(refs[j]))
  }

  /** The constructor. `extend` adds a new first axis of one entry per dataset;
      otherwise the datasets are joined along their first axis.
      The inputs are given by their shapes and by `refs`, where equal
      numbers mean the same dataset object passed more than once.
      `compatible(a, b, axis)` stands for the dataset library's shape check,
      which ignores dimension `axis`. With no datasets, or only rank-0 ones
      and no `extend`, an array index fails. */
  function New(extend: bool, shapes: seq<seq<int>>, refs: seq<int>, compatible: (seq<int>, seq<int>, int) -> bool): (r: Result<Aggregate, AggregateError>)
    requires forall j :: 0 <= j < |shapes| ==> Shapes.NonNegative(shapes[j])
    requires |refs| == |shapes|
    ensures |shapes| == 0 ==> r == Err(IndexOutOfBounds)
    ensures r.Err? && r.error.WrongShape? ==> r.error.position < |shapes|
  {
    var rank := MaxRank(shapes) + (if extend then 1 else 0);
    Assemble(extend, PadAll(shapes, rank), StoredIds(shapes, refs, rank), rank, compatible)
  }

  /** The constructor's checks on the padded shapes: no datasets, a rejected
      shape, or rank 0 fail, in that order. */
  function Assemble(extend: bool, data: seq<seq<int>>, ids: seq<StoredId>, rank: int, compatible: (seq<int>, seq<int>, int) -> bool): (r: Result<Aggregate, AggregateError>)
    ensures |data| == 0 ==> r == Err(IndexOutOfBounds)
    ensures r.Err? && r.error.WrongShape? ==> r.error.position < |data|
    ensures r.Ok? ==> r.value == Aggregate(data, ids, extend) && rank != 0 && |data| > 0
  {
    if |data| == 0 then Err(IndexOutOfBounds)
    else
      match FirstIncompatible(compatible, data[0], data, if extend then -1 else 0, 0)
      case Some(j) => Err(WrongShape(j))
      case None => if rank == 0 then Err(IndexOutOfBounds) else Ok(Aggregate(data, ids, extend))
  }

  /** `FirstIncompatible` finds `j` exactly when `j` is rejected and no earlier dataset is. */
  lemma FirstIncompatibleExactly(compatible: (seq<int>, seq<int>, int) -> bool, s: seq<int>, data: seq<seq<int>>, axis: int, j: nat)
    requires j < |data|
    ensures FirstIncompatible(compatible, s, data, axis, 0) == Some(j) <==>
      !compatible(s, data[j], axis) && forall i :: 0 <= i < j ==> compatible(s, data[i], axis)
  {
  }

  /** The checks on the padded shapes fail with `WrongShape(j)` exactly for
      the first `j` that the shape check rejects. */
  lemma AssembleRejects(extend: bool, data: seq<seq<int>>, ids: seq<StoredId>, rank: int, compatible: (seq<int>, seq<int>, int) -> bool, j: nat)
    requires j < |data|
    ensures Assemble(extend, data, ids, rank, compatible) == Err(WrongShape(j)) <==>
      !compatible(data[0], data[j], if extend then -1 else 0) &&
      forall i :: 0 <= i < j ==> compatible(data[0], data[i], if extend then -1 else 0)
  {
    FirstIncompatibleExactly(compatible, data[0], data, if extend then -1 else 0, j);
  }

  /** The constructor fails with `WrongShape(j)` exactly for the first
      dataset `j` whose padded shape the shape check rejects. */
  lemma NewRejects(extend: bool, shapes: seq<seq<int>>, refs: seq<int>, compatible: (seq<int>, seq<int>, int) -> bool, j: nat)
    requires forall i :: 0 <= i < |shapes| ==> Shapes.NonNegative(shapes[i])
    requires j < |shapes| && |refs| == |shapes|
    ensures var data := PadAll(shapes, MaxRank(shapes) + (if extend then 1 else 0));
      New(extend, shapes, refs, compatible) == Err(WrongShape(j)) <==>
        !compatible(data[0], data[j], if extend then -1 else 0) &&
        forall i :: 0 <= i < j ==> compatible(data[0], data[i], if extend then -1 else 0)
  {
    var rank := MaxRank(shapes) + (if extend then 1 else 0);
    var data := PadAll(shapes, rank);
    assert New(extend, shapes, refs, compatible) == Assemble(extend, data, StoredIds(shapes, refs, rank), rank, compatible);
    AssembleRejects(extend, data, StoredIds(shapes, refs, rank), rank, compatible, j);
  }

  /** Inputs padded to at least their largest rank form a valid aggregate. */
  lemma PaddedValid(shapes: seq<seq<int>>, ids: seq<StoredId>, rank: int, extend: bool)
    requires forall j :: 0 <= j < |shapes| ==> Shapes.NonNegative(shapes[j]) && |shapes[j]| <= rank
    requires extend ==> forall j :: 0 <= j < |shapes| ==> |shapes[j]| < rank
    requires rank > 0 && |shapes| > 0 && |ids| == |shapes|
    ensures Valid(Aggregate(PadAll(shapes, rank), ids, extend))
  {
    forall j | 0 <= j < |shapes|
      ensures |Pad(shapes[j], rank)| == rank && Pad(shapes[j], rank)[0] >= 0
      ensures extend ==> Pad(shapes[j], rank)[0] == 1
    {
      PadShape(shapes[j], rank);
      PadFirst(shapes[j], rank);
    }
  }

  /** A successful constructor stores every input padded to the common rank,
      and establishes the invariant. */
  lemma NewData(extend: bool, shapes: seq<seq<int>>, refs: seq<int>, compatible: (seq<int>, seq<int>, int) -> bool, a: Aggregate)
    requires forall j :: 0 <= j < |shapes| ==> Shapes.NonNegative(shapes[j])
    requires |refs| == |shapes| && New(extend, shapes, refs, compatible) == Ok(a)
    ensures MaxRank(shapes) + (if extend then 1 else 0) > 0 && |shapes| > 0
    ensures a.data == PadAll(shapes, MaxRank(shapes) + (if extend then 1 else 0)) && a.extend == extend
    ensures a.ids == StoredIds(shapes, refs, MaxRank(shapes) + (if extend then 1 else 0))
    ensures Valid(a)
  {
    var rank := MaxRank(shapes) + (if extend then 1 else 0);
    var data := PadAll(shapes, rank);
    assert |shapes| > 0 && rank > 0 && a == Aggregate(data, StoredIds(shapes, refs, rank), extend) by {
      assert New(extend, shapes, refs, compatible) == Assemble(extend, data, StoredIds(shapes, refs, rank), rank, compatible);
    }
    PaddedValid(shapes, a.ids, rank, extend);
  }

  /** Two stored datasets are the same object exactly when they are the same
      position, or both are inputs of full rank passed as the same object:
      with `extend` every input is cloned, so all stored datasets differ. */
  lemma NewIds(extend: bool, shapes: seq<seq<int>>, refs: seq<int>, compatible: (seq<int>, seq<int>, int) -> bool, a: Aggregate)
    requires forall j :: 0 <= j < |shapes| ==> Shapes.NonNegative(shapes[j])
    requires |refs| == |shapes| && New(extend, shapes, refs, compatible) == Ok(a)
    ensures |a.ids| == |shapes|
    ensures forall j, k :: 0 <= j < |shapes| && 0 <= k < |shapes| ==>
      (a.ids[j] == a.ids[k] <==>
        j == k || (!extend && |shapes[j]| == |shapes[k]| == MaxRank(shapes) && refs[j] == refs[k]))
  {
    NewData(extend, shapes, refs, compatible, a);
  }

  /** The first dimension of each stored dataset. */
  function Lens(a: Aggregate): (r: seq<int>)
    requires Uniform(a.data)
    ensures |r| == |a.data| && forall j :: 0 <= j < |r| ==> r[j] >= 0
  {
    Lengths(a.data)
  }

  /** `getShape`: the first dimension counts the datasets (with `extend`) or
      sums their first dimensions; the other dimensions are the first
      dataset's. */
  function Shape(a: Aggregate): (r: seq<int>)
    requires Uniform(a.data)
  {
    [if a.extend then |a.data| else Sum(Lens(a))] + a.data[0][1..]
  }

  /** `getSize`. */
  function Size(a: Aggregate): int
    requires Uniform(a.data)
  {
    Shapes.Product(Shape(a))
  }

  /** `offset`: where each stored dataset starts along the first axis. */
  function Offset(a: Aggregate): (r: seq<int>)
    requires Uniform(a.data)
    ensures |r| == |a.data|
  {
    Offsets(Lens(a))
  }

  /** `map`: the stored dataset that owns each first-axis index. */
  function Owner(a: Aggregate): (r: seq<int>)
    requires Uniform(a.data)
  {
    Owners(Lens(a))
  }

  /** The constructor's shape: the rank is the largest input rank (plus one
      with `extend`); every input is padded with leading 1s and keeps its
      dimensions as a suffix; the first dimension counts the datasets or sums
      their first dimensions, the others come from the first dataset; the
      size is the product of the shape. */
  lemma NewShape(extend: bool, shapes: seq<seq<int>>, refs: seq<int>, compatible: (seq<int>, seq<int>, int) -> bool, a: Aggregate)
    requires forall j :: 0 <= j < |shapes| ==> Shapes.NonNegative(shapes[j])
    requires |refs| == |shapes| && New(extend, shapes, refs, compatible) == Ok(a)
    ensures Valid(a)
    ensures |Shape(a)| == MaxRank(shapes) + (if extend then 1 else 0)
    ensures |a.data| == |shapes|
    ensures forall j :: 0 <= j < |shapes| ==> |a.data[j]| == |Shape(a)| && a.data[j][|Shape(a)| - |shapes[j]|..] == shapes[j]
    ensures forall j, i :: 0 <= j < |shapes| && 0 <= i < |Shape(a)| - |shapes[j]| ==> a.data[j][i] == 1
    ensures Shape(a)[0] == (if extend then |shapes| else Sum(Lens(a)))
    ensures Shape(a)[1..] == a.data[0][1..]
    ensures Size(a) == Shapes.Product(Shape(a))
  {
    var rank := MaxRank(shapes) + (if extend then 1 else 0);
    NewPadding(extend, shapes, refs, compatible, a);
    assert |Shape(a)| == rank && Shape(a)[1..] == a.data[0][1..] by {
      assert |a.data[0]| == rank > 0;
    }
  }

  /** Every stored dataset is its input padded with leading 1s to the
      constructor's rank. */
  lemma NewPadding(extend: bool, shapes: seq<seq<int>>, refs: seq<int>, compatible: (seq<int>, seq<int>, int) -> bool, a: Aggregate)
    requires forall j :: 0 <= j < |shapes| ==> Shapes.NonNegative(shapes[j])
    requires |refs| == |shapes| && New(extend, shapes, refs, compatible) == Ok(a)
    ensures Valid(a) && |a.data| == |shapes|
    ensures forall j :: 0 <= j < |shapes| ==>
      |a.data[j]| == MaxRank(shapes) + (if extend then 1 else 0) &&
      a.data[j][MaxRank(shapes) + (if extend then 1 else 0) - |shapes[j]|..] == shapes[j]
    ensures forall j, i :: 0 <= j < |shapes| && 0 <= i < MaxRank(shapes) + (if extend then 1 else 0) - |shapes[j]| ==> a.data[j][i] == 1
  {
    NewData(extend, shapes, refs, compatible, a);
    PadAllShapes(shapes, MaxRank(shapes) + (if extend then 1 else 0));
  }

  /** `PadShape` for every input. */
  lemma PadAllShapes(shapes: seq<seq<int>>, rank: int)
    requires forall j :: 0 <= j < |shapes| ==> |shapes[j]| <= rank
    ensures forall j :: 0 <= j < |shapes| ==> |PadAll(shapes, rank)[j]| == rank && PadAll(shapes, rank)[j][rank - |shapes[j]|..] == shapes[j]
    ensures forall j, i :: 0 <= j < |shapes| && 0 <= i < rank - |shapes[j]| ==> PadAll(shapes, rank)[j][i] == 1
  {
    forall j | 0 <= j < |shapes|
      ensures |PadAll(shapes, rank)[j]| == rank && PadAll(shapes, rank)[j][rank - |shapes[j]|..] == shapes[j]
      ensures forall i :: 0 <= i < rank - |shapes[j]| ==> PadAll(shapes, rank)[j][i] == 1
    {
      PadShape(shapes[j], rank);
    }
  }

  /** Sums of all-one lengths count the datasets. */
  lemma SumOnes(xs: seq<int>)
    requires forall i :: 0 <= i < |xs| ==> xs[i] == 1
    ensures Sum(xs) == |xs|
  {
    SumToOnes(xs, |xs|);
  }

  lemma {:induction false} SumToOnes(xs: seq<int>, n: nat)
    requires n <= |xs| && forall i :: 0 <= i < |xs| ==> xs[i] == 1
    ensures SumTo(xs, n) == n
  {
    if n > 0 {
      SumToOnes(xs, n - 1);
    }
  }

  /** The offsets are the cumulative first dimensions: `offset[0] = 0` and
      `offset[i + 1] = offset[i] + len_i`. */
  lemma OffsetsOf(a: Aggregate)
    requires Valid(a)
    ensures Offset(a)[0] == 0
    ensures forall i :: 0 <= i < |a.data| - 1 ==> Offset(a)[i + 1] == Offset(a)[i] + a.data[i][0]
  {
    OffsetsCumulative(Lens(a));
  }

  /** The owner table has one entry per first-axis index, and index `k` is
      owned by dataset `i` exactly when `offset[i] <= k < offset[i] + len_i`. */
  lemma OwnersOf(a: Aggregate)
    requires Valid(a)
    ensures |Owner(a)| == Shape(a)[0]
    ensures forall k, i :: 0 <= k < |Owner(a)| && 0 <= i < |a.data| ==>
      (Owner(a)[k] == i <==> Offset(a)[i] <= k < Offset(a)[i] + a.data[i][0])
  {
    var lens := Lens(a);
    if a.extend {
      SumOnes(lens);
    }
    forall k, i | 0 <= k < |Owner(a)| && 0 <= i < |a.data|
      ensures Owner(a)[k] == i <==> Offset(a)[i] <= k < Offset(a)[i] + a.data[i][0]
    {
      OwnersExact(lens, k, i);
    }
  }

  /** The tables `getSlice` reads: every first-axis index has an owner, lies
      in its owner's range, and owners are sorted. */
  ghost predicate Table(offset: seq<int>, owner: seq<int>, lens: seq<int>)
  {
    && |offset| == |lens|
    && (forall k :: 0 <= k < |owner| ==> 0 <= owner[k] < |lens|)
    && (forall k :: 0 <= k < |owner| ==> offset[owner[k]] <= k < offset[owner[k]] + lens[owner[k]])
    && (forall k, k' :: 0 <= k <= k' < |owner| ==> owner[k] <= owner[k'])
  }

  /** A valid aggregate's tables have that shape. */
  lemma TableOf(a: Aggregate)
    requires Valid(a)
    ensures Table(Offset(a), Owner(a), Lens(a))
  {
    var lens := Lens(a);
    forall k | 0 <= k < |Owner(a)|
      ensures Offset(a)[Owner(a)[k]] <= k < Offset(a)[Owner(a)[k]] + lens[Owner(a)[k]]
    {
      OwnersExact(lens, k, Owner(a)[k]);
    }
    forall k, k' | 0 <= k <= k' < |Owner(a)|
      ensures Owner(a)[k] <= Owner(a)[k']
    {
      OwnersSorted(lens, k, k');
    }
  }

  /** One request to a stored dataset: its position, the local start, stop
      and step, and whether the piece is cast to the aggregate's element type
      (every piece but the last is). */
  datatype Piece = Piece(dataset: int, start: seq<int>, stop: seq<int>, step: seq<int>, cast: bool)

  /** `getSlice`'s defaults: a missing start is all zeros, a missing stop is the
      shape, a missing step is all ones. */
  function Defaults(a: Aggregate, start: Option<seq<int>>, stop: Option<seq<int>>, step: Option<seq<int>>): (r: (seq<int>, seq<int>, seq<int>))
    requires Uniform(a.data)
    ensures start.Some? ==> r.0 == start.value
    ensures start.None? ==> r.0 == Shapes.Origin(|Shape(a)|)
    ensures stop.Some? ==> r.1 == stop.value
    ensures stop.None? ==> r.1 == Shape(a)
    ensures step.Some? ==> r.2 == step.value
    ensures step.None? ==> |r.2| == |Shape(a)| && forall i :: 0 <= i < |r.2| ==> r.2[i] == 1
  {
    (if start.Some? then start.value else Shapes.Origin(|Shape(a)|),
     if stop.Some? then stop.value else Shape(a),
     if step.Some? then step.value else seq(|Shape(a)|, _ => 1))
  }

  /** A piece in local indices: it keeps the request's other axes, names a
      stored dataset, starts at a global index that dataset owns, less the
      dataset's offset, and does not stop before it starts. */
  ghost predicate LocalPiece(offset: seq<int>, owner: seq<int>, lens: seq<int>, st: seq<int>, sp: seq<int>, pc: Piece)
  {
    && |st| > 0 && |sp| > 0 && |pc.start| > 0 && |pc.stop| > 0
    && pc.start == st[0 := pc.start[0]] && pc.stop == sp[0 := pc.stop[0]]
    && 0 <= pc.dataset < |lens| == |offset|
    && 0 <= pc.start[0] < lens[pc.dataset]
    && pc.start[0] <= pc.stop[0]
    && 0 <= pc.start[0] + offset[pc.dataset] < |owner|
    && owner[pc.start[0] + offset[pc.dataset]] == pc.dataset
  }

  /** Every piece but the last is cast to the aggregate's element type. */
  ghost predicate CastAllButLast(ps: seq<Piece>)
  {
    |ps| > 0 && !ps[|ps| - 1].cast && forall i :: 0 <= i < |ps| - 1 ==> ps[i].cast
  }

  /** Pieces of a forward scan: datasets in increasing order, each window
      forward, all cast but the last. */
  ghost predicate Forward(ps: seq<Piece>)
  {
    && CastAllButLast(ps)
    && (forall i :: 0 <= i < |ps| - 1 ==> ps[i].dataset < ps[i + 1].dataset)
    && (forall i :: 0 <= i < |ps| ==> |ps[i].start| > 0 && |ps[i].stop| > 0 && ps[i].start[0] <= ps[i].stop[0])
  }

  /** The scan along the first axis from global index `p`, with the current
      run of indices beginning at `op`, whose owner `od` is the dataset the
      run is asked of. A new piece starts each time the owner of the index
      reached is a different object from `od`. */
  function Split(offset: seq<int>, owner: seq<int>, lens: seq<int>, ids: seq<StoredId>, st: seq<int>, sp: seq<int>, se: seq<int>,
                 od: int, op: int, p: int, fe: int, fs: int): (r: Result<seq<Piece>, AggregateError>)
    requires Table(offset, owner, lens) && |ids| == |lens| && 0 <= op < |owner| && owner[op] == od
    requires |st| > 0 && |sp| > 0 && fs != 0
    requires fs > 0 ==> op <= p
    requires op <= p || p < fe
    ensures r.Ok? ==> |r.value| > 0 && r.value[0].dataset == od && |r.value[0].start| > 0 && r.value[0].start[0] == op - offset[od]
    ensures r.Ok? && fs < 0 ==> p >= fe
    ensures r.Err? ==> r.error == IndexOutOfBounds
    decreases if fs > 0 then fe - p else p + 1
  {
    if p >= fe then
      Ok([Piece(od, st[0 := op - offset[od]], sp[0 := p - offset[od]], se, false)])
    else if p < 0 || p >= |owner| then Err(IndexOutOfBounds)
    else
      var nd := owner[p];
      if ids[nd] != ids[od] then
        var rest :- Split(offset, owner, lens, ids, st, sp, se, nd, p, p + fs, fe, fs);
        Ok([Piece(od, st[0 := op - offset[od]], sp[0 := p - offset[od]], se, true)] + rest)
      else
        Split(offset, owner, lens, ids, st, sp, se, od, op, p + fs, fe, fs)
  }

  /** Every piece of a scan is in its dataset's local indices, and every
      piece but the last is cast. */
  lemma {:induction false} SplitLocal(offset: seq<int>, owner: seq<int>, lens: seq<int>, ids: seq<StoredId>, st: seq<int>, sp: seq<int>, se: seq<int>,
                                      od: int, op: int, p: int, fe: int, fs: int)
    requires Table(offset, owner, lens) && |ids| == |lens| && 0 <= op < |owner| && owner[op] == od
    requires |st| > 0 && |sp| > 0 && fs != 0
    requires fs > 0 ==> op <= p
    requires op <= p || p < fe
    ensures var r := Split(offset, owner, lens, ids, st, sp, se, od, op, p, fe, fs);
      r.Ok? ==> CastAllButLast(r.value) && forall i :: 0 <= i < |r.value| ==> LocalPiece(offset, owner, lens, st, sp, r.value[i])
    decreases if fs > 0 then fe - p else p + 1
  {
    var r := Split(offset, owner, lens, ids, st, sp, se, od, op, p, fe, fs);
    if p < fe && 0 <= p < |owner| {
      var nd := owner[p];
      if ids[nd] != ids[od] {
        var rest := Split(offset, owner, lens, ids, st, sp, se, nd, p, p + fs, fe, fs);
        SplitLocal(offset, owner, lens, ids, st, sp, se, nd, p, p + fs, fe, fs);
        if r.Ok? {
          var pc := Piece(od, st[0 := op - offset[od]], sp[0 := p - offset[od]], se, true);
          assert r.value == [pc] + rest.value;
          assert forall i :: 1 <= i < |r.value| ==> r.value[i] == rest.value[i - 1];
        }
      } else {
        SplitLocal(offset, owner, lens, ids, st, sp, se, od, op, p + fs, fe, fs);
      }
    }
  }

  /** A forward scan asks the stored datasets in increasing order. */
  lemma {:induction false} SplitForward(offset: seq<int>, owner: seq<int>, lens: seq<int>, ids: seq<StoredId>, st: seq<int>, sp: seq<int>, se: seq<int>,
                                        od: int, op: int, p: int, fe: int, fs: int)
    requires Table(offset, owner, lens) && |ids| == |lens| && 0 <= op < |owner| && owner[op] == od
    requires |st| > 0 && |sp| > 0 && fs > 0 && op <= p
    ensures var r := Split(offset, owner, lens, ids, st, sp, se, od, op, p, fe, fs);
      r.Ok? ==> forall i :: 0 <= i < |r.value| - 1 ==> r.value[i].dataset < r.value[i + 1].dataset
    decreases fe - p
  {
    var r := Split(offset, owner, lens, ids, st, sp, se, od, op, p, fe, fs);
    if p < fe && 0 <= p < |owner| {
      var nd := owner[p];
      if ids[nd] != ids[od] {
        var rest := Split(offset, owner, lens, ids, st, sp, se, nd, p, p + fs, fe, fs);
        SplitForward(offset, owner, lens, ids, st, sp, se, nd, p, p + fs, fe, fs);
        if r.Ok? {
          assert od <= nd && od != nd;
          var pc := Piece(od, st[0 := op - offset[od]], sp[0 := p - offset[od]], se, true);
          assert r.value == [pc] + rest.value;
          assert forall i :: 1 <= i < |r.value| ==> r.value[i] == rest.value[i - 1];
        }
      } else {
        SplitForward(offset, owner, lens, ids, st, sp, se, od, op, p + fs, fe, fs);
      }
    }
  }

  /** `getSlice(start, stop, step)`: the first axis's range is cut into one
      piece per run of indices owned by one dataset object, each in that
      dataset's local first-axis indices; the other axes are passed on
      unchanged. */
  function GetSlice(a: Aggregate, start: Option<seq<int>>, stop: Option<seq<int>>, step: Option<seq<int>>): (r: Result<seq<Piece>, AggregateError>)
    requires Valid(a)
    ensures r.Ok? ==> CastAllButLast(r.value)
    ensures r.Err? && r.error == Diverges ==>
      var (st, sp, se) := Defaults(a, start, stop, step); |st| > 0 && |sp| > 0 && |se| > 0 && se[0] == 0 && st[0] < sp[0]
  {
    TableOf(a);
    var (st, sp, se) := Defaults(a, start, stop, step);
    if |st| == 0 || |sp| == 0 || |se| == 0 then Err(IndexOutOfBounds)
    else
      var fb, fe, fs := st[0], sp[0], se[0];
      var offset, owner := Offset(a), Owner(a);
      if fb < 0 || fb >= |owner| then Err(IndexOutOfBounds)
      else if fs == 0 && fb < fe then Err(Diverges)
      else if fs == 0 then
        Ok([Piece(owner[fb], st[0 := fb - offset[owner[fb]]], sp[0 := fb - offset[owner[fb]]], se, false)])
      else
        SplitLocal(offset, owner, Lens(a), a.ids, st, sp, se, owner[fb], fb, fb, fe, fs);
        Split(offset, owner, Lens(a), a.ids, st, sp, se, owner[fb], fb, fb, fe, fs)
  }

  /** Every piece of a slice is in its dataset's local indices: the global
      first-axis index it starts at is owned by that dataset, the local start
      is that index less the dataset's offset, and the piece does not stop
      before it starts. The first piece starts at the requested start. */
  lemma SliceLocal(a: Aggregate, start: Option<seq<int>>, stop: Option<seq<int>>, step: Option<seq<int>>)
    requires Valid(a) && GetSlice(a, start, stop, step).Ok?
    ensures var ps := GetSlice(a, start, stop, step).value;
      var (st, sp, _) := Defaults(a, start, stop, step);
      && |ps| > 0 && |st| > 0
      && 0 <= st[0] < |Owner(a)| && ps[0].dataset == Owner(a)[st[0]]
      && |ps[0].start| > 0 && ps[0].start[0] == st[0] - Offset(a)[ps[0].dataset]
      && forall i :: 0 <= i < |ps| ==> LocalPiece(Offset(a), Owner(a), Lens(a), st, sp, ps[i])
  {
    TableOf(a);
    var (st, sp, se) := Defaults(a, start, stop, step);
    if se[0] != 0 {
      SplitLocal(Offset(a), Owner(a), Lens(a), a.ids, st, sp, se, Owner(a)[st[0]], st[0], st[0], sp[0], se[0]);
    }
  }

  /** A forward step cuts the slice into pieces in increasing dataset order,
      each a forward window, all cast to the aggregate's type but the last. */
  lemma ForwardPieces(a: Aggregate, start: Option<seq<int>>, stop: Option<seq<int>>, step: seq<int>)
    requires Valid(a) && |step| > 0 && step[0] > 0
    requires GetSlice(a, start, stop, Some(step)).Ok?
    ensures Forward(GetSlice(a, start, stop, Some(step)).value)
  {
    TableOf(a);
    var (st, sp, se) := Defaults(a, start, stop, Some(step));
    SplitForward(Offset(a), Owner(a), Lens(a), a.ids, st, sp, se, Owner(a)[st[0]], st[0], st[0], sp[0], step[0]);
    SplitLocal(Offset(a), Owner(a), Lens(a), a.ids, st, sp, se, Owner(a)[st[0]], st[0], st[0], sp[0], step[0]);
  }

  /** A step that does not move forward asks for nothing: the only slices
      that succeed stop at or before their start and are one empty piece at
      the start. With a start inside the aggregate such a slice always
      succeeds; any other request with a negative step runs off the owner
      table, and with a zero step never ends. */
  lemma NonForwardEmpty(a: Aggregate, start: Option<seq<int>>, stop: Option<seq<int>>, step: seq<int>)
    requires Valid(a) && |step| > 0 && step[0] <= 0
    ensures var r := GetSlice(a, start, stop, Some(step));
      var (st, sp, _) := Defaults(a, start, stop, Some(step));
      && (r.Ok? ==> |st| > 0 && |sp| > 0 && sp[0] <= st[0] && |r.value| == 1 &&
                    |r.value[0].start| > 0 && |r.value[0].stop| > 0 && r.value[0].start[0] == r.value[0].stop[0])
      && (|st| > 0 && |sp| > 0 && 0 <= st[0] < Shape(a)[0] && sp[0] <= st[0] ==> r.Ok?)
      && (|st| > 0 && |sp| > 0 && st[0] < sp[0] ==> r.Err?)
  {
    NonForwardOne(a, start, stop, step);
    NonForwardSucceeds(a, start, stop, step);
    NonForwardFails(a, start, stop, step);
  }

  /** A successful non-forward slice is one empty piece. */
  lemma NonForwardOne(a: Aggregate, start: Option<seq<int>>, stop: Option<seq<int>>, step: seq<int>)
    requires Valid(a) && |step| > 0 && step[0] <= 0
    ensures var r := GetSlice(a, start, stop, Some(step));
      var (st, sp, _) := Defaults(a, start, stop, Some(step));
      r.Ok? ==> |st| > 0 && |sp| > 0 && sp[0] <= st[0] && |r.value| == 1 &&
                |r.value[0].start| > 0 && |r.value[0].stop| > 0 && r.value[0].start[0] == r.value[0].stop[0]
  {
    if step[0] < 0 {
      BackwardOne(a, start, stop, step);
    }
  }

  /** A successful slice with a negative step is one empty piece. */
  lemma BackwardOne(a: Aggregate, start: Option<seq<int>>, stop: Option<seq<int>>, step: seq<int>)
    requires Valid(a) && |step| > 0 && step[0] < 0
    ensures var r := GetSlice(a, start, stop, Some(step));
      var (st, sp, _) := Defaults(a, start, stop, Some(step));
      r.Ok? ==> |st| > 0 && |sp| > 0 && sp[0] <= st[0] && |r.value| == 1 &&
                |r.value[0].start| > 0 && |r.value[0].stop| > 0 && r.value[0].start[0] == r.value[0].stop[0]
  {
    TableOf(a);
    var (st, sp, se) := Defaults(a, start, stop, Some(step));
    if |st| > 0 && |sp| > 0 && 0 <= st[0] < |Owner(a)| {
      var offset, owner, lens := Offset(a), Owner(a), Lens(a);
      GetSliceSplit(a, start, stop, Some(step));
      if st[0] < sp[0] {
        SplitBackward(offset, owner, lens, a.ids, st, sp, se, owner[st[0]], st[0], st[0], sp[0], step[0]);
      } else {
        SplitAtStop(offset, owner, lens, a.ids, st, sp, se, owner[st[0]], st[0], sp[0], step[0]);
      }
    }
  }

  /** A scan that starts at or past its stop is the one empty piece at its start. */
  lemma SplitAtStop(offset: seq<int>, owner: seq<int>, lens: seq<int>, ids: seq<StoredId>, st: seq<int>, sp: seq<int>, se: seq<int>,
                    od: int, op: int, fe: int, fs: int)
    requires Table(offset, owner, lens) && |ids| == |lens| && 0 <= op < |owner| && owner[op] == od
    requires |st| > 0 && |sp| > 0 && fs != 0 && op >= fe
    ensures var r := Split(offset, owner, lens, ids, st, sp, se, od, op, op, fe, fs);
      r.Ok? && |r.value| == 1 && r.value[0].start == st[0 := op - offset[od]] && r.value[0].stop == sp[0 := op - offset[od]]
  {
  }

  /** A non-forward slice from a start inside the aggregate that stops at or
      before it succeeds. */
  lemma NonForwardSucceeds(a: Aggregate, start: Option<seq<int>>, stop: Option<seq<int>>, step: seq<int>)
    requires Valid(a) && |step| > 0 && step[0] <= 0
    ensures var (st, sp, _) := Defaults(a, start, stop, Some(step));
      |st| > 0 && |sp| > 0 && 0 <= st[0] < Shape(a)[0] && sp[0] <= st[0] ==> GetSlice(a, start, stop, Some(step)).Ok?
  {
    TableOf(a);
    OwnersOf(a);
  }

  /** A non-forward slice whose start is below its stop fails. */
  lemma NonForwardFails(a: Aggregate, start: Option<seq<int>>, stop: Option<seq<int>>, step: seq<int>)
    requires Valid(a) && |step| > 0 && step[0] <= 0
    ensures var (st, sp, _) := Defaults(a, start, stop, Some(step));
      |st| > 0 && |sp| > 0 && st[0] < sp[0] ==> GetSlice(a, start, stop, Some(step)).Err?
  {
    TableOf(a);
    var (st, sp, se) := Defaults(a, start, stop, Some(step));
    if |st| > 0 && |sp| > 0 && 0 <= st[0] < |Owner(a)| && step[0] < 0 && st[0] < sp[0] {
      GetSliceSplit(a, start, stop, Some(step));
      SplitBackward(Offset(a), Owner(a), Lens(a), a.ids, st, sp, se, Owner(a)[st[0]], st[0], st[0], sp[0], step[0]);
    }
  }

  /** With a start inside the aggregate and a non-zero step, `getSlice` is
      the scan from the start. */
  lemma GetSliceSplit(a: Aggregate, start: Option<seq<int>>, stop: Option<seq<int>>, step: Option<seq<int>>)
    requires Valid(a)
    ensures var (st, sp, se) := Defaults(a, start, stop, step);
      |st| > 0 && |sp| > 0 && |se| > 0 && 0 <= st[0] < |Owner(a)| && se[0] != 0 ==>
        Table(Offset(a), Owner(a), Lens(a)) &&
        GetSlice(a, start, stop, step) == Split(Offset(a), Owner(a), Lens(a), a.ids, st, sp, se, Owner(a)[st[0]], st[0], st[0], sp[0], se[0])
  {
    TableOf(a);
  }

  /** With a negative step from below the stop the scan only moves away from
      the stop, so it runs off the owner table. */
  lemma {:induction false} SplitBackward(offset: seq<int>, owner: seq<int>, lens: seq<int>, ids: seq<StoredId>, st: seq<int>, sp: seq<int>, se: seq<int>,
                                         od: int, op: int, p: int, fe: int, fs: int)
    requires Table(offset, owner, lens) && |ids| == |lens| && 0 <= op < |owner| && owner[op] == od
    requires |st| > 0 && |sp| > 0 && fs < 0 && p < fe
    ensures Split(offset, owner, lens, ids, st, sp, se, od, op, p, fe, fs).Err?
    decreases p + 1
  {
    if 0 <= p < |owner| {
      var nd := owner[p];
      if ids[nd] != ids[od] {
        SplitBackward(offset, owner, lens, ids, st, sp, se, nd, p, p + fs, fe, fs);
      } else {
        SplitBackward(offset, owner, lens, ids, st, sp, se, od, op, p + fs, fe, fs);
      }
    }
  }

  /** The global first-axis index a piece starts at. */
  ghost function GStart(offset: seq<int>, pc: Piece): int
    requires |pc.start| > 0 && 0 <= pc.dataset < |offset|
  {
    pc.start[0] + offset[pc.dataset]
  }

  /** The global first-axis index a piece stops at. */
  ghost function GStop(offset: seq<int>, pc: Piece): int
    requires |pc.stop| > 0 && 0 <= pc.dataset < |offset|
  {
    pc.stop[0] + offset[pc.dataset]
  }

  /** Index `q` is one the slice `fb:fe:fs` visits. */
  ghost predicate OnLattice(q: int, fb: int, fs: int)
    requires fs > 0
  {
    q >= fb && (q - fb) % fs == 0
  }

  /** What a forward scan of `fb:fe:fs` from `from` covers: the pieces' global
      windows follow each other without gap or overlap, each but the last is
      non-empty, consecutive pieces are asked of different objects, the last
      window stops at the first index of the slice at or past `fe`, and every
      visited index in a window is owned by the same object as the piece's
      dataset. */
  ghost predicate Covers(offset: seq<int>, owner: seq<int>, ids: seq<StoredId>, ps: seq<Piece>, from: int, fb: int, fe: int, fs: int)
    requires fs > 0
  {
    && Shaped(offset, ids, ps)
    && GStart(offset, ps[0]) == from
    && Chained(offset, ids, ps, fb, fs)
    && Ends(offset, ps, fb, fe, fs)
    && Owned(offset, owner, ids, ps, fb, fs)
  }

  /** Pieces with a first-axis start and stop, naming stored datasets. */
  ghost predicate Shaped(offset: seq<int>, ids: seq<StoredId>, ps: seq<Piece>)
  {
    && |ps| > 0
    && forall i :: 0 <= i < |ps| ==>
         |ps[i].start| > 0 && |ps[i].stop| > 0 && 0 <= ps[i].dataset < |offset| && ps[i].dataset < |ids|
  }

  /** Windows that start on the slice, follow each other, are non-empty but
      for the last, and change object from one to the next. */
  ghost predicate Chained(offset: seq<int>, ids: seq<StoredId>, ps: seq<Piece>, fb: int, fs: int)
    requires fs > 0 && Shaped(offset, ids, ps)
  {
    && (forall i :: 0 <= i < |ps| ==>
          OnLattice(GStart(offset, ps[i]), fb, fs) && GStart(offset, ps[i]) <= GStop(offset, ps[i]))
    && (forall i :: 0 <= i < |ps| - 1 ==>
          GStart(offset, ps[i]) < GStop(offset, ps[i]) && GStop(offset, ps[i]) == GStart(offset, ps[i + 1]))
    && (forall i :: 0 <= i < |ps| - 1 ==> ids[ps[i].dataset] != ids[ps[i + 1].dataset])
  }

  /** The last window stops at the first index of the slice at or past `fe`. */
  ghost predicate Ends(offset: seq<int>, ps: seq<Piece>, fb: int, fe: int, fs: int)
    requires fs > 0 && |ps| > 0 && |ps[|ps| - 1].stop| > 0 && 0 <= ps[|ps| - 1].dataset < |offset|
  {
    && OnLattice(GStop(offset, ps[|ps| - 1]), fb, fs)
    && GStop(offset, ps[|ps| - 1]) >= fe
    && (GStop(offset, ps[|ps| - 1]) == fb || GStop(offset, ps[|ps| - 1]) - fs < fe)
  }

  /** Every visited index in a window is owned by the piece's object. */
  ghost predicate Owned(offset: seq<int>, owner: seq<int>, ids: seq<StoredId>, ps: seq<Piece>, fb: int, fs: int)
    requires fs > 0 && Shaped(offset, ids, ps)
  {
    forall i, q :: 0 <= i < |ps| && GStart(offset, ps[i]) <= q < GStop(offset, ps[i]) && OnLattice(q, fb, fs) ==>
      0 <= q < |owner| && 0 <= owner[q] < |ids| && ids[owner[q]] == ids[ps[i].dataset]
  }

  /** One window covers a scan that ends at its stop. */
  lemma CoversOne(offset: seq<int>, owner: seq<int>, ids: seq<StoredId>, pc: Piece, from: int, fb: int, fe: int, fs: int)
    requires fs > 0 && |pc.start| > 0 && |pc.stop| > 0 && 0 <= pc.dataset < |offset| && pc.dataset < |ids|
    requires GStart(offset, pc) == from <= GStop(offset, pc)
    requires OnLattice(from, fb, fs) && OnLattice(GStop(offset, pc), fb, fs)
    requires GStop(offset, pc) >= fe && (GStop(offset, pc) == fb || GStop(offset, pc) - fs < fe)
    requires forall q :: from <= q < GStop(offset, pc) && OnLattice(q, fb, fs) ==>
      0 <= q < |owner| && 0 <= owner[q] < |ids| && ids[owner[q]] == ids[pc.dataset]
    ensures Covers(offset, owner, ids, [pc], from, fb, fe, fs)
  {
  }

  /** A non-empty window followed by a covering scan from its stop, asked of
      a different object, covers the scan from its start. */
  lemma CoversCons(offset: seq<int>, owner: seq<int>, ids: seq<StoredId>, pc: Piece, rest: seq<Piece>, from: int, fb: int, fe: int, fs: int)
    requires fs > 0 && |pc.start| > 0 && |pc.stop| > 0 && 0 <= pc.dataset < |offset| && pc.dataset < |ids|
    requires GStart(offset, pc) == from < GStop(offset, pc) && OnLattice(from, fb, fs)
    requires Covers(offset, owner, ids, rest, GStop(offset, pc), fb, fe, fs)
    requires ids[pc.dataset] != ids[rest[0].dataset]
    requires forall q :: from <= q < GStop(offset, pc) && OnLattice(q, fb, fs) ==>
      0 <= q < |owner| && 0 <= owner[q] < |ids| && ids[owner[q]] == ids[pc.dataset]
    ensures Covers(offset, owner, ids, [pc] + rest, from, fb, fe, fs)
  {
    var ps := [pc] + rest;
    assert Shaped(offset, ids, ps) by {
      assert forall i :: 1 <= i < |ps| ==> ps[i] == rest[i - 1];
    }
    assert ps[|ps| - 1] == rest[|rest| - 1];
    ChainedCons(offset, ids, pc, rest, fb, fs);
    OwnedCons(offset, owner, ids, pc, rest, fb, fs);
  }

  lemma ChainedCons(offset: seq<int>, ids: seq<StoredId>, pc: Piece, rest: seq<Piece>, fb: int, fs: int)
    requires fs > 0 && |pc.start| > 0 && |pc.stop| > 0 && 0 <= pc.dataset < |offset| && pc.dataset < |ids|
    requires Shaped(offset, ids, rest) && Shaped(offset, ids, [pc] + rest)
    requires Chained(offset, ids, rest, fb, fs)
    requires OnLattice(GStart(offset, pc), fb, fs) && GStart(offset, pc) < GStop(offset, pc) == GStart(offset, rest[0])
    requires ids[pc.dataset] != ids[rest[0].dataset]
    ensures Chained(offset, ids, [pc] + rest, fb, fs)
  {
    var ps := [pc] + rest;
    assert forall i :: 1 <= i < |ps| ==> ps[i] == rest[i - 1];
  }

  lemma OwnedCons(offset: seq<int>, owner: seq<int>, ids: seq<StoredId>, pc: Piece, rest: seq<Piece>, fb: int, fs: int)
    requires fs > 0 && |pc.start| > 0 && |pc.stop| > 0 && 0 <= pc.dataset < |offset| && pc.dataset < |ids|
    requires Shaped(offset, ids, rest) && Shaped(offset, ids, [pc] + rest)
    requires Owned(offset, owner, ids, rest, fb, fs)
    requires forall q :: GStart(offset, pc) <= q < GStop(offset, pc) && OnLattice(q, fb, fs) ==>
      0 <= q < |owner| && 0 <= owner[q] < |ids| && ids[owner[q]] == ids[pc.dataset]
    ensures Owned(offset, owner, ids, [pc] + rest, fb, fs)
  {
    var ps := [pc] + rest;
    assert forall i :: 1 <= i < |ps| ==> ps[i] == rest[i - 1];
  }


  /** The index after a visited index is visited. */
  lemma LatticeNext(p: int, fb: int, fs: int)
    requires fs > 0 && OnLattice(p, fb, fs)
    ensures OnLattice(p + fs, fb, fs)
  {
    var k := (p - fb) / fs;
    assert p - fb == fs * k;
    var d, r := (p + fs - fb) / fs, (p + fs - fb) % fs;
    assert p + fs - fb == fs * d + r;
    assert r == fs * (k + 1 - d);
    MultipleBelow(r, fs, k + 1 - d);
  }

  /** The only multiple of `fs` in `[0, fs)` is 0. */
  lemma MultipleBelow(x: int, fs: int, t: int)
    requires fs > 0 && 0 <= x < fs && x == fs * t
    ensures x == 0
  {
  }

  /** The scan covers the slice: by induction along the scan, every visited
      index from `op` up to `p` is owned by the run's object. */
  lemma {:induction false} SplitCovers(offset: seq<int>, owner: seq<int>, lens: seq<int>, ids: seq<StoredId>, st: seq<int>, sp: seq<int>, se: seq<int>,
                                       od: int, op: int, p: int, fe: int, fs: int, fb: int)
    requires Table(offset, owner, lens) && |ids| == |lens| && 0 <= op < |owner| && owner[op] == od
    requires |st| > 0 && |sp| > 0 && fs > 0
    requires op <= p && OnLattice(op, fb, fs) && OnLattice(p, fb, fs)
    requires p == fb || p - fs < fe
    requires forall q :: op <= q < p && OnLattice(q, fb, fs) ==>
      0 <= q < |owner| && 0 <= owner[q] < |ids| && ids[owner[q]] == ids[od]
    requires Split(offset, owner, lens, ids, st, sp, se, od, op, p, fe, fs).Ok?
    ensures Covers(offset, owner, ids, Split(offset, owner, lens, ids, st, sp, se, od, op, p, fe, fs).value, op, fb, fe, fs)
    decreases fe - p
  {
    var r := Split(offset, owner, lens, ids, st, sp, se, od, op, p, fe, fs);
    if p >= fe {
      var pc := Piece(od, st[0 := op - offset[od]], sp[0 := p - offset[od]], se, false);
      assert r.value == [pc];
      CoversOne(offset, owner, ids, pc, op, fb, fe, fs);
    } else {
      var nd := owner[p];
      LatticeNext(p, fb, fs);
      if ids[nd] != ids[od] {
        var pc := Piece(od, st[0 := op - offset[od]], sp[0 := p - offset[od]], se, true);
        var rest := Split(offset, owner, lens, ids, st, sp, se, nd, p, p + fs, fe, fs);
        assert rest.Ok? && r.value == [pc] + rest.value;
        assert op < p;
        forall q | p <= q < p + fs && OnLattice(q, fb, fs)
          ensures 0 <= q < |owner| && 0 <= owner[q] < |ids| && ids[owner[q]] == ids[nd]
        {
          LatticeGap(q, p, fb, fs);
        }
        SplitCovers(offset, owner, lens, ids, st, sp, se, nd, p, p + fs, fe, fs, fb);
        assert GStart(offset, pc) == op && GStop(offset, pc) == p;
        assert rest.value[0].dataset == nd;
        CoversCons(offset, owner, ids, pc, rest.value, op, fb, fe, fs);
      } else {
        forall q | op <= q < p + fs && OnLattice(q, fb, fs)
          ensures 0 <= q < |owner| && 0 <= owner[q] < |ids| && ids[owner[q]] == ids[od]
        {
          if q >= p {
            LatticeGap(q, p, fb, fs);
          }
        }
        SplitCovers(offset, owner, lens, ids, st, sp, se, od, op, p + fs, fe, fs, fb);
      }
    }
  }

  /** Between two consecutive indices of the slice there is no other. */
  lemma LatticeGap(q: int, p: int, fb: int, fs: int)
    requires fs > 0 && OnLattice(q, fb, fs) && OnLattice(p, fb, fs) && p <= q < p + fs
    ensures q == p
  {
    var m, n := (q - fb) / fs, (p - fb) / fs;
    assert q - fb == fs * m && p - fb == fs * n;
    assert q - p == fs * (m - n);
    MultipleBelow(q - p, fs, m - n);
  }

  /** A slice with a positive step covers exactly its own indices: its
      pieces' windows run from the requested start to the first index of the
      slice at or past the stop, one after another, cut exactly where the
      owning object changes, and every index the slice visits is owned by the
      same object as the piece that asks for it. */
  lemma SliceCovers(a: Aggregate, start: Option<seq<int>>, stop: Option<seq<int>>, step: seq<int>)
    requires Valid(a) && |step| > 0 && step[0] > 0
    requires GetSlice(a, start, stop, Some(step)).Ok?
    ensures var (st, sp, _) := Defaults(a, start, stop, Some(step));
      |st| > 0 && |sp| > 0 &&
      Covers(Offset(a), Owner(a), a.ids, GetSlice(a, start, stop, Some(step)).value, st[0], st[0], sp[0], step[0])
  {
    TableOf(a);
    var (st, sp, se) := Defaults(a, start, stop, Some(step));
    assert OnLattice(st[0], st[0], step[0]);
    SplitCovers(Offset(a), Owner(a), Lens(a), a.ids, st, sp, se, Owner(a)[st[0]], st[0], st[0], sp[0], step[0], st[0]);
  }

  /** Global index `q` lies in the window of piece `pc`. */
  ghost predicate InPiece(offset: seq<int>, pc: Piece, q: int)
  {
    |pc.start| > 0 && |pc.stop| > 0 && 0 <= pc.dataset < |offset| && GStart(offset, pc) <= q < GStop(offset, pc)
  }

  /** Every index a forward slice visits lies in exactly one piece, and that
      piece is asked of an object that owns the index. When the stored
      datasets are distinct objects, the piece's dataset is the owner itself. */
  lemma SliceExactlyOnce(a: Aggregate, start: Option<seq<int>>, stop: Option<seq<int>>, step: seq<int>, q: int)
    requires Valid(a) && |step| > 0 && step[0] > 0
    requires GetSlice(a, start, stop, Some(step)).Ok?
    requires var (st, sp, _) := Defaults(a, start, stop, Some(step));
      |st| > 0 && |sp| > 0 && OnLattice(q, st[0], step[0]) && q < sp[0]
    ensures var ps := GetSlice(a, start, stop, Some(step)).value;
      && (exists i :: 0 <= i < |ps| && InPiece(Offset(a), ps[i], q))
      && (forall i, i' :: 0 <= i < i' < |ps| ==> !(InPiece(Offset(a), ps[i], q) && InPiece(Offset(a), ps[i'], q)))
      && (forall i :: 0 <= i < |ps| && InPiece(Offset(a), ps[i], q) ==>
            0 <= q < |Owner(a)| && a.ids[Owner(a)[q]] == a.ids[ps[i].dataset])
      && ((forall j, k :: 0 <= j < k < |a.ids| ==> a.ids[j] != a.ids[k]) ==>
            forall i :: 0 <= i < |ps| && InPiece(Offset(a), ps[i], q) ==> Owner(a)[q] == ps[i].dataset)
  {
    var (st, sp, _) := Defaults(a, start, stop, Some(step));
    var ps := GetSlice(a, start, stop, Some(step)).value;
    SliceCovers(a, start, stop, step);
    CoversOnce(Offset(a), Owner(a), a.ids, ps, st[0], sp[0], step[0], q);
    OwnerInRange(a, q);
  }

  /** In a covering scan each visited index below the stop lies in exactly
      one window, and its owner is the same object as that window's dataset. */
  lemma CoversOnce(offset: seq<int>, owner: seq<int>, ids: seq<StoredId>, ps: seq<Piece>, fb: int, fe: int, fs: int, q: int)
    requires fs > 0 && Covers(offset, owner, ids, ps, fb, fb, fe, fs)
    requires OnLattice(q, fb, fs) && q < fe
    ensures exists i :: 0 <= i < |ps| && InPiece(offset, ps[i], q)
    ensures forall i, i' :: 0 <= i < i' < |ps| ==> !(InPiece(offset, ps[i], q) && InPiece(offset, ps[i'], q))
    ensures forall i :: 0 <= i < |ps| && InPiece(offset, ps[i], q) ==>
      0 <= q < |owner| && 0 <= owner[q] < |ids| && ids[owner[q]] == ids[ps[i].dataset]
  {
    assert GStart(offset, ps[0]) <= q < GStop(offset, ps[|ps| - 1]);
    WindowsOnce(offset, ps, q);
  }

  /** Windows that follow each other hold each index between the first
      start and the last stop exactly once. */
  lemma WindowsOnce(offset: seq<int>, ps: seq<Piece>, q: int)
    requires Windows(offset, ps)
    requires GStart(offset, ps[0]) <= q < GStop(offset, ps[|ps| - 1])
    ensures exists i :: 0 <= i < |ps| && InPiece(offset, ps[i], q)
    ensures forall i, i' :: 0 <= i < i' < |ps| ==> !(InPiece(offset, ps[i], q) && InPiece(offset, ps[i'], q))
  {
    WindowsFind(offset, ps, q, 0);
    forall i, i' | 0 <= i < i' < |ps|
      ensures !(InPiece(offset, ps[i], q) && InPiece(offset, ps[i'], q))
    {
      WindowsSorted(offset, ps, i, i');
    }
  }

  /** Non-empty windows with no gap between consecutive ones. */
  ghost predicate Windows(offset: seq<int>, ps: seq<Piece>)
  {
    && |ps| > 0
    && (forall i :: 0 <= i < |ps| ==> |ps[i].start| > 0 && |ps[i].stop| > 0 && 0 <= ps[i].dataset < |offset|)
    && (forall i :: 0 <= i < |ps| ==> GStart(offset, ps[i]) <= GStop(offset, ps[i]))
    && (forall i :: 0 <= i < |ps| - 1 ==> GStop(offset, ps[i]) == GStart(offset, ps[i + 1]))
  }

  /** An index at or past window `from`'s start and before the last stop
      lies in a window from `from` on. */
  lemma {:induction false} WindowsFind(offset: seq<int>, ps: seq<Piece>, q: int, from: nat)
    requires Windows(offset, ps) && from < |ps|
    requires GStart(offset, ps[from]) <= q < GStop(offset, ps[|ps| - 1])
    ensures exists i :: from <= i < |ps| && InPiece(offset, ps[i], q)
    decreases |ps| - from
  {
    if q < GStop(offset, ps[from]) {
      assert InPiece(offset, ps[from], q);
    } else {
      WindowsFind(offset, ps, q, from + 1);
    }
  }

  /** A window stops at or before any later window starts. */
  lemma {:induction false} WindowsSorted(offset: seq<int>, ps: seq<Piece>, i: nat, j: nat)
    requires Windows(offset, ps) && i < j < |ps|
    ensures GStop(offset, ps[i]) <= GStart(offset, ps[j])
    decreases j - i
  {
    if i + 1 < j {
      WindowsSorted(offset, ps, i, j - 1);
    }
  }

  /** When every stored dataset is one object, a forward slice is a single
      request, even where it crosses from one stored position to the next. */
  lemma OneObjectOnePiece(a: Aggregate, start: Option<seq<int>>, stop: Option<seq<int>>, step: seq<int>)
    requires Valid(a) && |step| > 0 && step[0] > 0
    requires GetSlice(a, start, stop, Some(step)).Ok?
    requires forall j :: 0 <= j < |a.ids| ==> a.ids[j] == a.ids[0]
    ensures |GetSlice(a, start, stop, Some(step)).value| == 1
  {
    var (st, sp, _) := Defaults(a, start, stop, Some(step));
    SliceCovers(a, start, stop, step);
    CoversOneObject(Offset(a), Owner(a), a.ids, GetSlice(a, start, stop, Some(step)).value, st[0], st[0], sp[0], step[0]);
  }

  /** Consecutive pieces of a scan are different objects, so a scan over
      one object is a single piece. */
  lemma CoversOneObject(offset: seq<int>, owner: seq<int>, ids: seq<StoredId>, ps: seq<Piece>, from: int, fb: int, fe: int, fs: int)
    requires fs > 0 && Covers(offset, owner, ids, ps, from, fb, fe, fs)
    requires forall i :: 0 <= i < |ps| ==> ids[ps[i].dataset] == ids[ps[0].dataset]
    ensures |ps| == 1
  {
    CoversNeighbours(offset, owner, ids, ps, from, fb, fe, fs);
  }

  lemma CoversNeighbours(offset: seq<int>, owner: seq<int>, ids: seq<StoredId>, ps: seq<Piece>, from: int, fb: int, fe: int, fs: int)
    requires fs > 0 && Covers(offset, owner, ids, ps, from, fb, fe, fs)
    ensures |ps| > 1 ==> 0 <= ps[0].dataset < |ids| && 0 <= ps[1].dataset < |ids| && ids[ps[0].dataset] != ids[ps[1].dataset]
  {
  }

  /** The same full-rank input passed twice is stored once as one object,
      so any forward slice of the pair is one request. */
  lemma RepeatedInputOnePiece(s: seq<int>, ref: int, compatible: (seq<int>, seq<int>, int) -> bool, a: Aggregate,
                              start: Option<seq<int>>, stop: Option<seq<int>>, step: seq<int>)
    requires Shapes.NonNegative(s) && New(false, [s, s], [ref, ref], compatible) == Ok(a)
    requires |step| > 0 && step[0] > 0
    ensures Valid(a) && (GetSlice(a, start, stop, Some(step)).Ok? ==> |GetSlice(a, start, stop, Some(step)).value| == 1)
  {
    assert [s, s][..1] == [s] && [s][..0] == [];
    assert MaxRank([s, s]) == |s| by {
      assert MaxRankFrom([s, s], 2) == -1;
      assert MaxRankFrom([s, s], 1) == |s|;
    }
    NewIds(false, [s, s], [ref, ref], compatible, a);
    NewData(false, [s, s], [ref, ref], compatible, a);
    if GetSlice(a, start, stop, Some(step)).Ok? {
      OneObjectOnePiece(a, start, stop, step);
    }
  }

  /** Owners are positions of stored datasets. */
  lemma OwnerInRange(a: Aggregate, q: int)
    requires Valid(a)
    ensures 0 <= q < |Owner(a)| ==> 0 <= Owner(a)[q] < |a.ids|
  {
  }

  /** The operations the aggregate does not implement. */
  datatype Operation = SetShape | Squeeze | SqueezeFromEnd | GetMetadata | SetMetadata | Clone

  /** Each of them throws UnsupportedOperationException, whatever the aggregate. */
  function Perform(a: Aggregate, op: Operation): (r: Result<Aggregate, AggregateError>)
    ensures r == Err(UnsupportedOperation)
  {
    Err(UnsupportedOperation)
  }
}

=== FILE: circular_roi_helper.dfy ===
/** The Java helper for circular regions of interest: a record tagged with
    CircularROI's canonical name whose name, start point, plot flag and
    radius are each flattened through the root flattener it is given. */
module CircularRoiHelper {
  import opened Wrappers
  import opened JavaValues
  import MapFlatteningHelper

  const CircularRoiTypeName := "uk.ac.diamond.scisoft.analysis.roi.CircularROI"
  const NameKey := "name"
  const SptKey := "spt"
  const PlotKey := "plot"
  const RadKey := "rad"

  /** The root flattener's conversions as the helper sees them. */
  type Conversion = JObject -> Result<JObject, JError>

  function NameObject(name: Option<string>): JObject
  {
    match name
    case None => Null
    case Some(s) => JString(s)
  }

  function PointObject(point: Option<seq<real>>): JObject
  {
    match point
    case None => Null
    case Some(xs) => JDoubleArray(xs)
  }

  /** The record with its four flattened fields. */
  function Record(name: JObject, spt: JObject, plot: JObject, rad: JObject): JObject
  {
    var m := MapFlatteningHelper.CreateMap(CircularRoiTypeName).entries;
    JMap(MapPut(MapPut(MapPut(MapPut(m, JString(NameKey), name), JString(SptKey), spt), JString(PlotKey), plot), JString(RadKey), rad))
  }

  /** The four puts add four new entries after the type tag. */
  lemma RecordEntries(name: JObject, spt: JObject, plot: JObject, rad: JObject)
    ensures Record(name, spt, plot, rad) ==
      JMap([(JString(TypeKey), JString(CircularRoiTypeName)), (JString(NameKey), name), (JString(SptKey), spt),
            (JString(PlotKey), plot), (JString(RadKey), rad)])
  {
    var m0 := MapFlatteningHelper.CreateMap(CircularRoiTypeName).entries;
    MapPutNew(m0, JString(NameKey), name);
    var m1 := m0 + [(JString(NameKey), name)];
    MapPutNew(m1, JString(SptKey), spt);
    var m2 := m1 + [(JString(SptKey), spt)];
    MapPutNew(m2, JString(PlotKey), plot);
    var m3 := m2 + [(JString(PlotKey), plot)];
    MapPutNew(m3, JString(RadKey), rad);
  }

  /** Each field of `Record` is read back under its own key, and the record carries the type tag. */
  lemma RecordFields(name: JObject, spt: JObject, plot: JObject, rad: JObject)
    ensures Record(name, spt, plot, rad).JMap?
    ensures MapGet(Record(name, spt, plot, rad).entries, JString(TypeKey)) == JString(CircularRoiTypeName)
    ensures MapGet(Record(name, spt, plot, rad).entries, JString(NameKey)) == name
    ensures MapGet(Record(name, spt, plot, rad).entries, JString(SptKey)) == spt
    ensures MapGet(Record(name, spt, plot, rad).entries, JString(PlotKey)) == plot
    ensures MapGet(Record(name, spt, plot, rad).entries, JString(RadKey)) == rad
  {
    var e := [(JString(TypeKey), JString(CircularRoiTypeName)), (JString(NameKey), name), (JString(SptKey), spt),
              (JString(PlotKey), plot), (JString(RadKey), rad)];
    assert Record(name, spt, plot, rad) == JMap(e) by {
      RecordEntries(name, spt, plot, rad);
    }
    MapGetAt(e, JString(TypeKey), 0);
    MapGetAt(e, JString(NameKey), 1);
    MapGetAt(e, JString(SptKey), 2);
    MapGetAt(e, JString(PlotKey), 3);
    MapGetAt(e, JString(RadKey), 4);
  }

  /** `flatten`: casts the object to a circular ROI (null fails on first
      use), then flattens its fields in order through `root`, stopping at the
      first failure. */
  function Flatten(obj: JObject, root: Conversion): (r: Result<JObject, JError>)
    ensures r.Ok? ==> obj.JCircularRoi? && MapFlatteningHelper.CanUnflatten(CircularRoiTypeName, r.value)
    ensures r.Ok? ==> root(JDouble(obj.roi.radius)).Ok? && MapGet(r.value.entries, JString(RadKey)) == root(JDouble(obj.roi.radius)).value
    ensures obj.Null? ==> r == Err(NullPointer)
    ensures !obj.Null? && !obj.JCircularRoi? ==> r == Err(ClassCast(CircularRoiTypeName, obj))
  {
    if obj.Null? then Err(NullPointer)
    else if !obj.JCircularRoi? then Err(ClassCast(CircularRoiTypeName, obj))
    else
      var roi := obj.roi;
      var name :- root(NameObject(roi.name));
      var spt :- root(PointObject(roi.point));
      var plot :- root(JBoolean(roi.plot));
      var rad :- root(JDouble(roi.radius));
      RecordFields(name, spt, plot, rad);
      Ok(Record(name, spt, plot, rad))
  }

  /** `unflatten` of a map: each of the four entries (null when missing) goes
      through `root` and is cast to its field's type. */
  function UnflattenMap(inMap: JObject, root: Conversion): (r: Result<JObject, JError>)
    ensures r.Ok? ==> inMap.JMap? && r.value.JCircularRoi?
    ensures inMap.Null? ==> r == Err(NullPointer)
  {
    if !inMap.JMap? then Err(NullPointer)
    else
      var e := inMap.entries;
      UnflattenFields(MapGet(e, JString(NameKey)), MapGet(e, JString(SptKey)), MapGet(e, JString(PlotKey)), MapGet(e, JString(RadKey)), root)
  }

  /** The four setters in order. The plot flag and radius are unboxed, so a
      null there fails. */
  function UnflattenFields(name: JObject, spt: JObject, plot: JObject, rad: JObject, root: Conversion): (r: Result<JObject, JError>)
  {
    var n :- root(name);
    var name' :- match n
      case Null => Ok(None)
      case JString(s) => Ok(Some(s))
      case _ => Err(ClassCast("java.lang.String", n));
    var p :- root(spt);
    var point :- match p
      case Null => Ok(None)
      case JDoubleArray(xs) => Ok(Some(xs))
      case _ => Err(ClassCast("double[]", p));
    var f :- root(plot);
    var plot' :- match f
      case Null => Err(NullPointer)
      case JBoolean(b) => Ok(b)
      case _ => Err(ClassCast("java.lang.Boolean", f));
    var d :- root(rad);
    var radius :- match d
      case Null => Err(NullPointer)
      case JDouble(x) => Ok(x)
      case _ => Err(ClassCast("java.lang.Double", d));
    Ok(JCircularRoi(CircularRoi(name', point, plot', radius)))
  }

  /** `unflatten(Object)`, through the map helper's cast. */
  function Unflatten(obj: JObject, root: Conversion): Result<JObject, JError>
  {
    MapFlatteningHelper.UnflattenObject(obj, x => UnflattenMap(x, root))
  }

  /** `unflat` undoes `flat` on `x`. */
  predicate Inverts(flat: Conversion, unflat: Conversion, x: JObject)
  {
    flat(x).Ok? && unflat(flat(x).value) == Ok(x)
  }

  /** The record `flatten` builds when each field flattens. */
  lemma FlattenRecord(roi: CircularRoi, flat: Conversion)
    requires flat(NameObject(roi.name)).Ok? && flat(PointObject(roi.point)).Ok?
    requires flat(JBoolean(roi.plot)).Ok? && flat(JDouble(roi.radius)).Ok?
    ensures Flatten(JCircularRoi(roi), flat) ==
      Ok(Record(flat(NameObject(roi.name)).value, flat(PointObject(roi.point)).value,
                flat(JBoolean(roi.plot)).value, flat(JDouble(roi.radius)).value))
  {
  }

  /** Unflattening a record whose fields unflatten to the ROI's own field values gives the ROI. */
  lemma UnflattenRecord(roi: CircularRoi, name: JObject, spt: JObject, plot: JObject, rad: JObject, unflat: Conversion)
    requires unflat(name) == Ok(NameObject(roi.name)) && unflat(spt) == Ok(PointObject(roi.point))
    requires unflat(plot) == Ok(JBoolean(roi.plot)) && unflat(rad) == Ok(JDouble(roi.radius))
    ensures Unflatten(Record(name, spt, plot, rad), unflat) == Ok(JCircularRoi(roi))
  {
    RecordFields(name, spt, plot, rad);
  }

  /** Round trip: when the root's conversions undo each other on the four
      fields, unflattening the record gives back the same ROI. */
  lemma RoundTrip(roi: CircularRoi, flat: Conversion, unflat: Conversion)
    requires Inverts(flat, unflat, NameObject(roi.name)) && Inverts(flat, unflat, PointObject(roi.point))
    requires Inverts(flat, unflat, JBoolean(roi.plot)) && Inverts(flat, unflat, JDouble(roi.radius))
    ensures Flatten(JCircularRoi(roi), flat).Ok?
    ensures Unflatten(Flatten(JCircularRoi(roi), flat).value, unflat) == Ok(JCircularRoi(roi))
  {
    FlattenRecord(roi, flat);
    UnflattenRecord(roi, flat(NameObject(roi.name)).value, flat(PointObject(roi.point)).value,
      flat(JBoolean(roi.plot)).value, flat(JDouble(roi.radius)).value, unflat);
  }

  /** The helper reads only its four entries: any other entry leaves the result unchanged. */
  lemma OtherEntriesIgnored(entries: seq<(JObject, JObject)>, k: JObject, x: JObject, root: Conversion)
    requires k !in [JString(NameKey), JString(SptKey), JString(PlotKey), JString(RadKey)]
    ensures UnflattenMap(JMap(MapPut(entries, k, x)), root) == UnflattenMap(JMap(entries), root)
  {
    MapPutGet(entries, k, x, JString(NameKey));
    MapPutGet(entries, k, x, JString(SptKey));
    MapPutGet(entries, k, x, JString(PlotKey));
    MapPutGet(entries, k, x, JString(RadKey));
  }
}

=== FILE: decimal.dfy ===
/** Decimal text of integers, as Java's `%d` and Python's `str` of an `int`
    write it, and the reading of that text back. */
module Decimal {
  import opened Wrappers

  predicate IsDigit(c: char)
  {
    '0' <= c <= '9'
  }

  /** The decimal digits of `n`, most significant first, without leading zeros. */
  function Digits(n: nat): (r: string)
    ensures |r| >= 1 && (r[0] == '0' ==> n == 0)
    ensures forall i :: 0 <= i < |r| ==> IsDigit(r[i])
  {
    if n < 10 then ['0' + n as char]
    else Digits(n / 10) + ['0' + (n % 10) as char]
  }

  /** `%d` of an integer: a minus sign for negative values, then the digits. */
  function Show(i: int): (r: string)
    ensures |r| >= 1 && (r[0] == '-' <==> i < 0)
  {
    if i < 0 then "-" + Digits(-i) else Digits(i)
  }

  /** Reading the text back: the number of leading decimal digits. */
  function DigitRun(s: string): (n: nat)
    ensures n <= |s|
    ensures forall i :: 0 <= i < n ==> IsDigit(s[i])
    ensures n < |s| ==> !IsDigit(s[n])
  {
    if |s| > 0 && IsDigit(s[0]) then 1 + DigitRun(s[1..]) else 0
  }

  /** The value of a string of decimal digits. */
  function Value(s: string): nat
    requires forall i :: 0 <= i < |s| ==> IsDigit(s[i])
  {
    if |s| == 0 then 0
    else
      var c := s[|s| - 1];
      assert IsDigit(c);
      10 * Value(s[..|s| - 1]) + (c as int - '0' as int)
  }

  /** An optionally signed decimal number at the front of `s`, and what follows it. */
  function ReadInt(s: string): Option<(int, string)>
  {
    if |s| > 0 && s[0] == '-' then
      var n := DigitRun(s[1..]);
      if n == 0 then None else Some((-(Value(s[1..][..n]) as int), s[1..][n..]))
    else
      var n := DigitRun(s);
      if n == 0 then None else Some((Value(s[..n]), s[n..]))
  }

  lemma {:induction false} ValueOfDigits(n: nat)
    ensures Value(Digits(n)) == n
  {
    if n >= 10 {
      ValueOfDigits(n / 10);
      var s := Digits(n);
      assert s[..|s| - 1] == Digits(n / 10);
    }
  }

  lemma {:induction false} DigitRunStops(a: string, rest: string)
    requires forall i :: 0 <= i < |a| ==> IsDigit(a[i])
    requires |rest| > 0 && !IsDigit(rest[0])
    ensures DigitRun(a + rest) == |a|
    decreases |a|
  {
    if |a| > 0 {
      assert (a + rest)[1..] == a[1..] + rest;
      DigitRunStops(a[1..], rest);
    } else {
      assert a + rest == rest;
    }
  }

  /** A run of digits followed by nothing or by a non-digit reads back as
      its value and what follows. */
  lemma DigitsThen(ds: string, rest: string)
    requires |ds| > 0 && forall i :: 0 <= i < |ds| ==> IsDigit(ds[i])
    requires |rest| == 0 || !IsDigit(rest[0])
    ensures ReadInt(ds + rest) == Some((Value(ds), rest))
  {
    var s := ds + rest;
    if |rest| == 0 {
      assert s == ds;
      DigitRunAll(ds);
    } else {
      DigitRunStops(ds, rest);
    }
    assert DigitRun(s) == |ds|;
    assert s[..|ds|] == ds && s[|ds|..] == rest;
    assert s[0] != '-' by {
      assert s[0] == ds[0] && IsDigit(ds[0]);
    }
  }

  /** A minus sign before text that starts with a digit negates what it reads. */
  lemma SignedRead(s: string)
    requires |s| > 0 && IsDigit(s[0])
    ensures ReadInt(s).Some?
    ensures ReadInt(['-'] + s) == Some((-ReadInt(s).value.0, ReadInt(s).value.1))
  {
    var t := ['-'] + s;
    assert t[0] == '-' && t[1..] == s;
  }

  /** The digits of `m` followed by nothing or by a non-digit read back as `m`. */
  lemma ReadDigits(m: nat, rest: string)
    requires |rest| == 0 || !IsDigit(rest[0])
    ensures ReadInt(Digits(m) + rest) == Some((m, rest))
  {
    DigitsThen(Digits(m), rest);
    ValueOfDigits(m);
  }

  /** A minus sign and the digits of `m`, followed by nothing or by a
      non-digit, read back as -m. */
  lemma ReadSignedDigits(m: nat, rest: string)
    requires |rest| == 0 || !IsDigit(rest[0])
    ensures ReadInt(['-'] + (Digits(m) + rest)) == Some((-(m as int), rest))
  {
    var s := Digits(m) + rest;
    ReadDigits(m, rest);
    assert IsDigit(s[0]) by {
      assert s[0] == Digits(m)[0];
    }
    SignedRead(s);
  }

  /** A shown integer followed by nothing or by a non-digit reads back as itself. */
  lemma ReadShow(i: int, rest: string)
    requires |rest| == 0 || !IsDigit(rest[0])
    ensures ReadInt(Show(i) + rest) == Some((i, rest))
  {
    if i < 0 {
      ReadSignedDigits(-i, rest);
      assert Show(i) + rest == ['-'] + (Digits(-i) + rest);
    } else {
      ReadDigits(i, rest);
    }
  }

  /** All digits, then nothing: the whole text is one digit run. */
  lemma {:induction false} DigitRunAll(a: string)
    requires forall i :: 0 <= i < |a| ==> IsDigit(a[i])
    ensures DigitRun(a) == |a|
    decreases |a|
  {
    if |a| > 0 {
      DigitRunAll(a[1..]);
    }
  }

  /** A shown integer on its own reads back as itself, with nothing left over. */
  lemma ReadShowAll(i: int)
    ensures ReadInt(Show(i)) == Some((i, ""))
  {
    ReadShow(i, "");
    assert Show(i) + "" == Show(i);
  }

  /** Different integers are shown differently. */
  lemma ShowInjective(i: int, j: int)
    requires i != j
    ensures Show(i) != Show(j)
  {
    ReadShowAll(i);
    ReadShowAll(j);
  }
}

=== FILE: dispatcher.dfy ===
/** The generic instance dispatcher of the RPC server: `run([name, args...])`
    calls, on the wrapped instance, the method of the exposed contract type
    whose name and arity match and whose parameters accept the arguments.
    Reflection is replaced by an abstract world: the methods each contract
    type exposes, which runtime types a parameter accepts, which classes are
    instances of which types, and what a call does. */
module Dispatcher {
  import opened Wrappers

  /** A parameter or runtime type: a primitive (`int`, `boolean`, ...) or a
      reference type (a class, interface or array type). */
  datatype JType = Primitive(p: string) | Reference(c: string)

  /** One argument of `run`: a plain null, a `TypedNone` carrying the type
      that should select the overload, or a non-null value of a runtime type. */
  datatype Arg = NullArg | TypedNone(target: JType) | Value(runtimeType: JType)

  datatype Signature = Signature(name: string, params: seq<JType>)

  /** A method as reflection lists it: its signature, whether it is static,
      and the type that declares it. */
  datatype Method = Method(sig: Signature, isStatic: bool, declaredBy: string)

  /** The wrapped object: its class and its identity. */
  datatype Instance = Instance(cls: string, id: nat)

  /** What a call does: return a (possibly null) value, return nothing, or throw. */
  datatype Outcome<V, E> = Returned(value: Option<V>) | ReturnedVoid | Threw(exception: E)

  /** The reflective facts the dispatcher relies on.
      - `methodsOf(t)`: the public methods type `t` exposes, in reflection order;
      - `accepts(a, p)`: a value of runtime type `a` can be passed for a parameter
        of type `p` (subtyping, or unboxing when `p` is primitive);
      - `isInstance(c, t)`: objects of class `c` are instances of type `t`;
      - `invoke(o, s, args)`: calling the method with signature `s` on `o`. It
        depends on the object and the signature only, not on the type that
        declared the method: Java runs the object's own override;
      - `tieBreak`: which of several applicable overloads is taken. */
  datatype World<V, E> = World(
    methodsOf: string -> seq<Method>,
    accepts: (JType, JType) -> bool,
    isInstance: (string, string) -> bool,
    invoke: (Instance, Signature, seq<Arg>) -> Outcome<V, E>,
    tieBreak: seq<Method> -> nat)

  /** Every class is an instance of itself. */
  ghost predicate Reflexive<V, E>(w: World<V, E>)
  {
    forall c :: w.isInstance(c, c)
  }

  /** A dispatcher: the exposed contract type and the instance it calls. */
  datatype InstanceDispatcher = InstanceDispatcher(contract: string, instance: Instance)

  datatype ConstructionError = NullPointerException | IllegalArgumentException

  datatype DispatchError<E> =
      /** The "Failed to find method" error. */
    | MethodNotFound(name: string)
      /** The invoked method threw; the error's cause is the exception. */
    | InvocationFailed(cause: E)

  /** The constructor: a null contract or instance fails at once, and so does
      an instance that is not of the contract type. */
  function NewDispatcher<V, E>(w: World<V, E>, contract: Option<string>, instance: Option<Instance>): (r: Result<InstanceDispatcher, ConstructionError>)
    ensures contract.None? || instance.None? ==> r == Err(NullPointerException)
    ensures contract.Some? && instance.Some? && !w.isInstance(instance.value.cls, contract.value) ==> r == Err(IllegalArgumentException)
    ensures r.Ok? <==> contract.Some? && instance.Some? && w.isInstance(instance.value.cls, contract.value)
    ensures r.Ok? ==> r.value.contract == contract.value && r.value.instance == instance.value
  {
    if contract.None? || instance.None? then Err(NullPointerException)
    else if !w.isInstance(instance.value.cls, contract.value) then Err(IllegalArgumentException)
    else Ok(InstanceDispatcher(contract.value, instance.value))
  }

  /** `getDispatcher(instance)`: the instance's own class is the contract. */
  function GetDispatcher<V, E>(w: World<V, E>, instance: Option<Instance>): Result<InstanceDispatcher, ConstructionError>
  {
    match instance
    case None => Err(NullPointerException)
    case Some(o) => NewDispatcher(w, Some(o.cls), instance)
  }

  /** `getDispatcher` never fails on an object, and exposes the object's own class. */
  lemma GetDispatcherOfObject<V, E>(w: World<V, E>, o: Instance)
    requires Reflexive(w)
    ensures GetDispatcher(w, Some(o)) == Ok(InstanceDispatcher(o.cls, o))
  {
    assert w.isInstance(o.cls, o.cls);
  }

  /** One argument fits one parameter. Null (plain or typed) never fits a
      primitive; a `TypedNone` fits by its carried type. */
  predicate Fits(accepts: (JType, JType) -> bool, a: Arg, p: JType)
  {
    match a
    case NullArg => p.Reference?
    case TypedNone(t) => p.Reference? && accepts(t, p)
    case Value(t) => accepts(t, p)
  }

  /** `m` can serve `run([name, args...])`: an instance method with that name,
      exactly one parameter per argument, each argument fitting its parameter. */
  predicate Applicable(accepts: (JType, JType) -> bool, m: Method, name: string, args: seq<Arg>)
  {
    && !m.isStatic
    && m.sig.name == name
    && |m.sig.params| == |args|
    && forall i :: 0 <= i < |args| ==> Fits(accepts, args[i], m.sig.params[i])
  }

  /** The applicable methods among `ms`, in their order. */
  function Candidates(accepts: (JType, JType) -> bool, ms: seq<Method>, name: string, args: seq<Arg>): (r: seq<Method>)
    ensures forall m :: m in r <==> m in ms && Applicable(accepts, m, name, args)
    ensures |r| <= |ms|
  {
    if |ms| == 0 then []
    else
      var rest := Candidates(accepts, ms[1..], name, args);
      assert forall m :: m in ms <==> m == ms[0] || m in ms[1..];
      if Applicable(accepts, ms[0], name, args) then [ms[0]] + rest else rest
  }

  /** The method `run` calls, if any. */
  function Resolve<V, E>(w: World<V, E>, d: InstanceDispatcher, name: string, args: seq<Arg>): (r: Option<Method>)
    ensures r.Some? ==> r.value in w.methodsOf(d.contract) && Applicable(w.accepts, r.value, name, args)
    ensures r.None? <==> forall m :: m in w.methodsOf(d.contract) ==> !Applicable(w.accepts, m, name, args)
  {
    var cs := Candidates(w.accepts, w.methodsOf(d.contract), name, args);
    if |cs| == 0 then None
    else
      assert cs[0] in cs;
      Some(cs[w.tieBreak(cs) % |cs|])
  }

  /** How the outcome of the call becomes the result of `run`: a void method
      gives null, and a thrown exception becomes the cause of the error. */
  function Report<V, E>(o: Outcome<V, E>): (r: Result<Option<V>, DispatchError<E>>)
    ensures o.ReturnedVoid? ==> r == Ok(None)
    ensures o.Threw? <==> r.Err?
    ensures r.Err? ==> r.error == InvocationFailed(o.exception)
    ensures o.Returned? ==> r == Ok(o.value)
  {
    match o
    case Returned(v) => Ok(v)
    case ReturnedVoid => Ok(None)
    case Threw(e) => Err(InvocationFailed(e))
  }

  /** `run([name, args...])`. */
  function Run<V, E>(w: World<V, E>, d: InstanceDispatcher, name: string, args: seq<Arg>): (r: Result<Option<V>, DispatchError<E>>)
    ensures r == Err(MethodNotFound(name)) <==> forall m :: m in w.methodsOf(d.contract) ==> !Applicable(w.accepts, m, name, args)
    ensures r != Err(MethodNotFound(name)) ==>
      exists m :: m in w.methodsOf(d.contract) && Applicable(w.accepts, m, name, args) && r == Report(w.invoke(d.instance, m.sig, args))
  {
    match Resolve(w, d, name, args)
    case None => Err(MethodNotFound(name))
    case Some(m) => Report(w.invoke(d.instance, m.sig, args))
  }

  /** When exactly one visible method is applicable, `run` calls it, whatever the tie-break. */
  lemma UniqueMatchRuns<V, E>(w: World<V, E>, d: InstanceDispatcher, name: string, args: seq<Arg>, m: Method)
    requires m in w.methodsOf(d.contract) && Applicable(w.accepts, m, name, args)
    requires forall m' :: m' in w.methodsOf(d.contract) && Applicable(w.accepts, m', name, args) ==> m' == m
    ensures Run(w, d, name, args) == Report(w.invoke(d.instance, m.sig, args))
  {
  }

  /** Arity gate: with no visible instance method of that name and arity, the method is not found. */
  lemma ArityGate<V, E>(w: World<V, E>, d: InstanceDispatcher, name: string, args: seq<Arg>)
    requires forall m :: m in w.methodsOf(d.contract) && !m.isStatic && m.sig.name == name ==> |m.sig.params| != |args|
    ensures Run(w, d, name, args) == Err(MethodNotFound(name))
  {
  }

  /** The model's dispatch rule considers instance methods only (`Applicable`
      requires `!isStatic`), so a static method is never chosen, even when
      its signature matches, and a name with only static methods is not
      found. The dispatcher's own code is not part of this model; the test
      shows an instance method winning over a static one of the same
      signature, and the rest of this rule is an assumption. */
  lemma StaticNeverCalled<V, E>(w: World<V, E>, d: InstanceDispatcher, name: string, args: seq<Arg>)
    ensures Resolve(w, d, name, args).Some? ==> !Resolve(w, d, name, args).value.isStatic
    ensures (forall m :: m in w.methodsOf(d.contract) && m.sig.name == name ==> m.isStatic) ==>
      Run(w, d, name, args) == Err(MethodNotFound(name))
  {
  }

  /** A static and an instance method with the same signature: the instance method runs. */
  lemma InstanceBeatsStatic<V, E>(w: World<V, E>, d: InstanceDispatcher, args: seq<Arg>, s: Signature, c: string)
    requires w.methodsOf(d.contract) == [Method(s, true, c), Method(s, false, c)]
    requires Applicable(w.accepts, Method(s, false, c), s.name, args)
    ensures Resolve(w, d, s.name, args) == Some(Method(s, false, c))
  {
    assert Candidates(w.accepts, [Method(s, false, c)], s.name, args) == [Method(s, false, c)];
  }

  /** A null argument never fits a primitive parameter: if every visible
      method of that name and arity takes a primitive where the null is, the
      method is not found. */
  lemma NullNeverPrimitive<V, E>(w: World<V, E>, d: InstanceDispatcher, name: string, args: seq<Arg>, i: nat)
    requires i < |args| && (args[i].NullArg? || args[i].TypedNone?)
    requires forall m :: m in w.methodsOf(d.contract) && m.sig.name == name && |m.sig.params| == |args| ==> m.sig.params[i].Primitive?
    ensures Run(w, d, name, args) == Err(MethodNotFound(name))
  {
    forall m | m in w.methodsOf(d.contract)
      ensures !Applicable(w.accepts, m, name, args)
    {
      if m.sig.name == name && |m.sig.params| == |args| {
        assert !Fits(w.accepts, args[i], m.sig.params[i]);
      }
    }
  }

  /** Overloads `call(int)` and `call(Object)`: a null argument selects `call(Object)`. */
  lemma NullSelectsReference<V, E>(w: World<V, E>, d: InstanceDispatcher, c: string, prim: string, obj: string)
    requires w.methodsOf(d.contract) ==
      [Method(Signature("call", [Primitive(prim)]), false, c), Method(Signature("call", [Reference(obj)]), false, c)]
    ensures Resolve(w, d, "call", [NullArg]) == Some(Method(Signature("call", [Reference(obj)]), false, c))
  {
    var m0 := Method(Signature("call", [Primitive(prim)]), false, c);
    var m1 := Method(Signature("call", [Reference(obj)]), false, c);
    assert !Fits(w.accepts, NullArg, m0.sig.params[0]);
    assert Candidates(w.accepts, [m1], "call", [NullArg]) == [m1];
  }

  /** A `TypedNone` selects the overload whose parameter its carried type fits:
      of `call(A)` and `call(B)`, `TypedNone(A)` selects `call(A)` when `A` fits
      `A` but not `B`. */
  lemma TypedNoneSelects<V, E>(w: World<V, E>, d: InstanceDispatcher, c: string, a: string, b: string)
    requires w.methodsOf(d.contract) ==
      [Method(Signature("call", [Reference(a)]), false, c), Method(Signature("call", [Reference(b)]), false, c)]
    requires w.accepts(Reference(a), Reference(a)) && !w.accepts(Reference(a), Reference(b))
    ensures Resolve(w, d, "call", [TypedNone(Reference(a))]) == Some(Method(Signature("call", [Reference(a)]), false, c))
  {
    var m0 := Method(Signature("call", [Reference(a)]), false, c);
    var m1 := Method(Signature("call", [Reference(b)]), false, c);
    assert !Applicable(w.accepts, m1, "call", [TypedNone(Reference(a))]) by {
      assert !Fits(w.accepts, TypedNone(Reference(a)), m1.sig.params[0]);
    }
    assert Applicable(w.accepts, m0, "call", [TypedNone(Reference(a))]) by {
      assert Fits(w.accepts, TypedNone(Reference(a)), m0.sig.params[0]);
    }
    assert Candidates(w.accepts, [m1], "call", [TypedNone(Reference(a))]) == [];
  }

  /** The exposed contract narrows what `run` sees: a method the contract
      does not expose is never called through it. */
  lemma ContractHides<V, E>(w: World<V, E>, d: InstanceDispatcher, name: string, args: seq<Arg>)
    requires forall m :: m in w.methodsOf(d.contract) ==> m.sig.name != name
    ensures Run(w, d, name, args) == Err(MethodNotFound(name))
  {
  }

  /** Through the interface or through the implementation, the same
      signature runs the same code: the object's override. */
  lemma OverrideRuns<V, E>(w: World<V, E>, o: Instance, iface: string, impl: string, name: string, args: seq<Arg>, s: Signature)
    requires Resolve(w, InstanceDispatcher(iface, o), name, args).Some?
    requires Resolve(w, InstanceDispatcher(impl, o), name, args).Some?
    requires Resolve(w, InstanceDispatcher(iface, o), name, args).value.sig == s
    requires Resolve(w, InstanceDispatcher(impl, o), name, args).value.sig == s
    ensures Run(w, InstanceDispatcher(iface, o), name, args) == Run(w, InstanceDispatcher(impl, o), name, args)
    ensures Run(w, InstanceDispatcher(iface, o), name, args) == Report(w.invoke(o, s, args))
  {
  }

  /** A thrown exception, checked or not, comes back as the cause of the dispatch error. */
  lemma ExceptionIsCause<V, E>(w: World<V, E>, d: InstanceDispatcher, name: string, args: seq<Arg>, e: E)
    requires Resolve(w, d, name, args).Some?
    requires w.invoke(d.instance, Resolve(w, d, name, args).value.sig, args) == Threw(e)
    ensures Run(w, d, name, args) == Err(InvocationFailed(e))
  {
  }

  /** The overloads `call()`, `call(int)`, ..., `call(int x8)`, each returning its arity. */
  function ManyArgumentsMethods(c: string): (ms: seq<Method>)
    ensures |ms| == 9
    ensures forall k :: 0 <= k < 9 ==> ms[k] == Method(Signature("call", seq(k, _ => Primitive("int"))), false, c)
  {
    seq(9, k requires 0 <= k < 9 => Method(Signature("call", seq(k, _ => Primitive("int"))), false, c))
  }

  /** `k` boxed integers. */
  function Integers(k: nat): seq<Arg>
  {
    seq(k, _ => Value(Reference("java.lang.Integer")))
  }

  /** Exactly the overload with `k` parameters accepts `k` integers. */
  lemma ManyArgumentsApplicable(accepts: (JType, JType) -> bool, c: string, k: nat, j: nat)
    requires accepts(Reference("java.lang.Integer"), Primitive("int"))
    requires j < 9
    ensures Applicable(accepts, ManyArgumentsMethods(c)[j], "call", Integers(k)) <==> j == k
  {
    var m := ManyArgumentsMethods(c)[j];
    if j == k {
      forall i | 0 <= i < k
        ensures Fits(accepts, Integers(k)[i], m.sig.params[i])
      {
        assert Integers(k)[i] == Value(Reference("java.lang.Integer"));
        assert m.sig.params[i] == Primitive("int");
      }
    }
  }

  /** With `k` integer arguments, `k` from 0 to 8, the `k`-parameter overload
      runs, and it returns `k`. */
  lemma ManyArguments<E>(w: World<int, E>, d: InstanceDispatcher, k: nat)
    requires k <= 8
    requires w.methodsOf(d.contract) == ManyArgumentsMethods(d.contract)
    requires w.accepts(Reference("java.lang.Integer"), Primitive("int"))
    requires forall s, args :: w.invoke(d.instance, s, args) == Returned(Some(|s.params|))
    ensures Run(w, d, "call", Integers(k)) == Ok(Some(k))
  {
    var ms := ManyArgumentsMethods(d.contract);
    forall m | m in ms && Applicable(w.accepts, m, "call", Integers(k))
      ensures m == ms[k]
    {
      var j :| 0 <= j < 9 && ms[j] == m;
      ManyArgumentsApplicable(w.accepts, d.contract, k, j);
    }
    ManyArgumentsApplicable(w.accepts, d.contract, k, k);
    UniqueMatchRuns(w, d, "call", Integers(k), ms[k]);
  }
}

=== FILE: first_match.dfy ===
/** The chain-of-responsibility scan shared by both flattening registries:
    helpers are tried in list order and the first one that claims a value
    handles it; later helpers are never consulted. */
module FirstMatch {
  import opened Wrappers

  /** Some helper of `hs` claims `x`. */
  predicate Claimed<H, X>(hs: seq<H>, claims: (H, X) -> bool, x: X)
  {
    exists j :: 0 <= j < |hs| && claims(hs[j], x)
  }

  /** The helper at `i` claims `x` and no helper before it does. */
  predicate IsFirst<H, X>(hs: seq<H>, claims: (H, X) -> bool, x: X, i: int)
  {
    0 <= i < |hs| && claims(hs[i], x) && forall j :: 0 <= j < i ==> !claims(hs[j], x)
  }

  /** Index of the first helper of `hs`, in list order, that claims `x`. */
  function First<H, X>(hs: seq<H>, claims: (H, X) -> bool, x: X): (r: Option<nat>)
    ensures r.Some? ==> r.value < |hs| && claims(hs[r.value], x)
    ensures r.Some? ==> forall j :: 0 <= j < r.value ==> !claims(hs[j], x)
    ensures r.None? <==> !Claimed(hs, claims, x)
  {
    if |hs| == 0 then None
    else if claims(hs[0], x) then Some(0)
    else
      match First(hs[1..], claims, x)
      case None =>
        assert forall j :: 1 <= j < |hs| ==> hs[j] == hs[1..][j - 1];
        None
      case Some(i) =>
        assert forall j :: 1 <= j <= i ==> hs[j] == hs[1..][j - 1];
        Some(i + 1)
  }

  /** `First` finds exactly the helper that claims `x` with no claimer before it. */
  lemma FirstExactly<H, X>(hs: seq<H>, claims: (H, X) -> bool, x: X)
    ensures forall i :: IsFirst(hs, claims, x, i) <==> First(hs, claims, x) == Some(i)
  {
    forall i | IsFirst(hs, claims, x, i)
      ensures First(hs, claims, x) == Some(i)
    {
      FirstIs(hs, claims, x, i);
    }
  }

  /** The first claimer is the one at index `i` when `i` claims and no earlier helper does. */
  lemma FirstIs<H, X>(hs: seq<H>, claims: (H, X) -> bool, x: X, i: nat)
    requires i < |hs| && claims(hs[i], x)
    requires forall j :: 0 <= j < i ==> !claims(hs[j], x)
    ensures First(hs, claims, x) == Some(i)
  {
  }

  /** Prepending a helper puts it in front of every other: it wins whenever
      it claims, and otherwise the old order decides, shifted by one. */
  lemma {:induction false} PrependFirst<H, X>(h: H, hs: seq<H>, claims: (H, X) -> bool, x: X)
    ensures claims(h, x) ==> First([h] + hs, claims, x) == Some(0)
    ensures !claims(h, x) ==>
      First([h] + hs, claims, x) ==
        (match First(hs, claims, x) case None => None case Some(i) => Some(i + 1))
  {
    var hs' := [h] + hs;
    assert hs'[1..] == hs;
  }
}

=== FILE: grid_roi_list.dfy ===
/** GridROIList: a list that holds only grid ROIs. Its untyped `add` checks
    the ROI's class and refuses anything else; its typed `append` always adds.
    Whether a class is a GridROI is a parameter (`isGrid`), standing for
    `instanceof GridROI`. */
module GridRoiList {
  import opened Wrappers
  import RoiUtils

  type Roi = RoiUtils.Roi

  /** `add(IROI)`: a GridROI (never null) is appended and `true` returned;
      anything else leaves the list as it was and returns `false`. */
  function Add(isGrid: string -> bool, list: seq<Option<Roi>>, roi: Option<Roi>): (r: (seq<Option<Roi>>, bool))
    ensures r.1 <==> roi.Some? && isGrid(roi.value.cls)
    ensures r.1 ==> r.0 == list + [roi]
    ensures !r.1 ==> r.0 == list
  {
    if roi.Some? && isGrid(roi.value.cls) then (list + [roi], true) else (list, false)
  }

  /** `append(GridROI)`: always appended, null included, and always `true`. */
  function Append(list: seq<Option<Roi>>, roi: Option<Roi>): (r: (seq<Option<Roi>>, bool))
    ensures r.1 && |r.0| == |list| + 1 && r.0[|list|] == roi
    ensures r.0[..|list|] == list
  {
    (list + [roi], true)
  }

  /** Every ROI the list holds passes the grid test. */
  ghost predicate AllGrid(isGrid: string -> bool, list: seq<Option<Roi>>)
  {
    forall i :: 0 <= i < |list| ==> list[i].Some? && isGrid(list[i].value.cls)
  }

  /** `add` keeps a list of grid ROIs a list of grid ROIs, whatever it is given. */
  lemma AddKeepsGrid(isGrid: string -> bool, list: seq<Option<Roi>>, roi: Option<Roi>)
    requires AllGrid(isGrid, list)
    ensures AllGrid(isGrid, Add(isGrid, list, roi).0)
  {
  }

  /** An accepted `add` is exactly an `append`. */
  lemma AddIsAppend(isGrid: string -> bool, list: seq<Option<Roi>>, roi: Option<Roi>)
    requires roi.Some? && isGrid(roi.value.cls)
    ensures Add(isGrid, list, roi) == Append(list, roi)
  {
  }

  /** A sequence of `add` calls keeps exactly the grid ROIs, in the order given. */
  function AddAll(isGrid: string -> bool, list: seq<Option<Roi>>, rois: seq<Option<Roi>>): seq<Option<Roi>>
    decreases |rois|
  {
    if |rois| == 0 then list else AddAll(isGrid, Add(isGrid, list, rois[0]).0, rois[1..])
  }

  /** The ROIs of `rois` that `add` accepts, in order. */
  function Accepted(isGrid: string -> bool, rois: seq<Option<Roi>>): seq<Option<Roi>>
  {
    if |rois| == 0 then []
    else if rois[0].Some? && isGrid(rois[0].value.cls) then [rois[0]] + Accepted(isGrid, rois[1..])
    else Accepted(isGrid, rois[1..])
  }

  lemma {:induction false} AddAllFilters(isGrid: string -> bool, list: seq<Option<Roi>>, rois: seq<Option<Roi>>)
    ensures AddAll(isGrid, list, rois) == list + Accepted(isGrid, rois)
    decreases |rois|
  {
    if |rois| > 0 {
      AddAllFilters(isGrid, Add(isGrid, list, rois[0]).0, rois[1..]);
      if rois[0].Some? && isGrid(rois[0].value.cls) {
        assert list + [rois[0]] + Accepted(isGrid, rois[1..]) == list + ([rois[0]] + Accepted(isGrid, rois[1..]));
      }
    }
  }
}

=== FILE: hkl.dfy ===
/** HKL: a bean holding a d-spacing and, optionally, the Miller indices
    (h, k, l) that label it, plus an optional ring name. Java's `int[3]` is
    three integer fields; a null d or ring name is `None`. */
module Hkl {
  import opened Wrappers
  import opened Decimal

  /** A length (jscience `Amount<Length>`): a value with its unit. Two amounts
      are equal when both parts are. */
  datatype Amount = Amount(value: real, unit: string)

  datatype Hkl = Hkl(h: int, k: int, l: int, d: Option<Amount>, ringName: Option<string>)

  /** `new HKL()`: indices (0, 0, 0), no d, no ring name. */
  function Default(): (r: Hkl)
    ensures GetIndices(r) == [0, 0, 0] && r.d.None? && r.ringName.None?
  {
    Hkl(0, 0, 0, None, None)
  }

  /** `new HKL(h, k, l, d)`: the given indices and a copy of d; no ring name. */
  function New(h: int, k: int, l: int, d: Option<Amount>): (r: Hkl)
    ensures GetIndices(r) == [h, k, l] && r.d == d && r.ringName.None?
  {
    Hkl(h, k, l, d, None)
  }

  /** `new HKL(d)`: a d-spacing without Miller indices, marked (-1, -1, -1). */
  function WithD(d: Option<Amount>): (r: Hkl)
    ensures GetIndices(r) == [-1, -1, -1] && r.d == d && r.ringName.None?
  {
    New(-1, -1, -1, d)
  }

  /** `getIndices`: a fresh copy of (h, k, l); the bean is a value here, so
      no change to the copy can reach it. */
  function GetIndices(x: Hkl): (r: seq<int>)
    ensures |r| == 3
  {
    [x.h, x.k, x.l]
  }

  /** `setH`: only index 0 changes. */
  function SetH(x: Hkl, v: int): (r: Hkl)
    ensures GetIndices(r) == GetIndices(x)[0 := v]
    ensures r.d == x.d && r.ringName == x.ringName
  {
    x.(h := v)
  }

  /** `setK`: only index 1 changes. */
  function SetK(x: Hkl, v: int): (r: Hkl)
    ensures GetIndices(r) == GetIndices(x)[1 := v]
    ensures r.d == x.d && r.ringName == x.ringName
  {
    x.(k := v)
  }

  /** `setL`: only index 2 changes. */
  function SetL(x: Hkl, v: int): (r: Hkl)
    ensures GetIndices(r) == GetIndices(x)[2 := v]
    ensures r.d == x.d && r.ringName == x.ringName
  {
    x.(l := v)
  }

  /** Setting an index to the value it already has changes nothing, and each
      setter is undone by setting the old value back. */
  lemma SetRestores(x: Hkl, v: int)
    ensures SetH(x, x.h) == x && SetK(x, x.k) == x && SetL(x, x.l) == x
    ensures SetH(SetH(x, v), x.h) == x && SetK(SetK(x, v), x.k) == x && SetL(SetL(x, v), x.l) == x
  {
  }

  /** `getMaxIndex`: at least every index, and one of them. */
  function MaxIndex(x: Hkl): (r: int)
    ensures forall i :: 0 <= i < 3 ==> GetIndices(x)[i] <= r
    ensures r == x.h || r == x.k || r == x.l
  {
    var m := if x.h >= x.k then x.h else x.k;
    if m >= x.l then m else x.l
  }

  /** `getMinIndex`: at most every index, and one of them. */
  function MinIndex(x: Hkl): (r: int)
    ensures forall i :: 0 <= i < 3 ==> r <= GetIndices(x)[i]
    ensures r == x.h || r == x.k || r == x.l
  {
    var m := if x.h <= x.k then x.h else x.k;
    if m <= x.l then m else x.l
  }

  /** The smallest index is never above the largest; they agree exactly when all three indices do. */
  lemma MinAtMostMax(x: Hkl)
    ensures MinIndex(x) <= MaxIndex(x)
    ensures MinIndex(x) == MaxIndex(x) <==> x.h == x.k == x.l
  {
  }

  // ---- toString: "(h, k, l)" with each index in decimal (`%d`) ----

  /** `toString`. */
  function ToString(x: Hkl): (r: string)
    ensures |r| >= 9 && r[0] == '(' && r[|r| - 1] == ')'
  {
    "(" + Show(x.h) + ", " + Show(x.k) + ", " + Show(x.l) + ")"
  }

  /** `s` with the literal `lit` removed from its front, if it starts with it. */
  function Expect(s: string, lit: string): Option<string>
  {
    if lit <= s then Some(s[|lit|..]) else None
  }

  /** A literal, then a number: the number and what follows it. */
  function ReadField(s: string, lit: string): Option<(int, string)>
  {
    match Expect(s, lit)
    case None => None
    case Some(t) => ReadInt(t)
  }

  /** Parses "(h, k, l)" exactly. */
  function Parse(s: string): Option<(int, int, int)>
  {
    match ReadField(s, "(")
    case None => None
    case Some((h, s1)) =>
      match ReadField(s1, ", ")
      case None => None
      case Some((k, s2)) =>
        match ReadField(s2, ", ")
        case None => None
        case Some((l, s3)) => if s3 == ")" then Some((h, k, l)) else None
  }

  /** A literal, a shown integer and a non-digit read back as the integer and what follows. */
  lemma ReadFieldShow(lit: string, i: int, rest: string)
    requires |rest| > 0 && !IsDigit(rest[0])
    ensures ReadField(lit + Show(i) + rest, lit) == Some((i, rest))
  {
    var s := lit + Show(i) + rest;
    assert lit <= s;
    assert s[|lit|..] == Show(i) + rest;
    ReadShow(i, rest);
  }

  /** `toString` loses nothing about the indices: parsing it gives them back. */
  lemma ParseToString(x: Hkl)
    ensures Parse(ToString(x)) == Some((x.h, x.k, x.l))
  {
    var tail2 := ", " + Show(x.l) + ")";
    var tail1 := ", " + Show(x.k) + tail2;
    assert ToString(x) == "(" + Show(x.h) + tail1;
    ReadFieldShow("(", x.h, tail1);
    ReadFieldShow(", ", x.k, tail2);
    ReadFieldShow(", ", x.l, ")");
  }

  /** Beans with different indices print differently. */
  lemma ToStringDistinguishes(x: Hkl, y: Hkl)
    requires GetIndices(x) != GetIndices(y)
    ensures ToString(x) != ToString(y)
  {
    ParseToString(x);
    ParseToString(y);
  }

  // ---- equals and clone ----

  /** What `equals` can be handed: null, an HKL, or an object of some other class. */
  datatype Object = Null | HklObject(value: Hkl) | OtherObject

  /** `equals`: another HKL whose d, indices and ring name are all equal (null equal to null). */
  function Equals(x: Hkl, obj: Object): (r: bool)
    ensures r <==> obj.HklObject? && GetIndices(obj.value) == GetIndices(x) &&
                   obj.value.d == x.d && obj.value.ringName == x.ringName
  {
    match obj
    case Null => false
    case OtherObject => false
    case HklObject(other) =>
      (if x.d.None? then other.d.None? else other.d.Some? && x.d.value == other.d.value) &&
      [x.h, x.k, x.l] == [other.h, other.k, other.l] &&
      (if x.ringName.None? then other.ringName.None? else other.ringName.Some? && x.ringName.value == other.ringName.value)
  }

  /** `equals` is an equivalence on beans. */
  lemma EqualsIsEquivalence(x: Hkl, y: Hkl, z: Hkl)
    ensures Equals(x, HklObject(x))
    ensures Equals(x, HklObject(y)) <==> Equals(y, HklObject(x))
    ensures Equals(x, HklObject(y)) && Equals(y, HklObject(z)) ==> Equals(x, HklObject(z))
    ensures Equals(x, HklObject(y)) <==> x == y
  {
  }

  /** `clone`: a new bean from the indices and d; the ring name is not copied. */
  function Clone(x: Hkl): (r: Hkl)
    ensures GetIndices(r) == GetIndices(x) && r.d == x.d && r.ringName.None?
  {
    New(x.h, x.k, x.l, x.d)
  }

  /** A clone equals its original exactly when the original has no ring name. */
  lemma CloneEqualsIff(x: Hkl)
    ensures Equals(x, HklObject(Clone(x))) <==> x.ringName.None?
    ensures Equals(Clone(x), HklObject(Clone(Clone(x))))
  {
  }
}

=== FILE: java_values.dfy ===
/** The Java objects that the Java side of the flattener converts, and the
    errors its conversions raise. */
module JavaValues {
  import opened Wrappers

  /** The reserved key of a flattened record that names the record's type. */
  const TypeKey := "__type__"

  /** A circular region of interest as its helper reads and writes it: the
      optional name, the optional start point, the plot flag and the radius. */
  datatype CircularRoi = CircularRoi(name: Option<string>, point: Option<seq<real>>, plot: bool, radius: real)

  /** A Java object reference. A map keeps its entries in a sequence with
      distinct keys; the sequence order carries no meaning. `Instance` stands
      for an object of any class this model gives no structure to. */
  datatype JObject =
    | Null
    | JBoolean(b: bool)
    | JInteger(i: int)
    | JDouble(d: real)
    | JString(s: string)
    | JDoubleArray(xs: seq<real>)
    | JMap(entries: seq<(JObject, JObject)>)
    | JCircularRoi(roi: CircularRoi)
    | Instance(cls: string, id: nat)

  datatype JError =
      /** The UnsupportedOperationException "Value ... is of unknown type". */
    | UnknownType(obj: JObject)
    | NullPointer
    | ClassCast(target: string, obj: JObject)
      /** An exception a helper raises for its own reasons. */
    | HelperFailure(message: string)

  /** `Map.get`: the value stored under `k`, or null when there is none. */
  function MapGet(entries: seq<(JObject, JObject)>, k: JObject): JObject
  {
    if |entries| == 0 then Null
    else if entries[0].0 == k then entries[0].1
    else MapGet(entries[1..], k)
  }

  /** `Map.put`: replaces the value under `k`, or adds the entry when `k` is new. */
  function MapPut(entries: seq<(JObject, JObject)>, k: JObject, x: JObject): (r: seq<(JObject, JObject)>)
    ensures |r| == |entries| || |r| == |entries| + 1
  {
    if |entries| == 0 then [(k, x)]
    else if entries[0].0 == k then [(k, x)] + entries[1..]
    else [entries[0]] + MapPut(entries[1..], k, x)
  }

  /** After `put(k, x)`, `get(k)` is `x` and every other key reads as before. */
  lemma {:induction false} MapPutGet(entries: seq<(JObject, JObject)>, k: JObject, x: JObject, k': JObject)
    ensures MapGet(MapPut(entries, k, x), k') == if k' == k then x else MapGet(entries, k')
  {
    if |entries| > 0 && entries[0].0 != k {
      MapPutGet(entries[1..], k, x, k');
      assert MapPut(entries, k, x)[1..] == MapPut(entries[1..], k, x);
    } else if |entries| > 0 {
      assert MapPut(entries, k, x)[1..] == entries[1..];
    }
  }

  /** `put` of a key the map does not hold adds one entry at the end. */
  lemma {:induction false} MapPutNew(entries: seq<(JObject, JObject)>, k: JObject, x: JObject)
    requires forall i :: 0 <= i < |entries| ==> entries[i].0 != k
    ensures MapPut(entries, k, x) == entries + [(k, x)]
  {
    if |entries| > 0 {
      MapPutNew(entries[1..], k, x);
      assert [entries[0]] + (entries[1..] + [(k, x)]) == entries + [(k, x)];
    }
  }

  /** `get` finds the first entry whose key is `k`. */
  lemma {:induction false} MapGetAt(entries: seq<(JObject, JObject)>, k: JObject, i: nat)
    requires i < |entries| && entries[i].0 == k
    requires forall j :: 0 <= j < i ==> entries[j].0 != k
    ensures MapGet(entries, k) == entries[i].1
  {
    if i > 0 {
      MapGetAt(entries[1..], k, i - 1);
    }
  }
}

=== FILE: map_flattening_helper.dfy ===
/** The base of the Java helpers that flatten an object into a map record
    tagged with the object's canonical class name. */
module MapFlatteningHelper {
  import opened Wrappers
  import opened JavaValues

  /** The key under which single-valued records keep their content. */
  const ContentKey := "content"

  /** `createMap`: a fresh record holding only the type tag. */
  function CreateMap(typeName: string): (r: JObject)
    ensures r.JMap? && |r.entries| == 1
    ensures MapGet(r.entries, JString(TypeKey)) == JString(typeName)
  {
    JMap([(JString(TypeKey), JString(typeName))])
  }

  /** `canUnFlatten`: `obj` is a map whose type entry is the helper's type
      name. `String.equals` is false for null and for non-strings, so a
      missing tag or a tag of another kind is not claimed. */
  predicate CanUnflatten(typeName: string, obj: JObject)
  {
    if obj.JMap? then
      match MapGet(obj.entries, JString(TypeKey))
      case JString(s) => s == typeName
      case _ => false
    else false
  }

  /** The helper claims a map exactly when its tag is the helper's type name. */
  lemma CanUnflattenIff(typeName: string, obj: JObject)
    ensures CanUnflatten(typeName, obj) <==> obj.JMap? && MapGet(obj.entries, JString(TypeKey)) == JString(typeName)
  {
  }

  /** A record made by `createMap(t)` is claimed by the helper of `t` and by no other. */
  lemma CreateMapClaimed(typeName: string, other: string)
    ensures CanUnflatten(typeName, CreateMap(other)) <==> typeName == other
  {
  }

  /** Entries other than the type tag do not change whether the helper claims a map. */
  lemma ExtraEntriesIgnored(typeName: string, entries: seq<(JObject, JObject)>, k: JObject, x: JObject)
    requires k != JString(TypeKey)
    ensures CanUnflatten(typeName, JMap(MapPut(entries, k, x))) == CanUnflatten(typeName, JMap(entries))
  {
    MapPutGet(entries, k, x, JString(TypeKey));
  }

  /** `unflatten(Object)`: the cast to `Map` fails for any other non-null
      object; otherwise the map-typed `unflatten` gets the object unchanged. */
  function UnflattenObject(obj: JObject, unflattenMap: JObject -> Result<JObject, JError>): Result<JObject, JError>
  {
    if obj.JMap? || obj.Null? then unflattenMap(obj) else Err(ClassCast("java.util.Map", obj))
  }
}

=== FILE: nexus.dfy ===
/** Nexus: the helpers that connect datasets to NeXus/HDF5 files. Modelled
    here are the two tables between dataset types and HDF5 native types, and
    the integer arithmetic a lazy loader does before reading a slab: filling
    in default start/stop/step, widening a stepped slice to the contiguous
    window the NeXus API can read, and mapping a squeezed slice back to the
    file's true shape. HDF5 type identity (`H5Tequal`) is equality of
    `NativeType` values. */
module Nexus {
  import opened Wrappers
  import opened Shapes

  /** The dataset types (`AbstractDataset` dtype constants). */
  datatype DType =
    | Int8 | Int16 | Int32 | Int64 | Float32 | Float64
      /** Any other dataset type (boolean, complex, compound, string, ...). */
    | OtherDType(name: string)

  /** The HDF5 native types (`HDF5Constants.H5T_NATIVE_*`). */
  datatype NativeType =
    | NativeInt8 | NativeUInt8 | NativeInt16 | NativeUInt16
    | NativeInt32 | NativeUInt32 | NativeInt64 | NativeUInt64
    | NativeFloat | NativeDouble
      /** Any other HDF5 type identifier. */
    | OtherNative(id: int)

  /** The dataset types that have a NeXus group data type. */
  predicate Supported(dt: DType)
  {
    !dt.OtherDType?
  }

  /** The integer dataset types, which also have an unsigned group data type. */
  predicate IntegerDType(dt: DType)
  {
    dt.Int8? || dt.Int16? || dt.Int32? || dt.Int64?
  }

  predicate Unsigned(t: NativeType)
  {
    t.NativeUInt8? || t.NativeUInt16? || t.NativeUInt32? || t.NativeUInt64?
  }

  /** Bit width of an integer or floating-point native type. */
  function Bits(t: NativeType): nat
  {
    match t
    case NativeInt8 => 8
    case NativeUInt8 => 8
    case NativeInt16 => 16
    case NativeUInt16 => 16
    case NativeInt32 => 32
    case NativeUInt32 => 32
    case NativeInt64 => 64
    case NativeUInt64 => 64
    case NativeFloat => 32
    case NativeDouble => 64
    case OtherNative(_) => 0
  }

  /** Bit width of a dataset type. */
  function DTypeBits(dt: DType): nat
  {
    match dt
    case Int8 => 8
    case Int16 => 16
    case Int32 => 32
    case Int64 => 64
    case Float32 => 32
    case Float64 => 64
    case OtherDType(_) => 0
  }

  /** `getGroupDataType`: the signed native type of the same width; other
      dataset types are refused with IllegalArgumentException. */
  function GetGroupDataType(dt: DType): (r: Result<NativeType, DatasetError>)
    ensures r.Ok? <==> Supported(dt)
    ensures r.Err? ==> r.error == IllegalArgument
    ensures r.Ok? ==> !Unsigned(r.value) && !r.value.OtherNative? && Bits(r.value) == DTypeBits(dt)
  {
    match dt
    case Float64 => Ok(NativeDouble)
    case Float32 => Ok(NativeFloat)
    case Int64 => Ok(NativeInt64)
    case Int32 => Ok(NativeInt32)
    case Int16 => Ok(NativeInt16)
    case Int8 => Ok(NativeInt8)
    case OtherDType(_) => Err(IllegalArgument)
  }

  /** `getUnsignedGroupDataType`: the unsigned native type of the same width,
      for the integer dataset types only. */
  function GetUnsignedGroupDataType(dt: DType): (r: Result<NativeType, DatasetError>)
    ensures r.Ok? <==> IntegerDType(dt)
    ensures r.Err? ==> r.error == IllegalArgument
    ensures r.Ok? ==> Unsigned(r.value) && Bits(r.value) == DTypeBits(dt)
  {
    match dt
    case Int64 => Ok(NativeUInt64)
    case Int32 => Ok(NativeUInt32)
    case Int16 => Ok(NativeUInt16)
    case Int8 => Ok(NativeUInt8)
    case _ => Err(IllegalArgument)
  }

  /** `getDType`: the dataset type for a native type, signed and unsigned
      integers alike mapping to the integer type of their width. The HDF5
      library error of `H5Tequal` is not part of this model. */
  function GetDType(t: NativeType): (r: Result<DType, DatasetError>)
    ensures r.Ok? <==> !t.OtherNative?
    ensures r.Err? ==> r.error == IllegalArgument
    ensures r.Ok? ==> Supported(r.value) && DTypeBits(r.value) == Bits(t)
  {
    if t == NativeInt8 || t == NativeUInt8 then Ok(Int8)
    else if t == NativeInt16 || t == NativeUInt16 then Ok(Int16)
    else if t == NativeInt32 || t == NativeUInt32 then Ok(Int32)
    else if t == NativeInt64 || t == NativeUInt64 then Ok(Int64)
    else if t == NativeFloat then Ok(Float32)
    else if t == NativeDouble then Ok(Float64)
    else Err(IllegalArgument)
  }

  /** Writing a dataset's type and reading it back gives the same type. */
  lemma GroupDataTypeRoundTrip(dt: DType)
    requires Supported(dt)
    ensures GetDType(GetGroupDataType(dt).value) == Ok(dt)
  {
  }

  /** The same holds for the unsigned types of the integer dataset types. */
  lemma UnsignedGroupDataTypeRoundTrip(dt: DType)
    requires IntegerDType(dt)
    ensures GetDType(GetUnsignedGroupDataType(dt).value) == Ok(dt)
  {
  }

  /** Every native type `getDType` accepts is exactly the signed or the
      unsigned group data type of the dataset type it gives. */
  lemma GetDTypeInverts(t: NativeType)
    ensures GetDType(t).Ok? ==>
      (Unsigned(t) <==> GetUnsignedGroupDataType(GetDType(t).value) == Ok(t)) &&
      (!Unsigned(t) <==> GetGroupDataType(GetDType(t).value) == Ok(t))
  {
  }

  /** Different dataset types get different group data types, and an integer
      type's signed and unsigned group data types differ. */
  lemma GroupDataTypesDistinct(a: DType, b: DType)
    requires Supported(a) && Supported(b) && a != b
    ensures GetGroupDataType(a) != GetGroupDataType(b)
    ensures IntegerDType(a) ==> GetGroupDataType(a) != GetUnsignedGroupDataType(a)
  {
    GroupDataTypeRoundTrip(a);
    GroupDataTypeRoundTrip(b);
  }

  // ---- the slab a lazy loader reads ----

  /** The argument itself, or `rank` copies of `value` when it is null. */
  function OrDefault(given: Option<seq<int>>, rank: nat, value: int): (r: seq<int>)
    ensures given.Some? ==> r == given.value
    ensures given.None? ==> |r| == rank && forall i :: 0 <= i < rank ==> r[i] == value
  {
    match given
    case Some(v) => v
    case None => seq(rank, _ => value)
  }

  /** The working start, stop and step of `getDataset`. */
  datatype Slab = Slab(start: seq<int>, stop: seq<int>, step: seq<int>)

  /** A null step means every step is 1; a null start or stop means 0. */
  function Defaults(rank: nat, start: Option<seq<int>>, stop: Option<seq<int>>, step: Option<seq<int>>): (r: Slab)
    ensures step.None? ==> |r.step| == rank && forall i :: 0 <= i < rank ==> r.step[i] == 1
    ensures start.None? ==> |r.start| == rank && forall i :: 0 <= i < rank ==> r.start[i] == 0
    ensures stop.None? ==> |r.stop| == rank && forall i :: 0 <= i < rank ==> r.stop[i] == 0
    ensures step.Some? ==> r.step == step.value
    ensures start.Some? ==> r.start == start.value
    ensures stop.Some? ==> r.stop == stop.value
  {
    Slab(OrDefault(start, rank, 0), OrDefault(stop, rank, 0), OrDefault(step, rank, 1))
  }

  /** A null start is the origin; a null step reads the slice without any
      widening, from wherever it starts. */
  lemma NullDefaultsReadSlice(rank: nat, start: Option<seq<int>>, stop: Option<seq<int>>, shape: seq<int>)
    requires |shape| == rank && NonNegative(shape)
    requires start.Some? ==> |start.value| == rank
    ensures start.None? ==> Defaults(rank, start, stop, None).start == Origin(rank)
    ensures var l := Defaults(rank, start, stop, None);
      ReadRegion(l.start, shape, l.step) == Region(l.start, shape)
  {
    var l := Defaults(rank, start, stop, None);
    assert UnitSteps(l.step);
  }

  /** The shape of the requested slice. A rank-0 shape fails reading
      `shape[0]`; a 1-D dataset with no elements gives a zero-length slice;
      otherwise the shape is what `AbstractDataset.checkSlice` returns,
      passed in as `checked` (that method is not part of this model). */
  function SliceShape(shape: seq<int>, checked: seq<int>): (r: Result<seq<int>, DatasetError>)
    ensures r.Err? <==> |shape| == 0
    ensures r.Err? ==> r.error == ArrayIndexOutOfBounds
    ensures r.Ok? ==> (r.value == checked <==> |shape| > 1 || shape[0] > 0 || checked == [0])
    ensures r.Ok? && |shape| == 1 && shape[0] <= 0 ==> r.value == [0]
  {
    if |shape| == 0 then Err(ArrayIndexOutOfBounds)
    else if |shape| > 1 || shape[0] > 0 then Ok(checked)
    else Ok(seq(|shape|, _ => 0))
  }

  /** Whether every step is 1, so that the slice can be read as it is. */
  predicate UnitSteps(step: seq<int>)
  {
    forall i :: 0 <= i < |step| ==> step[i] == 1
  }

  function Abs(x: int): nat
  {
    if x < 0 then -x else x
  }

  /** One dimension of the contiguous window around a stepped slice of `n`
      elements, as written: from `start` to the last index
      `start + (n - 1) * step`, whichever is lower first. Returns the window's
      first index and its size. */
  function WindowAsWritten(start: int, n: int, step: int): (w: (int, int))
    ensures n > 0 ==> w.1 == (n - 1) * Abs(step) + 1
    ensures w.0 == (if step < 0 then start + (n - 1) * step else start)
  {
    var last := start + (n - 1) * step;
    if step < 0 then (last, start - last + 1) else (start, last - start + 1)
  }

  /** As written, a stepped dimension with no elements and a step of 2 or
      more in either direction gets a negative window size. */
  lemma WindowAsWrittenNegative(start: int, step: int)
    requires Abs(step) >= 2
    ensures WindowAsWritten(start, 0, step).1 == 1 - Abs(step) < 0
  {
  }

  /** The window with an empty dimension read as an empty window. */
  function Window(start: int, n: int, step: int): (w: (int, int))
    requires n >= 0
    ensures w.1 >= 0
    ensures w.1 == 0 <==> n == 0
    ensures n > 0 ==> w == WindowAsWritten(start, n, step)
  {
    if n == 0 then (start, 0) else WindowAsWritten(start, n, step)
  }

  /** Where the `m`-th requested element sits in the window: counting from
      the window's front for a non-negative step and from its back for a
      negative one, as a stepped read of the window does. */
  function StepOffset(size: int, step: int, m: int): int
  {
    if step >= 0 then m * step else (size - 1) + m * step
  }

  lemma MulBounds(m: int, n: int, s: nat)
    requires 0 <= m < n
    ensures 0 <= m * s <= (n - 1) * s
  {
    MulMonotone(m, n - 1, s);
  }

  /** The window covers the slice: every requested index lies inside it, and
      reading it with the step gives the requested indices in order. */
  lemma WindowCovers(start: int, n: int, step: int, m: int)
    requires 0 <= m < n
    ensures var w := Window(start, n, step);
      0 <= StepOffset(w.1, step, m) < w.1 && w.0 + StepOffset(w.1, step, m) == start + m * step
  {
    MulBounds(m, n, Abs(step));
    if step < 0 {
      assert m * step == -(m * Abs(step));
      assert (n - 1) * step == -((n - 1) * Abs(step));
    }
  }

  /** With a step of 1 the window is the slice itself. */
  lemma UnitStepWindow(start: int, n: int)
    requires n >= 0
    ensures Window(start, n, 1) == (start, n)
    ensures WindowAsWritten(start, n, 1) == (start, n)
  {
  }

  /** Start and size of the slab to read, before any unsqueezing. */
  datatype Region = Region(start: seq<int>, size: seq<int>)

  /** The window of every dimension. */
  function Windows(start: seq<int>, shape: seq<int>, step: seq<int>): (r: Region)
    requires |start| == |shape| == |step| && NonNegative(shape)
    ensures |r.start| == |r.size| == |shape|
  {
    Region(seq(|shape|, i requires 0 <= i < |shape| => Window(start[i], shape[i], step[i]).0),
           seq(|shape|, i requires 0 <= i < |shape| => Window(start[i], shape[i], step[i]).1))
  }

  /** The window of every dimension, as written. */
  function WindowsAsWritten(start: seq<int>, shape: seq<int>, step: seq<int>): (r: Region)
    requires |start| == |shape| == |step|
    ensures |r.start| == |r.size| == |shape|
  {
    Region(seq(|shape|, i requires 0 <= i < |shape| => WindowAsWritten(start[i], shape[i], step[i]).0),
           seq(|shape|, i requires 0 <= i < |shape| => WindowAsWritten(start[i], shape[i], step[i]).1))
  }

  /** The slab `getDataset` reads, as written: the slice itself when every
      step is 1, the windows of every dimension otherwise. */
  function ReadRegionAsWritten(start: seq<int>, shape: seq<int>, step: seq<int>): (r: Region)
    requires |start| == |shape| == |step|
    ensures UnitSteps(step) ==> r == Region(start, shape)
    ensures !UnitSteps(step) ==> r == WindowsAsWritten(start, shape, step)
  {
    if UnitSteps(step) then Region(start, shape) else WindowsAsWritten(start, shape, step)
  }

  /** The slab `getDataset` reads, with empty dimensions read as empty. */
  function ReadRegion(start: seq<int>, shape: seq<int>, step: seq<int>): (r: Region)
    requires |start| == |shape| == |step| && NonNegative(shape)
    ensures |r.start| == |r.size| == |shape|
    ensures NonNegative(r.size)
    ensures forall i :: 0 <= i < |shape| ==> (r.size[i] == 0 <==> shape[i] == 0)
  {
    if UnitSteps(step) then Region(start, shape) else Windows(start, shape, step)
  }

  /** When every step is 1 the windows are the slice itself, so skipping
      them is only a shortcut. */
  lemma UnitStepsReadSlice(start: seq<int>, shape: seq<int>, step: seq<int>)
    requires |start| == |shape| == |step| && NonNegative(shape) && UnitSteps(step)
    ensures ReadRegion(start, shape, step) == Region(start, shape)
    ensures Windows(start, shape, step) == Region(start, shape)
  {
    var w := Windows(start, shape, step);
    forall i | 0 <= i < |shape|
      ensures w.start[i] == start[i] && w.size[i] == shape[i]
    {
      UnitStepWindow(start[i], shape[i]);
    }
  }

  /** The slab covers the slice in every dimension. */
  lemma ReadRegionCovers(start: seq<int>, shape: seq<int>, step: seq<int>, i: int, m: int)
    requires |start| == |shape| == |step| && NonNegative(shape)
    requires 0 <= i < |shape| && 0 <= m < shape[i]
    ensures var r := ReadRegion(start, shape, step);
      r.start[i] <= start[i] + m * step[i] < r.start[i] + r.size[i]
  {
    if UnitSteps(step) {
      assert step[i] == 1;
    } else {
      WindowCovers(start[i], shape[i], step[i], m);
    }
  }

  /** Where they are defined the two versions agree: only a dimension with
      no elements reads differently. */
  lemma ReadRegionAgrees(start: seq<int>, shape: seq<int>, step: seq<int>)
    requires |start| == |shape| == |step|
    requires forall i :: 0 <= i < |shape| ==> shape[i] > 0
    ensures ReadRegionAsWritten(start, shape, step) == ReadRegion(start, shape, step)
  {
  }

  /** An empty 1-D dataset read with step 2: as written the slab has size -1;
      with empty dimensions read as empty it has size 0. */
  lemma EmptyStepTwoSlab(n: int, start: int)
    requires n <= 0
    ensures SliceShape([n], [0]) == Ok([0])
    ensures ReadRegionAsWritten([start], [0], [2]).size == [-1]
    ensures ReadRegion([start], [0], [2]).size == [0]
  {
    assert !UnitSteps([2]);
    assert WindowsAsWritten([start], [0], [2]).size[0] == -1;
    assert Windows([start], [0], [2]).size[0] == 0;
  }

  // ---- unsqueezing ----

  /** Number of dimensions of `trueShape` other than 1: the rank of the squeezed shape. */
  function NonUnit(trueShape: seq<int>): (n: nat)
    ensures n <= |trueShape|
  {
    if |trueShape| == 0 then 0
    else (if trueShape[0] == 1 then 0 else 1) + NonUnit(trueShape[1..])
  }

  /** The entries of `v` at the dimensions of `trueShape` other than 1. */
  function Squeeze(trueShape: seq<int>, v: seq<int>): (r: seq<int>)
    requires |v| == |trueShape|
    ensures |r| == NonUnit(trueShape)
  {
    if |trueShape| == 0 then []
    else if trueShape[0] == 1 then Squeeze(trueShape[1..], v[1..])
    else [v[0]] + Squeeze(trueShape[1..], v[1..])
  }

  /** The loop of `getDataset` that maps a slab of the squeezed shape onto
      the true shape: a dimension of length 1 gets start 0 and size 1, every
      other one takes the next squeezed start and size. More such dimensions
      than squeezed ones fail reading past the squeezed arrays. */
  function Unsqueeze(trueShape: seq<int>, start: seq<int>, size: seq<int>): (r: Result<Region, DatasetError>)
    requires |start| == |size|
    ensures r.Err? <==> NonUnit(trueShape) > |start|
    ensures r.Err? ==> r.error == ArrayIndexOutOfBounds
    ensures r.Ok? ==> |r.value.start| == |r.value.size| == |trueShape|
    ensures r.Ok? ==> forall i :: 0 <= i < |trueShape| && trueShape[i] == 1 ==>
      r.value.start[i] == 0 && r.value.size[i] == 1
    decreases |trueShape|
  {
    if |trueShape| == 0 then Ok(Region([], []))
    else if trueShape[0] == 1 then
      var rest :- Unsqueeze(trueShape[1..], start, size);
      Ok(Region([0] + rest.start, [1] + rest.size))
    else if |start| == 0 then Err(ArrayIndexOutOfBounds)
    else
      var rest :- Unsqueeze(trueShape[1..], start[1..], size[1..]);
      Ok(Region([start[0]] + rest.start, [size[0]] + rest.size))
  }

  /** The other dimensions take the squeezed starts and sizes in order:
      squeezing the unsqueezed slab gives back the slab (the part of it the
      true shape uses). */
  lemma {:induction false} SqueezeUnsqueeze(trueShape: seq<int>, start: seq<int>, size: seq<int>)
    requires |start| == |size| && NonUnit(trueShape) <= |start|
    ensures Squeeze(trueShape, Unsqueeze(trueShape, start, size).value.start) == start[..NonUnit(trueShape)]
    ensures Squeeze(trueShape, Unsqueeze(trueShape, start, size).value.size) == size[..NonUnit(trueShape)]
    decreases |trueShape|
  {
    if |trueShape| > 0 {
      var r := Unsqueeze(trueShape, start, size).value;
      if trueShape[0] == 1 {
        var rest := Unsqueeze(trueShape[1..], start, size).value;
        SqueezeUnsqueeze(trueShape[1..], start, size);
        assert r.start[1..] == rest.start && r.size[1..] == rest.size;
      } else {
        var rest := Unsqueeze(trueShape[1..], start[1..], size[1..]).value;
        SqueezeUnsqueeze(trueShape[1..], start[1..], size[1..]);
        assert r.start[1..] == rest.start && r.size[1..] == rest.size;
        assert start[..NonUnit(trueShape)] == [start[0]] + start[1..][..NonUnit(trueShape[1..])];
        assert size[..NonUnit(trueShape)] == [size[0]] + size[1..][..NonUnit(trueShape[1..])];
      }
    }
  }

  /** When the dataset's shape is the true shape with its unit dimensions
      removed, unsqueezing succeeds and the squeezed slab is recovered whole. */
  lemma UnsqueezeSqueezedShape(trueShape: seq<int>, start: seq<int>, size: seq<int>)
    requires |start| == |size| == |Squeeze(trueShape, trueShape)|
    ensures Unsqueeze(trueShape, start, size).Ok?
    ensures Squeeze(trueShape, Unsqueeze(trueShape, start, size).value.start) == start
    ensures Squeeze(trueShape, Unsqueeze(trueShape, start, size).value.size) == size
  {
    SqueezeUnsqueeze(trueShape, start, size);
    assert start[..|start|] == start && size[..|size|] == size;
  }

  /** The slab handed to the NeXus reader: the slab itself when the dataset
      has the file's true shape, the unsqueezed slab otherwise. */
  function TrueRegion(trueShape: seq<int>, shape: seq<int>, region: Region): (r: Result<Region, DatasetError>)
    requires |region.start| == |region.size|
    ensures trueShape == shape ==> r == Ok(region)
    ensures trueShape != shape ==> r == Unsqueeze(trueShape, region.start, region.size)
  {
    if trueShape == shape then Ok(region) else Unsqueeze(trueShape, region.start, region.size)
  }
}

=== FILE: polygonal_roi.dfy ===
/** PolygonalROI: a polygon kept as a list of point ROIs whose first entry is
    the polygon itself. The polygon's own start point is therefore always
    point 0; every other entry is a plain ROI holding one vertex. A vertex is
    the double array the caller passed (normally x and y). */
module PolygonalRoi {
  import opened Wrappers

  type Point = seq<real>

  datatype PointError =
      /** IndexOutOfBoundsException from the point list. */
    | IndexOutOfBounds
      /** ArrayIndexOutOfBoundsException from a point array too short to read. */
    | ArrayIndexOutOfBounds

  /** The point list; `points[0]` is the start point `spt` of the polygon itself. */
  datatype Polygon = Polygon(points: seq<Point>)

  /** Every polygon has its own entry at index 0. */
  predicate Valid(p: Polygon)
  {
    |p.points| >= 1
  }

  /** The polygon's start point, `spt`. */
  function Start(p: Polygon): Point
    requires Valid(p)
  {
    p.points[0]
  }

  /** `new PolygonalROI(start)`: a polygon whose only entry is itself. */
  function New(start: Point): (p: Polygon)
    ensures Valid(p) && Sides(p) == 1 && Start(p) == start
  {
    Polygon([start])
  }

  /** `new PolygonalROI()`: starts at the origin. */
  function Default(): (p: Polygon)
    ensures Valid(p) && Sides(p) == 1 && Start(p) == [0.0, 0.0]
  {
    New([0.0, 0.0])
  }

  /** `getSides`: the number of stored points, the polygon's own entry included. */
  function Sides(p: Polygon): nat
  {
    |p.points|
  }

  /** `insertPoint(double[])`: appends a vertex; earlier points are unchanged. */
  function Append(p: Polygon, point: Point): (r: Polygon)
    requires Valid(p)
    ensures Valid(r) && Sides(r) == Sides(p) + 1 && Start(r) == Start(p)
    ensures forall i :: 0 <= i < Sides(p) ==> r.points[i] == p.points[i]
    ensures r.points[Sides(p)] == point
  {
    Polygon(p.points + [point])
  }

  /** `insertPoint(int[])`: the first two coordinates, as doubles, appended; a shorter array fails. */
  function AppendInt(p: Polygon, point: seq<int>): (r: Result<Polygon, PointError>)
    requires Valid(p)
    ensures r.Err? <==> |point| < 2
    ensures r.Err? ==> r.error == ArrayIndexOutOfBounds
    ensures r.Ok? ==> r.value == Append(p, [point[0] as real, point[1] as real])
  {
    if |point| < 2 then Err(ArrayIndexOutOfBounds)
    else Ok(Append(p, [point[0] as real, point[1] as real]))
  }

  /** `insertPoint(i, point)`. At 0 the polygon's old start is copied into a new
      entry that takes the polygon's place, the polygon takes `point` as its
      start and goes back in front; elsewhere a new entry is added at `i`.
      An index outside 0..size fails in `List.add`. */
  function Insert(p: Polygon, i: int, point: Point): (r: Result<Polygon, PointError>)
    requires Valid(p)
    ensures r.Err? <==> !(0 <= i <= Sides(p))
    ensures r.Err? ==> r.error == IndexOutOfBounds
    ensures r.Ok? ==> Valid(r.value)
  {
    if i == 0 then
      var copy := Start(p);
      var rest := [copy] + p.points[1..];
      Ok(Polygon([point] + rest))
    else if 0 < i <= |p.points| then
      Ok(Polygon(p.points[..i] + [point] + p.points[i..]))
    else Err(IndexOutOfBounds)
  }

  /** Both branches of `insertPoint(i, point)` act as list insertion at `i`:
      point `i` becomes `point`, earlier points stay and later points shift by one. */
  lemma InsertIsListInsertion(p: Polygon, i: int, point: Point)
    requires Valid(p) && 0 <= i <= Sides(p)
    ensures Insert(p, i, point).Ok?
    ensures Insert(p, i, point).value.points == p.points[..i] + [point] + p.points[i..]
  {
    if i == 0 {
      assert [Start(p)] + p.points[1..] == p.points;
    }
  }

  /** After inserting at `i`, the sides grow by one and each point is where list insertion puts it. */
  lemma InsertPositions(p: Polygon, i: int, point: Point)
    requires Valid(p) && 0 <= i <= Sides(p)
    ensures Sides(Insert(p, i, point).value) == Sides(p) + 1
    ensures Insert(p, i, point).value.points[i] == point
    ensures forall j :: 0 <= j < i ==> Insert(p, i, point).value.points[j] == p.points[j]
    ensures forall j :: i <= j < Sides(p) ==> Insert(p, i, point).value.points[j + 1] == p.points[j]
  {
    InsertIsListInsertion(p, i, point);
  }

  /** Inserting at 0 moves the polygon's start: the new point becomes `spt`, the old one is point 1. */
  lemma InsertAtFrontMovesStart(p: Polygon, point: Point)
    requires Valid(p)
    ensures Start(Insert(p, 0, point).value) == point
    ensures Insert(p, 0, point).value.points[1] == Start(p)
  {
  }

  /** Appending is insertion at the end. */
  lemma AppendIsInsertAtEnd(p: Polygon, point: Point)
    requires Valid(p)
    ensures Insert(p, Sides(p), point) == Ok(Append(p, point))
  {
    InsertIsListInsertion(p, Sides(p), point);
    assert p.points[..Sides(p)] + [point] + p.points[Sides(p)..] == p.points + [point];
  }

  /** `getPoint(i)`: the start point of the `i`-th entry. */
  function GetPoint(p: Polygon, i: int): (r: Result<Point, PointError>)
    ensures r.Ok? <==> 0 <= i < Sides(p)
    ensures r.Err? ==> r.error == IndexOutOfBounds
    ensures r.Ok? ==> r.value == p.points[i]
  {
    if 0 <= i < |p.points| then Ok(p.points[i]) else Err(IndexOutOfBounds)
  }

  /** Coordinate `c` of the `i`-th point: a missing entry or a short array fails. */
  function Coordinate(p: Polygon, i: int, c: nat): (r: Result<real, PointError>)
    ensures r.Ok? <==> 0 <= i < Sides(p) && c < |p.points[i]|
    ensures !(0 <= i < Sides(p)) ==> r == Err(IndexOutOfBounds)
    ensures r.Ok? ==> r.value == p.points[i][c]
  {
    var pt :- GetPoint(p, i);
    if c < |pt| then Ok(pt[c]) else Err(ArrayIndexOutOfBounds)
  }

  /** `getPointX(i)`. */
  function GetPointX(p: Polygon, i: int): (r: Result<real, PointError>)
    ensures r.Ok? <==> 0 <= i < Sides(p) && |p.points[i]| > 0
    ensures r.Ok? ==> r.value == p.points[i][0]
  {
    Coordinate(p, i, 0)
  }

  /** `getPointY(i)`. */
  function GetPointY(p: Polygon, i: int): (r: Result<real, PointError>)
    ensures r.Ok? <==> 0 <= i < Sides(p) && |p.points[i]| > 1
    ensures r.Ok? ==> r.value == p.points[i][1]
  {
    Coordinate(p, i, 1)
  }

  /** The loop of `copy`: points `points[k..]` appended one by one. */
  function AppendAll(p: Polygon, points: seq<Point>): (r: Polygon)
    requires Valid(p)
    ensures Valid(r)
    decreases |points|
  {
    if |points| == 0 then p else AppendAll(Append(p, points[0]), points[1..])
  }

  /** Appending a list of points one at a time concatenates it. */
  lemma {:induction false} AppendAllConcatenates(p: Polygon, points: seq<Point>)
    requires Valid(p)
    ensures AppendAll(p, points) == Polygon(p.points + points)
    decreases |points|
  {
    if |points| > 0 {
      AppendAllConcatenates(Append(p, points[0]), points[1..]);
      assert p.points + [points[0]] + points[1..] == p.points + points;
    }
  }

  /** `copy`: a new polygon on a copy of the start point, with every other vertex appended in order. */
  function Copy(p: Polygon): (r: Polygon)
    requires Valid(p)
    ensures Valid(r)
  {
    AppendAll(New(Start(p)), p.points[1..])
  }

  /** The copy has the same number of sides and the same points in the same order. */
  lemma CopyIsEqual(p: Polygon)
    requires Valid(p)
    ensures Copy(p) == p
    ensures Sides(Copy(p)) == Sides(p)
  {
    AppendAllConcatenates(New(Start(p)), p.points[1..]);
    assert [Start(p)] + p.points[1..] == p.points;
  }
}

=== FILE: py_flatten.dfy ===
/** scisoftpy's flattening registry: an ordered list of helpers, each of
    which claims some Python values (to flatten them) and some transport
    trees (to unflatten them). `flatten` and `unflatten` hand a value to the
    first helper that claims it; helpers recurse through the same registry
    for nested values. */
module PyFlatten {
  import opened Wrappers
  import opened PyValues
  import FirstMatch
  import PyUuid

  /** Key of the record entry naming the Java type of a flattened value. */
  const TypeKey := "__type__"
  const ContentKey := "content"
  const KeysKey := "keys"
  const ValuesKey := "values"
  const TypedNoneTypeKey := "typedNoneType"
  /** The `typedNoneType` a plain `None` is sent with. */
  const NullText := "null"

  const NoneTypeName := "__None__"
  const MapTypeName := "java.util.Map"
  const UuidTypeName := "java.util.UUID"
  const ExceptionTypeName := "java.lang.Exception"

  function RoiTypeName(k: RoiKind): string
  {
    match k
    case RoiBase => "uk.ac.diamond.scisoft.analysis.roi.ROIBase"
    case Rect => "uk.ac.diamond.scisoft.analysis.roi.RectangularROI"
    case Sect => "uk.ac.diamond.scisoft.analysis.roi.SectorROI"
    case Line => "uk.ac.diamond.scisoft.analysis.roi.LinearROI"
  }

  function RoiListTypeName(k: RoiListKind): string
  {
    match k
    case LineList => "uk.ac.diamond.scisoft.analysis.roi.LinearROIList"
    case SectList => "uk.ac.diamond.scisoft.analysis.roi.SectorROIList"
    case RectList => "uk.ac.diamond.scisoft.analysis.roi.RectangularROIList"
  }

  /** Types whose helpers convert numpy arrays and plot-server beans. */
  datatype ForeignKind =
    | NdArray | GuiBean | GuiParameters | GuiPlotMode | AxisMapBean | DataSetWithAxisInformation | DataBean

  function ForeignTypeName(k: ForeignKind): string
  {
    match k
    case NdArray => "uk.ac.diamond.scisoft.analysis.dataset.AbstractDataset"
    case GuiBean => "uk.ac.diamond.scisoft.analysis.plotserver.GuiBean"
    case GuiParameters => "uk.ac.diamond.scisoft.analysis.plotserver.GuiParameters"
    case GuiPlotMode => "uk.ac.diamond.scisoft.analysis.plotserver.GuiPlotMode"
    case AxisMapBean => "uk.ac.diamond.scisoft.analysis.plotserver.AxisMapBean"
    case DataSetWithAxisInformation => "uk.ac.diamond.scisoft.analysis.plotserver.DataSetWithAxisInformation"
    case DataBean => "uk.ac.diamond.scisoft.analysis.plotserver.DataBean"
  }

  /** The helpers of the registry. `ForeignHelper` stands for the helpers of
      numpy arrays and plot-server beans: they claim no value of this model
      and claim records tagged with their type name, whose conversion lies
      outside the model. */
  datatype Helper =
    | NoneHelper
    | RoiListHelper(listKind: RoiListKind)
    | RoiHelper(kind: RoiKind)
    | ForeignHelper(foreign: ForeignKind)
    | DictHelper
    | PassThroughHelper
    | ListAndTupleHelper
    | UuidHelper
    | ExceptionHelper

  /** The type name a typed helper writes and recognises; pass-through and list helpers have none. */
  function HelperTypeName(h: Helper): Option<string>
  {
    match h
    case NoneHelper => Some(NoneTypeName)
    case RoiListHelper(k) => Some(RoiListTypeName(k))
    case RoiHelper(k) => Some(RoiTypeName(k))
    case ForeignHelper(k) => Some(ForeignTypeName(k))
    case DictHelper => Some(MapTypeName)
    case UuidHelper => Some(UuidTypeName)
    case ExceptionHelper => Some(ExceptionTypeName)
    case PassThroughHelper => None
    case ListAndTupleHelper => None
  }

  /** The helpers registered when the module is loaded, in order. */
  const DefaultHelpers: seq<Helper> := [
    NoneHelper,
    RoiListHelper(LineList), RoiListHelper(SectList), RoiListHelper(RectList),
    RoiHelper(Rect), RoiHelper(Sect), RoiHelper(Line), RoiHelper(RoiBase),
    ForeignHelper(NdArray), ForeignHelper(GuiBean), ForeignHelper(GuiParameters), ForeignHelper(GuiPlotMode),
    ForeignHelper(AxisMapBean), ForeignHelper(DataSetWithAxisInformation), ForeignHelper(DataBean),
    DictHelper, PassThroughHelper, ListAndTupleHelper, UuidHelper, ExceptionHelper
  ]

  /** `addhelper`: the new helper goes in front of all others. */
  function AddHelper(reg: seq<Helper>, h: Helper): (r: seq<Helper>)
    ensures |r| == |reg| + 1 && r[0] == h && r[1..] == reg
  {
    [h] + reg
  }

  /** After `addhelper(h)`, `flatten` gives `h` every value it claims; any
      other value goes to the helper that handled it before, which now
      recurses through the enlarged registry. */
  lemma AddHelperFlatten(reg: seq<Helper>, h: Helper, v: PyValue)
    ensures CanFlatten(h, v) ==> Flatten(AddHelper(reg, h), v) == ApplyFlatten(h, AddHelper(reg, h), v)
    ensures !CanFlatten(h, v) && !CanFlattenAny(reg, v) ==> Flatten(AddHelper(reg, h), v) == Err(CannotFlatten(v))
    ensures !CanFlatten(h, v) && CanFlattenAny(reg, v) ==>
      Flatten(AddHelper(reg, h), v) ==
        ApplyFlatten(reg[FirstMatch.First(reg, CanFlatten, v).value], AddHelper(reg, h), v)
  {
    FirstMatch.PrependFirst(h, reg, CanFlatten, v);
  }

  /** After `addhelper(h)`, `unflatten` gives `h` every tree it claims; any
      other tree goes to the helper that handled it before. */
  lemma AddHelperUnflatten(reg: seq<Helper>, h: Helper, w: PyValue)
    ensures CanUnflatten(h, w) ==> Unflatten(AddHelper(reg, h), w) == ApplyUnflatten(h, AddHelper(reg, h), w)
    ensures !CanUnflatten(h, w) && !CanUnflattenAny(reg, w) ==> Unflatten(AddHelper(reg, h), w) == Err(CannotUnflatten(w))
    ensures !CanUnflatten(h, w) && CanUnflattenAny(reg, w) ==>
      Unflatten(AddHelper(reg, h), w) ==
        ApplyUnflatten(reg[FirstMatch.First(reg, CanUnflatten, w).value], AddHelper(reg, h), w)
  {
    FirstMatch.PrependFirst(h, reg, CanUnflatten, w);
  }

  datatype PyError =
      /** The TypeError of `flatten` when no helper claims the value. */
    | CannotFlatten(obj: PyValue)
      /** The TypeError of `unflatten` when no helper claims the tree. */
    | CannotUnflatten(obj: PyValue)
    | KeyError(missing: string)
      /** The TypeError of iterating over a value that is not iterable. */
    | NotIterable(obj: PyValue)
      /** The TypeError of using a list or dict as a dict key. */
    | Unhashable(key: PyValue)
      /** The TypeError of passing a non-string keyword to an ROI constructor. */
    | KeywordNotString(key: PyValue)
      /** The error of `uuid.UUID` on text that is not a UUID. */
    | BadUuid(content: PyValue)
      /** A conversion whose code is outside this model. */
    | OutsideModel(what: string)

  predicate IsPassThrough(v: PyValue)
  {
    v.Bool? || v.Int? || v.Float? || v.Str? || v.Binary?
  }

  /** `canflatten` of one helper. */
  predicate CanFlatten(h: Helper, v: PyValue)
  {
    match h
    case NoneHelper => v.PyNone? || v.TypedNone?
    case RoiListHelper(k) => v.RoiList? && v.listKind == k
    case RoiHelper(k) => v.Roi? && (v.kind == k || k == RoiBase)
    case ForeignHelper(_) => false
    case DictHelper => v.Dict?
    case PassThroughHelper => IsPassThrough(v)
    case ListAndTupleHelper => v.List? || v.Tuple?
    case UuidHelper => v.Uuid?
    case ExceptionHelper => v.Exception?
  }

  /** The tree is a dict whose `__type__` entry is the string `name`. */
  predicate TaggedWith(w: PyValue, name: string)
  {
    w.Dict? && DictGet(w.entries, Str(TypeKey)) == Some(Str(name))
  }

  /** `canunflatten` of one helper. */
  predicate CanUnflatten(h: Helper, w: PyValue)
  {
    match h
    case PassThroughHelper => IsPassThrough(w)
    case ListAndTupleHelper => w.List? || w.Tuple?
    case NoneHelper => w.PyNone? || TaggedWith(w, NoneTypeName)
    case _ => TaggedWith(w, HelperTypeName(h).value)
  }

  /** The registry's `canflatten`: some registered helper claims the value. */
  predicate CanFlattenAny(reg: seq<Helper>, v: PyValue)
  {
    FirstMatch.Claimed(reg, CanFlatten, v)
  }

  /** The registry's `canunflatten`: some registered helper claims the tree. */
  predicate CanUnflattenAny(reg: seq<Helper>, w: PyValue)
  {
    FirstMatch.Claimed(reg, CanUnflatten, w)
  }

  /** `flatten`: the first helper claiming `v` converts it; TypeError if none does. */
  function Flatten(reg: seq<Helper>, v: PyValue): (r: Result<PyValue, PyError>)
    decreases Size(v), 1, 0
  {
    match FirstMatch.First(reg, CanFlatten, v)
    case None => Err(CannotFlatten(v))
    case Some(i) => ApplyFlatten(reg[i], reg, v)
  }

  /** `flatten` of one helper, called only on values it claims. */
  function ApplyFlatten(h: Helper, reg: seq<Helper>, v: PyValue): (r: Result<PyValue, PyError>)
    requires CanFlatten(h, v)
    decreases Size(v), 0, 0
  {
    match h
    case NoneHelper =>
      Ok(Dict([(Str(TypeKey), Str(NoneTypeName)),
               (Str(TypedNoneTypeKey), if v.PyNone? then Str(NullText) else v.typedNoneType)]))
    case RoiListHelper(k) =>
      ItemsSmaller(v);
      var flat :- FlattenSeq(reg, v.rois);
      Ok(Dict([(Str(TypeKey), Str(RoiListTypeName(k))), (Str(ContentKey), List(flat))]))
    case RoiHelper(k) =>
      AttrsSmaller(v);
      var flat :- FlattenSeq(reg, Values(v.attrs));
      var fields := Zip(AttrKeys(v.attrs), flat);
      Ok(Dict(DictPut(fields, Str(TypeKey), Str(RoiTypeName(k)))))
    case DictHelper =>
      EntriesSmaller(v);
      var kv :- FlattenEntries(reg, v.entries);
      Ok(Dict([(Str(TypeKey), Str(MapTypeName)), (Str(KeysKey), List(kv.0)), (Str(ValuesKey), List(kv.1))]))
    case PassThroughHelper => Ok(v)
    case ListAndTupleHelper =>
      ItemsSmaller(v);
      var flat :- FlattenSeq(reg, v.items);
      Ok(List(flat))
    case UuidHelper =>
      Ok(Dict([(Str(TypeKey), Str(UuidTypeName)), (Str(ContentKey), Str(v.text))]))
    case ExceptionHelper =>
      match ExceptionText(v.cls, v.arg)
      case Some(t) => Ok(Dict([(Str(TypeKey), Str(ExceptionTypeName)), (Str(ContentKey), Str(t))]))
      case None => Err(OutsideModel("str() of an exception whose argument's text is not modelled"))
  }

  /** The class whose `str` shows its argument's `repr`. */
  const KeyErrorName := "KeyError"

  /** `str(e)` of an exception raised with the one argument `arg`: the
      argument's `str`, except that a KeyError shows the argument's `repr`. */
  function ExceptionText(cls: string, arg: PyValue): (r: Option<string>)
    ensures r.Some? <==> arg.PyNone? || arg.Bool? || arg.Int? || (arg.Str? && (cls != KeyErrorName || PlainText(arg.s)))
    ensures arg.Str? && cls != KeyErrorName ==> r == Some(arg.s)
  {
    if cls == KeyErrorName then ReprText(arg) else StrText(arg)
  }

  /** Attribute names as string keys. */
  function AttrKeys(attrs: seq<(string, PyValue)>): (r: seq<PyValue>)
    ensures |r| == |attrs| && forall i :: 0 <= i < |attrs| ==> r[i] == Str(attrs[i].0)
  {
    StrKeys(Keys(attrs))
  }

  function StrKeys(names: seq<string>): (r: seq<PyValue>)
    ensures |r| == |names| && forall i :: 0 <= i < |names| ==> r[i] == Str(names[i])
  {
    seq(|names|, i requires 0 <= i < |names| => Str(names[i]))
  }

  /** Flattens each item in order, stopping at the first failure. */
  function FlattenSeq(reg: seq<Helper>, items: seq<PyValue>): (r: Result<seq<PyValue>, PyError>)
    decreases MaxSize(items), 2, |items|
  {
    if |items| == 0 then Ok([])
    else
      var x :- Flatten(reg, items[0]);
      var rest :- FlattenSeq(reg, items[1..]);
      Ok([x] + rest)
  }

  /** Flattens each key and then its value, in order, into parallel key and value lists. */
  function FlattenEntries(reg: seq<Helper>, entries: seq<(PyValue, PyValue)>): (r: Result<(seq<PyValue>, seq<PyValue>), PyError>)
    decreases MaxPairSize(entries), 2, |entries|
  {
    if |entries| == 0 then Ok(([], []))
    else
      var k :- Flatten(reg, entries[0].0);
      var x :- Flatten(reg, entries[0].1);
      var rest :- FlattenEntries(reg, entries[1..]);
      Ok(([k] + rest.0, [x] + rest.1))
  }

  /** `unflatten`: the first helper claiming `w` converts it back; TypeError if none does. */
  function Unflatten(reg: seq<Helper>, w: PyValue): (r: Result<PyValue, PyError>)
    decreases Size(w), 1, 0
  {
    match FirstMatch.First(reg, CanUnflatten, w)
    case None => Err(CannotUnflatten(w))
    case Some(i) => ApplyUnflatten(reg[i], reg, w)
  }

  /** `unflatten` of one helper, called only on trees it claims. */
  function ApplyUnflatten(h: Helper, reg: seq<Helper>, w: PyValue): (r: Result<PyValue, PyError>)
    requires CanUnflatten(h, w)
    decreases Size(w), 0, 1
  {
    match h
    case NoneHelper => UnflattenNone(w)
    case RoiListHelper(k) => UnflattenRoiList(k, reg, w)
    case RoiHelper(k) => UnflattenRoi(k, reg, w)
    case ForeignHelper(k) => Err(OutsideModel(ForeignTypeName(k)))
    case DictHelper => UnflattenDict(reg, w)
    case PassThroughHelper => Ok(w)
    case ListAndTupleHelper => UnflattenList(reg, w)
    case UuidHelper => UnflattenUuid(w)
    case ExceptionHelper => UnflattenException(w)
  }

  /** A typed-null record whose `typedNoneType` is "null" is plain `None`. */
  function UnflattenNone(w: PyValue): (r: Result<PyValue, PyError>)
    requires w.PyNone? || w.Dict?
    ensures r.Ok? ==> r.value.PyNone? || r.value.TypedNone?
    ensures r.Ok? && r.value.TypedNone? ==> r.value.typedNoneType != Str(NullText)
  {
    if w.PyNone? then Ok(PyNone)
    else
      match DictGet(w.entries, Str(TypedNoneTypeKey))
      case None => Err(KeyError(TypedNoneTypeKey))
      case Some(t) => if t == Str(NullText) then Ok(PyNone) else Ok(TypedNone(t))
  }

  function UnflattenRoiList(k: RoiListKind, reg: seq<Helper>, w: PyValue): (r: Result<PyValue, PyError>)
    requires w.Dict?
    decreases Size(w), 0, 0
  {
    var content :- Lookup(w, ContentKey);
    var items :- Elements(content);
    var rois :- UnflattenSeq(reg, items);
    Ok(RoiList(k, rois))
  }

  /** Every entry but `__type__` becomes a constructor keyword argument. */
  function UnflattenRoi(k: RoiKind, reg: seq<Helper>, w: PyValue): (r: Result<PyValue, PyError>)
    requires w.Dict?
    decreases Size(w), 0, 0
  {
    var fields := RemoveKey(w.entries, Str(TypeKey));
    EntriesSmaller(w);
    var unflattened :- UnflattenValues(reg, fields);
    var attrs :- KeywordArgs(BuildDict(unflattened));
    Ok(Roi(k, attrs))
  }

  /** The keys and values lists are zipped back into a dict. */
  function UnflattenDict(reg: seq<Helper>, w: PyValue): (r: Result<PyValue, PyError>)
    requires w.Dict?
    decreases Size(w), 0, 0
  {
    var keys :- Lookup(w, KeysKey);
    var values :- Lookup(w, ValuesKey);
    var ks :- Elements(keys);
    var vs :- Elements(values);
    ZipBelow(ks, vs, Size(w) - 1);
    UnflattenZipped(reg, Zip(ks, vs))
  }

  /** `rval[unflatten(k)] = unflatten(v)` for each zipped pair, in order. */
  function UnflattenZipped(reg: seq<Helper>, pairs: seq<(PyValue, PyValue)>): (r: Result<PyValue, PyError>)
    decreases MaxPairSize(pairs), 3, 0
  {
    var unflattened :- UnflattenPairs(reg, pairs);
    Ok(Dict(BuildDict(unflattened)))
  }

  /** `d[key]`: the value stored under a string key, or KeyError. */
  function Lookup(w: PyValue, key: string): (r: Result<PyValue, PyError>)
    requires w.Dict?
    ensures r.Ok? <==> DictGet(w.entries, Str(key)).Some?
    ensures r.Ok? ==> DictGet(w.entries, Str(key)) == Some(r.value) && Size(r.value) < Size(w)
    ensures r.Err? ==> r.error == KeyError(key)
  {
    match DictGet(w.entries, Str(key))
    case None => Err(KeyError(key))
    case Some(x) =>
      GetSmaller(w, Str(key));
      Ok(x)
  }

  /** The elements iterating over `v` yields, or TypeError if it is not iterable. */
  function Elements(v: PyValue): (r: Result<seq<PyValue>, PyError>)
    ensures r.Ok? <==> Iterate(v).Some?
    ensures r.Ok? ==> Iterate(v) == Some(r.value) && MaxSize(r.value) <= Size(v)
    ensures r.Err? ==> r.error == NotIterable(v)
  {
    match Iterate(v)
    case None => Err(NotIterable(v))
    case Some(xs) => Ok(xs)
  }

  /** Lists and tuples both come back as lists of the same length. */
  function UnflattenList(reg: seq<Helper>, w: PyValue): (r: Result<PyValue, PyError>)
    requires w.List? || w.Tuple?
    decreases Size(w), 0, 0
  {
    ItemsSmaller(w);
    var items :- UnflattenSeq(reg, w.items);
    Ok(List(items))
  }

  /** `uuid.UUID(obj[CONTENT])`: the content must be text `uuid.UUID` reads,
      and the UUID keeps the canonical form of it. */
  function UnflattenUuid(w: PyValue): (r: Result<PyValue, PyError>)
    requires w.Dict?
    ensures r.Ok? <==> (DictGet(w.entries, Str(ContentKey)).Some? &&
                        DictGet(w.entries, Str(ContentKey)).value.Str? &&
                        PyUuid.Parse(DictGet(w.entries, Str(ContentKey)).value.s).Some?)
    ensures r.Ok? ==> r == Ok(Uuid(PyUuid.Parse(DictGet(w.entries, Str(ContentKey)).value.s).value))
    ensures r.Ok? ==> PyUuid.Canonical(r.value.text)
  {
    match DictGet(w.entries, Str(ContentKey))
    case None => Err(KeyError(ContentKey))
    case Some(c) =>
      if !c.Str? then Err(BadUuid(c))
      else
        match PyUuid.Parse(c.s)
        case None => Err(BadUuid(c))
        case Some(t) => Ok(Uuid(t))
  }

  /** `Exception(obj[CONTENT])`: a plain `Exception` built from whatever was sent. */
  function UnflattenException(w: PyValue): (r: Result<PyValue, PyError>)
    requires w.Dict?
    ensures r.Ok? <==> DictGet(w.entries, Str(ContentKey)).Some?
    ensures r.Ok? ==> r.value == Exception("Exception", DictGet(w.entries, Str(ContentKey)).value)
    ensures r.Err? ==> r.error == KeyError(ContentKey)
  {
    match DictGet(w.entries, Str(ContentKey))
    case None => Err(KeyError(ContentKey))
    case Some(c) => Ok(Exception("Exception", c))
  }

  lemma ZipBelow(ks: seq<PyValue>, vs: seq<PyValue>, b: nat)
    requires MaxSize(ks) <= b && MaxSize(vs) <= b
    ensures MaxPairSize(Zip(ks, vs)) <= b
  {
    forall i | 0 <= i < |Zip(ks, vs)|
      ensures Size(ks[i]) <= b && Size(vs[i]) <= b
    {
      MaxSizeBounds(ks, i);
      MaxSizeBounds(vs, i);
    }
    MaxPairSizeBelow(Zip(ks, vs), b);
  }

  lemma {:induction false} MaxSizeBounds(items: seq<PyValue>, i: int)
    requires 0 <= i < |items|
    ensures Size(items[i]) <= MaxSize(items)
  {
    if i > 0 {
      MaxSizeBounds(items[1..], i - 1);
    }
  }

  /** Unflattens each item in order, stopping at the first failure. */
  function UnflattenSeq(reg: seq<Helper>, items: seq<PyValue>): (r: Result<seq<PyValue>, PyError>)
    decreases MaxSize(items), 2, |items|
  {
    if |items| == 0 then Ok([])
    else
      var x :- Unflatten(reg, items[0]);
      var rest :- UnflattenSeq(reg, items[1..]);
      Ok([x] + rest)
  }

  /** Unflattens the value of each entry, keeping its key. */
  function UnflattenValues(reg: seq<Helper>, fields: seq<(PyValue, PyValue)>): (r: Result<seq<(PyValue, PyValue)>, PyError>)
    decreases MaxPairSize(fields), 2, |fields|
  {
    if |fields| == 0 then Ok([])
    else
      var x :- Unflatten(reg, fields[0].1);
      var rest :- UnflattenValues(reg, fields[1..]);
      Ok([(fields[0].0, x)] + rest)
  }

  /** Unflattens each value and then its key, rejecting a key that cannot be hashed. */
  function UnflattenPairs(reg: seq<Helper>, pairs: seq<(PyValue, PyValue)>): (r: Result<seq<(PyValue, PyValue)>, PyError>)
    decreases MaxPairSize(pairs), 2, |pairs|
  {
    if |pairs| == 0 then Ok([])
    else
      var x :- Unflatten(reg, pairs[0].1);
      var k :- Unflatten(reg, pairs[0].0);
      if !Hashable(k) then Err(Unhashable(k))
      else
        var rest :- UnflattenPairs(reg, pairs[1..]);
        Ok([(k, x)] + rest)
  }

  /** `typeObj(**kw)`: keyword arguments must all be named by strings. */
  function KeywordArgs(kw: seq<(PyValue, PyValue)>): (r: Result<seq<(string, PyValue)>, PyError>)
    ensures r.Ok? <==> forall i :: 0 <= i < |kw| ==> kw[i].0.Str?
    ensures r.Ok? ==> |r.value| == |kw|
    ensures r.Ok? ==> forall i :: 0 <= i < |kw| ==> r.value[i] == (kw[i].0.s, kw[i].1)
  {
    if |kw| == 0 then Ok([])
    else if !kw[0].0.Str? then Err(KeywordNotString(kw[0].0))
    else
      var rest :- KeywordArgs(kw[1..]);
      Ok([(kw[0].0.s, kw[0].1)] + rest)
  }

  /** `flatten` raises TypeError exactly when no registered helper claims the value,
      and otherwise hands it to the first helper that does. */
  lemma FlattenDispatch(reg: seq<Helper>, v: PyValue)
    ensures !CanFlattenAny(reg, v) ==> Flatten(reg, v) == Err(CannotFlatten(v))
    ensures CanFlattenAny(reg, v) ==>
      exists i :: 0 <= i < |reg| && CanFlatten(reg[i], v) && Flatten(reg, v) == ApplyFlatten(reg[i], reg, v) &&
        forall j :: 0 <= j < i ==> !CanFlatten(reg[j], v)
  {
    var r := FirstMatch.First(reg, CanFlatten, v);
    if r.Some? {
      assert forall j :: 0 <= j < r.value ==> !CanFlatten(reg[j], v);
    }
  }

  /** `unflatten` raises TypeError exactly when no registered helper claims the tree,
      and otherwise hands it to the first helper that does. */
  lemma UnflattenDispatch(reg: seq<Helper>, w: PyValue)
    ensures !CanUnflattenAny(reg, w) ==> Unflatten(reg, w) == Err(CannotUnflatten(w))
    ensures CanUnflattenAny(reg, w) ==>
      exists i :: 0 <= i < |reg| && CanUnflatten(reg[i], w) && Unflatten(reg, w) == ApplyUnflatten(reg[i], reg, w) &&
        forall j :: 0 <= j < i ==> !CanUnflatten(reg[j], w)
  {
    var r := FirstMatch.First(reg, CanUnflatten, w);
    if r.Some? {
      assert forall j :: 0 <= j < r.value ==> !CanUnflatten(reg[j], w);
    }
  }

  // One lemma per container helper: its result in terms of its element-wise pass.

  lemma FlattenListCase(reg: seq<Helper>, v: PyValue, fs: seq<PyValue>)
    requires v.List? || v.Tuple?
    requires FlattenSeq(reg, v.items) == Ok(fs)
    ensures ApplyFlatten(ListAndTupleHelper, reg, v) == Ok(List(fs))
  {
  }

  lemma FlattenRoiListCase(reg: seq<Helper>, v: PyValue, fs: seq<PyValue>)
    requires v.RoiList?
    requires FlattenSeq(reg, v.rois) == Ok(fs)
    ensures ApplyFlatten(RoiListHelper(v.listKind), reg, v) ==
      Ok(Dict([(Str(TypeKey), Str(RoiListTypeName(v.listKind))), (Str(ContentKey), List(fs))]))
  {
  }

  lemma FlattenRoiCase(reg: seq<Helper>, v: PyValue, fs: seq<PyValue>)
    requires v.Roi?
    requires FlattenSeq(reg, Values(v.attrs)) == Ok(fs)
    ensures ApplyFlatten(RoiHelper(v.kind), reg, v) ==
      Ok(Dict(DictPut(Zip(AttrKeys(v.attrs), fs), Str(TypeKey), Str(RoiTypeName(v.kind)))))
  {
  }

  lemma FlattenDictCase(reg: seq<Helper>, v: PyValue, ks: seq<PyValue>, xs: seq<PyValue>)
    requires v.Dict?
    requires FlattenEntries(reg, v.entries) == Ok((ks, xs))
    ensures ApplyFlatten(DictHelper, reg, v) ==
      Ok(Dict([(Str(TypeKey), Str(MapTypeName)), (Str(KeysKey), List(ks)), (Str(ValuesKey), List(xs))]))
  {
  }

  // The dispatch of `ApplyUnflatten` to each container helper's own function.

  lemma ListDispatch(reg: seq<Helper>, w: PyValue)
    requires CanUnflatten(ListAndTupleHelper, w)
    ensures ApplyUnflatten(ListAndTupleHelper, reg, w) == UnflattenList(reg, w)
  {
  }

  lemma RoiListDispatch(k: RoiListKind, reg: seq<Helper>, w: PyValue)
    requires CanUnflatten(RoiListHelper(k), w)
    ensures ApplyUnflatten(RoiListHelper(k), reg, w) == UnflattenRoiList(k, reg, w)
  {
  }

  lemma RoiDispatch(k: RoiKind, reg: seq<Helper>, w: PyValue)
    requires CanUnflatten(RoiHelper(k), w)
    ensures ApplyUnflatten(RoiHelper(k), reg, w) == UnflattenRoi(k, reg, w)
  {
  }

  lemma DictDispatch(reg: seq<Helper>, w: PyValue)
    requires CanUnflatten(DictHelper, w)
    ensures ApplyUnflatten(DictHelper, reg, w) == UnflattenDict(reg, w)
  {
  }

  lemma UnflattenListCase(reg: seq<Helper>, w: PyValue, xs: seq<PyValue>)
    requires w.List? || w.Tuple?
    requires UnflattenSeq(reg, w.items) == Ok(xs)
    ensures UnflattenList(reg, w) == Ok(List(xs))
  {
  }

  lemma UnflattenRoiListCase(k: RoiListKind, reg: seq<Helper>, w: PyValue, flat: seq<PyValue>, xs: seq<PyValue>)
    requires w.Dict?
    requires DictGet(w.entries, Str(ContentKey)) == Some(List(flat))
    requires UnflattenSeq(reg, flat) == Ok(xs)
    ensures UnflattenRoiList(k, reg, w) == Ok(RoiList(k, xs))
  {
    assert Lookup(w, ContentKey) == Ok(List(flat));
    assert Elements(List(flat)) == Ok(flat);
  }

  lemma UnflattenRoiCase(k: RoiKind, reg: seq<Helper>, w: PyValue, u: seq<(PyValue, PyValue)>, attrs: seq<(string, PyValue)>)
    requires w.Dict?
    requires UnflattenValues(reg, RemoveKey(w.entries, Str(TypeKey))) == Ok(u)
    requires KeywordArgs(BuildDict(u)) == Ok(attrs)
    ensures UnflattenRoi(k, reg, w) == Ok(Roi(k, attrs))
  {
  }

  lemma UnflattenDictCase(reg: seq<Helper>, w: PyValue, ks: seq<PyValue>, vs: seq<PyValue>, u: seq<(PyValue, PyValue)>)
    requires w.Dict?
    requires DictGet(w.entries, Str(KeysKey)) == Some(List(ks))
    requires DictGet(w.entries, Str(ValuesKey)) == Some(List(vs))
    requires UnflattenPairs(reg, Zip(ks, vs)) == Ok(u)
    ensures UnflattenDict(reg, w) == Ok(Dict(BuildDict(u)))
  {
    assert Lookup(w, KeysKey) == Ok(List(ks));
    assert Lookup(w, ValuesKey) == Ok(List(vs));
    assert Elements(List(ks)) == Ok(ks);
    assert Elements(List(vs)) == Ok(vs);
  }

  /** A map record whose keys and values all unflatten, to hashable and distinct keys, becomes the zipped dict. */
  lemma UnflattenDictPointwise(reg: seq<Helper>, w: PyValue, ks: seq<PyValue>, vs: seq<PyValue>, nk: seq<PyValue>, nv: seq<PyValue>)
    requires w.Dict?
    requires DictGet(w.entries, Str(KeysKey)) == Some(List(ks))
    requires DictGet(w.entries, Str(ValuesKey)) == Some(List(vs))
    requires |ks| == |vs| == |nk| == |nv|
    requires forall i :: 0 <= i < |ks| ==>
      Unflatten(reg, ks[i]) == Ok(nk[i]) && Unflatten(reg, vs[i]) == Ok(nv[i]) && Hashable(nk[i])
    requires UniqueKeys(Zip(nk, nv))
    ensures UnflattenDict(reg, w) == Ok(Dict(Zip(nk, nv)))
  {
    UnflattenPairsPointwise(reg, Zip(ks, vs), nk, nv);
    BuildDistinct(Zip(nk, nv));
    UnflattenDictCase(reg, w, ks, vs, Zip(nk, nv));
  }

  /** An ROI record whose fields all unflatten, under distinct string keys, becomes the ROI with those attributes. */
  lemma UnflattenRoiPointwise(k: RoiKind, reg: seq<Helper>, w: PyValue, names: seq<string>, flat: seq<PyValue>, xs: seq<PyValue>)
    requires w.Dict?
    requires |names| == |flat| == |xs|
    requires RemoveKey(w.entries, Str(TypeKey)) == Zip(StrKeys(names), flat)
    requires forall i, j :: 0 <= i < j < |names| ==> names[i] != names[j]
    requires forall i :: 0 <= i < |flat| ==> Unflatten(reg, flat[i]) == Ok(xs[i])
    ensures UnflattenRoi(k, reg, w) == Ok(Roi(k, Zip(names, xs)))
  {
    var fields := Zip(StrKeys(names), flat);
    UnflattenValuesPointwise(reg, fields, xs);
    assert Keys(fields) == StrKeys(names);
    var u := Zip(StrKeys(names), xs);
    assert UniqueKeys(u) by {
      forall i, j | 0 <= i < j < |u| ensures !KeyEq(u[i].0, u[j].0) {
        StrKeyEq(names[i], names[j]);
      }
    }
    BuildDistinct(u);
    KeywordArgsOfStrKeys(names, xs);
    UnflattenRoiCase(k, reg, w, u, Zip(names, xs));
  }

  /** String keys turn back into the names they came from. */
  lemma KeywordArgsOfStrKeys(names: seq<string>, xs: seq<PyValue>)
    requires |xs| == |names|
    ensures KeywordArgs(Zip(StrKeys(names), xs)) == Ok(Zip(names, xs))
  {
    var kw := Zip(StrKeys(names), xs);
    assert forall i :: 0 <= i < |kw| ==> kw[i].0.Str?;
    assert KeywordArgs(kw).value == Zip(names, xs);
  }

  /** `FlattenSeq` succeeds with `fs` exactly when each item flattens to the matching element of `fs`. */
  lemma {:induction false} FlattenSeqPointwise(reg: seq<Helper>, items: seq<PyValue>, fs: seq<PyValue>)
    ensures FlattenSeq(reg, items) == Ok(fs) <==>
      (|fs| == |items| && forall i :: 0 <= i < |items| ==> Flatten(reg, items[i]) == Ok(fs[i]))
  {
    if |items| > 0 && |fs| > 0 {
      FlattenSeqPointwise(reg, items[1..], fs[1..]);
      assert fs == [fs[0]] + fs[1..];
      if |fs| == |items| && forall i :: 0 <= i < |items| ==> Flatten(reg, items[i]) == Ok(fs[i]) {
        assert forall i :: 0 <= i < |items| - 1 ==> items[1..][i] == items[i + 1] && fs[1..][i] == fs[i + 1];
      }
    }
  }

  /** `UnflattenSeq` succeeds with `xs` exactly when each item unflattens to the matching element of `xs`. */
  lemma {:induction false} UnflattenSeqPointwise(reg: seq<Helper>, items: seq<PyValue>, xs: seq<PyValue>)
    ensures UnflattenSeq(reg, items) == Ok(xs) <==>
      (|xs| == |items| && forall i :: 0 <= i < |items| ==> Unflatten(reg, items[i]) == Ok(xs[i]))
  {
    if |items| > 0 && |xs| > 0 {
      UnflattenSeqPointwise(reg, items[1..], xs[1..]);
      assert xs == [xs[0]] + xs[1..];
      if |xs| == |items| && forall i :: 0 <= i < |items| ==> Unflatten(reg, items[i]) == Ok(xs[i]) {
        assert forall i :: 0 <= i < |items| - 1 ==> items[1..][i] == items[i + 1] && xs[1..][i] == xs[i + 1];
      }
    }
  }

  /** When every key and value flattens, `FlattenEntries` yields the flattened keys and values in order. */
  lemma {:induction false} FlattenEntriesPointwise(reg: seq<Helper>, entries: seq<(PyValue, PyValue)>, ks: seq<PyValue>, xs: seq<PyValue>)
    requires |ks| == |entries| && |xs| == |entries|
    requires forall i :: 0 <= i < |entries| ==> Flatten(reg, entries[i].0) == Ok(ks[i]) && Flatten(reg, entries[i].1) == Ok(xs[i])
    ensures FlattenEntries(reg, entries) == Ok((ks, xs))
  {
    if |entries| > 0 {
      var tail := entries[1..];
      forall i | 0 <= i < |tail| ensures Flatten(reg, tail[i].0) == Ok(ks[1..][i]) && Flatten(reg, tail[i].1) == Ok(xs[1..][i]) {
        assert tail[i] == entries[i + 1];
      }
      FlattenEntriesPointwise(reg, tail, ks[1..], xs[1..]);
      FlattenEntriesStep(reg, entries, ks, xs);
    }
  }

  lemma FlattenEntriesStep(reg: seq<Helper>, entries: seq<(PyValue, PyValue)>, ks: seq<PyValue>, xs: seq<PyValue>)
    requires |entries| > 0 && |ks| == |entries| && |xs| == |entries|
    requires Flatten(reg, entries[0].0) == Ok(ks[0]) && Flatten(reg, entries[0].1) == Ok(xs[0])
    requires FlattenEntries(reg, entries[1..]) == Ok((ks[1..], xs[1..]))
    ensures FlattenEntries(reg, entries) == Ok((ks, xs))
  {
    assert ks == [ks[0]] + ks[1..];
    assert xs == [xs[0]] + xs[1..];
  }

  /** When every field value unflattens, `UnflattenValues` pairs each field's key with its unflattened value. */
  lemma {:induction false} UnflattenValuesPointwise(reg: seq<Helper>, fields: seq<(PyValue, PyValue)>, xs: seq<PyValue>)
    requires |xs| == |fields|
    requires forall i :: 0 <= i < |fields| ==> Unflatten(reg, fields[i].1) == Ok(xs[i])
    ensures UnflattenValues(reg, fields) == Ok(Zip(Keys(fields), xs))
  {
    if |fields| > 0 {
      var tail := fields[1..];
      forall i | 0 <= i < |tail| ensures Unflatten(reg, tail[i].1) == Ok(xs[1..][i]) {
        assert tail[i] == fields[i + 1];
      }
      UnflattenValuesPointwise(reg, tail, xs[1..]);
      UnflattenValuesStep(reg, fields, xs);
    }
  }

  lemma UnflattenValuesStep(reg: seq<Helper>, fields: seq<(PyValue, PyValue)>, xs: seq<PyValue>)
    requires |fields| > 0 && |xs| == |fields|
    requires Unflatten(reg, fields[0].1) == Ok(xs[0])
    requires UnflattenValues(reg, fields[1..]) == Ok(Zip(Keys(fields[1..]), xs[1..]))
    ensures UnflattenValues(reg, fields) == Ok(Zip(Keys(fields), xs))
  {
    assert Zip(Keys(fields), xs) == [(fields[0].0, xs[0])] + Zip(Keys(fields[1..]), xs[1..]);
  }

  /** When every key and value unflattens and the keys are hashable, `UnflattenPairs` yields those pairs in order. */
  lemma {:induction false} UnflattenPairsPointwise(reg: seq<Helper>, pairs: seq<(PyValue, PyValue)>, ks: seq<PyValue>, xs: seq<PyValue>)
    requires |ks| == |pairs| && |xs| == |pairs|
    requires forall i :: 0 <= i < |pairs| ==>
      Unflatten(reg, pairs[i].0) == Ok(ks[i]) && Unflatten(reg, pairs[i].1) == Ok(xs[i]) && Hashable(ks[i])
    ensures UnflattenPairs(reg, pairs) == Ok(Zip(ks, xs))
  {
    if |pairs| > 0 {
      var tail := pairs[1..];
      forall i | 0 <= i < |tail|
        ensures Unflatten(reg, tail[i].0) == Ok(ks[1..][i]) && Unflatten(reg, tail[i].1) == Ok(xs[1..][i]) && Hashable(ks[1..][i])
      {
        assert tail[i] == pairs[i + 1];
      }
      UnflattenPairsPointwise(reg, tail, ks[1..], xs[1..]);
      UnflattenPairsStep(reg, pairs, ks, xs);
    }
  }

  lemma UnflattenPairsStep(reg: seq<Helper>, pairs: seq<(PyValue, PyValue)>, ks: seq<PyValue>, xs: seq<PyValue>)
    requires |pairs| > 0 && |ks| == |pairs| && |xs| == |pairs|
    requires Unflatten(reg, pairs[0].1) == Ok(xs[0]) && Unflatten(reg, pairs[0].0) == Ok(ks[0]) && Hashable(ks[0])
    requires UnflattenPairs(reg, pairs[1..]) == Ok(Zip(ks[1..], xs[1..]))
    ensures UnflattenPairs(reg, pairs) == Ok(Zip(ks, xs))
  {
    assert Zip(ks, xs) == [(ks[0], xs[0])] + Zip(ks[1..], xs[1..]);
  }

  /** Different typed helpers write different type names, so a record's tag
      identifies the one helper that claims it. */
  lemma TypeNamesDistinct(g: Helper, h: Helper)
    requires HelperTypeName(g).Some? && HelperTypeName(g) == HelperTypeName(h)
    ensures g == h
  {
    match g
    case RoiListHelper(k) => NamedRoiList(k, h);
    case RoiHelper(k) => NamedRoi(k, h);
    case ForeignHelper(k) => NamedForeign(k, h);
    case _ => NamedFixed(g, h);
  }

  lemma NamedRoi(k: RoiKind, h: Helper)
    requires HelperTypeName(h) == Some(RoiTypeName(k))
    ensures h == RoiHelper(k)
  {
    match h
    case RoiHelper(_) =>
    case RoiListHelper(_) =>
    case ForeignHelper(_) =>
    case _ =>
  }

  lemma NamedRoiList(k: RoiListKind, h: Helper)
    requires HelperTypeName(h) == Some(RoiListTypeName(k))
    ensures h == RoiListHelper(k)
  {
    match h
    case RoiHelper(_) =>
    case RoiListHelper(_) =>
    case ForeignHelper(_) =>
    case _ =>
  }

  lemma NamedForeign(k: ForeignKind, h: Helper)
    requires HelperTypeName(h) == Some(ForeignTypeName(k))
    ensures h == ForeignHelper(k)
  {
    match h
    case RoiHelper(k2) => ForeignNotRoi(k, k2);
    case RoiListHelper(k2) => ForeignNotRoiList(k, k2);
    case ForeignHelper(k2) => ForeignNamesInjective(k, k2);
    case _ => ForeignNotFixed(k);
  }

  lemma ForeignNotRoi(k: ForeignKind, k2: RoiKind)
    ensures ForeignTypeName(k) != RoiTypeName(k2)
  {
  }

  lemma ForeignNotRoiList(k: ForeignKind, k2: RoiListKind)
    ensures ForeignTypeName(k) != RoiListTypeName(k2)
  {
  }

  lemma ForeignNotFixed(k: ForeignKind)
    ensures ForeignTypeName(k) != NoneTypeName && ForeignTypeName(k) != MapTypeName
    ensures ForeignTypeName(k) != UuidTypeName && ForeignTypeName(k) != ExceptionTypeName
  {
  }

  lemma ForeignNamesInjective(k: ForeignKind, k2: ForeignKind)
    requires ForeignTypeName(k) == ForeignTypeName(k2)
    ensures k == k2
  {
    if k.NdArray? || k.GuiBean? || k.GuiParameters? {
      ArrayAndBeanNames(k, k2);
    } else if k.GuiPlotMode? || k.AxisMapBean? {
      PlotModeAndAxisNames(k, k2);
    } else {
      DataBeanNames(k, k2);
    }
  }

  lemma ArrayAndBeanNames(k: ForeignKind, k2: ForeignKind)
    requires k.NdArray? || k.GuiBean? || k.GuiParameters?
    requires ForeignTypeName(k) == ForeignTypeName(k2)
    ensures k == k2
  {
  }

  lemma PlotModeAndAxisNames(k: ForeignKind, k2: ForeignKind)
    requires k.GuiPlotMode? || k.AxisMapBean?
    requires ForeignTypeName(k) == ForeignTypeName(k2)
    ensures k == k2
  {
  }

  lemma DataBeanNames(k: ForeignKind, k2: ForeignKind)
    requires k.DataSetWithAxisInformation? || k.DataBean?
    requires ForeignTypeName(k) == ForeignTypeName(k2)
    ensures k == k2
  {
  }

  lemma NamedFixed(g: Helper, h: Helper)
    requires g.NoneHelper? || g.DictHelper? || g.UuidHelper? || g.ExceptionHelper?
    requires HelperTypeName(g) == HelperTypeName(h)
    ensures g == h
  {
    match h
    case RoiHelper(_) =>
    case RoiListHelper(_) =>
    case ForeignHelper(_) =>
    case _ =>
  }
}

=== FILE: py_roundtrip.dfy ===
/** Properties of scisoftpy's default flattening registry: which helper
    handles each kind of value, and the round trip
    `unflatten(flatten(v))`. */
module PyRoundTrip {
  import opened Wrappers
  import opened PyValues
  import opened PyFlatten
  import FirstMatch
  import PyUuid
  import Decimal

  /** Position in the default registry of the helper that flattens `v`. */
  function FlattenerIndex(v: PyValue): (i: nat)
  {
    match v
    case PyNone => 0
    case TypedNone(_) => 0
    case RoiList(k, _) => (match k case LineList => 1 case SectList => 2 case RectList => 3)
    case Roi(k, _) => (match k case Rect => 4 case Sect => 5 case Line => 6 case RoiBase => 7)
    case Dict(_) => 15
    case List(_) => 17
    case Tuple(_) => 17
    case Uuid(_) => 18
    case Exception(_, _) => 19
    case _ => 16
  }

  /** The helper of the default registry that flattens `v`. */
  function Flattener(v: PyValue): Helper
  {
    match v
    case PyNone => NoneHelper
    case TypedNone(_) => NoneHelper
    case RoiList(k, _) => RoiListHelper(k)
    case Roi(k, _) => RoiHelper(k)
    case Dict(_) => DictHelper
    case List(_) => ListAndTupleHelper
    case Tuple(_) => ListAndTupleHelper
    case Uuid(_) => UuidHelper
    case Exception(_, _) => ExceptionHelper
    case _ => PassThroughHelper
  }

  /** Every value of the model is flattened by the helper at `FlattenerIndex(v)`:
      it claims the value and no helper before it does. */
  lemma FlattenerOf(v: PyValue)
    ensures FlattenerIndex(v) < |DefaultHelpers| && DefaultHelpers[FlattenerIndex(v)] == Flattener(v)
    ensures CanFlatten(Flattener(v), v)
    ensures Flatten(DefaultHelpers, v) == ApplyFlatten(Flattener(v), DefaultHelpers, v)
  {
    var i := FlattenerIndex(v);
    assert DefaultHelpers[i] == Flattener(v) by {
      match v
      case RoiList(k, _) =>
      case Roi(k, _) =>
      case _ =>
    }
    assert forall j :: 0 <= j < i ==> !CanFlatten(DefaultHelpers[j], v);
    FirstMatch.FirstIs(DefaultHelpers, CanFlatten, v, i);
  }

  /** A record tagged with the type name of a default helper is unflattened
      by that helper. */
  lemma TaggedUnflattener(w: PyValue, h: Helper)
    requires h in DefaultHelpers && HelperTypeName(h).Some?
    requires TaggedWith(w, HelperTypeName(h).value)
    ensures Unflatten(DefaultHelpers, w) == ApplyUnflatten(h, DefaultHelpers, w)
  {
    var H := DefaultHelpers;
    var i :| 0 <= i < |H| && H[i] == h;
    assert CanUnflatten(H[i], w);
    var r := FirstMatch.First(H, CanUnflatten, w);
    var g := H[r.value];
    assert CanUnflatten(g, w);
    assert HelperTypeName(g).Some? && TaggedWith(w, HelperTypeName(g).value);
    TypeNamesDistinct(g, h);
  }

  /** A record tagged as an ROI list goes to that list helper's `unflatten`. */
  lemma TaggedRoiList(k: RoiListKind, w: PyValue)
    requires TaggedWith(w, RoiListTypeName(k))
    ensures Unflatten(DefaultHelpers, w) == UnflattenRoiList(k, DefaultHelpers, w)
  {
    TaggedUnflattener(w, RoiListHelper(k));
    RoiListDispatch(k, DefaultHelpers, w);
  }

  /** A record tagged as an ROI goes to that ROI helper's `unflatten`. */
  lemma TaggedRoi(k: RoiKind, w: PyValue)
    requires TaggedWith(w, RoiTypeName(k))
    ensures Unflatten(DefaultHelpers, w) == UnflattenRoi(k, DefaultHelpers, w)
  {
    TaggedUnflattener(w, RoiHelper(k));
    RoiDispatch(k, DefaultHelpers, w);
  }

  /** A record tagged as a map goes to the map helper's `unflatten`. */
  lemma TaggedMap(w: PyValue)
    requires TaggedWith(w, MapTypeName)
    ensures Unflatten(DefaultHelpers, w) == UnflattenDict(DefaultHelpers, w)
  {
    TaggedUnflattener(w, DictHelper);
    DictDispatch(DefaultHelpers, w);
  }

  /** `None`, plain values and lists are unflattened by the none, pass-through and list helpers. */
  lemma PlainUnflattener(w: PyValue)
    requires w.PyNone? || IsPassThrough(w) || w.List? || w.Tuple?
    ensures var i := if w.PyNone? then 0 else if IsPassThrough(w) then 16 else 17;
      i < |DefaultHelpers| && Unflatten(DefaultHelpers, w) == ApplyUnflatten(DefaultHelpers[i], DefaultHelpers, w)
  {
    var i := if w.PyNone? then 0 else if IsPassThrough(w) then 16 else 17;
    assert CanUnflatten(DefaultHelpers[i], w);
    assert forall j :: 0 <= j < i ==> !CanUnflatten(DefaultHelpers[j], w);
    FirstMatch.FirstIs(DefaultHelpers, CanUnflatten, w, i);
  }

  /** What a value looks like after a round trip: tuples come back as lists
      and every exception as a plain `Exception` whose argument is the text
      of the original; everything else is kept. */
  function Norm(v: PyValue): (r: PyValue)
    decreases v
  {
    match v
    case List(items) => List(seq(|items|, i requires 0 <= i < |items| => Norm(items[i])))
    case Tuple(items) => List(seq(|items|, i requires 0 <= i < |items| => Norm(items[i])))
    case RoiList(k, rois) => RoiList(k, seq(|rois|, i requires 0 <= i < |rois| => Norm(rois[i])))
    case Dict(entries) =>
      Dict(seq(|entries|, i requires 0 <= i < |entries| => (Norm(entries[i].0), Norm(entries[i].1))))
    case Roi(k, attrs) => Roi(k, seq(|attrs|, i requires 0 <= i < |attrs| => (attrs[i].0, Norm(attrs[i].1))))
    case Exception(c, a) =>
      Exception("Exception", match ExceptionText(c, a) case Some(t) => Str(t) case None => a)
    case _ => v
  }

  function NormAll(items: seq<PyValue>): (r: seq<PyValue>)
    ensures |r| == |items| && forall i :: 0 <= i < |items| ==> r[i] == Norm(items[i])
  {
    seq(|items|, i requires 0 <= i < |items| => Norm(items[i]))
  }

  lemma NormItems(v: PyValue)
    requires v.List? || v.Tuple? || v.RoiList?
    ensures v.List? || v.Tuple? ==> Norm(v) == List(NormAll(v.items))
    ensures v.RoiList? ==> Norm(v) == RoiList(v.listKind, NormAll(v.rois))
  {
  }

  lemma NormRoi(v: PyValue)
    requires v.Roi?
    ensures Norm(v) == Roi(v.kind, Zip(Keys(v.attrs), NormAll(Values(v.attrs))))
  {
    var a := Norm(v).attrs;
    var b := Zip(Keys(v.attrs), NormAll(Values(v.attrs)));
    assert |a| == |b|;
    assert forall i :: 0 <= i < |a| ==> a[i] == b[i];
  }

  /** Keys that `Norm` leaves alone stay; values are normalised in place. */
  lemma NormDict(v: PyValue)
    requires v.Dict?
    requires forall i :: 0 <= i < |v.entries| ==> Norm(v.entries[i].0) == v.entries[i].0
    ensures Norm(v) == Dict(Zip(Keys(v.entries), NormAll(Values(v.entries))))
  {
    var a := Norm(v).entries;
    var b := Zip(Keys(v.entries), NormAll(Values(v.entries)));
    assert |a| == |b|;
    assert forall i :: 0 <= i < |a| ==> a[i] == b[i];
  }

  /** Values the default registry carries across and back: a typed null
      does not name the type "null", dict keys are hashable, pairwise unequal
      values the trip leaves unchanged, ROI attributes have distinct names
      other than `__type__`, UUIDs are in canonical form and exceptions
      carry an argument whose text the model spells out. */
  predicate Supported(v: PyValue)
    decreases v
  {
    match v
    case TypedNone(t) => t != Str(NullText)
    case List(items) => forall i :: 0 <= i < |items| ==> Supported(items[i])
    case Tuple(items) => forall i :: 0 <= i < |items| ==> Supported(items[i])
    case RoiList(_, rois) => forall i :: 0 <= i < |rois| ==> Supported(rois[i])
    case Dict(entries) =>
      UniqueKeys(entries) &&
      forall i :: 0 <= i < |entries| ==>
        Supported(entries[i].0) && Supported(entries[i].1) &&
        Hashable(entries[i].0) && Norm(entries[i].0) == entries[i].0
    case Roi(_, attrs) =>
      DistinctKeys(attrs) &&
      forall i :: 0 <= i < |attrs| ==> attrs[i].0 != TypeKey && Supported(attrs[i].1)
    case Uuid(t) => PyUuid.Canonical(t)
    case Exception(c, a) => ExceptionText(c, a).Some?
    case _ => true
  }

  /** `unflatten(flatten(v))` succeeds and gives `Norm(v)`. */
  predicate RoundTrips(v: PyValue)
  {
    Flatten(DefaultHelpers, v).Ok? && Unflatten(DefaultHelpers, Flatten(DefaultHelpers, v).value) == Ok(Norm(v))
  }

  // The records the default helpers send.

  function NoneRecord(t: PyValue): PyValue
  {
    Dict([(Str(TypeKey), Str(NoneTypeName)), (Str(TypedNoneTypeKey), t)])
  }

  function UuidRecord(t: string): PyValue
  {
    Dict([(Str(TypeKey), Str(UuidTypeName)), (Str(ContentKey), Str(t))])
  }

  function ExceptionRecord(content: PyValue): PyValue
  {
    Dict([(Str(TypeKey), Str(ExceptionTypeName)), (Str(ContentKey), content)])
  }

  function RoiListRecord(k: RoiListKind, flat: seq<PyValue>): PyValue
  {
    Dict([(Str(TypeKey), Str(RoiListTypeName(k))), (Str(ContentKey), List(flat))])
  }

  function MapRecord(keys: seq<PyValue>, values: seq<PyValue>): PyValue
  {
    Dict([(Str(TypeKey), Str(MapTypeName)), (Str(KeysKey), List(keys)), (Str(ValuesKey), List(values))])
  }

  /** An ROI record: one entry per attribute, in order, then the type tag. */
  function RoiRecord(k: RoiKind, attrs: seq<(string, PyValue)>, flat: seq<PyValue>): PyValue
  {
    Dict(Zip(AttrKeys(attrs), flat) + [(Str(TypeKey), Str(RoiTypeName(k)))])
  }

  /** A record of a type tag and one other field answers both lookups. */
  lemma PairFields(tag: PyValue, key: string, x: PyValue)
    requires key != TypeKey
    ensures DictGet([(Str(TypeKey), tag), (Str(key), x)], Str(TypeKey)) == Some(tag)
    ensures DictGet([(Str(TypeKey), tag), (Str(key), x)], Str(key)) == Some(x)
  {
    var e := [(Str(TypeKey), tag), (Str(key), x)];
    assert e[1..] == [(Str(key), x)];
    StrKeyEq(TypeKey, TypeKey);
    StrKeyEq(TypeKey, key);
    StrKeyEq(key, key);
    DictGetFirst(e, Str(TypeKey));
    DictGetFirst(e, Str(key));
    DictGetFirst(e[1..], Str(key));
  }

  lemma NoneRecordFields(t: PyValue)
    ensures TaggedWith(NoneRecord(t), NoneTypeName)
    ensures DictGet(NoneRecord(t).entries, Str(TypedNoneTypeKey)) == Some(t)
  {
    PairFields(Str(NoneTypeName), TypedNoneTypeKey, t);
  }

  lemma UuidRecordFields(t: string)
    ensures TaggedWith(UuidRecord(t), UuidTypeName)
    ensures DictGet(UuidRecord(t).entries, Str(ContentKey)) == Some(Str(t))
  {
    PairFields(Str(UuidTypeName), ContentKey, Str(t));
  }

  lemma ExceptionRecordFields(content: PyValue)
    ensures TaggedWith(ExceptionRecord(content), ExceptionTypeName)
    ensures DictGet(ExceptionRecord(content).entries, Str(ContentKey)) == Some(content)
  {
    PairFields(Str(ExceptionTypeName), ContentKey, content);
  }

  lemma RoiListRecordFields(k: RoiListKind, flat: seq<PyValue>)
    ensures TaggedWith(RoiListRecord(k, flat), RoiListTypeName(k))
    ensures DictGet(RoiListRecord(k, flat).entries, Str(ContentKey)) == Some(List(flat))
  {
    PairFields(Str(RoiListTypeName(k)), ContentKey, List(flat));
  }

  lemma MapRecordFields(ks: seq<PyValue>, vs: seq<PyValue>)
    ensures TaggedWith(MapRecord(ks, vs), MapTypeName)
    ensures DictGet(MapRecord(ks, vs).entries, Str(KeysKey)) == Some(List(ks))
    ensures DictGet(MapRecord(ks, vs).entries, Str(ValuesKey)) == Some(List(vs))
  {
    var e := MapRecord(ks, vs).entries;
    var e1 := e[1..];
    var e2 := e1[1..];
    assert e1[0] == (Str(KeysKey), List(ks)) && e2[0] == (Str(ValuesKey), List(vs));
    StrKeyEq(TypeKey, TypeKey);
    StrKeyEq(TypeKey, KeysKey);
    StrKeyEq(TypeKey, ValuesKey);
    StrKeyEq(KeysKey, KeysKey);
    StrKeyEq(KeysKey, ValuesKey);
    StrKeyEq(ValuesKey, ValuesKey);
    DictGetFirst(e, Str(TypeKey));
    DictGetFirst(e, Str(KeysKey));
    DictGetFirst(e1, Str(KeysKey));
    DictGetFirst(e, Str(ValuesKey));
    DictGetFirst(e1, Str(ValuesKey));
    DictGetFirst(e2, Str(ValuesKey));
  }

  /** The ROI record's fields are the attribute entries; the tag is appended after them. */
  lemma RoiRecordFields(k: RoiKind, attrs: seq<(string, PyValue)>, flat: seq<PyValue>)
    requires |flat| == |attrs| && forall i :: 0 <= i < |attrs| ==> attrs[i].0 != TypeKey
    ensures TaggedWith(RoiRecord(k, attrs, flat), RoiTypeName(k))
    ensures RemoveKey(RoiRecord(k, attrs, flat).entries, Str(TypeKey)) == Zip(AttrKeys(attrs), flat)
    ensures DictPut(Zip(AttrKeys(attrs), flat), Str(TypeKey), Str(RoiTypeName(k))) == RoiRecord(k, attrs, flat).entries
  {
    var fields := Zip(AttrKeys(attrs), flat);
    var tag := (Str(TypeKey), Str(RoiTypeName(k)));
    assert forall i :: 0 <= i < |fields| ==> !KeyEq(fields[i].0, tag.0) by {
      forall i | 0 <= i < |fields| ensures !KeyEq(fields[i].0, tag.0) {
        assert fields[i].0 == Str(attrs[i].0);
        StrKeyEq(attrs[i].0, TypeKey);
      }
    }
    DictPutAbsent(fields, tag.0, tag.1);
    RemoveLastKey(fields, tag.0, tag.1);
  }

  predicate AllFlatten(items: seq<PyValue>)
  {
    forall i :: 0 <= i < |items| ==> Flatten(DefaultHelpers, items[i]).Ok?
  }

  predicate AllRoundTrip(items: seq<PyValue>)
  {
    forall i :: 0 <= i < |items| ==> RoundTrips(items[i])
  }

  /** The flattened forms of items that all flatten. */
  function FlatAll(items: seq<PyValue>): (r: seq<PyValue>)
    requires AllFlatten(items)
    ensures |r| == |items| && forall i :: 0 <= i < |items| ==> Flatten(DefaultHelpers, items[i]) == Ok(r[i])
  {
    seq(|items|, i requires 0 <= i < |items| => Flatten(DefaultHelpers, items[i]).value)
  }

  /** Items that each survive the round trip flatten, and their flattened forms unflatten to their normal forms. */
  lemma RoundTripsAll(items: seq<PyValue>)
    requires AllRoundTrip(items)
    ensures AllFlatten(items)
    ensures forall i :: 0 <= i < |items| ==> Unflatten(DefaultHelpers, FlatAll(items)[i]) == Ok(NormAll(items)[i])
  {
  }

  /** Plain `None` is sent as {__type__: "__None__", typedNoneType: "null"}; a typed null sends its type instead. */
  lemma NoneFlattens(t: PyValue)
    ensures Flatten(DefaultHelpers, PyNone) == Ok(NoneRecord(Str(NullText)))
    ensures Flatten(DefaultHelpers, TypedNone(t)) == Ok(NoneRecord(t))
  {
    FlattenerOf(PyNone);
    FlattenerOf(TypedNone(t));
  }

  /** A none record reads back as plain `None` when its type is "null" and as a typed null otherwise. */
  lemma NoneUnflattens(t: PyValue)
    ensures Unflatten(DefaultHelpers, NoneRecord(t)) == Ok(if t == Str(NullText) then PyNone else TypedNone(t))
  {
    NoneRecordFields(t);
    TaggedUnflattener(NoneRecord(t), NoneHelper);
  }

  /** Plain `None` and typed nulls survive the round trip. */
  lemma NoneRoundTrip(t: PyValue)
    requires t != Str(NullText)
    ensures RoundTrips(PyNone) && RoundTrips(TypedNone(t))
  {
    NoneFlattens(t);
    NoneUnflattens(Str(NullText));
    NoneUnflattens(t);
  }

  /** Strings, numbers, booleans and binary wrappers pass through unchanged in both directions. */
  lemma PassThroughIdentity(v: PyValue)
    requires IsPassThrough(v)
    ensures Flatten(DefaultHelpers, v) == Ok(v)
    ensures Unflatten(DefaultHelpers, v) == Ok(v)
    ensures RoundTrips(v)
  {
    FlattenerOf(v);
    PlainUnflattener(v);
  }

  /** An exception is sent as {__type__: "java.lang.Exception", content: str(e)},
      whatever its class: a string argument as itself (quoted for a KeyError),
      None, a boolean or an integer as its text. */
  lemma ExceptionFlattens(cls: string, arg: PyValue)
    ensures ExceptionText(cls, arg).Some? ==>
      Flatten(DefaultHelpers, Exception(cls, arg)) == Ok(ExceptionRecord(Str(ExceptionText(cls, arg).value)))
    ensures ExceptionText(cls, arg).None? ==> Flatten(DefaultHelpers, Exception(cls, arg)).Err?
    ensures arg.Str? && cls != KeyErrorName ==> Flatten(DefaultHelpers, Exception(cls, arg)) == Ok(ExceptionRecord(arg))
  {
    FlattenerOf(Exception(cls, arg));
  }

  /** `KeyError(3)` is sent with the content "3", and `KeyError('a')` with "'a'". */
  lemma KeyErrorFlattens()
    ensures Flatten(DefaultHelpers, Exception("KeyError", Int(3))) == Ok(ExceptionRecord(Str("3")))
    ensures Flatten(DefaultHelpers, Exception("KeyError", Str("a"))) == Ok(ExceptionRecord(Str("'a'")))
  {
    assert ExceptionText("KeyError", Int(3)) == Some("3") by {
      assert Decimal.Digits(3) == ['0' + 3 as char] == "3";
      assert ReprText(Int(3)) == Some(Decimal.Show(3) + "");
      assert ExceptionText(KeyErrorName, Int(3)) == ReprText(Int(3));
      assert KeyErrorName == "KeyError";
      assert Decimal.Show(3) + "" == "3";
    }
    assert ExceptionText("KeyError", Str("a")) == Some("'a'") by {
      assert PlainText("a");
      assert ReprText(Str("a")) == Some("'" + "a" + "'");
      assert ExceptionText(KeyErrorName, Str("a")) == ReprText(Str("a"));
      assert KeyErrorName == "KeyError";
      assert "'" + "a" + "'" == "'a'";
    }
    ExceptionFlattens("KeyError", Int(3));
    ExceptionFlattens("KeyError", Str("a"));
  }

  /** An exception record reads back as a plain `Exception` built from the
      content as sent, whatever that content is. */
  lemma ExceptionUnflattens(content: PyValue)
    ensures Unflatten(DefaultHelpers, ExceptionRecord(content)) == Ok(Exception("Exception", content))
  {
    ExceptionRecordFields(content);
    TaggedUnflattener(ExceptionRecord(content), ExceptionHelper);
  }

  /** A UUID is sent as its text. */
  lemma UuidFlattens(t: string)
    ensures Flatten(DefaultHelpers, Uuid(t)) == Ok(UuidRecord(t))
  {
    FlattenerOf(Uuid(t));
  }

  /** A UUID record reads back exactly when `uuid.UUID` accepts its content,
      as the UUID in canonical form; canonical text comes back unchanged. */
  lemma UuidUnflattens(t: string)
    ensures Unflatten(DefaultHelpers, UuidRecord(t)).Ok? <==> PyUuid.Parse(t).Some?
    ensures PyUuid.Parse(t).Some? ==> Unflatten(DefaultHelpers, UuidRecord(t)) == Ok(Uuid(PyUuid.Parse(t).value))
    ensures PyUuid.Canonical(t) ==> Unflatten(DefaultHelpers, UuidRecord(t)) == Ok(Uuid(t))
  {
    UuidParses(t);
    if PyUuid.Canonical(t) {
      PyUuid.ParseCanonical(t);
    }
  }

  /** A UUID record reads back as the UUID its text parses to. */
  lemma UuidParses(t: string)
    ensures Unflatten(DefaultHelpers, UuidRecord(t)).Ok? <==> PyUuid.Parse(t).Some?
    ensures PyUuid.Parse(t).Some? ==> Unflatten(DefaultHelpers, UuidRecord(t)) == Ok(Uuid(PyUuid.Parse(t).value))
  {
    UuidRecordFields(t);
    TaggedUnflattener(UuidRecord(t), UuidHelper);
  }

  /** A list or tuple flattens element by element into a list of the same length and order. */
  lemma ListFlattens(v: PyValue)
    requires v.List? || v.Tuple?
    requires AllFlatten(v.items)
    ensures Flatten(DefaultHelpers, v) == Ok(List(FlatAll(v.items)))
  {
    var H := DefaultHelpers;
    var flat := FlatAll(v.items);
    assert Flatten(H, v) == ApplyFlatten(ListAndTupleHelper, H, v) by {
      FlattenerOf(v);
    }
    assert FlattenSeq(H, v.items) == Ok(flat) by {
      FlattenSeqPointwise(H, v.items, flat);
    }
    FlattenListCase(H, v, flat);
  }

  /** A list unflattens element by element, and always into a list. */
  lemma ListUnflattens(flat: seq<PyValue>, xs: seq<PyValue>)
    requires |flat| == |xs| && forall i :: 0 <= i < |flat| ==> Unflatten(DefaultHelpers, flat[i]) == Ok(xs[i])
    ensures Unflatten(DefaultHelpers, List(flat)) == Ok(List(xs))
    ensures Unflatten(DefaultHelpers, Tuple(flat)) == Ok(List(xs))
  {
    var H := DefaultHelpers;
    assert UnflattenSeq(H, flat) == Ok(xs) by {
      UnflattenSeqPointwise(H, flat, xs);
    }
    PlainUnflattener(List(flat));
    PlainUnflattener(Tuple(flat));
    ListDispatch(H, List(flat));
    ListDispatch(H, Tuple(flat));
    UnflattenListCase(H, List(flat), xs);
    UnflattenListCase(H, Tuple(flat), xs);
  }

  lemma ListRoundTrip(v: PyValue)
    requires v.List? || v.Tuple?
    requires AllRoundTrip(v.items)
    ensures RoundTrips(v)
  {
    var flat := FlatAll(v.items);
    var xs := NormAll(v.items);
    RoundTripsAll(v.items);
    assert Flatten(DefaultHelpers, v) == Ok(List(flat)) by {
      ListFlattens(v);
    }
    assert Unflatten(DefaultHelpers, List(flat)) == Ok(List(xs)) by {
      ListUnflattens(flat, xs);
    }
    NormItems(v);
  }

  /** An ROI list is sent as a record holding the list of its flattened ROIs. */
  lemma RoiListFlattens(v: PyValue)
    requires v.RoiList?
    requires AllFlatten(v.rois)
    ensures Flatten(DefaultHelpers, v) == Ok(RoiListRecord(v.listKind, FlatAll(v.rois)))
  {
    var H := DefaultHelpers;
    var flat := FlatAll(v.rois);
    assert Flatten(H, v) == ApplyFlatten(RoiListHelper(v.listKind), H, v) by {
      FlattenerOf(v);
    }
    assert FlattenSeq(H, v.rois) == Ok(flat) by {
      FlattenSeqPointwise(H, v.rois, flat);
    }
    FlattenRoiListCase(H, v, flat);
  }

  /** The default registry hands an ROI-list record to the helper of its kind,
      which reads it back as the same kind of ROI list, element by element. */
  lemma RoiListRecordDispatch(k: RoiListKind, flat: seq<PyValue>)
    ensures Unflatten(DefaultHelpers, RoiListRecord(k, flat)) == UnflattenRoiList(k, DefaultHelpers, RoiListRecord(k, flat))
  {
    RoiListRecordFields(k, flat);
    TaggedRoiList(k, RoiListRecord(k, flat));
  }

  lemma RoiListRecordUnflattens(k: RoiListKind, flat: seq<PyValue>, xs: seq<PyValue>)
    requires |flat| == |xs| && forall i :: 0 <= i < |flat| ==> Unflatten(DefaultHelpers, flat[i]) == Ok(xs[i])
    ensures UnflattenRoiList(k, DefaultHelpers, RoiListRecord(k, flat)) == Ok(RoiList(k, xs))
  {
    RoiListRecordFields(k, flat);
    assert UnflattenSeq(DefaultHelpers, flat) == Ok(xs) by {
      UnflattenSeqPointwise(DefaultHelpers, flat, xs);
    }
    UnflattenRoiListCase(k, DefaultHelpers, RoiListRecord(k, flat), flat, xs);
  }

  lemma RoiListUnflattens(k: RoiListKind, flat: seq<PyValue>, xs: seq<PyValue>)
    requires |flat| == |xs| && forall i :: 0 <= i < |flat| ==> Unflatten(DefaultHelpers, flat[i]) == Ok(xs[i])
    ensures Unflatten(DefaultHelpers, RoiListRecord(k, flat)) == Ok(RoiList(k, xs))
  {
    RoiListRecordDispatch(k, flat);
    RoiListRecordUnflattens(k, flat, xs);
  }

  lemma RoiListRoundTrip(v: PyValue)
    requires v.RoiList?
    requires AllRoundTrip(v.rois)
    ensures RoundTrips(v)
  {
    var flat := FlatAll(v.rois);
    var xs := NormAll(v.rois);
    RoundTripsAll(v.rois);
    assert Flatten(DefaultHelpers, v) == Ok(RoiListRecord(v.listKind, flat)) by {
      RoiListFlattens(v);
    }
    assert Unflatten(DefaultHelpers, RoiListRecord(v.listKind, flat)) == Ok(RoiList(v.listKind, xs)) by {
      RoiListUnflattens(v.listKind, flat, xs);
    }
    NormItems(v);
  }

  /** An ROI is sent as one entry per flattened attribute followed by its type tag. */
  lemma RoiFlattens(v: PyValue)
    requires v.Roi?
    requires forall i :: 0 <= i < |v.attrs| ==> v.attrs[i].0 != TypeKey
    requires AllFlatten(Values(v.attrs))
    ensures Flatten(DefaultHelpers, v) == Ok(RoiRecord(v.kind, v.attrs, FlatAll(Values(v.attrs))))
  {
    var H := DefaultHelpers;
    var flat := FlatAll(Values(v.attrs));
    assert Flatten(H, v) == ApplyFlatten(RoiHelper(v.kind), H, v) by {
      FlattenerOf(v);
    }
    assert FlattenSeq(H, Values(v.attrs)) == Ok(flat) by {
      FlattenSeqPointwise(H, Values(v.attrs), flat);
    }
    FlattenRoiCase(H, v, flat);
    RoiRecordFields(v.kind, v.attrs, flat);
  }

  /** The default registry hands an ROI record to the helper of its kind. */
  lemma RoiRecordDispatch(k: RoiKind, attrs: seq<(string, PyValue)>, flat: seq<PyValue>)
    requires |flat| == |attrs| && forall i :: 0 <= i < |attrs| ==> attrs[i].0 != TypeKey
    ensures Unflatten(DefaultHelpers, RoiRecord(k, attrs, flat)) == UnflattenRoi(k, DefaultHelpers, RoiRecord(k, attrs, flat))
  {
    RoiRecordFields(k, attrs, flat);
    TaggedRoi(k, RoiRecord(k, attrs, flat));
  }

  lemma RoiRecordUnflattens(k: RoiKind, attrs: seq<(string, PyValue)>, flat: seq<PyValue>, xs: seq<PyValue>)
    requires DistinctKeys(attrs) && forall i :: 0 <= i < |attrs| ==> attrs[i].0 != TypeKey
    requires |flat| == |attrs| && |xs| == |attrs|
    requires forall i :: 0 <= i < |flat| ==> Unflatten(DefaultHelpers, flat[i]) == Ok(xs[i])
    ensures UnflattenRoi(k, DefaultHelpers, RoiRecord(k, attrs, flat)) == Ok(Roi(k, Zip(Keys(attrs), xs)))
  {
    var names := Keys(attrs);
    RoiRecordFields(k, attrs, flat);
    assert AttrKeys(attrs) == StrKeys(names);
    assert forall i, j :: 0 <= i < j < |names| ==> names[i] != names[j];
    UnflattenRoiPointwise(k, DefaultHelpers, RoiRecord(k, attrs, flat), names, flat, xs);
  }

  /** An ROI record reads back as the same kind of ROI; the type tag does not become an attribute. */
  lemma RoiUnflattens(k: RoiKind, attrs: seq<(string, PyValue)>, flat: seq<PyValue>, xs: seq<PyValue>)
    requires DistinctKeys(attrs) && forall i :: 0 <= i < |attrs| ==> attrs[i].0 != TypeKey
    requires |flat| == |attrs| && |xs| == |attrs|
    requires forall i :: 0 <= i < |flat| ==> Unflatten(DefaultHelpers, flat[i]) == Ok(xs[i])
    ensures Unflatten(DefaultHelpers, RoiRecord(k, attrs, flat)) == Ok(Roi(k, Zip(Keys(attrs), xs)))
  {
    RoiRecordUnflattens(k, attrs, flat, xs);
    RoiRecordDispatch(k, attrs, flat);
  }

  lemma RoiRoundTrip(v: PyValue)
    requires v.Roi? && DistinctKeys(v.attrs)
    requires forall i :: 0 <= i < |v.attrs| ==> v.attrs[i].0 != TypeKey
    requires AllRoundTrip(Values(v.attrs))
    ensures RoundTrips(v)
  {
    var vals := Values(v.attrs);
    RoundTripsAll(vals);
    var flat := FlatAll(vals);
    var xs := NormAll(vals);
    var back := Roi(v.kind, Zip(Keys(v.attrs), xs));
    assert Flatten(DefaultHelpers, v) == Ok(RoiRecord(v.kind, v.attrs, flat)) by {
      RoiFlattens(v);
    }
    assert Unflatten(DefaultHelpers, RoiRecord(v.kind, v.attrs, flat)) == Ok(back) by {
      RoiUnflattens(v.kind, v.attrs, flat, xs);
    }
    NormRoi(v);
  }

  /** A dict is sent as parallel `keys` and `values` lists of equal length, in entry order. */
  lemma DictFlattens(v: PyValue)
    requires v.Dict?
    requires AllFlatten(Keys(v.entries)) && AllFlatten(Values(v.entries))
    ensures Flatten(DefaultHelpers, v) == Ok(MapRecord(FlatAll(Keys(v.entries)), FlatAll(Values(v.entries))))
  {
    var H := DefaultHelpers;
    var e := v.entries;
    var ks := FlatAll(Keys(e));
    var xs := FlatAll(Values(e));
    assert Flatten(H, v) == ApplyFlatten(DictHelper, H, v) by {
      FlattenerOf(v);
    }
    forall i | 0 <= i < |e| ensures Flatten(H, e[i].0) == Ok(ks[i]) && Flatten(H, e[i].1) == Ok(xs[i]) {
      assert Keys(e)[i] == e[i].0 && Values(e)[i] == e[i].1;
    }
    FlattenEntriesPointwise(H, e, ks, xs);
    FlattenDictCase(H, v, ks, xs);
  }

  /** A map record reads back by zipping its keys and values. The model keeps
      the zipped order, which is one order Python may iterate the rebuilt dict in. */
  lemma DictUnflattens(ks: seq<PyValue>, vs: seq<PyValue>, nk: seq<PyValue>, nv: seq<PyValue>)
    requires |ks| == |vs| == |nk| == |nv|
    requires forall i :: 0 <= i < |ks| ==>
      Unflatten(DefaultHelpers, ks[i]) == Ok(nk[i]) && Unflatten(DefaultHelpers, vs[i]) == Ok(nv[i]) && Hashable(nk[i])
    requires UniqueKeys(Zip(nk, nv))
    ensures Unflatten(DefaultHelpers, MapRecord(ks, vs)) == Ok(Dict(Zip(nk, nv)))
  {
    MapRecordFields(ks, vs);
    TaggedMap(MapRecord(ks, vs));
    UnflattenDictPointwise(DefaultHelpers, MapRecord(ks, vs), ks, vs, nk, nv);
  }

  lemma DictRoundTrip(v: PyValue)
    requires v.Dict? && UniqueKeys(v.entries)
    requires AllRoundTrip(Keys(v.entries)) && AllRoundTrip(Values(v.entries))
    requires forall i :: 0 <= i < |v.entries| ==> Hashable(v.entries[i].0) && Norm(v.entries[i].0) == v.entries[i].0
    ensures RoundTrips(v)
  {
    var e := v.entries;
    RoundTripsAll(Keys(e));
    RoundTripsAll(Values(e));
    var ks := FlatAll(Keys(e));
    var vs := FlatAll(Values(e));
    var nk := Keys(e);
    var nv := NormAll(Values(e));
    assert Flatten(DefaultHelpers, v) == Ok(MapRecord(ks, vs)) by {
      DictFlattens(v);
    }
    assert Unflatten(DefaultHelpers, MapRecord(ks, vs)) == Ok(Dict(Zip(nk, nv))) by {
      assert forall i :: 0 <= i < |ks| ==> NormAll(Keys(e))[i] == nk[i];
      assert UniqueKeys(Zip(nk, nv));
      DictUnflattens(ks, vs, nk, nv);
    }
    NormDict(v);
  }

  /** Every supported value survives `unflatten(flatten(v))`, up to `Norm`. */
  lemma {:induction false} RoundTrip(v: PyValue)
    requires Supported(v)
    ensures RoundTrips(v)
    decreases Size(v)
  {
    match v
    case PyNone => NoneRoundTrip(Str(""));
    case TypedNone(t) => NoneRoundTrip(t);
    case Uuid(t) => UuidFlattens(t); UuidUnflattens(t);
    case Exception(c, a) => ExceptionFlattens(c, a); ExceptionUnflattens(Str(ExceptionText(c, a).value));
    case List(items) =>
      forall i | 0 <= i < |items| ensures RoundTrips(items[i]) {
        ItemsSmaller(v);
        RoundTrip(items[i]);
      }
      assert AllRoundTrip(items);
      ListRoundTrip(v);
    case Tuple(items) =>
      forall i | 0 <= i < |items| ensures RoundTrips(items[i]) {
        ItemsSmaller(v);
        RoundTrip(items[i]);
      }
      assert AllRoundTrip(items);
      ListRoundTrip(v);
    case RoiList(_, rois) =>
      forall i | 0 <= i < |rois| ensures RoundTrips(rois[i]) {
        ItemsSmaller(v);
        RoundTrip(rois[i]);
      }
      assert AllRoundTrip(rois);
      RoiListRoundTrip(v);
    case Roi(_, attrs) =>
      forall i | 0 <= i < |attrs| ensures RoundTrips(attrs[i].1) {
        AttrsSmaller(v);
        RoundTrip(attrs[i].1);
      }
      assert AllRoundTrip(Values(attrs));
      RoiRoundTrip(v);
    case Dict(entries) =>
      forall i | 0 <= i < |entries| ensures RoundTrips(entries[i].0) && RoundTrips(entries[i].1) {
        EntriesSmaller(v);
        RoundTrip(entries[i].0);
        RoundTrip(entries[i].1);
      }
      assert AllRoundTrip(Keys(entries)) && AllRoundTrip(Values(entries));
      DictRoundTrip(v);
    case _ => PassThroughIdentity(v);
  }
}

=== FILE: py_uuid.dfy ===
/** `uuid.UUID(hex)` of Python 2's standard library, as the UUID helper calls
    it on the text it receives. The `urn:` and `uuid:` prefixes, surrounding
    braces and every dash are dropped; what remains must be 32 hexadecimal
    digits in either case; `str()` of the result is the lower-case
    8-4-4-4-12 form. */
module PyUuid {
  import opened Wrappers

  predicate IsHexDigit(c: char)
  {
    '0' <= c <= '9' || 'a' <= c <= 'f' || 'A' <= c <= 'F'
  }

  predicate IsLowerHexDigit(c: char)
  {
    '0' <= c <= '9' || 'a' <= c <= 'f'
  }

  /** Text in the form `str()` of a UUID has: 36 characters, lower-case
      hexadecimal digits with dashes at positions 8, 13, 18 and 23. */
  predicate Canonical(t: string)
  {
    |t| == 36 &&
    forall i :: 0 <= i < 36 ==>
      if i == 8 || i == 13 || i == 18 || i == 23 then t[i] == '-'
      else IsLowerHexDigit(t[i])
  }

  function ToLower(c: char): (r: char)
    ensures IsHexDigit(c) ==> IsLowerHexDigit(r)
    ensures IsLowerHexDigit(c) ==> r == c
  {
    if 'A' <= c <= 'F' then (c as int - 'A' as int + 'a' as int) as char else c
  }

  function LowerAll(s: string): (r: string)
    ensures |r| == |s| && forall i :: 0 <= i < |s| ==> r[i] == ToLower(s[i])
  {
    seq(|s|, i requires 0 <= i < |s| => ToLower(s[i]))
  }

  /** `s.replace(pat, '')`: the occurrences of `pat` found scanning left to right are removed. */
  function RemoveAll(s: string, pat: string): (r: string)
    requires |pat| > 0
    ensures |r| <= |s|
    decreases |s|
  {
    if |s| < |pat| then s
    else if s[..|pat|] == pat then RemoveAll(s[|pat|..], pat)
    else [s[0]] + RemoveAll(s[1..], pat)
  }

  /** Text in which the pattern's first character never occurs is left alone. */
  lemma {:induction false} RemoveAllAbsent(s: string, pat: string)
    requires |pat| > 0 && forall i :: 0 <= i < |s| ==> s[i] != pat[0]
    ensures RemoveAll(s, pat) == s
    decreases |s|
  {
    if |s| >= |pat| {
      assert s[..|pat|][0] == s[0];
      RemoveAllAbsent(s[1..], pat);
      assert s == [s[0]] + s[1..];
    }
  }

  /** `s.replace(c, '')` for one character: every `c` is removed and the rest kept in order. */
  function Without(s: string, c: char): (r: string)
    ensures |r| <= |s| && forall i :: 0 <= i < |r| ==> r[i] != c
  {
    if |s| == 0 then []
    else if s[0] == c then Without(s[1..], c)
    else [s[0]] + Without(s[1..], c)
  }

  lemma {:induction false} WithoutAppend(a: string, b: string, c: char)
    ensures Without(a + b, c) == Without(a, c) + Without(b, c)
  {
    if |a| > 0 {
      assert (a + b)[1..] == a[1..] + b;
      WithoutAppend(a[1..], b, c);
    } else {
      assert a + b == b;
    }
  }

  lemma {:induction false} WithoutAbsent(s: string, c: char)
    requires forall i :: 0 <= i < |s| ==> s[i] != c
    ensures Without(s, c) == s
  {
    if |s| > 0 {
      WithoutAbsent(s[1..], c);
      assert s == [s[0]] + s[1..];
    }
  }

  /** `s.lstrip(chars)`: only characters of `chars` are dropped, and only from the front. */
  function StripLeft(s: string, chars: set<char>): (r: string)
    ensures |r| <= |s| && r == s[|s| - |r|..]
    ensures |r| > 0 ==> r[0] !in chars
    ensures forall i :: 0 <= i < |s| - |r| ==> s[i] in chars
  {
    if |s| > 0 && s[0] in chars then
      var r := StripLeft(s[1..], chars);
      assert forall i :: 1 <= i < |s| ==> s[i] == s[1..][i - 1];
      r
    else s
  }

  /** `s.rstrip(chars)`: only characters of `chars` are dropped, and only from the back. */
  function StripRight(s: string, chars: set<char>): (r: string)
    ensures |r| <= |s| && r == s[..|r|]
    ensures |r| > 0 ==> r[|r| - 1] !in chars
    ensures forall i :: |r| <= i < |s| ==> s[i] in chars
  {
    if |s| > 0 && s[|s| - 1] in chars then
      var r := StripRight(s[..|s| - 1], chars);
      assert forall i :: 0 <= i < |s| - 1 ==> s[i] == s[..|s| - 1][i];
      r
    else s
  }

  /** `s.strip(chars)`. */
  function Strip(s: string, chars: set<char>): string
  {
    StripRight(StripLeft(s, chars), chars)
  }

  /** The characters `uuid.UUID` strips from both ends. */
  const Braces: set<char> := {'{', '}'}

  /** What `uuid.UUID` keeps of its argument before it counts the digits. */
  function Cleaned(text: string): string
  {
    Without(Strip(RemoveAll(RemoveAll(text, "urn:"), "uuid:"), Braces), '-')
  }

  /** 32 digits written 8-4-4-4-12 with dashes between the groups. */
  function Dashed(d: string): (r: string)
    requires |d| == 32
  {
    d[..8] + "-" + d[8..12] + "-" + d[12..16] + "-" + d[16..20] + "-" + d[20..]
  }

  lemma DashedAt(d: string)
    requires |d| == 32
    ensures var t := Dashed(d);
      && |t| == 36 && t[8] == '-' && t[13] == '-' && t[18] == '-' && t[23] == '-'
      && (forall i :: 0 <= i < 8 ==> t[i] == d[i])
      && (forall i :: 9 <= i < 13 ==> t[i] == d[i - 1])
      && (forall i :: 14 <= i < 18 ==> t[i] == d[i - 2])
      && (forall i :: 19 <= i < 23 ==> t[i] == d[i - 3])
      && (forall i :: 24 <= i < 36 ==> t[i] == d[i - 4])
  {
  }

  /** Lower-case digits written with dashes are canonical text. */
  lemma DashedCanonical(d: string)
    requires |d| == 32 && forall i :: 0 <= i < 32 ==> IsLowerHexDigit(d[i])
    ensures Canonical(Dashed(d))
  {
    DashedAt(d);
  }

  /** `str(uuid.UUID(text))`, or `None` for the ValueError `uuid.UUID` raises
      on malformed text. */
  function Parse(text: string): (r: Option<string>)
    ensures r.Some? <==> |Cleaned(text)| == 32 && forall i :: 0 <= i < 32 ==> IsHexDigit(Cleaned(text)[i])
    ensures r.Some? ==> Canonical(r.value)
  {
    var d := Cleaned(text);
    if |d| == 32 && forall i :: 0 <= i < 32 ==> IsHexDigit(d[i]) then
      DashedCanonical(LowerAll(d));
      Some(Dashed(LowerAll(d)))
    else None
  }

  /** The digits of canonical text, without its dashes. */
  function Digits(t: string): (d: string)
    requires Canonical(t)
    ensures |d| == 32 && forall i :: 0 <= i < 32 ==> IsLowerHexDigit(d[i])
    ensures Dashed(d) == t
  {
    var d := t[..8] + t[9..13] + t[14..18] + t[19..23] + t[24..];
    assert forall i :: 0 <= i < 32 ==> IsLowerHexDigit(d[i]) by {
      forall i | 0 <= i < 32 ensures IsLowerHexDigit(d[i]) {
        if i < 8 {
          assert d[i] == t[i];
        } else if i < 12 {
          assert d[i] == t[i + 1];
        } else if i < 16 {
          assert d[i] == t[i + 2];
        } else if i < 20 {
          assert d[i] == t[i + 3];
        } else {
          assert d[i] == t[i + 4];
        }
      }
    }
    DashedAt(d);
    assert Dashed(d) == t;
    d
  }

  /** Stripping leaves text alone whose ends are not among the stripped characters. */
  lemma StripKeeps(s: string, chars: set<char>)
    requires |s| > 0 ==> s[0] !in chars && s[|s| - 1] !in chars
    ensures Strip(s, chars) == s
  {
    assert StripLeft(s, chars) == s;
  }

  /** Text with no `u` and no brace at either end loses only its dashes. */
  lemma CleanedPlain(s: string)
    requires forall i :: 0 <= i < |s| ==> s[i] != 'u'
    requires |s| > 0 ==> s[0] !in Braces && s[|s| - 1] !in Braces
    ensures Cleaned(s) == Without(s, '-')
  {
    RemoveAllAbsent(s, "urn:");
    RemoveAllAbsent(s, "uuid:");
    var r := RemoveAll(RemoveAll(s, "urn:"), "uuid:");
    assert r == s;
    StripKeeps(s, Braces);
    assert Strip(r, Braces) == s;
  }

  /** Removing the dashes of the dashed form gives the digits back. */
  lemma WithoutDashed(d: string)
    requires |d| == 32 && forall i :: 0 <= i < 32 ==> d[i] != '-'
    ensures Without(Dashed(d), '-') == d
  {
    var a, b, c, e, f := d[..8], d[8..12], d[12..16], d[16..20], d[20..];
    assert Without("-", '-') == [];
    var p1 := a + "-";
    assert Without(p1, '-') == a by {
      WithoutAppend(a, "-", '-');
      WithoutAbsent(a, '-');
    }
    var p3 := p1 + b + "-";
    assert Without(p3, '-') == a + b by {
      WithoutAppend(p1, b, '-');
      WithoutAppend(p1 + b, "-", '-');
      WithoutAbsent(b, '-');
    }
    var p5 := p3 + c + "-";
    assert Without(p5, '-') == a + b + c by {
      WithoutAppend(p3, c, '-');
      WithoutAppend(p3 + c, "-", '-');
      WithoutAbsent(c, '-');
    }
    var p7 := p5 + e + "-";
    assert Without(p7, '-') == a + b + c + e by {
      WithoutAppend(p5, e, '-');
      WithoutAppend(p5 + e, "-", '-');
      WithoutAbsent(e, '-');
    }
    assert Without(p7 + f, '-') == a + b + c + e + f by {
      WithoutAppend(p7, f, '-');
      WithoutAbsent(f, '-');
    }
    assert Dashed(d) == p7 + f;
    assert a + b + c + e + f == d;
  }

  /** Canonical text holds neither `u` nor a brace, so only its dashes are cleaned away. */
  lemma CleanedCanonical(t: string)
    requires Canonical(t)
    ensures Cleaned(t) == Digits(t)
  {
    CleanedPlain(t);
    var d := Digits(t);
    WithoutDashed(d);
  }

  /** Reading back what `str()` of a UUID wrote gives the same text:
      `str(uuid.UUID(str(u))) == str(u)`. */
  lemma ParseCanonical(t: string)
    requires Canonical(t)
    ensures Parse(t) == Some(t)
  {
    CleanedCanonical(t);
    var d := Digits(t);
    assert LowerAll(d) == d;
  }

  /** Reading is idempotent: text that parses parses again to the same canonical text. */
  lemma ParseIdempotent(text: string)
    requires Parse(text).Some?
    ensures Parse(Parse(text).value) == Parse(text)
  {
    ParseCanonical(Parse(text).value);
  }

  /** The braced form `{...}` of canonical text reads as that text. */
  lemma ParseBraced(t: string)
    requires Canonical(t)
    ensures Parse("{" + t + "}") == Some(t)
  {
    CleanedBraced(t);
    ParseCanonical(t);
  }

  /** Braces around canonical text are cleaned away with its dashes. */
  lemma CleanedBraced(t: string)
    requires Canonical(t)
    ensures Cleaned("{" + t + "}") == Cleaned(t)
  {
    assert forall i :: 0 <= i < |t| ==> t[i] != 'u';
    CleanedBracedPlain(t);
    CleanedPlain(t);
  }

  /** Text with no `u` and no brace at either end, put in braces, loses the
      braces and its dashes. */
  lemma CleanedBracedPlain(t: string)
    requires forall i :: 0 <= i < |t| ==> t[i] != 'u'
    requires |t| > 0 && t[0] !in Braces && t[|t| - 1] !in Braces
    ensures Cleaned("{" + t + "}") == Without(t, '-')
  {
    var b := "{" + t + "}";
    assert forall i :: 0 <= i < |b| ==> b[i] != 'u' by {
      assert forall i :: 1 <= i < |b| - 1 ==> b[i] == t[i - 1];
    }
    var r1 := RemoveAll(b, "urn:");
    assert r1 == b by {
      RemoveAllAbsent(b, "urn:");
    }
    assert RemoveAll(r1, "uuid:") == b by {
      RemoveAllAbsent(b, "uuid:");
    }
    assert Strip(b, Braces) == t by {
      StripBraced(t);
    }
  }

  /** Stripping braces from `{t}` gives `t` when `t` neither starts nor ends with one. */
  lemma StripBraced(t: string)
    requires |t| > 0 && t[0] !in Braces && t[|t| - 1] !in Braces
    ensures Strip("{" + t + "}", Braces) == t
  {
    var b := "{" + t + "}";
    var tb := t + "}";
    assert b[1..] == tb;
    assert StripLeft(b, Braces) == StripLeft(tb, Braces);
    assert StripLeft(tb, Braces) == tb;
    assert tb[..|tb| - 1] == t;
    assert StripRight(tb, Braces) == StripRight(t, Braces);
    StripKeeps(t, Braces);
  }

  /** Text of 32 digits without dashes, in either case, reads as the dashed lower-case form. */
  lemma ParseUndashed(d: string)
    requires |d| == 32 && forall i :: 0 <= i < 32 ==> IsHexDigit(d[i])
    ensures Parse(d) == Some(Dashed(LowerAll(d)))
  {
    assert forall i :: 0 <= i < |d| ==> d[i] != 'u' && d[i] != '{' && d[i] != '}' && d[i] != '-';
    CleanedPlain(d);
    WithoutAbsent(d, '-');
  }
}

=== FILE: py_values.dfy ===
/** The Python values the scisoftpy flattener handles, with the dict
    operations and the size measure the flattening recursion needs.

    A Python dict is modelled as its entry sequence in iteration order.
    Python 2 leaves that order unspecified; the model's order is one of the
    orders the interpreter may choose, and dict equality in Python ignores
    it. Keys are looked up with Python's `==` (`KeyEq`), not by identity of
    representation. */
module PyValues {
  import opened Wrappers
  import Decimal

  /** The ROI classes of scisoftpy's pyroi module known to the flattener.
      The specific classes are assumed to derive from `roibase`. */
  datatype RoiKind = RoiBase | Rect | Sect | Line

  /** The ROI list classes of pyroi known to the flattener. */
  datatype RoiListKind = LineList | SectList | RectList

  datatype PyValue =
    | PyNone
      /** A typed null: `None` carrying the name of a Java type. */
    | TypedNone(typedNoneType: PyValue)
    | Bool(b: bool)
      /** Python `int` and `long`. */
    | Int(i: int)
    | Float(f: real)
    | Str(s: string)
      /** A binary wrapper around raw bytes. */
    | Binary(bytes: seq<bv8>)
    | List(items: seq<PyValue>)
    | Tuple(items: seq<PyValue>)
    | Dict(entries: seq<(PyValue, PyValue)>)
      /** An ROI object: its class and its instance attributes. */
    | Roi(kind: RoiKind, attrs: seq<(string, PyValue)>)
    | RoiList(listKind: RoiListKind, rois: seq<PyValue>)
      /** A `uuid.UUID`, held as its canonical text. */
    | Uuid(text: string)
      /** An exception: the name of its class and the one argument it was
          raised with; `str(e)` is `str(arg)`. */
    | Exception(cls: string, arg: PyValue)

  function Sum(s: seq<nat>): nat
  {
    if |s| == 0 then 0 else s[0] + Sum(s[1..])
  }

  lemma {:induction false} SumBound(s: seq<nat>, i: int)
    requires 0 <= i < |s|
    ensures s[i] <= Sum(s)
  {
    if i > 0 {
      SumBound(s[1..], i - 1);
    }
  }

  /** A measure that strictly decreases from a container to its parts. */
  function Size(v: PyValue): nat
    decreases v
  {
    match v
    case TypedNone(t) => 1 + Size(t)
    case Str(s) => 1 + |s|
    case List(items) => 1 + Sum(seq(|items|, i requires 0 <= i < |items| => Size(items[i])))
    case Tuple(items) => 1 + Sum(seq(|items|, i requires 0 <= i < |items| => Size(items[i])))
    case RoiList(_, rois) => 1 + Sum(seq(|rois|, i requires 0 <= i < |rois| => Size(rois[i])))
    case Dict(entries) =>
      1 + Sum(seq(|entries|, i requires 0 <= i < |entries| => Size(entries[i].0) + Size(entries[i].1)))
    case Roi(_, attrs) => 1 + Sum(seq(|attrs|, i requires 0 <= i < |attrs| => Size(attrs[i].1)))
    case _ => 1
  }

  /** The largest size among `items` (0 for none). */
  function MaxSize(items: seq<PyValue>): nat
  {
    if |items| == 0 then 0
    else if Size(items[0]) >= MaxSize(items[1..]) then Size(items[0])
    else MaxSize(items[1..])
  }

  /** The largest size among the keys and values of `pairs`. */
  function MaxPairSize(pairs: seq<(PyValue, PyValue)>): nat
  {
    if |pairs| == 0 then 0
    else
      var here := if Size(pairs[0].0) >= Size(pairs[0].1) then Size(pairs[0].0) else Size(pairs[0].1);
      if here >= MaxPairSize(pairs[1..]) then here else MaxPairSize(pairs[1..])
  }

  lemma {:induction false} MaxSizeBelow(items: seq<PyValue>, b: nat)
    requires forall i :: 0 <= i < |items| ==> Size(items[i]) <= b
    ensures MaxSize(items) <= b
  {
    if |items| > 0 {
      MaxSizeBelow(items[1..], b);
    }
  }

  lemma {:induction false} MaxPairSizeBelow(pairs: seq<(PyValue, PyValue)>, b: nat)
    requires forall i :: 0 <= i < |pairs| ==> Size(pairs[i].0) <= b && Size(pairs[i].1) <= b
    ensures MaxPairSize(pairs) <= b
  {
    if |pairs| > 0 {
      MaxPairSizeBelow(pairs[1..], b);
    }
  }

  /** The parts of a list, tuple or ROI list are smaller than it. */
  lemma ItemsSmaller(v: PyValue)
    requires v.List? || v.Tuple? || v.RoiList?
    ensures var items := if v.RoiList? then v.rois else v.items;
      MaxSize(items) < Size(v) && forall i :: 0 <= i < |items| ==> Size(items[i]) < Size(v)
  {
    var items := if v.RoiList? then v.rois else v.items;
    var sizes := seq(|items|, i requires 0 <= i < |items| => Size(items[i]));
    forall i | 0 <= i < |items| ensures Size(items[i]) < Size(v) {
      SumBound(sizes, i);
    }
    MaxSizeBelow(items, Size(v) - 1);
  }

  /** The keys and values of a dict are smaller than it. */
  lemma EntriesSmaller(v: PyValue)
    requires v.Dict?
    ensures MaxPairSize(v.entries) < Size(v)
    ensures forall i :: 0 <= i < |v.entries| ==> Size(v.entries[i].0) < Size(v) && Size(v.entries[i].1) < Size(v)
  {
    var sizes := seq(|v.entries|, i requires 0 <= i < |v.entries| => Size(v.entries[i].0) + Size(v.entries[i].1));
    forall i | 0 <= i < |v.entries|
      ensures Size(v.entries[i].0) < Size(v) && Size(v.entries[i].1) < Size(v)
    {
      SumBound(sizes, i);
    }
    MaxPairSizeBelow(v.entries, Size(v) - 1);
  }

  /** The attribute values of an ROI are smaller than it. */
  lemma AttrsSmaller(v: PyValue)
    requires v.Roi?
    ensures MaxSize(Values(v.attrs)) < Size(v)
    ensures forall i :: 0 <= i < |v.attrs| ==> Size(v.attrs[i].1) < Size(v)
  {
    var sizes := seq(|v.attrs|, i requires 0 <= i < |v.attrs| => Size(v.attrs[i].1));
    forall i | 0 <= i < |v.attrs| ensures Size(v.attrs[i].1) < Size(v) {
      SumBound(sizes, i);
    }
    MaxSizeBelow(Values(v.attrs), Size(v) - 1);
  }

  function Keys<K, V>(pairs: seq<(K, V)>): (r: seq<K>)
    ensures |r| == |pairs| && forall i :: 0 <= i < |pairs| ==> r[i] == pairs[i].0
  {
    seq(|pairs|, i requires 0 <= i < |pairs| => pairs[i].0)
  }

  function Values<K, V>(pairs: seq<(K, V)>): (r: seq<V>)
    ensures |r| == |pairs| && forall i :: 0 <= i < |pairs| ==> r[i] == pairs[i].1
  {
    seq(|pairs|, i requires 0 <= i < |pairs| => pairs[i].1)
  }

  /** Pairs up two sequences, stopping at the end of the shorter, as `zip` does. */
  function Zip<A, B>(xs: seq<A>, ys: seq<B>): (r: seq<(A, B)>)
    ensures |r| == if |xs| <= |ys| then |xs| else |ys|
    ensures forall i :: 0 <= i < |r| ==> r[i] == (xs[i], ys[i])
  {
    var n := if |xs| <= |ys| then |xs| else |ys|;
    seq(n, i requires 0 <= i < n => (xs[i], ys[i]))
  }

  predicate DistinctKeys<K(==), V>(pairs: seq<(K, V)>)
  {
    forall i, j :: 0 <= i < j < |pairs| ==> pairs[i].0 != pairs[j].0
  }

  predicate IsNumber(v: PyValue)
  {
    v.Bool? || v.Int? || v.Float?
  }

  /** The value a number compares by: `True` and `False` count as 1 and 0. */
  function NumberValue(v: PyValue): real
    requires IsNumber(v)
  {
    match v
    case Bool(b) => if b then 1.0 else 0.0
    case Int(i) => i as real
    case Float(f) => f
  }

  /** Python's `==` between two dict keys. Numbers compare by value whatever
      their type, so `1`, `1L`, `1.0` and `True` are one key; tuples compare
      element by element; any other key is compared by its contents. Python
      compares exceptions, and objects whose classes define no `__eq__`, by
      identity instead; a value model has no identity to compare. */
  predicate KeyEq(a: PyValue, b: PyValue)
    decreases a
  {
    if IsNumber(a) && IsNumber(b) then NumberValue(a) == NumberValue(b)
    else if a.Tuple? && b.Tuple? then
      |a.items| == |b.items| && forall i :: 0 <= i < |a.items| ==> KeyEq(a.items[i], b.items[i])
    else a == b
  }

  lemma {:induction false} KeyEqReflexive(a: PyValue)
    ensures KeyEq(a, a)
    decreases a
  {
    if a.Tuple? {
      forall i | 0 <= i < |a.items| ensures KeyEq(a.items[i], a.items[i]) {
        KeyEqReflexive(a.items[i]);
      }
    }
  }

  lemma {:induction false} KeyEqSymmetric(a: PyValue, b: PyValue)
    ensures KeyEq(a, b) ==> KeyEq(b, a)
    decreases a
  {
    if a.Tuple? && b.Tuple? && KeyEq(a, b) {
      forall i | 0 <= i < |b.items| ensures KeyEq(b.items[i], a.items[i]) {
        KeyEqSymmetric(a.items[i], b.items[i]);
      }
    }
  }

  lemma {:induction false} KeyEqTransitive(a: PyValue, b: PyValue, c: PyValue)
    ensures KeyEq(a, b) && KeyEq(b, c) ==> KeyEq(a, c)
    decreases a
  {
    if a.Tuple? && b.Tuple? && c.Tuple? && KeyEq(a, b) && KeyEq(b, c) {
      forall i | 0 <= i < |a.items| ensures KeyEq(a.items[i], c.items[i]) {
        KeyEqTransitive(a.items[i], b.items[i], c.items[i]);
      }
    }
  }

  /** Key equality is an equivalence, so a dict's keys fall into classes of equal keys. */
  lemma KeyEqEquivalence(a: PyValue, b: PyValue, c: PyValue)
    ensures KeyEq(a, a)
    ensures KeyEq(a, b) ==> KeyEq(b, a)
    ensures KeyEq(a, b) && KeyEq(b, c) ==> KeyEq(a, c)
  {
    KeyEqReflexive(a);
    KeyEqSymmetric(a, b);
    KeyEqTransitive(a, b, c);
  }

  /** String keys are equal exactly when their texts are. */
  lemma StrKeyEq(s: string, t: string)
    ensures KeyEq(Str(s), Str(t)) <==> s == t
  {
  }

  /** No two entries of a dict have keys equal under `==`. */
  predicate UniqueKeys(entries: seq<(PyValue, PyValue)>)
  {
    forall i, j :: 0 <= i < j < |entries| ==> !KeyEq(entries[i].0, entries[j].0)
  }

  /** `d.get(k)`: the value stored under the key equal to `k`, if any. */
  function DictGet(entries: seq<(PyValue, PyValue)>, k: PyValue): (r: Option<PyValue>)
    ensures r.Some? ==> exists i :: 0 <= i < |entries| && KeyEq(entries[i].0, k) && entries[i].1 == r.value
    ensures r.None? <==> forall i :: 0 <= i < |entries| ==> !KeyEq(entries[i].0, k)
  {
    if |entries| == 0 then None
    else if KeyEq(entries[0].0, k) then Some(entries[0].1)
    else
      var r := DictGet(entries[1..], k);
      assert forall i :: 1 <= i < |entries| ==> entries[i] == entries[1..][i - 1];
      r
  }

  /** One step of a lookup: the first entry answers when its key equals `k`,
      otherwise the lookup goes on in the rest. */
  lemma DictGetFirst(entries: seq<(PyValue, PyValue)>, k: PyValue)
    requires |entries| > 0
    ensures KeyEq(entries[0].0, k) ==> DictGet(entries, k) == Some(entries[0].1)
    ensures !KeyEq(entries[0].0, k) ==> DictGet(entries, k) == DictGet(entries[1..], k)
  {
  }

  /** Looking up equal keys finds the same entry. */
  lemma {:induction false} DictGetEqualKeys(entries: seq<(PyValue, PyValue)>, k: PyValue, k': PyValue)
    requires KeyEq(k, k')
    ensures DictGet(entries, k) == DictGet(entries, k')
  {
    if |entries| > 0 {
      var e := entries[0].0;
      KeyEqTransitive(e, k, k');
      KeyEqSymmetric(k, k');
      KeyEqTransitive(e, k', k);
      DictGetEqualKeys(entries[1..], k, k');
    }
  }

  /** In a dict without equal keys, the value stored under the key of entry `i` is that entry's value. */
  lemma {:induction false} DictGetAt(entries: seq<(PyValue, PyValue)>, i: int)
    requires UniqueKeys(entries) && 0 <= i < |entries|
    ensures DictGet(entries, entries[i].0) == Some(entries[i].1)
  {
    if i == 0 {
      KeyEqReflexive(entries[0].0);
    } else {
      DictGetAt(entries[1..], i - 1);
    }
  }

  /** A value looked up in a dict is smaller than the dict. */
  lemma GetSmaller(v: PyValue, k: PyValue)
    requires v.Dict? && DictGet(v.entries, k).Some?
    ensures Size(DictGet(v.entries, k).value) < Size(v)
  {
    EntriesSmaller(v);
  }

  /** `d[k] = x`: the entry whose key equals `k` takes the new value and keeps
      its own key object; without such an entry a new one is appended. */
  function DictPut(entries: seq<(PyValue, PyValue)>, k: PyValue, x: PyValue): (r: seq<(PyValue, PyValue)>)
    ensures DictGet(r, k) == Some(x)
  {
    if |entries| == 0 then
      KeyEqReflexive(k);
      [(k, x)]
    else if KeyEq(entries[0].0, k) then [(entries[0].0, x)] + entries[1..]
    else [entries[0]] + DictPut(entries[1..], k, x)
  }

  /** Storing under a key the dict already holds changes no key: the first key of the class stays. */
  lemma DictPutPresent(entries: seq<(PyValue, PyValue)>, k: PyValue, x: PyValue)
    requires DictGet(entries, k).Some?
    ensures Keys(DictPut(entries, k, x)) == Keys(entries)
  {
    DictPutSameKeys(entries, k, x);
  }

  lemma {:induction false} DictPutSameKeys(entries: seq<(PyValue, PyValue)>, k: PyValue, x: PyValue)
    requires DictGet(entries, k).Some?
    ensures |DictPut(entries, k, x)| == |entries|
    ensures forall j :: 0 <= j < |entries| ==> DictPut(entries, k, x)[j].0 == entries[j].0
  {
    var r := DictPut(entries, k, x);
    if !KeyEq(entries[0].0, k) {
      var t := DictPut(entries[1..], k, x);
      DictPutSameKeys(entries[1..], k, x);
      assert r == [entries[0]] + t;
      forall j | 0 <= j < |entries| ensures r[j].0 == entries[j].0 {
        if j > 0 {
          assert r[j] == t[j - 1];
        }
      }
    }
  }

  /** Storing under `k` leaves the value under every key not equal to `k` as it was. */
  lemma {:induction false} DictPutOther(entries: seq<(PyValue, PyValue)>, k: PyValue, x: PyValue, k': PyValue)
    requires !KeyEq(k, k')
    ensures DictGet(DictPut(entries, k, x), k') == DictGet(entries, k')
  {
    var r := DictPut(entries, k, x);
    if |entries| == 0 {
      assert r == [(k, x)];
      DictGetFirst(r, k');
      assert r[1..] == [];
    } else if !KeyEq(entries[0].0, k) {
      DictPutOther(entries[1..], k, x, k');
      assert r[0] == entries[0] && r[1..] == DictPut(entries[1..], k, x);
      DictGetFirst(r, k');
      DictGetFirst(entries, k');
    } else {
      KeyEqSymmetric(entries[0].0, k);
      KeyEqTransitive(k, entries[0].0, k');
      assert r[0].0 == entries[0].0 && r[1..] == entries[1..];
      DictGetFirst(r, k');
      DictGetFirst(entries, k');
    }
  }

  /** Storing under a key the dict does not hold appends one entry at the end. */
  lemma {:induction false} DictPutAbsent(entries: seq<(PyValue, PyValue)>, k: PyValue, x: PyValue)
    requires DictGet(entries, k).None?
    ensures DictPut(entries, k, x) == entries + [(k, x)]
  {
    if |entries| > 0 {
      DictPutAbsent(entries[1..], k, x);
      assert entries[1..] + [(k, x)] == (entries + [(k, x)])[1..];
    }
  }

  /** Storing never makes two keys equal. */
  lemma {:induction false} DictPutDistinct(entries: seq<(PyValue, PyValue)>, k: PyValue, x: PyValue)
    requires UniqueKeys(entries)
    ensures UniqueKeys(DictPut(entries, k, x))
  {
    if |entries| > 0 && !KeyEq(entries[0].0, k) {
      var e := entries[0].0;
      var tail := entries[1..];
      var t := DictPut(tail, k, x);
      DictPutDistinct(tail, k, x);
      forall i | 0 <= i < |tail| ensures !KeyEq(tail[i].0, e) {
        assert tail[i] == entries[i + 1];
        KeyEqSymmetric(tail[i].0, e);
      }
      assert DictGet(tail, e).None?;
      KeyEqSymmetric(k, e);
      DictPutOther(tail, k, x, e);
      forall j | 0 <= j < |t| ensures !KeyEq(e, t[j].0) {
        KeyEqSymmetric(e, t[j].0);
      }
      UniqueCons(entries[0], t);
    } else if |entries| > 0 {
      var r := DictPut(entries, k, x);
      assert forall j :: 0 <= j < |r| ==> r[j].0 == entries[j].0;
    }
  }

  /** An entry whose key equals none of a dict's keys can go in front of it. */
  lemma UniqueCons(p: (PyValue, PyValue), t: seq<(PyValue, PyValue)>)
    requires UniqueKeys(t) && forall j :: 0 <= j < |t| ==> !KeyEq(p.0, t[j].0)
    ensures UniqueKeys([p] + t)
  {
    var r := [p] + t;
    forall i, j | 0 <= i < j < |r| ensures !KeyEq(r[i].0, r[j].0) {
      assert r[j] == t[j - 1];
      if i > 0 {
        assert r[i] == t[i - 1];
      }
    }
  }

  /** The dict built by storing `pairs` one after the other into an empty dict. */
  function BuildDict(pairs: seq<(PyValue, PyValue)>): (r: seq<(PyValue, PyValue)>)
    ensures UniqueKeys(r)
  {
    if |pairs| == 0 then []
    else
      var n := |pairs| - 1;
      DictPutDistinct(BuildDict(pairs[..n]), pairs[n].0, pairs[n].1);
      DictPut(BuildDict(pairs[..n]), pairs[n].0, pairs[n].1)
  }

  /** The value of the last pair whose key equals `k`: the store that wins. */
  function LastStored(pairs: seq<(PyValue, PyValue)>, k: PyValue): Option<PyValue>
  {
    if |pairs| == 0 then None
    else if KeyEq(pairs[|pairs| - 1].0, k) then Some(pairs[|pairs| - 1].1)
    else LastStored(pairs[..|pairs| - 1], k)
  }

  /** In the built dict, each key holds the value of the last pair stored under an equal key. */
  lemma {:induction false} BuildDictGet(pairs: seq<(PyValue, PyValue)>, k: PyValue)
    ensures DictGet(BuildDict(pairs), k) == LastStored(pairs, k)
  {
    if |pairs| > 0 {
      var n := |pairs| - 1;
      BuildDictGet(pairs[..n], k);
      if KeyEq(pairs[n].0, k) {
        DictGetEqualKeys(BuildDict(pairs), pairs[n].0, k);
      } else {
        DictPutOther(BuildDict(pairs[..n]), pairs[n].0, pairs[n].1, k);
      }
    }
  }

  /** A dict built from entries none of which has a key equal to `k` has no such entry. */
  lemma {:induction false} BuildKeepsKeys(pairs: seq<(PyValue, PyValue)>, k: PyValue)
    requires forall i :: 0 <= i < |pairs| ==> !KeyEq(pairs[i].0, k)
    ensures forall i :: 0 <= i < |BuildDict(pairs)| ==> !KeyEq(BuildDict(pairs)[i].0, k)
  {
    if |pairs| > 0 {
      var n := |pairs| - 1;
      BuildKeepsKeys(pairs[..n], k);
      assert DictGet(BuildDict(pairs[..n]), k).None?;
      DictPutOther(BuildDict(pairs[..n]), pairs[n].0, pairs[n].1, k);
    }
  }

  /** Storing entries whose keys are already pairwise unequal rebuilds exactly those entries, in order. */
  lemma {:induction false} BuildDistinct(pairs: seq<(PyValue, PyValue)>)
    requires UniqueKeys(pairs)
    ensures BuildDict(pairs) == pairs
  {
    if |pairs| > 0 {
      var n := |pairs| - 1;
      var init := pairs[..n];
      var last := pairs[n];
      assert BuildDict(init) == init by {
        assert UniqueKeys(init);
        BuildDistinct(init);
      }
      assert DictGet(init, last.0).None? by {
        assert forall i :: 0 <= i < |init| ==> !KeyEq(init[i].0, last.0);
      }
      assert DictPut(init, last.0, last.1) == init + [last] by {
        DictPutAbsent(init, last.0, last.1);
      }
    }
  }

  /** `1`, `1.0` and `True` are one key: storing under each in turn keeps the first key and the last value. */
  lemma NumbersShareAKey(x: PyValue, y: PyValue, z: PyValue)
    ensures BuildDict([(Int(1), x), (Float(1.0), y), (Bool(true), z)]) == [(Int(1), z)]
  {
    var p := [(Int(1), x), (Float(1.0), y), (Bool(true), z)];
    assert p[..1] == [(Int(1), x)];
    assert p[..2] == [(Int(1), x), (Float(1.0), y)];
    assert p[..2][..1] == p[..1];
    assert BuildDict(p[..1]) == [(Int(1), x)];
    assert BuildDict(p[..2]) == [(Int(1), y)];
  }

  /** The entries of a dict other than the one under a key equal to `k`, in order. */
  function RemoveKey(entries: seq<(PyValue, PyValue)>, k: PyValue): (r: seq<(PyValue, PyValue)>)
    ensures forall i :: 0 <= i < |r| ==> !KeyEq(r[i].0, k)
    ensures MaxPairSize(r) <= MaxPairSize(entries)
  {
    if |entries| == 0 then []
    else if KeyEq(entries[0].0, k) then RemoveKey(entries[1..], k)
    else [entries[0]] + RemoveKey(entries[1..], k)
  }

  /** Removing a key from entries ending with that key's only entry drops just that entry. */
  lemma {:induction false} RemoveLastKey(entries: seq<(PyValue, PyValue)>, k: PyValue, x: PyValue)
    requires forall i :: 0 <= i < |entries| ==> !KeyEq(entries[i].0, k)
    ensures RemoveKey(entries + [(k, x)], k) == entries
  {
    if |entries| == 0 {
      KeyEqReflexive(k);
      assert RemoveKey([(k, x)], k) == RemoveKey([], k);
    } else {
      assert (entries + [(k, x)])[1..] == entries[1..] + [(k, x)];
      RemoveLastKey(entries[1..], k, x);
      assert entries == [entries[0]] + entries[1..];
    }
  }

  /** Whether a value may be used as a dict key (`hash()` succeeds). */
  predicate Hashable(v: PyValue)
    decreases v
  {
    match v
    case List(_) => false
    case Dict(_) => false
    case RoiList(_, _) => false
    case Tuple(items) => forall i :: 0 <= i < |items| ==> Hashable(items[i])
    case _ => true
  }

  /** The characters of a string as one-character strings: what iterating over it yields. */
  function Chars(s: string): (r: seq<PyValue>)
    ensures |r| == |s| && forall i :: 0 <= i < |s| ==> r[i] == Str([s[i]])
  {
    seq(|s|, i requires 0 <= i < |s| => Str([s[i]]))
  }

  /** `for x in v`: the items iteration yields, or the TypeError for a non-iterable value.
      A dict yields its keys and a string its characters. */
  function Iterate(v: PyValue): (r: Option<seq<PyValue>>)
    ensures r.Some? <==> v.List? || v.Tuple? || v.RoiList? || v.Dict? || v.Str?
    ensures r.Some? ==> MaxSize(r.value) <= Size(v)
    ensures (v.List? || v.Tuple?) ==> r == Some(v.items)
  {
    match v
    case List(items) => ItemsSmaller(v); Some(items)
    case Tuple(items) => ItemsSmaller(v); Some(items)
    case RoiList(_, rois) => ItemsSmaller(v); Some(rois)
    case Dict(entries) =>
      EntriesSmaller(v);
      MaxSizeBelow(Keys(entries), Size(v));
      Some(Keys(entries))
    case Str(s) =>
      MaxSizeBelow(Chars(s), Size(v));
      Some(Chars(s))
    case _ => None
  }

  // ---- str() and repr() of the values whose text the model spells out ----

  /** The range of a Python 2 `int` on a 64-bit platform (`sys.maxint`); larger
      integers are `long`s. */
  const MinPyInt: int := -0x8000_0000_0000_0000
  const MaxPyInt: int := 0x7fff_ffff_ffff_ffff

  /** A string `repr` writes between single quotes with nothing escaped:
      printable ASCII without quotes or backslashes. */
  predicate PlainText(s: string)
  {
    forall i :: 0 <= i < |s| ==> ' ' <= s[i] <= '~' && s[i] != '\'' && s[i] != '"' && s[i] != '\\'
  }

  /** `str(v)` for None, booleans, integers and strings; None for the values
      whose text the model does not spell out. */
  function StrText(v: PyValue): (r: Option<string>)
    ensures r.Some? <==> v.PyNone? || v.Bool? || v.Int? || v.Str?
  {
    match v
    case PyNone => Some("None")
    case Bool(b) => Some(if b then "True" else "False")
    case Int(i) => Some(Decimal.Show(i))
    case Str(s) => Some(s)
    case _ => None
  }

  /** `repr(v)`: as `str`, except that a `long` carries a trailing `L` and a
      string is quoted; strings that need escapes or double quotes are not
      spelled out. */
  function ReprText(v: PyValue): (r: Option<string>)
    ensures r.Some? <==> v.PyNone? || v.Bool? || v.Int? || (v.Str? && PlainText(v.s))
  {
    match v
    case Int(i) => Some(Decimal.Show(i) + (if MinPyInt <= i <= MaxPyInt then "" else "L"))
    case Str(s) => if PlainText(s) then Some("'" + s + "'") else None
    case _ => StrText(v)
  }

  /** The text `str` gives reads back as the value: None and the booleans
      by their names (which a string may share), an integer as its decimal
      digits with nothing left over, a string as itself. */
  lemma StrTextReads(v: PyValue)
    requires StrText(v).Some?
    ensures !v.Str? ==> (v.PyNone? <==> StrText(v) == Some("None"))
    ensures v.Bool? ==> (StrText(v) == Some("True") <==> v.b)
    ensures v.Int? ==> Decimal.ReadInt(StrText(v).value) == Some((v.i, ""))
    ensures v.Str? ==> StrText(v) == Some(v.s)
  {
    if v.Int? {
      Decimal.ReadShowAll(v.i);
    }
  }

  /** The text `repr` gives reads back as the value: an integer's digits are
      followed by nothing, or by the `L` of a long, and a string comes back
      from between its quotes. */
  lemma ReprTextReads(v: PyValue)
    requires ReprText(v).Some?
    ensures v.Int? && MinPyInt <= v.i <= MaxPyInt ==> Decimal.ReadInt(ReprText(v).value) == Some((v.i, ""))
    ensures v.Int? && !(MinPyInt <= v.i <= MaxPyInt) ==> Decimal.ReadInt(ReprText(v).value) == Some((v.i, "L"))
    ensures v.Str? ==> var t := ReprText(v).value;
      |t| >= 2 && t[0] == t[|t| - 1] == '\'' && t[1..|t| - 1] == v.s
    ensures !v.Str? && !v.Int? ==> ReprText(v) == StrText(v)
  {
    if v.Int? {
      if MinPyInt <= v.i <= MaxPyInt {
        Decimal.ReadShowAll(v.i);
        assert ReprText(v).value == Decimal.Show(v.i);
      } else {
        Decimal.ReadShow(v.i, "L");
      }
    }
  }
}

=== FILE: roi_utils.dfy ===
/** ROIUtils.createNewROIList: picks the list class for a class of ROI by
    testing, in a fixed order, whether the class is assignable to each known
    ROI class. Class names are simple names; the class hierarchy is a
    parameter, `isSubclass(c, a)` standing for `a.class.isAssignableFrom(c)`. */
module RoiUtils {
  import opened Wrappers
  import FirstMatch

  /** An ROI object: the simple name of its runtime class, and an identity. */
  datatype Roi = Roi(cls: string, id: nat)

  /** UnsupportedOperationException "No corresponding ROI list class". */
  datatype RoiListError = NoListClass

  /** The tests of `createNewROIList(Class)`, in order: an ROI class and the list class it gets. */
  function Tests(): (t: seq<(string, string)>)
    ensures |t| == 14
  {
    [("PolygonalROI", "PolygonalROIList"),
     ("PolylineROI", "PolylineROIList"),
     ("PointROI", "PointROIList"),
     ("LinearROI", "LinearROIList"),
     ("XAxisBoxROI", "XAxisBoxROIList"),
     ("XAxisLineBoxROI", "XAxisLineBoxROIList"),
     ("YAxisBoxROI", "YAxisBoxROIList"),
     ("YAxisLineBoxROI", "YAxisLineBoxROIList"),
     ("PerimeterBoxROI", "PerimeterBoxROIList"),
     ("RectangularROI", "RectangularROIList"),
     ("SectorROI", "SectorROIList"),
     ("CircularROI", "CircularROIList"),
     ("EllipticalFitROI", "EllipticalFitROIList"),
     ("EllipticalROI", "EllipticalROIList")]
  }

  /** Whether the test `t` accepts class `c`. */
  function Accepts(isSubclass: (string, string) -> bool): ((string, string), string) -> bool
  {
    (t: (string, string), c: string) => isSubclass(c, t.0)
  }

  /** The list class of the first test in `tests` that class `c` passes. */
  function Pick(tests: seq<(string, string)>, isSubclass: (string, string) -> bool, c: string): (r: Result<Option<string>, RoiListError>)
    ensures r.Err? <==> forall i :: 0 <= i < |tests| ==> !isSubclass(c, tests[i].0)
    ensures r.Ok? ==> (r.value.Some? &&
      exists i :: 0 <= i < |tests| && r.value.value == tests[i].1 && isSubclass(c, tests[i].0) &&
        forall j :: 0 <= j < i ==> !isSubclass(c, tests[j].0))
  {
    match FirstMatch.First(tests, Accepts(isSubclass), c)
    case None => Err(NoListClass)
    case Some(i) => Ok(Some(tests[i].1))
  }

  /** `createNewROIList(Class)`: null gives null; otherwise the list class of
      the first test, in order, that the class passes; none fails. */
  function ForClass(isSubclass: (string, string) -> bool, clazz: Option<string>): (r: Result<Option<string>, RoiListError>)
    ensures clazz.None? ==> r == Ok(None)
    ensures clazz.Some? ==> (r.Err? <==> forall i :: 0 <= i < |Tests()| ==> !isSubclass(clazz.value, Tests()[i].0))
    ensures clazz.Some? && r.Ok? ==> (r.value.Some? &&
      exists i :: 0 <= i < |Tests()| && r.value.value == Tests()[i].1 && isSubclass(clazz.value, Tests()[i].0) &&
        forall j :: 0 <= j < i ==> !isSubclass(clazz.value, Tests()[j].0))
  {
    if clazz.None? then Ok(None) else Pick(Tests(), isSubclass, clazz.value)
  }

  /** The test at `i` decides when the class passes it and fails every test before it. */
  lemma ForClassFirst(isSubclass: (string, string) -> bool, c: string, i: nat)
    requires i < |Tests()| && isSubclass(c, Tests()[i].0)
    requires forall j :: 0 <= j < i ==> !isSubclass(c, Tests()[j].0)
    ensures ForClass(isSubclass, Some(c)) == Ok(Some(Tests()[i].1))
  {
    FirstMatch.FirstIs(Tests(), Accepts(isSubclass), c, i);
  }

  /** `createNewROIList(IROI)`: null gives null; otherwise the class-based overload on the ROI's class. */
  function ForRoi(isSubclass: (string, string) -> bool, roi: Option<Roi>): (r: Result<Option<string>, RoiListError>)
    ensures roi.None? ==> r == Ok(None)
    ensures roi.Some? ==> r == ForClass(isSubclass, Some(roi.value.cls))
  {
    if roi.None? then Ok(None) else ForClass(isSubclass, Some(roi.value.cls))
  }

  /** A subclass is tested before its superclass: a PerimeterBoxROI, which is
      also a RectangularROI, gets a PerimeterBoxROIList, provided it is not
      one of the eight classes tested before it. */
  lemma PerimeterBoxBeforeRectangular(isSubclass: (string, string) -> bool)
    requires isSubclass("PerimeterBoxROI", "PerimeterBoxROI") && isSubclass("PerimeterBoxROI", "RectangularROI")
    requires forall j :: 0 <= j < 8 ==> !isSubclass("PerimeterBoxROI", Tests()[j].0)
    ensures ForClass(isSubclass, Some("PerimeterBoxROI")) == Ok(Some("PerimeterBoxROIList"))
  {
    ForClassFirst(isSubclass, "PerimeterBoxROI", 8);
  }

  /** Every ROI class of the table that is assignable only to itself gets its own list class. */
  lemma OwnListClass(isSubclass: (string, string) -> bool, i: nat)
    requires i < |Tests()|
    requires forall j :: 0 <= j < |Tests()| ==> (isSubclass(Tests()[i].0, Tests()[j].0) <==> Tests()[j].0 == Tests()[i].0)
    ensures ForClass(isSubclass, Some(Tests()[i].0)) == Ok(Some(Tests()[i].1))
  {
    var t := Tests();
    assert forall j :: 0 <= j < i ==> t[j].0 != t[i].0;
    ForClassFirst(isSubclass, t[i].0, i);
  }
}

=== FILE: root_flattener.dfy ===
/** The Java root flattener: an ordered chain of helpers in which the first
    helper that claims an object converts it, handing itself (the root) to
    the helper so nested values go through the same chain. */
module RootFlattener {
  import opened Wrappers
  import opened JavaValues
  import FirstMatch

  /** The helper classes the root flattener registers when it is built. */
  datatype HelperClass =
    | SelfFlattensHelper | NoneFlatteningHelper | DataBeanHelper | DataSetWithAxisInformationHelper
    | GuiBeanHelper | SectorROIHelper | LinearROIHelper | RectangularROIHelper | ROIBaseHelper
    | GuiParametersHelper | GuiPlotModeHelper | RectangularROIListHelper | SectorROIListHelper
    | LinearROIListHelper | AxisMapBeanHelper | AbstractDatasetHelper | UUIDHelper
    | PassThroughFlatteningHelper | ListHelper | ExceptionHelper | MapHelper
    | PrimitiveIntArrayHelper | PrimitiveDoubleArrayHelper | PrimitiveBoolArrayHelper | ObjectArrayHelper

  /** The helper class registered at position `i` of the default chain. */
  function RegisteredAt(i: nat): (h: HelperClass)
    requires i < 25
    ensures Rank(h) == i
  {
    if i == 0 then SelfFlattensHelper
    else if i == 1 then NoneFlatteningHelper
    else if i == 2 then DataBeanHelper
    else if i == 3 then DataSetWithAxisInformationHelper
    else if i == 4 then GuiBeanHelper
    else if i == 5 then SectorROIHelper
    else if i == 6 then LinearROIHelper
    else if i == 7 then RectangularROIHelper
    else if i == 8 then ROIBaseHelper
    else if i == 9 then GuiParametersHelper
    else if i == 10 then GuiPlotModeHelper
    else if i == 11 then RectangularROIListHelper
    else if i == 12 then SectorROIListHelper
    else if i == 13 then LinearROIListHelper
    else if i == 14 then AxisMapBeanHelper
    else if i == 15 then AbstractDatasetHelper
    else if i == 16 then UUIDHelper
    else if i == 17 then PassThroughFlatteningHelper
    else if i == 18 then ListHelper
    else if i == 19 then ExceptionHelper
    else if i == 20 then MapHelper
    else if i == 21 then PrimitiveIntArrayHelper
    else if i == 22 then PrimitiveDoubleArrayHelper
    else if i == 23 then PrimitiveBoolArrayHelper
    else ObjectArrayHelper
  }

  /** Registration order of the default helpers; earlier ones take precedence. */
  function DefaultHelpers(): seq<HelperClass>
  {
    seq(25, i requires 0 <= i < 25 => RegisteredAt(i))
  }

  /** The root's state: its helper chain and its temporary-file location
      (a `File` made from a path, modelled by the path). */
  datatype Root<H> = Root(helpers: seq<H>, tempLocation: Option<string>)

  /** What the helpers of type `H` do. The conversions receive the root they
      were called from, as Java passes `this`. */
  datatype Behaviour<!H> = Behaviour(
    canFlatten: (H, JObject) -> bool,
    flatten: (H, Root<H>, JObject) -> Result<JObject, JError>,
    canUnflatten: (H, JObject) -> bool,
    unflatten: (H, Root<H>, JObject) -> Result<JObject, JError>)

  /** The position of each helper class in the default chain. */
  function Rank(h: HelperClass): nat
  {
    match h
    case SelfFlattensHelper => 0 case NoneFlatteningHelper => 1 case DataBeanHelper => 2
    case DataSetWithAxisInformationHelper => 3 case GuiBeanHelper => 4 case SectorROIHelper => 5
    case LinearROIHelper => 6 case RectangularROIHelper => 7 case ROIBaseHelper => 8
    case GuiParametersHelper => 9 case GuiPlotModeHelper => 10 case RectangularROIListHelper => 11
    case SectorROIListHelper => 12 case LinearROIListHelper => 13 case AxisMapBeanHelper => 14
    case AbstractDatasetHelper => 15 case UUIDHelper => 16 case PassThroughFlatteningHelper => 17
    case ListHelper => 18 case ExceptionHelper => 19 case MapHelper => 20
    case PrimitiveIntArrayHelper => 21 case PrimitiveDoubleArrayHelper => 22
    case PrimitiveBoolArrayHelper => 23 case ObjectArrayHelper => 24
  }

  /** The constructor: the default chain and no temporary location. */
  function NewRootFlattener(): (r: Root<HelperClass>)
    ensures |r.helpers| == 25
    ensures r.helpers[0] == SelfFlattensHelper && r.helpers[1] == NoneFlatteningHelper
    ensures forall i :: 0 <= i < |r.helpers| ==> Rank(r.helpers[i]) == i
    ensures r.tempLocation.None?
  {
    Root(DefaultHelpers(), None)
  }

  /** Every helper class is registered exactly once by the constructor. */
  lemma DefaultHelpersDistinct()
    ensures forall i, j :: 0 <= i < j < |NewRootFlattener().helpers| ==> NewRootFlattener().helpers[i] != NewRootFlattener().helpers[j]
    ensures forall h: HelperClass :: h in NewRootFlattener().helpers
  {
    var hs := NewRootFlattener().helpers;
    forall h: HelperClass
      ensures h in hs
    {
      assert hs[Rank(h)] == h;
    }
  }

  /** The error of `flatten` and `unflatten` when no helper claims `obj`:
      building its message calls `obj.toString()`, which fails on null. */
  function NoHelper(obj: JObject): (e: JError)
    ensures obj.Null? ==> e.NullPointer?
    ensures !obj.Null? ==> e == UnknownType(obj)
  {
    if obj.Null? then NullPointer else UnknownType(obj)
  }

  /** `flatten`: the first helper, in chain order, that can flatten `obj` does so. */
  function Flatten<H>(b: Behaviour<H>, root: Root<H>, obj: JObject): (r: Result<JObject, JError>)
    ensures (forall i :: 0 <= i < |root.helpers| ==> !b.canFlatten(root.helpers[i], obj)) ==> r == Err(NoHelper(obj))
    ensures forall i :: FirstMatch.IsFirst(root.helpers, b.canFlatten, obj, i) ==> r == b.flatten(root.helpers[i], root, obj)
  {
    FirstMatch.FirstExactly(root.helpers, b.canFlatten, obj);
    match FirstMatch.First(root.helpers, b.canFlatten, obj)
    case None => Err(NoHelper(obj))
    case Some(i) => b.flatten(root.helpers[i], root, obj)
  }

  /** `unflatten`: the first helper that can unflatten `obj` does so. Unlike
      `canUnFlatten`, it consults the helpers even for null. */
  function Unflatten<H>(b: Behaviour<H>, root: Root<H>, obj: JObject): (r: Result<JObject, JError>)
    ensures (forall i :: 0 <= i < |root.helpers| ==> !b.canUnflatten(root.helpers[i], obj)) ==> r == Err(NoHelper(obj))
    ensures forall i :: FirstMatch.IsFirst(root.helpers, b.canUnflatten, obj, i) ==> r == b.unflatten(root.helpers[i], root, obj)
  {
    FirstMatch.FirstExactly(root.helpers, b.canUnflatten, obj);
    match FirstMatch.First(root.helpers, b.canUnflatten, obj)
    case None => Err(NoHelper(obj))
    case Some(i) => b.unflatten(root.helpers[i], root, obj)
  }

  /** `canFlatten`: scans the chain for a helper that claims `obj`. It holds
      exactly when `flatten` does not fail for want of a helper. */
  method CanFlatten<H>(b: Behaviour<H>, root: Root<H>, obj: JObject) returns (r: bool)
    ensures r <==> exists i :: 0 <= i < |root.helpers| && b.canFlatten(root.helpers[i], obj)
    ensures !r ==> Flatten(b, root, obj) == Err(NoHelper(obj))
  {
    var k := 0;
    while k < |root.helpers|
      invariant 0 <= k <= |root.helpers|
      invariant forall j :: 0 <= j < k ==> !b.canFlatten(root.helpers[j], obj)
    {
      if b.canFlatten(root.helpers[k], obj) {
        return true;
      }
      k := k + 1;
    }
    return false;
  }

  /** `canUnFlatten`: false for null whatever the helpers are; otherwise
      whether some helper claims `obj`. */
  method CanUnflatten<H>(b: Behaviour<H>, root: Root<H>, obj: JObject) returns (r: bool)
    ensures obj.Null? ==> !r
    ensures !obj.Null? ==> (r <==> exists i :: 0 <= i < |root.helpers| && b.canUnflatten(root.helpers[i], obj))
    ensures !obj.Null? && !r ==> Unflatten(b, root, obj) == Err(NoHelper(obj))
  {
    if obj.Null? {
      return false;
    }
    var k := 0;
    while k < |root.helpers|
      invariant 0 <= k <= |root.helpers|
      invariant forall j :: 0 <= j < k ==> !b.canUnflatten(root.helpers[j], obj)
    {
      if b.canUnflatten(root.helpers[k], obj) {
        return true;
      }
      k := k + 1;
    }
    return false;
  }

  /** `setTempLocation`: a null path clears the location; any other path sets it. */
  function SetTempLocation<H>(root: Root<H>, path: Option<string>): (r: Root<H>)
    ensures GetTempLocation(r) == path
    ensures r.helpers == root.helpers
  {
    root.(tempLocation := path)
  }

  function GetTempLocation<H>(root: Root<H>): Option<string>
  {
    root.tempLocation
  }

  /** `addHelper`: the new helper goes in front of the chain. */
  function AddHelper<H>(root: Root<H>, h: H): (r: Root<H>)
    ensures |r.helpers| == |root.helpers| + 1 && r.helpers[0] == h
    ensures forall i :: 0 <= i < |root.helpers| ==> r.helpers[i + 1] == root.helpers[i]
    ensures r.tempLocation == root.tempLocation
  {
    root.(helpers := [h] + root.helpers)
  }

  /** An added helper takes precedence: it flattens every object it claims;
      for any other object the helper that flattened it before still does,
      now handed the enlarged root. */
  lemma AddHelperFlattenPrecedence<H>(b: Behaviour<H>, root: Root<H>, h: H, obj: JObject)
    ensures b.canFlatten(h, obj) ==> Flatten(b, AddHelper(root, h), obj) == b.flatten(h, AddHelper(root, h), obj)
    ensures !b.canFlatten(h, obj) ==>
      Flatten(b, AddHelper(root, h), obj) ==
        (match FirstMatch.First(root.helpers, b.canFlatten, obj)
         case None => Err(NoHelper(obj))
         case Some(i) => b.flatten(root.helpers[i], AddHelper(root, h), obj))
  {
    FirstMatch.PrependFirst(h, root.helpers, b.canFlatten, obj);
  }

  /** The same precedence holds for `unflatten`. */
  lemma AddHelperUnflattenPrecedence<H>(b: Behaviour<H>, root: Root<H>, h: H, obj: JObject)
    ensures b.canUnflatten(h, obj) ==> Unflatten(b, AddHelper(root, h), obj) == b.unflatten(h, AddHelper(root, h), obj)
    ensures !b.canUnflatten(h, obj) ==>
      Unflatten(b, AddHelper(root, h), obj) ==
        (match FirstMatch.First(root.helpers, b.canUnflatten, obj)
         case None => Err(NoHelper(obj))
         case Some(i) => b.unflatten(root.helpers[i], AddHelper(root, h), obj))
  {
    FirstMatch.PrependFirst(h, root.helpers, b.canUnflatten, obj);
  }
}

=== FILE: shapes.dfy ===
/** Shapes of n-dimensional datasets and the row-major correspondence
    between n-dimensional positions and flat buffer indices, as used by the
    dataset classes (size is the product of the shape, a position is inside
    the shape when every coordinate is below its dimension). */
module Shapes {

  /** The exceptions the dataset classes raise for bad shapes and positions. */
  datatype DatasetError =
      /** IllegalArgumentException: a shape or count that does not match. */
    | IllegalArgument
      /** IndexOutOfBoundsException raised by a dataset's own guard. */
    | IndexOutOfBounds
      /** ArrayIndexOutOfBoundsException raised by the Java array access itself. */
    | ArrayIndexOutOfBounds
      /** NullPointerException: a null object where a value is needed. */
    | NullPointer

  /** Number of elements of a dataset of the given shape. */
  function Product(shape: seq<int>): int
  {
    if |shape| == 0 then 1 else shape[0] * Product(shape[1..])
  }

  /** Every dimension is a length, never negative. */
  predicate NonNegative(shape: seq<int>)
  {
    forall i :: 0 <= i < |shape| ==> shape[i] >= 0
  }

  /** `pos` names a cell of a dataset of the given shape. */
  predicate InShape(pos: seq<int>, shape: seq<int>)
  {
    |pos| == |shape| && forall i :: 0 <= i < |pos| ==> 0 <= pos[i] < shape[i]
  }

  /** The position of all zeros: the origin of a dataset of rank `rank`. */
  function Origin(rank: nat): (r: seq<int>)
    ensures |r| == rank
    ensures forall i :: 0 <= i < rank ==> r[i] == 0
  {
    seq(rank, _ => 0)
  }

  lemma {:induction false} ProductNonNegative(shape: seq<int>)
    requires NonNegative(shape)
    ensures Product(shape) >= 0
  {
    if |shape| > 0 {
      ProductNonNegative(shape[1..]);
      MulNonNegative(shape[0], Product(shape[1..]));
    }
  }

  lemma MulNonNegative(a: int, b: int)
    requires a >= 0 && b >= 0
    ensures a * b >= 0
  {
  }

  /** A dataset whose shape holds at least one cell has only positive dimensions. */
  lemma {:induction false} InShapeMeansPositiveProduct(pos: seq<int>, shape: seq<int>)
    requires InShape(pos, shape)
    ensures Product(shape) > 0
  {
    if |shape| > 0 {
      InShapeMeansPositiveProduct(pos[1..], shape[1..]);
      MulPositive(shape[0], Product(shape[1..]));
    }
  }

  lemma MulPositive(a: int, b: int)
    requires a > 0 && b > 0
    ensures a * b > 0
  {
  }

  /** Row-major flat index of a position (the last coordinate varies fastest). */
  function Index(shape: seq<int>, pos: seq<int>): int
    requires |pos| == |shape|
  {
    if |shape| == 0 then 0 else pos[0] * Product(shape[1..]) + Index(shape[1..], pos[1..])
  }

  /** A position inside the shape has a flat index inside the buffer. */
  lemma {:induction false} IndexInRange(shape: seq<int>, pos: seq<int>)
    requires InShape(pos, shape)
    ensures 0 <= Index(shape, pos) < Product(shape)
  {
    if |shape| > 0 {
      var p := Product(shape[1..]);
      assert InShape(pos[1..], shape[1..]);
      IndexInRange(shape[1..], pos[1..]);
      var r := Index(shape[1..], pos[1..]);
      MulNonNegative(pos[0], p);
      MulStepBound(pos[0], shape[0], p);
      assert Index(shape, pos) == pos[0] * p + r;
    }
  }

  /** q < n implies q * p + p <= n * p, for a non-negative p. */
  lemma MulStepBound(q: int, n: int, p: int)
    requires 0 <= q < n && p >= 0
    ensures q * p + p <= n * p
  {
    assert (q + 1) * p <= n * p by {
      assert n * p - (q + 1) * p == (n - q - 1) * p;
      MulNonNegative(n - q - 1, p);
    }
  }

  /** The position whose row-major flat index is `j` (getNDPosition). */
  function Unravel(shape: seq<int>, j: int): (pos: seq<int>)
    requires NonNegative(shape) && 0 <= j < Product(shape)
    ensures InShape(pos, shape)
    decreases |shape|
  {
    if |shape| == 0 then []
    else
      var p := Product(shape[1..]);
      ProductNonNegative(shape[1..]);
      assert p > 0;
      DivBelow(j, shape[0], p);
      var rest := Unravel(shape[1..], j % p);
      var pos := [j / p] + rest;
      assert forall i :: 1 <= i < |pos| ==> pos[i] == rest[i - 1];
      pos
  }

  /** j < n * p implies j / p < n. */
  lemma DivBelow(j: int, n: int, p: int)
    requires 0 <= j < n * p && p > 0
    ensures 0 <= j / p < n
  {
  }

  lemma MulMonotone(a: int, b: int, p: int)
    requires a <= b && p >= 0
    ensures a * p <= b * p
  {
    assert b * p - a * p == (b - a) * p;
    MulNonNegative(b - a, p);
  }

  /** Unravel undoes Index: distinct positions have distinct flat indices. */
  lemma {:induction false} UnravelIndex(shape: seq<int>, pos: seq<int>)
    requires NonNegative(shape) && InShape(pos, shape)
    ensures 0 <= Index(shape, pos) < Product(shape)
    ensures Unravel(shape, Index(shape, pos)) == pos
  {
    IndexInRange(shape, pos);
    if |shape| > 0 {
      var p := Product(shape[1..]);
      assert InShape(pos[1..], shape[1..]);
      UnravelIndex(shape[1..], pos[1..]);
      InShapeMeansPositiveProduct(pos[1..], shape[1..]);
      var r := Index(shape[1..], pos[1..]);
      assert 0 <= r < p;
      DivModUnique(pos[0], p, r);
      assert Unravel(shape, Index(shape, pos)) == [pos[0]] + pos[1..];
    }
  }

  lemma DivModUnique(q: int, p: int, r: int)
    requires p > 0 && 0 <= r < p && q >= 0
    ensures (q * p + r) / p == q && (q * p + r) % p == r
  {
    var a := q * p + r;
    var q', r' := a / p, a % p;
    assert q' * p + r' == q * p + r;
    if q' < q {
      MulMonotone(q' + 1, q, p);
    } else if q' > q {
      MulMonotone(q + 1, q', p);
    }
  }

  /** Flat indices of positions inside a shape are all different. */
  lemma IndexInjective(shape: seq<int>, a: seq<int>, b: seq<int>)
    requires NonNegative(shape) && InShape(a, shape) && InShape(b, shape)
    requires Index(shape, a) == Index(shape, b)
    ensures a == b
  {
    UnravelIndex(shape, a);
    UnravelIndex(shape, b);
  }

  /** Index undoes Unravel: the position getNDPosition reports for flat index `j` is stored at `j`. */
  lemma {:induction false} IndexUnravel(shape: seq<int>, j: int)
    requires NonNegative(shape) && 0 <= j < Product(shape)
    ensures Index(shape, Unravel(shape, j)) == j
    decreases |shape|
  {
    if |shape| > 0 {
      var p := Product(shape[1..]);
      UnravelHead(shape, j);
      var q, m := j / p, j % p;
      IndexUnravel(shape[1..], m);
      var pos := Unravel(shape, j);
      assert Index(shape, pos) == q * p + Index(shape[1..], pos[1..]);
      DivMod(j, p);
    }
  }

  /** The first coordinate of an unravelled index is the quotient by the
      size of the remaining dimensions; the rest unravel the remainder. */
  lemma UnravelHead(shape: seq<int>, j: int)
    requires NonNegative(shape) && 0 <= j < Product(shape) && |shape| > 0
    ensures Product(shape[1..]) > 0
    ensures 0 <= j % Product(shape[1..]) < Product(shape[1..])
    ensures Unravel(shape, j)[0] == j / Product(shape[1..])
    ensures Unravel(shape, j)[1..] == Unravel(shape[1..], j % Product(shape[1..]))
  {
    var p := Product(shape[1..]);
    ProductNonNegative(shape[1..]);
    PositiveFactor(shape[0], p);
  }

  lemma PositiveFactor(n: int, p: int)
    requires n * p > 0 && p >= 0
    ensures p > 0
  {
  }

  lemma DivMod(j: int, p: int)
    requires p > 0
    ensures (j / p) * p + j % p == j
  {
  }
}

=== FILE: short_dataset.dfy ===
/** ShortDataset: a contiguous n-dimensional dataset of Java `short` values.
    Only the contiguous layout is modelled: the buffer holds exactly
    product(shape) elements in row-major order, so the element at position
    `pos` sits at `Index(shape, pos)`. Values are kept as integers in the
    16-bit range and every conversion into the dataset narrows explicitly. */
module ShortDataset {
  import opened Wrappers
  import opened Shapes

  const MinShort := -32768
  const MaxShort := 32767

  predicate IsShort(x: int)
  {
    MinShort <= x <= MaxShort
  }

  /** Java's narrowing `(short)` cast: keep the low 16 bits, read as two's complement. */
  function ToShort(x: int): (r: int)
    ensures IsShort(r)
    ensures (x - r) % 65536 == 0
    ensures IsShort(x) ==> r == x
  {
    var m := x % 65536;
    if m > MaxShort then m - 65536 else m
  }

  datatype Dataset = Dataset(shape: seq<int>, data: seq<int>)

  /** A well-formed dataset: a shape of lengths, one buffer cell per element, 16-bit values. */
  predicate Valid(d: Dataset)
  {
    NonNegative(d.shape) && |d.data| == Product(d.shape) &&
    forall i :: 0 <= i < |d.data| ==> IsShort(d.data[i])
  }

  /** `get(pos)` for a position inside the shape. */
  function Get(d: Dataset, pos: seq<int>): (v: int)
    requires Valid(d) && InShape(pos, d.shape)
    ensures IsShort(v)
  {
    IndexInRange(d.shape, pos);
    d.data[Index(d.shape, pos)]
  }

  /** The zero-filled dataset of a shape (the `int...` constructor). A
      one-dimensional shape with a negative length is rejected. */
  function Zeros(shape: seq<int>): (r: Result<Dataset, DatasetError>)
    requires |shape| == 1 || NonNegative(shape)
    ensures r.Err? <==> |shape| == 1 && shape[0] < 0
    ensures r.Err? ==> r.error == IllegalArgument
    ensures r.Ok? ==> Valid(r.value) && r.value.shape == shape
    ensures r.Ok? ==> forall i :: 0 <= i < |r.value.data| ==> r.value.data[i] == 0
  {
    if |shape| == 1 && shape[0] < 0 then Err(IllegalArgument)
    else
      ProductNonNegative(shape);
      Ok(Dataset(shape, seq(Product(shape), _ => 0)))
  }

  /** The shape the data+shape constructor uses: null or empty means one dimension of the data's length. */
  function EffectiveShape(data: seq<int>, shape: Option<seq<int>>): seq<int>
  {
    if shape.None? || |shape.value| == 0 then [|data|] else shape.value
  }

  /** The data+shape constructor: wraps the array when the shape's size matches its length. */
  function FromData(data: seq<int>, shape: Option<seq<int>>): (r: Result<Dataset, DatasetError>)
    requires forall i :: 0 <= i < |data| ==> IsShort(data[i])
    requires shape.Some? ==> NonNegative(shape.value)
    ensures r.Ok? <==> Product(EffectiveShape(data, shape)) == |data|
    ensures r.Err? ==> r.error == IllegalArgument
    ensures r.Ok? ==> Valid(r.value) && r.value.data == data && r.value.shape == EffectiveShape(data, shape)
  {
    var s := EffectiveShape(data, shape);
    if Product(s) != |data| then Err(IllegalArgument) else Ok(Dataset(s, data))
  }

  /** A null or empty shape makes a one-dimensional dataset that always fits its data. */
  lemma FromDataOneDimensional(data: seq<int>)
    requires forall i :: 0 <= i < |data| ==> IsShort(data[i])
    ensures FromData(data, None) == FromData(data, Some([])) == Ok(Dataset([|data|], data))
  {
    assert Product([|data|]) == |data| * Product([]);
  }

  /** `fill(obj)`: every element becomes the object's value narrowed to 16 bits. */
  function Fill(d: Dataset, v: int): (r: Dataset)
    requires Valid(d)
    ensures Valid(r) && r.shape == d.shape
    ensures forall pos :: InShape(pos, r.shape) ==> Get(r, pos) == ToShort(v)
  {
    var r := Dataset(d.shape, seq(|d.data|, _ => ToShort(v)));
    assert forall pos :: InShape(pos, r.shape) ==> Get(r, pos) == ToShort(v) by {
      forall pos | InShape(pos, r.shape) {
        IndexInRange(r.shape, pos);
      }
    }
    r
  }

  /** A second fill overwrites the first; filling with the value every element already holds changes nothing. */
  lemma FillOverwrites(d: Dataset, a: int, b: int)
    requires Valid(d)
    ensures Fill(Fill(d, a), b) == Fill(d, b)
    ensures (forall i :: 0 <= i < |d.data| ==> d.data[i] == ToShort(b)) ==> Fill(d, b) == d
  {
  }

  /** `ones(shape)`: the zero dataset of the shape, filled with 1. */
  function Ones(shape: seq<int>): (r: Result<Dataset, DatasetError>)
    requires |shape| == 1 || NonNegative(shape)
    ensures r.Err? <==> |shape| == 1 && shape[0] < 0
    ensures r.Ok? ==> Valid(r.value) && r.value.shape == shape
    ensures r.Ok? ==> forall pos :: InShape(pos, shape) ==> Get(r.value, pos) == 1
  {
    var z :- Zeros(shape);
    Ok(Fill(z, 1))
  }

  /** `setObjectAbs` as written: its guard lets `index == data.length` through, so
      that index fails on the array store instead of on the guard. */
  function SetObjectAbsAsWritten(d: Dataset, index: int, v: int): (r: Result<Dataset, DatasetError>)
    requires Valid(d)
    ensures r.Ok? <==> 0 <= index < |d.data|
    ensures r.Ok? ==> Valid(r.value) && r.value.data == d.data[index := ToShort(v)]
  {
    if index < 0 || index > |d.data| then Err(IndexOutOfBounds)
    else if index == |d.data| then Err(ArrayIndexOutOfBounds)
    else Ok(d.(data := d.data[index := ToShort(v)]))
  }

  /** `setObjectAbs` with the guard it evidently intends: every index outside the buffer fails on the guard. */
  function SetObjectAbs(d: Dataset, index: int, v: int): (r: Result<Dataset, DatasetError>)
    requires Valid(d)
    ensures r.Ok? <==> 0 <= index < |d.data|
    ensures r.Err? ==> r.error == IndexOutOfBounds
    ensures r.Ok? ==> Valid(r.value) && r.value.shape == d.shape
    ensures r.Ok? ==> r.value.data[index] == ToShort(v)
    ensures r.Ok? ==> forall i :: 0 <= i < |d.data| && i != index ==> r.value.data[i] == d.data[i]
  {
    if index < 0 || index >= |d.data| then Err(IndexOutOfBounds)
    else Ok(d.(data := d.data[index := ToShort(v)]))
  }

  /** The one index on which the two guards differ: one past the end. */
  lemma SetObjectAbsGuardGap(d: Dataset, v: int)
    requires Valid(d)
    ensures SetObjectAbsAsWritten(d, |d.data|, v) == Err(ArrayIndexOutOfBounds)
    ensures SetObjectAbs(d, |d.data|, v) == Err(IndexOutOfBounds)
  {
  }

  /** Everywhere else the two guards agree. */
  lemma SetObjectAbsAgrees(d: Dataset, index: int, v: int)
    requires Valid(d) && index != |d.data|
    ensures SetObjectAbsAsWritten(d, index, v) == SetObjectAbs(d, index, v)
  {
  }

  /** The shape `setItem` grows to: dimension i becomes pos[i] + 1 when pos[i] is at or past its end. */
  function Grow(shape: seq<int>, pos: seq<int>): (r: seq<int>)
    requires |pos| == |shape|
    ensures |r| == |shape|
    ensures forall i :: 0 <= i < |r| ==> r[i] == if pos[i] >= shape[i] then pos[i] + 1 else shape[i]
  {
    seq(|shape|, i requires 0 <= i < |shape| => if pos[i] >= shape[i] then pos[i] + 1 else shape[i])
  }

  /** The grown shape holds the old cells and `pos`, and is the old shape when `pos` was already inside. */
  lemma GrowCovers(shape: seq<int>, pos: seq<int>)
    requires NonNegative(shape) && NonNegative(pos) && |pos| == |shape|
    ensures NonNegative(Grow(shape, pos)) && InShape(pos, Grow(shape, pos))
    ensures forall q :: InShape(q, shape) ==> InShape(q, Grow(shape, pos))
    ensures InShape(pos, shape) ==> Grow(shape, pos) == shape
  {
  }

  /** The value a cell `q` of a reallocated buffer starts with: the old value when `q`
      was inside the old shape, Short.MIN_VALUE otherwise. */
  function Cell(d: Dataset, q: seq<int>): (v: int)
    requires Valid(d) && |q| == |d.shape|
    ensures IsShort(v)
  {
    if InShape(q, d.shape) then Get(d, q) else MinShort
  }

  /** `allocateArray(nshape)` without reserved space: a buffer for the new
      shape, old values copied to their old positions, the rest Short.MIN_VALUE. */
  function Allocate(d: Dataset, nshape: seq<int>): (r: Dataset)
    requires Valid(d) && NonNegative(nshape) && |nshape| == |d.shape|
    ensures Valid(r) && r.shape == nshape
  {
    ProductNonNegative(nshape);
    Dataset(nshape, seq(Product(nshape), j requires 0 <= j < Product(nshape) => Cell(d, Unravel(nshape, j))))
  }

  /** Each cell of the new buffer holds what `Cell` says. */
  lemma AllocateAt(d: Dataset, nshape: seq<int>, q: seq<int>)
    requires Valid(d) && NonNegative(nshape) && |nshape| == |d.shape| && InShape(q, nshape)
    ensures Get(Allocate(d, nshape), q) == Cell(d, q)
  {
    UnravelIndex(nshape, q);
  }

  /** `setItem(value, pos)`: grows the dataset when `pos` lies outside it,
      then stores the value at `pos`. A position of another rank fails with
      IllegalArgumentException and a negative coordinate with
      ArrayIndexOutOfBoundsException. */
  function SetItem(d: Dataset, value: int, pos: seq<int>): (r: Result<Dataset, DatasetError>)
    requires Valid(d) && IsShort(value)
    ensures r.Ok? <==> |pos| == |d.shape| && NonNegative(pos)
    ensures |pos| != |d.shape| ==> r == Err(IllegalArgument)
    ensures |pos| == |d.shape| && !NonNegative(pos) ==> r == Err(ArrayIndexOutOfBounds)
    ensures r.Ok? ==> Valid(r.value) && r.value.shape == Grow(d.shape, pos) && InShape(pos, r.value.shape)
  {
    if |pos| != |d.shape| then Err(IllegalArgument)
    else if !NonNegative(pos) then Err(ArrayIndexOutOfBounds)
    else
      GrowCovers(d.shape, pos);
      var e := if InShape(pos, d.shape) then d else Allocate(d, Grow(d.shape, pos));
      IndexInRange(e.shape, pos);
      Ok(e.(data := e.data[Index(e.shape, pos) := value]))
  }

  /** After `setItem`, `get(pos)` is the value stored. */
  lemma SetItemWrites(d: Dataset, value: int, pos: seq<int>)
    requires Valid(d) && IsShort(value)
    ensures SetItem(d, value, pos).Ok? ==> Get(SetItem(d, value, pos).value, pos) == value
  {
    if |pos| == |d.shape| && NonNegative(pos) {
      var ns := Grow(d.shape, pos);
      GrowCovers(d.shape, pos);
      IndexInRange(ns, pos);
      var e := if InShape(pos, d.shape) then d else Allocate(d, ns);
      assert SetItem(d, value, pos).value == e.(data := e.data[Index(ns, pos) := value]);
    }
  }

  /** Every other old cell keeps its value at its old position, whether or not the dataset grew. */
  lemma SetItemKeeps(d: Dataset, value: int, pos: seq<int>, q: seq<int>)
    requires Valid(d) && IsShort(value)
    requires InShape(q, d.shape) && q != pos
    ensures var r := SetItem(d, value, pos);
      r.Ok? ==> InShape(q, r.value.shape) && Get(r.value, q) == Get(d, q)
  {
    if |pos| == |d.shape| && NonNegative(pos) {
      var ns := Grow(d.shape, pos);
      GrowCovers(d.shape, pos);
      IndexInRange(ns, pos);
      IndexInRange(ns, q);
      if Index(ns, q) == Index(ns, pos) {
        IndexInjective(ns, q, pos);
      }
      var e := if InShape(pos, d.shape) then d else Allocate(d, ns);
      assert SetItem(d, value, pos).value == e.(data := e.data[Index(ns, pos) := value]);
      if !InShape(pos, d.shape) {
        AllocateAt(d, ns, q);
      }
    }
  }

  /** Cells the growth adds, other than `pos`, hold Short.MIN_VALUE. */
  lemma SetItemPads(d: Dataset, value: int, pos: seq<int>, q: seq<int>)
    requires Valid(d) && IsShort(value)
    ensures var r := SetItem(d, value, pos);
      r.Ok? && InShape(q, r.value.shape) && !InShape(q, d.shape) && q != pos ==> Get(r.value, q) == MinShort
  {
    var r := SetItem(d, value, pos);
    if r.Ok? && InShape(q, r.value.shape) && !InShape(q, d.shape) && q != pos {
      var ns := Grow(d.shape, pos);
      GrowCovers(d.shape, pos);
      IndexInRange(ns, pos);
      IndexInRange(ns, q);
      if Index(ns, q) == Index(ns, pos) {
        IndexInjective(ns, q, pos);
      }
      var e := Allocate(d, ns);
      assert r.value == e.(data := e.data[Index(ns, pos) := value]);
      AllocateAt(d, ns, q);
    }
  }

  /** `set(obj, pos)`: a null or empty position means the origin; the value
      is narrowed to 16 bits. Any other position goes to `setItem` as given,
      with its failures. */
  function Set(d: Dataset, v: int, pos: seq<int>): (r: Result<Dataset, DatasetError>)
    requires Valid(d)
    ensures r.Ok? ==> Valid(r.value)
    ensures |pos| == 0 ==> r.Ok? && InShape(Origin(|d.shape|), r.value.shape) && Get(r.value, Origin(|d.shape|)) == ToShort(v)
    ensures |pos| > 0 ==> (r.Ok? <==> |pos| == |d.shape| && NonNegative(pos))
    ensures |pos| > 0 && r.Ok? ==> InShape(pos, r.value.shape) && Get(r.value, pos) == ToShort(v)
    ensures |pos| > 0 && |pos| != |d.shape| ==> r == Err(IllegalArgument)
  {
    var p := if |pos| == 0 then Origin(|d.shape|) else pos;
    SetItemWrites(d, ToShort(v), p);
    SetItem(d, ToShort(v), p)
  }

  /** `resize(newShape)`: a fresh contiguous buffer of the new size holding the
      first min(old, new) elements in order; the rest stay 0. */
  function Resize(d: Dataset, newShape: seq<int>): (r: Dataset)
    requires Valid(d) && NonNegative(newShape)
    ensures Valid(r) && r.shape == newShape
    ensures forall i :: 0 <= i < |r.data| && i < |d.data| ==> r.data[i] == d.data[i]
    ensures forall i :: |d.data| <= i < |r.data| ==> r.data[i] == 0
  {
    ProductNonNegative(newShape);
    Dataset(newShape, seq(Product(newShape), i requires 0 <= i => if i < |d.data| then d.data[i] else 0))
  }

  /** Resizing to a shape at least as large and back again restores the dataset. */
  lemma ResizeRoundTrip(d: Dataset, s: seq<int>)
    requires Valid(d) && NonNegative(s) && Product(s) >= |d.data|
    ensures Resize(Resize(d, s), d.shape) == d
  {
    var r := Resize(Resize(d, s), d.shape);
    assert r.data == d.data;
  }

  function Abs(x: int): nat
  {
    if x < 0 then -x else x
  }

  /** Java's integer `/`: the quotient rounded toward zero. */
  function JavaDiv(a: int, b: int): (q: int)
    requires b != 0
    ensures Abs(q) <= Abs(a)
  {
    DivAtMost(Abs(a), Abs(b));
    if (a < 0) == (b < 0) then Abs(a) / Abs(b) else -(Abs(a) / Abs(b))
  }

  /** Java's integer `%`: the remainder takes the sign of the dividend and is smaller than both operands. */
  function JavaRem(a: int, b: int): (r: int)
    requires b != 0
    ensures Abs(r) < Abs(b) && Abs(r) <= Abs(a)
    ensures r == 0 || (r < 0 <==> a < 0)
  {
    ModAtMost(Abs(a), Abs(b));
    if a < 0 then -(Abs(a) % Abs(b)) else Abs(a) % Abs(b)
  }

  lemma DivAtMost(n: nat, m: nat)
    requires m >= 1
    ensures n / m <= n
  {
    var q := n / m;
    assert q * m + n % m == n;
    MulMonotone(1, m, q);
  }

  lemma ModAtMost(n: nat, m: nat)
    requires m >= 1
    ensures n % m <= n
  {
    var q := n / m;
    assert q * m + n % m == n;
    MulNonNegative(q, m);
  }

  /** Dividing a positive number by at least two makes it smaller. */
  lemma DivShrinks(n: nat, m: nat)
    requires n > 0 && m >= 2
    ensures n / m < n
  {
    var q := n / m;
    assert q * m + n % m == n;
    MulMonotone(2, m, q);
  }

  lemma MulSigns(x: int, y: int)
    ensures (-x) * y == -(x * y) && x * (-y) == -(x * y) && (-x) * (-y) == x * y
  {
  }

  /** Quotient and remainder rebuild the dividend (section 15.17.3 of the Java Language Specification). */
  lemma JavaDivRem(a: int, b: int)
    requires b != 0
    ensures JavaDiv(a, b) * b + JavaRem(a, b) == a
  {
    var n: int, m: int := Abs(a), Abs(b);
    var q: int, r: int := n / m, n % m;
    assert q * m + r == n;
    MulSigns(q, m);
    if a < 0 && b < 0 {
      assert JavaDiv(a, b) == q && b == -m && JavaRem(a, b) == -r;
    } else if a < 0 {
      assert JavaDiv(a, b) == -q && b == m && JavaRem(a, b) == -r;
    } else if b < 0 {
      assert JavaDiv(a, b) == -q && b == -m && JavaRem(a, b) == r;
    } else {
      assert JavaDiv(a, b) == q && b == m && JavaRem(a, b) == r;
    }
  }

  /** A 16-bit dividend has a 16-bit quotient, except Short.MIN_VALUE / -1. */
  lemma JavaDivShort(x: int, y: int)
    requires IsShort(x) && y != 0 && !(x == MinShort && y == -1)
    ensures IsShort(JavaDiv(x, y))
  {
    var n, m := Abs(x), Abs(y);
    if m >= 2 && n > 0 {
      DivShrinks(n, m);
    }
    DivAtMost(n, m);
  }

  /** `data[i] /= y` with the ArithmeticException of a zero divisor caught as 0. */
  function DivideElement(x: int, y: int): int
  {
    if y == 0 then 0 else JavaDiv(x, y)
  }

  /** `data[i] %= y` with the ArithmeticException of a zero divisor caught as 0. */
  function RemainderElement(x: int, y: int): int
  {
    if y == 0 then 0 else JavaRem(x, y)
  }

  /** The element-wise in-place compound assignment against another dataset's
      values, narrowed back to 16 bits: the two iterators advance together, so
      only the first min(n, m) elements change. */
  function Elementwise(d: Dataset, other: seq<int>, op: (int, int) -> int): (r: Dataset)
    requires Valid(d)
    ensures Valid(r) && r.shape == d.shape
    ensures forall i :: 0 <= i < |d.data| ==> r.data[i] == if i < |other| then ToShort(op(d.data[i], other[i])) else d.data[i]
  {
    var r := Dataset(d.shape, seq(|d.data|, i requires 0 <= i < |d.data| => if i < |other| then ToShort(op(d.data[i], other[i])) else d.data[i]));
    forall i | 0 <= i < |r.data|
      ensures IsShort(r.data[i])
    {
      if i < |other| {
        assert r.data[i] == ToShort(op(d.data[i], other[i]));
      } else {
        assert r.data[i] == d.data[i];
      }
    }
    r
  }

  /** `idivide` by a dataset: each element is divided, with Java's truncating
      division narrowed to 16 bits, and a zero element of the divisor makes the element 0. */
  function IDivide(d: Dataset, other: seq<int>): (r: Dataset)
    requires Valid(d)
    ensures Valid(r) && r.shape == d.shape
    ensures forall i :: 0 <= i < |d.data| && i < |other| && other[i] != 0 ==> r.data[i] == ToShort(JavaDiv(d.data[i], other[i]))
    ensures forall i :: 0 <= i < |d.data| && i < |other| && other[i] == 0 ==> r.data[i] == 0
    ensures forall i :: |other| <= i < |d.data| ==> r.data[i] == d.data[i]
  {
    Elementwise(d, other, DivideElement)
  }

  /** `iremainder` by a dataset: each element takes Java's truncating
      remainder, and a zero element of the divisor makes the element 0. */
  function IRemainder(d: Dataset, other: seq<int>): (r: Dataset)
    requires Valid(d)
    ensures Valid(r) && r.shape == d.shape
    ensures forall i :: 0 <= i < |d.data| && i < |other| && other[i] != 0 ==> r.data[i] == ToShort(JavaRem(d.data[i], other[i]))
    ensures forall i :: 0 <= i < |d.data| && i < |other| && other[i] == 0 ==> r.data[i] == 0
    ensures forall i :: |other| <= i < |d.data| ==> r.data[i] == d.data[i]
  {
    Elementwise(d, other, RemainderElement)
  }

  /** Where the divisor is non-zero, the results of `idivide` and `iremainder`
      rebuild the original element, except for the single overflowing quotient
      Short.MIN_VALUE / -1. */
  lemma DivideRemainderRebuild(d: Dataset, other: seq<int>, i: int)
    requires Valid(d) && 0 <= i < |d.data| && i < |other| && other[i] != 0
    requires !(d.data[i] == MinShort && other[i] == -1)
    ensures IDivide(d, other).data[i] * other[i] + IRemainder(d, other).data[i] == d.data[i]
  {
    var x, y := d.data[i], other[i];
    JavaDivRem(x, y);
    JavaDivShort(x, y);
    assert IDivide(d, other).data[i] == JavaDiv(x, y);
    assert IRemainder(d, other).data[i] == JavaRem(x, y);
  }

  /** The overflowing quotient wraps: Short.MIN_VALUE / -1 stays Short.MIN_VALUE. */
  lemma DivideOverflowWraps(d: Dataset, other: seq<int>, i: int)
    requires Valid(d) && 0 <= i < |d.data| && i < |other| && d.data[i] == MinShort && other[i] == -1
    ensures IDivide(d, other).data[i] == MinShort
  {
    assert JavaDiv(MinShort, -1) == 32768;
    assert ToShort(32768) == MinShort;
  }

  /** `idivide` by a scalar: a zero divisor fills the dataset with 0; any other
      (integral) divisor divides every element. */
  function IDivideScalar(d: Dataset, v: int): (r: Dataset)
    requires Valid(d)
    ensures Valid(r) && r.shape == d.shape
    ensures v == 0 ==> forall i :: 0 <= i < |r.data| ==> r.data[i] == 0
    ensures v != 0 ==> forall i :: 0 <= i < |r.data| ==> r.data[i] == ToShort(JavaDiv(d.data[i], v))
  {
    if v == 0 then Fill(d, 0) else Elementwise(d, seq(|d.data|, _ => v), DivideElement)
  }

  /** `iremainder` by a scalar: a zero divisor fills the dataset with 0. */
  function IRemainderScalar(d: Dataset, v: int): (r: Dataset)
    requires Valid(d)
    ensures Valid(r) && r.shape == d.shape
    ensures v == 0 ==> forall i :: 0 <= i < |r.data| ==> r.data[i] == 0
    ensures v != 0 ==> forall i :: 0 <= i < |r.data| ==> r.data[i] == JavaRem(d.data[i], v)
  {
    if v == 0 then Fill(d, 0) else Elementwise(d, seq(|d.data|, _ => v), RemainderElement)
  }

  /** A scalar divisor acts like a dataset divisor holding that value everywhere. */
  lemma ScalarIsConstantDataset(d: Dataset, v: int)
    requires Valid(d)
    ensures IDivideScalar(d, v).data == IDivide(d, seq(|d.data|, _ => v)).data
    ensures IRemainderScalar(d, v).data == IRemainder(d, seq(|d.data|, _ => v)).data
  {
  }

  /** The value assigned from: another dataset's elements (read as longs) or a single scalar. */
  datatype Source = Elements(values: seq<int>) | Scalar(value: int)

  /** Number of true entries. */
  function Count(s: seq<bool>): (n: nat)
    ensures n <= |s|
  {
    if |s| == 0 then 0 else Count(s[..|s| - 1]) + (if s[|s| - 1] then 1 else 0)
  }

  /** Counting a longer prefix never gives less. */
  lemma {:induction false} CountMonotone(s: seq<bool>, i: nat, j: nat)
    requires i <= j <= |s|
    ensures Count(s[..i]) <= Count(s[..j])
    decreases j - i
  {
    if i < j {
      CountMonotone(s, i, j - 1);
      assert s[..j][..j - 1] == s[..j - 1];
    }
  }

  /** A true entry at `i` has fewer than Count(s) true entries before it. */
  lemma CountBefore(s: seq<bool>, i: nat)
    requires i < |s| && s[i]
    ensures Count(s[..i]) < Count(s)
  {
    assert s[..i + 1][..i] == s[..i];
    CountMonotone(s, i + 1, |s|);
    assert s[..|s|] == s;
  }

  /** The value the `i`-th cell gets from a selection: the scalar, or the source element whose
      rank among the selected cells is the cell's rank. */
  function Assigned(obj: Source, selection: seq<bool>, i: nat): int
    requires i < |selection| && selection[i]
    requires obj.Elements? ==> Count(selection) == |obj.values|
  {
    match obj
    case Scalar(v) => ToShort(v)
    case Elements(vs) =>
      CountBefore(selection, i);
      ToShort(vs[Count(selection[..i])])
  }

  /** `setByBoolean(obj, selection)`: the selected cells, in order, receive the
      source's elements in order; a dataset source must have exactly as many
      elements as there are selected cells. The boolean iterator walks the
      selection's own flat indices, so a selected index past the end of the
      buffer fails at the array store. */
  method SetByBoolean(d: Dataset, obj: Source, selection: seq<bool>) returns (r: Result<Dataset, DatasetError>)
    requires Valid(d)
    ensures r.Err? <==> (obj.Elements? && Count(selection) != |obj.values|) ||
                        exists i :: |d.data| <= i < |selection| && selection[i]
    ensures r.Err? ==> r.error == if obj.Elements? && Count(selection) != |obj.values| then IllegalArgument else ArrayIndexOutOfBounds
    ensures r.Ok? ==> Valid(r.value) && r.value.shape == d.shape
    ensures r.Ok? ==> forall i :: 0 <= i < |d.data| ==>
      r.value.data[i] == if i < |selection| && selection[i] then Assigned(obj, selection, i) else d.data[i]
  {
    if obj.Elements? && Count(selection) != |obj.values| {
      return Err(IllegalArgument);
    }
    if exists i :: |d.data| <= i < |selection| && selection[i] {
      return Err(ArrayIndexOutOfBounds);
    }
    var out := d.data;
    var i := 0;
    var k := 0;
    while i < |selection|
      invariant 0 <= i <= |selection| && |out| == |d.data|
      invariant k == Count(selection[..i])
      invariant forall j :: i <= j < |out| ==> out[j] == d.data[j]
      invariant forall j :: 0 <= j < i && j < |out| ==> out[j] == if selection[j] then Assigned(obj, selection, j) else d.data[j]
    {
      assert selection[..i + 1][..i] == selection[..i];
      if selection[i] {
        CountBefore(selection, i);
        var v := if obj.Scalar? then ToShort(obj.value) else ToShort(obj.values[k]);
        out := out[i := v];
        k := k + 1;
      }
      i := i + 1;
    }
    r := Ok(Dataset(d.shape, out));
  }

  /** The last position in `index` that names cell `p`, if any: the write that survives. */
  function LastWrite(index: seq<int>, p: int): (r: Option<nat>)
    ensures r.Some? ==> r.value < |index| && index[r.value] == p
    ensures r.Some? ==> forall k :: r.value < k < |index| ==> index[k] != p
    ensures r.None? ==> forall k :: 0 <= k < |index| ==> index[k] != p
  {
    if |index| == 0 then None
    else if index[|index| - 1] == p then Some(|index| - 1)
    else LastWrite(index[..|index| - 1], p)
  }

  /** Every listed cell lies inside a buffer of `n` elements. */
  predicate IndicesInRange(index: seq<int>, n: int)
  {
    forall k :: 0 <= k < |index| ==> 0 <= index[k] < n
  }

  /** `setByIndex(obj, index)`: the k-th listed cell receives the source's k-th
      element, later writes winning; a dataset source must have as many
      elements as there are indices. The integer iterator hands each index to
      the array store unchanged, so an index outside the buffer fails there. */
  method SetByIndex(d: Dataset, obj: Source, index: seq<int>) returns (r: Result<Dataset, DatasetError>)
    requires Valid(d)
    ensures r.Err? <==> (obj.Elements? && |index| != |obj.values|) || !IndicesInRange(index, |d.data|)
    ensures r.Err? ==> r.error == if obj.Elements? && |index| != |obj.values| then IllegalArgument else ArrayIndexOutOfBounds
    ensures r.Err? && r.error == ArrayIndexOutOfBounds ==> exists k :: 0 <= k < |index| && !(0 <= index[k] < |d.data|)
    ensures r.Ok? ==> Valid(r.value) && r.value.shape == d.shape
    ensures r.Ok? ==> forall p :: 0 <= p < |d.data| ==>
      r.value.data[p] == match LastWrite(index, p)
        case None => d.data[p]
        case Some(k) => if obj.Scalar? then ToShort(obj.value) else ToShort(obj.values[k])
  {
    if obj.Elements? && |index| != |obj.values| {
      return Err(IllegalArgument);
    }
    if !IndicesInRange(index, |d.data|) {
      return Err(ArrayIndexOutOfBounds);
    }
    var out := d.data;
    var k := 0;
    while k < |index|
      invariant 0 <= k <= |index| && |out| == |d.data|
      invariant forall p :: 0 <= p < |out| ==>
        out[p] == match LastWrite(index[..k], p)
          case None => d.data[p]
          case Some(j) => if obj.Scalar? then ToShort(obj.value) else ToShort(obj.values[j])
    {
      assert index[..k + 1][..k] == index[..k];
      var v := if obj.Scalar? then ToShort(obj.value) else ToShort(obj.values[k]);
      out := out[index[k] := v];
      k := k + 1;
    }
    assert index[..|index|] == index;
    r := Ok(Dataset(d.shape, out));
  }

  /** `findPositions(value)`: the flat indices holding `value`, in ascending order. */
  method FindPositions(data: seq<int>, value: int) returns (r: seq<nat>)
    ensures forall j :: j in r <==> 0 <= j < |data| && data[j] == value
    ensures forall a, b :: 0 <= a < b < |r| ==> r[a] < r[b]
  {
    r := [];
    var i := 0;
    while i < |data|
      invariant 0 <= i <= |data|
      invariant forall j :: j in r <==> 0 <= j < i && data[j] == value
      invariant forall a, b :: 0 <= a < b < |r| ==> r[a] < r[b]
      invariant forall a :: 0 <= a < |r| ==> r[a] < i
    {
      if data[i] == value {
        r := r + [i];
      }
      i := i + 1;
    }
  }

  /** The largest element. */
  function Max(s: seq<int>): (m: int)
    requires |s| > 0
    ensures m in s && forall i :: 0 <= i < |s| ==> s[i] <= m
  {
    if |s| == 1 then s[0]
    else
      var m := Max(s[1..]);
      assert s[1..][0] in s;
      if s[0] >= m then s[0] else m
  }

  /** The smallest element. */
  function Min(s: seq<int>): (m: int)
    requires |s| > 0
    ensures m in s && forall i :: 0 <= i < |s| ==> m <= s[i]
  {
    if |s| == 1 then s[0]
    else
      var m := Min(s[1..]);
      assert s[1..][0] in s;
      if s[0] <= m then s[0] else m
  }

  /** The n-dimensional position of the first occurrence of `value`
      (`getNDPosition(findPositions(value).get(0))`); an empty list of
      occurrences fails on `get(0)`. */
  method FirstPosition(d: Dataset, value: int) returns (r: Result<seq<int>, DatasetError>)
    requires Valid(d)
    ensures r.Err? <==> value !in d.data
    ensures r.Err? ==> r.error == IndexOutOfBounds
    ensures r.Ok? ==> InShape(r.value, d.shape) && 0 <= Index(d.shape, r.value) < |d.data|
    ensures r.Ok? ==> Get(d, r.value) == value
    ensures r.Ok? ==> forall j :: 0 <= j < Index(d.shape, r.value) ==> d.data[j] != value
  {
    var ps := FindPositions(d.data, value);
    if |ps| == 0 {
      assert value !in d.data;
      return Err(IndexOutOfBounds);
    }
    var j0 := ps[0];
    assert j0 in ps;
    assert forall j :: 0 <= j < j0 ==> d.data[j] != value;
    IndexUnravel(d.shape, j0);
    r := Ok(Unravel(d.shape, j0));
  }

  /** `maxPos`: the position of the first maximum; an empty dataset has none. */
  method MaxPos(d: Dataset) returns (r: Result<seq<int>, DatasetError>)
    requires Valid(d)
    ensures r.Err? <==> |d.data| == 0
    ensures r.Err? ==> r.error == IndexOutOfBounds
    ensures r.Ok? ==> InShape(r.value, d.shape) && 0 <= Index(d.shape, r.value) < |d.data|
    ensures r.Ok? ==> forall i :: 0 <= i < |d.data| ==> d.data[i] <= Get(d, r.value)
    ensures r.Ok? ==> forall j :: 0 <= j < Index(d.shape, r.value) ==> d.data[j] < Get(d, r.value)
  {
    if |d.data| == 0 {
      return Err(IndexOutOfBounds);
    }
    var m := Max(d.data);
    r := FirstPosition(d, m);
  }

  /** `minPos`: the position of the first minimum; an empty dataset has none. */
  method MinPos(d: Dataset) returns (r: Result<seq<int>, DatasetError>)
    requires Valid(d)
    ensures r.Err? <==> |d.data| == 0
    ensures r.Err? ==> r.error == IndexOutOfBounds
    ensures r.Ok? ==> InShape(r.value, d.shape) && 0 <= Index(d.shape, r.value) < |d.data|
    ensures r.Ok? ==> forall i :: 0 <= i < |d.data| ==> Get(d, r.value) <= d.data[i]
    ensures r.Ok? ==> forall j :: 0 <= j < Index(d.shape, r.value) ==> Get(d, r.value) < d.data[j]
  {
    if |d.data| == 0 {
      return Err(IndexOutOfBounds);
    }
    var m := Min(d.data);
    r := FirstPosition(d, m);
  }
}

=== FILE: string_dataset.dfy ===
/** StringDatasetBase: a contiguous n-dimensional dataset of Java strings.
    A cell holds a string or null (`None`); an object handed to the dataset
    is represented by the text its `toString()` gives, or `None` for a null
    object. Unlike the numeric datasets it never grows, its numeric getters
    read every element as zero, and its in-place arithmetic does nothing. */
module StringDataset {
  import opened Wrappers
  import opened Shapes

  datatype Dataset = Dataset(shape: seq<int>, data: seq<Option<string>>)

  predicate Valid(d: Dataset)
  {
    NonNegative(d.shape) && |d.data| == Product(d.shape)
  }

  /** `get(pos)` for a position inside the shape: the cell of the buffer it names. */
  function Get(d: Dataset, pos: seq<int>): (v: Option<string>)
    requires Valid(d) && InShape(pos, d.shape)
    ensures v in d.data
  {
    IndexInRange(d.shape, pos);
    d.data[Index(d.shape, pos)]
  }

  /** The `int...` constructor: a buffer of nulls; a one-dimensional shape with a negative length is rejected. */
  function New(shape: seq<int>): (r: Result<Dataset, DatasetError>)
    requires |shape| == 1 || NonNegative(shape)
    ensures r.Err? <==> |shape| == 1 && shape[0] < 0
    ensures r.Err? ==> r.error == IllegalArgument
    ensures r.Ok? ==> Valid(r.value) && r.value.shape == shape
    ensures r.Ok? ==> forall pos :: InShape(pos, shape) ==> Get(r.value, pos) == None
  {
    if |shape| == 1 && shape[0] < 0 then Err(IllegalArgument)
    else
      ProductNonNegative(shape);
      var d := Dataset(shape, seq(Product(shape), _ => None));
      assert forall pos :: InShape(pos, shape) ==> Get(d, pos) == None by {
        forall pos | InShape(pos, shape) {
          IndexInRange(shape, pos);
        }
      }
      Ok(d)
  }

  /** The shape the data+shape constructor uses: null or empty means one dimension of the data's length. */
  function EffectiveShape(data: seq<Option<string>>, shape: Option<seq<int>>): seq<int>
  {
    if shape.None? || |shape.value| == 0 then [|data|] else shape.value
  }

  /** The data+shape constructor: wraps the array when the shape's size matches its length. */
  function FromData(data: seq<Option<string>>, shape: Option<seq<int>>): (r: Result<Dataset, DatasetError>)
    requires shape.Some? ==> NonNegative(shape.value)
    ensures r.Ok? <==> Product(EffectiveShape(data, shape)) == |data|
    ensures r.Err? ==> r.error == IllegalArgument
    ensures r.Ok? ==> Valid(r.value) && r.value.data == data && r.value.shape == EffectiveShape(data, shape)
  {
    var s := EffectiveShape(data, shape);
    if Product(s) != |data| then Err(IllegalArgument) else Ok(Dataset(s, data))
  }

  /** A shape whose size differs from the data's length is refused; a one-dimensional default never is. */
  lemma FromDataShapeCheck(data: seq<Option<string>>, shape: seq<int>)
    requires NonNegative(shape)
    ensures |shape| > 0 ==> (FromData(data, Some(shape)).Ok? <==> Product(shape) == |data|)
    ensures FromData(data, None).Ok? && FromData(data, Some([])).Ok?
  {
    assert Product([|data|]) == |data| * Product([]);
  }

  /** `fill(obj)`: every element becomes `obj.toString()`; a null object fails. */
  function Fill(d: Dataset, obj: Option<string>): (r: Result<Dataset, DatasetError>)
    requires Valid(d)
    ensures r.Err? <==> obj.None?
    ensures r.Err? ==> r.error == NullPointer
    ensures r.Ok? ==> Valid(r.value) && r.value.shape == d.shape
    ensures r.Ok? ==> forall pos :: InShape(pos, d.shape) ==> Get(r.value, pos) == obj
  {
    if obj.None? then Err(NullPointer)
    else
      var f := Dataset(d.shape, seq(|d.data|, _ => obj));
      assert forall pos :: InShape(pos, d.shape) ==> Get(f, pos) == obj by {
        forall pos | InShape(pos, d.shape) {
          IndexInRange(d.shape, pos);
        }
      }
      Ok(f)
  }

  /** `ones(shape)`: a new dataset filled with the integer 1, whose text is "1". */
  function Ones(shape: seq<int>): (r: Result<Dataset, DatasetError>)
    requires |shape| == 1 || NonNegative(shape)
    ensures r.Err? <==> |shape| == 1 && shape[0] < 0
    ensures r.Ok? ==> Valid(r.value) && r.value.shape == shape
    ensures r.Ok? ==> forall pos :: InShape(pos, shape) ==> Get(r.value, pos) == Some("1")
  {
    var d :- New(shape);
    Fill(d, Some("1"))
  }

  /** `setItem(value, pos)`: a position outside the shape fails; the dataset
      never grows, although the method's own documentation says it expands. */
  function SetItem(d: Dataset, value: Option<string>, pos: seq<int>): (r: Result<Dataset, DatasetError>)
    requires Valid(d)
    ensures r.Err? <==> !InShape(pos, d.shape)
    ensures r.Err? ==> r.error == ArrayIndexOutOfBounds
    ensures r.Ok? ==> Valid(r.value) && r.value.shape == d.shape && Get(r.value, pos) == value
  {
    if !InShape(pos, d.shape) then Err(ArrayIndexOutOfBounds)
    else
      IndexInRange(d.shape, pos);
      Ok(d.(data := d.data[Index(d.shape, pos) := value]))
  }

  /** Every other cell keeps its value. */
  lemma SetItemKeeps(d: Dataset, value: Option<string>, pos: seq<int>, q: seq<int>)
    requires Valid(d) && InShape(pos, d.shape) && InShape(q, d.shape) && q != pos
    ensures Get(SetItem(d, value, pos).value, q) == Get(d, q)
  {
    IndexInRange(d.shape, pos);
    IndexInRange(d.shape, q);
    if Index(d.shape, q) == Index(d.shape, pos) {
      IndexInjective(d.shape, q, pos);
    }
  }

  /** `set(obj, pos)`: a null or empty position means the origin, and the object's text is stored;
      a null object fails before the position is looked at. */
  function Set(d: Dataset, obj: Option<string>, pos: seq<int>): (r: Result<Dataset, DatasetError>)
    requires Valid(d)
    ensures obj.None? ==> r == Err(NullPointer)
    ensures obj.Some? && |pos| == 0 ==> r == SetItem(d, obj, Origin(|d.shape|))
    ensures obj.Some? && |pos| > 0 ==> r == SetItem(d, obj, pos)
  {
    var p := if |pos| == 0 then Origin(|d.shape|) else pos;
    if obj.None? then Err(NullPointer) else SetItem(d, obj, p)
  }

  /** With an empty position, `set` writes the origin, and fails only when the
      shape has no cells at all (some dimension of length 0). */
  lemma SetEmptyPositionWritesOrigin(d: Dataset, s: string)
    requires Valid(d)
    ensures Set(d, Some(s), []).Ok? <==> forall i :: 0 <= i < |d.shape| ==> d.shape[i] > 0
    ensures Set(d, Some(s), []).Ok? ==> Get(Set(d, Some(s), []).value, Origin(|d.shape|)) == Some(s)
  {
  }

  /** `setObjectAbs` as written: its guard lets `index == data.length` through, so
      that index fails on the array store instead of on the guard. */
  function SetObjectAbsAsWritten(d: Dataset, index: int, obj: Option<string>): (r: Result<Dataset, DatasetError>)
    requires Valid(d)
    ensures r.Ok? <==> 0 <= index < |d.data| && obj.Some?
  {
    if index < 0 || index > |d.data| then Err(IndexOutOfBounds)
    else if obj.None? then Err(NullPointer)
    else if index == |d.data| then Err(ArrayIndexOutOfBounds)
    else Ok(d.(data := d.data[index := obj]))
  }

  /** `setObjectAbs` with the guard it evidently intends. */
  function SetObjectAbs(d: Dataset, index: int, obj: Option<string>): (r: Result<Dataset, DatasetError>)
    requires Valid(d)
    ensures r.Ok? <==> 0 <= index < |d.data| && obj.Some?
    ensures !(0 <= index < |d.data|) ==> r == Err(IndexOutOfBounds)
    ensures r.Ok? ==> Valid(r.value) && r.value.shape == d.shape && r.value.data[index] == obj
    ensures r.Ok? ==> forall i :: 0 <= i < |d.data| && i != index ==> r.value.data[i] == d.data[i]
  {
    if index < 0 || index >= |d.data| then Err(IndexOutOfBounds)
    else if obj.None? then Err(NullPointer)
    else Ok(d.(data := d.data[index := obj]))
  }

  /** One past the end, the written guard passes and the object is even converted before the store fails. */
  lemma SetObjectAbsGuardGap(d: Dataset, s: string)
    requires Valid(d)
    ensures SetObjectAbsAsWritten(d, |d.data|, Some(s)) == Err(ArrayIndexOutOfBounds)
    ensures SetObjectAbsAsWritten(d, |d.data|, None) == Err(NullPointer)
    ensures SetObjectAbs(d, |d.data|, Some(s)) == SetObjectAbs(d, |d.data|, None) == Err(IndexOutOfBounds)
  {
  }

  /** Everywhere else the two guards agree. */
  lemma SetObjectAbsAgrees(d: Dataset, index: int, obj: Option<string>)
    requires Valid(d) && index != |d.data|
    ensures SetObjectAbsAsWritten(d, index, obj) == SetObjectAbs(d, index, obj)
  {
  }

  /** `resize(newShape)`: a fresh contiguous buffer (stride and offset reset)
      holding the first min(old, new) elements in order; the rest are null. */
  function Resize(d: Dataset, newShape: seq<int>): (r: Dataset)
    requires Valid(d) && NonNegative(newShape)
    ensures Valid(r) && r.shape == newShape
    ensures forall i :: 0 <= i < |r.data| && i < |d.data| ==> r.data[i] == d.data[i]
    ensures forall i :: |d.data| <= i < |r.data| ==> r.data[i] == None
  {
    ProductNonNegative(newShape);
    Dataset(newShape, seq(Product(newShape), i requires 0 <= i => if i < |d.data| then d.data[i] else None))
  }

  /** Shrinking then growing back keeps the kept prefix and nulls the rest. */
  lemma ResizeShrinkGrow(d: Dataset, s: seq<int>)
    requires Valid(d) && NonNegative(s) && Product(s) <= |d.data|
    ensures Resize(Resize(d, s), d.shape).data == d.data[..Product(s)] + seq(|d.data| - Product(s), _ => None)
  {
    ProductNonNegative(s);
    var r := Resize(Resize(d, s), d.shape);
    var e := d.data[..Product(s)] + seq(|d.data| - Product(s), _ => None);
    assert |r.data| == |e|;
    forall i | 0 <= i < |e|
      ensures r.data[i] == e[i]
    {
    }
  }

  /** The number an element reads as through any numeric getter
      (`getDouble`, `getLong`, `getElementLongAbs`, ...); `residual`
      against any operand is this same 0. */
  function NumericValue(d: Dataset, index: int): (v: int)
    ensures v == 0
  {
    0
  }

  /** The truth value an element reads as through `getBoolean`/`getElementBooleanAbs`. */
  function BooleanValue(d: Dataset, index: int): (b: bool)
    ensures !b
  {
    false
  }

  /** The in-place arithmetic operations. */
  datatype Arithmetic = Add | Subtract | Multiply | Divide | Floor | Remainder | Power

  /** In-place arithmetic with any operand returns the same dataset, unchanged:
      a zero divisor in particular does not clear it. */
  function InPlace(d: Dataset, op: Arithmetic, operand: Option<string>): (r: Dataset)
    ensures r == d
  {
    d
  }
}

=== FILE: wrappers.dfy ===
/** Failure-compatible wrappers shared by every module of the model: an
    optional value (a Java or Python reference that may be null/None) and a
    result that is either a value or the error the source raises. */
module Wrappers {

  /** A value that may be absent (null in Java, None in Python). */
  datatype Option<+T> = None | Some(value: T)

  /** Either the value an operation returns or the error it raises. */
  datatype Result<+T, +E> = Ok(value: T) | Err(error: E) {

    predicate IsFailure() {
      Err?
    }

    function PropagateFailure<U>(): Result<U, E>
      requires Err?
    {
      Err(error)
    }

    function Extract(): T
      requires Ok?
    {
      value
    }
  }
}
